=== FILE: README.md ===
# Review pipeline core, in Dafny

This project models the deterministic core of a review-collection system for a family of
mobile services (ixio, ai-bizcall, soho-package). The system gathers reviews from the app
stores and from Naver blog and cafe searches. It then:

- dates forum posts that carry no timestamp, from their text, their links and post numbers;
- strips markup and screens out news;
- builds one canonical review record per kept post;
- summarises reviews into sentiment labels, keyword networks, word clouds and HEART insights.

Everything that talks to the network, a browser or a language model is a parameter of the
model (an oracle function), and so is the current date.

The modules, leaf to root:

| module | file | models |
|---|---|---|
| `Wrappers`, `Seqs`, `Arith`, `Sums` | wrappers.dfy, seqs.dfy, arith.dfy, sums.dfy | `Option`/`Result`; Python's filtering comprehensions (`Seqs.Filter`, `Seqs.FilterMap`) with their order and count lemmas; slicing and arithmetic helpers |
| `Text`, `Patterns`, `Words` | text.dfy, patterns.dfy, words.dfy | ASCII lower-casing and digits, substring tests, a small scanner for the date regexes, Hangul runs (`[가-힣]{lo,hi}`) and windowed word pairs |
| `Tally` | tally.dfy | Python's `Counter` and insertion-ordered `dict` as entry lists; `most_common(n)` and the stable sort by descending count |
| `Dates` | dates.dfy | Python's `date`: validity, ordinals, adding days, ISO text |
| `TitleDates`, `CafeLinks` | title_dates.dfy, links.dfy | the date patterns shared by the cafe collectors (two-digit year pivot, the 2020–2025 window) and post-number extraction from links |
| `Cafe` | cafe.dfy | the parts every cafe collector shares: news screening, the SOHO co-occurrence rule, user ids, record construction and the processing cap |
| `CafeDateOnly` | date_only.dfy | server/naver_cafe_real_date_only.py |
| `CafeDateSimple` | date_simple.dfy | naver_cafe_real_date_simple.py (server/naver_cafe_real_date_simple.py is the same file) |
| `CafeAdvanced` | advanced.dfy | server/naver_cafe_advanced_date.py |
| `CafeRealDate` | real_date.dfy | naver_cafe_real_date.py |
| `CafeSelenium` | selenium.dfy | server/naver_cafe_selenium.py (naver_cafe_selenium.py is the same file) |
| `Markup`, `NaverApi` | markup.dfy, naver_api.dfy | server/naver_api.py |
| `Services`, `Crawler` | services.dfy, crawler.dfy | server/service_data.py, server/crawler.py |
| `KeywordNetwork` | keyword_network.dfy | keyword_network.py (server/keyword_network.py is the same file) |
| `KeywordAnalysis` | keyword_analysis.dfy | server/keyword_network_analysis.py |
| `NegativeKeywords` | negative_keywords.dfy | server/negative_keyword_analysis.py |
| `DeployAnalysis` | deploy_analysis.dfy | server/deploy_analysis.py |
| `PlayScraper` | scraper.dfy | server/scraper.py |
| `Heart` | heart.dfy | heart_analysis_python.py (server/heart_analysis_python.py is the same file) |

Python's exceptions become `None` or `Failure` wherever the source catches them. Python
dictionaries become sequences in insertion order. Where the source iterates a `set`, the
iteration order is a parameter.

Three behaviours of the code worth knowing, each stated in the model:

- `strip_html` decodes entities in a single pass, so it is not idempotent: `&amp;amp;`
  becomes `&amp;` and a second pass changes it again, to `&` (`Markup.DecodeNotIdempotent`).
- The crawler concatenates the per-keyword search results and keeps duplicates; nothing
  deduplicates them (`Crawler.SearchAll`).
- naver_cafe_real_date_simple.py reads the link before the title: the post-number stage runs
  first, and the title is read only when the link yields no number (`CafeDateSimple.Extract`).

## Model

| member | source | states |
|---|---|---|
| CafeDateOnly.TextStage | server/naver_cafe_real_date_only.py:29-60 | a title or description date is returned only if it is a real calendar date in 2020-2025, and none is returned exactly when no pattern yields an acceptable date |
| CafeDateOnly.OffsetBounds | server/naver_cafe_real_date_only.py:337-341 | inside a calibrated range the truncated day offset lies between zero and the range's length in days |
| CafeDateOnly.OffsetMonotone | server/naver_cafe_real_date_only.py:337-341 | a larger post number in the same range never gets a smaller day offset |
| CafeDateOnly.Interpolate | server/naver_cafe_real_date_only.py:337-342 | an estimate is the range's start date shifted by the offset; an empty range or a date off the calendar gives none, as Python raises |
| CafeDateOnly.InterpolateWithin | server/naver_cafe_real_date_only.py:337-342 | in a proper range the estimate exists and lies between the range's start and end dates |
| CafeDateOnly.InterpolateMonotone | server/naver_cafe_real_date_only.py:337-342 | within one range a larger post number never gets an earlier date |
| CafeDateOnly.EstimateIn | server/naver_cafe_real_date_only.py:342-347 | an estimate is accepted exactly when it exists and lies between 2020-01-01 and today |
| CafeDateOnly.ScanRanges | server/naver_cafe_real_date_only.py:336-351 | the result is the estimate of the first covering range whose estimate is in the window, and whenever some range is chosen that way the result is its estimate; a number outside every range gives none |
| CafeDateOnly.LinkParts | server/naver_cafe_real_date_only.py:283-289 | the cafe name and post number are read exactly when the link ends in digits and names a cafe segment |
| CafeDateOnly.IdStage | server/naver_cafe_real_date_only.py:278-366 | an ID estimate exists only for a calibrated cafe, is a valid date between 2020-01-01 and today, and is the first covering range's estimate; for a calibrated cafe, whenever some range is chosen that way the estimate is returned |
| CafeDateOnly.TableProper | server/naver_cafe_real_date_only.py:294-323 | every calibrated range in the table has more than one post number and ends no earlier than it starts |
| CafeDateOnly.Extract | server/naver_cafe_real_date_only.py:11-371 | a text date always wins; any date returned is valid; without a page date the result is never before 2020-01-01 |
| CafeDateOnly.PageOrId | server/naver_cafe_real_date_only.py:62-366 | a page date is taken as found; otherwise the result is the calibrated ID estimate and nothing else |
| CafeDateOnly.NoGuessUncalibrated | server/naver_cafe_real_date_only.py:352-359 | a post with no text or page date whose cafe is unknown or legacy gets no date |
| CafeDateOnly.NoGuessOutsideRanges | server/naver_cafe_real_date_only.py:336-351 | a post with no text or page date whose number is outside every calibrated range gets no date |
| CafeDateOnly.ServiceId | server/naver_cafe_real_date_only.py:450-455 | the three known services map to their ids and every other name maps to "ixio" |
| CafeDateOnly.Decide | server/naver_cafe_real_date_only.py:393-469 | a result is kept exactly when its date exists, lies in the inclusive range and passes the news and SOHO screens; the record carries rating 5, the mapped service id and the date at midnight UTC |
| CafeDateOnly.Filter | server/naver_cafe_real_date_only.py:373-480 | at most the first 30 results are examined, at most max_results records are emitted, in input order, each with rating 5 and the mapped service id |
| TitleDates.PivotYear | server/naver_cafe_real_date_only.py:50-51 | a two-digit year below 50 reads as 20YY, one from 50 to 99 as 19YY, and a year of 100 or more is kept |
| TitleDates.PivotWindow | server/naver_cafe_real_date_only.py:50-54 | a two-digit year lands in the 2020-2025 window exactly when its digits are 20 to 25, so every 19YY reading is rejected |
| TitleDates.WindowDate | server/naver_cafe_real_date_only.py:45-58 | a matched date is kept only when it is a real calendar date whose year is 2020 to 2025 |
| TitleDates.PatternDate | server/naver_cafe_real_date_only.py:41-60 | one pattern contributes only its leftmost match, and only when that match is an acceptable date |
| TitleDates.FirstDate | server/naver_cafe_real_date_only.py:41-60 | the result is the date of the first pattern, in order, that yields one; there is none exactly when no pattern yields one |
| CafeLinks.SearchNumber | server/naver_cafe_real_date_only.py:283 | the number is read exactly when the pattern matches, and it is the value of a digit group the pattern matched |
| CafeLinks.SearchSegment | server/naver_cafe_real_date_only.py:284 | the cafe segment is read exactly when the pattern matches; it contains no slash and is a group the pattern matched |
| Cafe.ItemFromLink | server/naver_cafe_real_date_only.py:18-21 | a result given as a bare URL has that link and an empty title and description |
| Cafe.MidnightStamp | server/naver_cafe_real_date_only.py:464 | the post date is printed as its ISO date followed by "T00:00:00.000Z", 24 characters in all |
| Cafe.ZuluStamp | naver_cafe_real_date.py:157 | the post date is printed as its ISO date followed by "Z" |
| Cafe.NewsWordScreens | server/naver_cafe_real_date_only.py:407-415 | any text containing "뉴스" reads as news and is screened out |
| Cafe.SohoWitness | server/naver_cafe_real_date_only.py:418-432 | a text naming both "우리가게" and "u+" passes the SOHO screen, whatever else it says |
| Cafe.UserId | server/naver_cafe_real_date_only.py:447 | a present, non-empty extracted user id is used; otherwise the id is "카페_" followed by the cafe name |
| Cafe.ApiReview | server/naver_cafe_real_date_only.py:457-467 | the record always has source and platform "naver_cafe", rating 5, the result's link and the given service id and timestamp |
| Cafe.KeptSource | server/naver_cafe_real_date_only.py:384-469 | every record emitted is what the per-result decision made of one of the results |
| Cafe.CollectCapped | server/naver_cafe_real_date_only.py:384-390 | the loop examines at most the cap of results and emits the first max_results records that the decision keeps among them, in order |
| CafeDateSimple.BandOf | server/naver_cafe_real_date_simple.py:28-50 | an appleiphone post number falls in the first band, highest first, whose lower bound it reaches, or below them all |
| CafeDateSimple.BandDate | server/naver_cafe_real_date_simple.py:28-47 | a banded number is dated the band's anchor minus the floor of its distance from the band's top over the posts per day, and is left undated (OverflowError) exactly when that day falls off the calendar |
| CafeDateSimple.AppleDate | server/naver_cafe_real_date_simple.py:20-54 | appleiphone numbers below every band get 2025-01-01; a number in a band gets exactly that band's anchor minus the floored distance from its top over its posts per day, undated exactly when that day leaves the calendar |
| CafeDateSimple.AppleDatedInBands | server/naver_cafe_real_date_simple.py:28-50 | every number from 8,500,000 to 8,816,000 is dated, between 2025-03-11 and 2025-07-15 |
| CafeDateSimple.AppleMonotoneInBand | server/naver_cafe_real_date_simple.py:28-47 | inside one band a larger post number never gets an earlier date |
| CafeDateSimple.AppleBandBoundary | server/naver_cafe_real_date_simple.py:34-40 | across the band boundary at 8,800,000 the estimate jumps back: 8,799,999 is 2025-06-30 but 8,800,000 is 2025-06-10 |
| CafeDateSimple.JoongDate | server/naver_cafe_real_date_simple.py:56-74 | joonggonara numbers from 900,000,000 get 2025-07-15, from 850,000,000 2025-06-01, from 800,000,000 2025-03-01 and below that 2024-12-01, independent of today |
| CafeDateSimple.JoongMonotone | server/naver_cafe_real_date_simple.py:64-71 | a larger joonggonara number never gets an earlier date |
| CafeDateSimple.GenericLag | server/naver_cafe_real_date_simple.py:86-99 | another cafe's post is dated 0, 1, 2, 3, 5, 7 or 10 days before today: today exactly from 8,000,000 up, ten days back exactly below 100,000 |
| CafeDateSimple.GenericLagMonotone | server/naver_cafe_real_date_simple.py:86-99 | a larger post number never sits further back from today |
| CafeDateSimple.DaysBack | server/naver_cafe_real_date_simple.py:84-99 | subtracting the lag from today gives the date exactly that many days earlier, never after today, and overflows exactly when that would precede the first day of year 1 |
| CafeDateSimple.GenericStage | server/naver_cafe_real_date_simple.py:76-102 | a link ending in `/<n>` is dated GenericLag(n) days before today, never after today; a link without a trailing number yields nothing |
| CafeDateSimple.LinkStage | server/naver_cafe_real_date_simple.py:19-102 | an appleiphone link is dated by AppleDate of its `/appleiphone/<n>` number and a joonggonara link by JoongDate of its `/joonggonara/<n>` number; any other link ending in `/<n>` is dated exactly GenericLag(n) days before today, overflowing exactly when that reaches before year 1; a link without the number yields nothing |
| CafeDateSimple.TitleStage | server/naver_cafe_real_date_simple.py:105-127 | the four-digit pattern's accepted date wins, else the two-digit pattern's; nothing exactly when neither yields a real 2020-2025 date |
| CafeDateSimple.Extract | server/naver_cafe_real_date_simple.py:9-142 | a link date wins; an overflow falls to a week ago; without a usable number the title date, else yesterday |
| CafeDateSimple.ExtractTotal | server/naver_cafe_real_date_simple.py:9-142 | once today is past the calendar's first week every post gets a date |
| CafeDateSimple.WithFallback | server/naver_cafe_real_date_simple.py:144-154 | the extractor's date is passed through, and any date is valid |
| CafeDateSimple.WithFallbackTotal | server/naver_cafe_real_date_simple.py:144-154 | with the three-days-ago fallback every post gets a date once today is past the calendar's third day |
| CafeAdvanced.ArticleDate | server/naver_cafe_advanced_date.py:23-47 | an `articleid` number always maps to a valid date between 2022-07-01 and 2025-07-10; above 8,800,000 it is 2025-07-10 and at most 7,000,000 it is 2022-07-01 |
| CafeAdvanced.ArticleDateMonotone | server/naver_cafe_advanced_date.py:23-47 | a larger `articleid` never maps to an earlier date |
| CafeAdvanced.PostDate | server/naver_cafe_advanced_date.py:52-60 | any other post number maps to 2025-07-01 above 8,000,000, to 2024-07-01 above 7,000,000, and to 2023-07-01 otherwise |
| CafeAdvanced.PostDateMonotone | server/naver_cafe_advanced_date.py:52-60 | a larger post number never maps to an earlier date |
| CafeAdvanced.UrlDate | server/naver_cafe_advanced_date.py:13-65 | an `articleid` parameter with digits decides; otherwise the last slash-number decides; with neither there is no date; every date lies between 2022-07-01 and 2025-07-10 |
| CafeAdvanced.NoSlashNoUrlDate | server/naver_cafe_advanced_date.py:19-62 | a link with no slash and no `articleid=` yields no date |
| CafeAdvanced.ContextLag | server/naver_cafe_advanced_date.py:164-177 | the wording places a post 1, 3 or 7 days back: 1 exactly when it sounds recent, 3 exactly when it does not but names the search keyword |
| CafeAdvanced.ContextDate | server/naver_cafe_advanced_date.py:154-180 | the context estimate is strictly before today and, away from the calendar's first week, exactly the lag in days before today |
| CafeAdvanced.EmptyKeywordLag | server/naver_cafe_advanced_date.py:172-174 | with the default empty keyword, a post that does not sound recent is always dated three days back |
| CafeAdvanced.DispatchAsWritten | server/naver_cafe_advanced_date.py:182-208 | as written the dispatch returns nothing for an empty link, the link date when there is one, and otherwise raises at the undefined mobile-page call |
| CafeAdvanced.AsWrittenRaises | server/naver_cafe_advanced_date.py:200 | a link with no usable number, such as "x", makes the dispatch as written raise |
| CafeAdvanced.Dispatch | server/naver_cafe_advanced_date.py:182-208 | an empty link gives no date; otherwise the link date, else the mobile page's date, else the context estimate, and any date is valid |
| CafeAdvanced.DispatchTotal | server/naver_cafe_advanced_date.py:182-208 | corrected, the dispatch dates every post that has a link once today is past the calendar's first week |
| CafeAdvanced.Decide | server/naver_cafe_advanced_date.py:227-290 | a result is kept exactly when its date exists, lies in the inclusive range and passes the news and SOHO screens; the record carries rating 5, "soho-package", the cleaned content and the date at midnight UTC |
| CafeAdvanced.Filter | server/naver_cafe_advanced_date.py:210-301 | at most the first 20 results are examined, at most max_results records are emitted, in input order, each with rating 5 and "soho-package" |
| CafeRealDate.MatchYear | naver_cafe_real_date.py:51-54 | a two-character year group reads as 2000 plus its value, any other as its value |
| CafeRealDate.MatchDate | naver_cafe_real_date.py:49-68 | a match yields a date exactly when its month and day are in range, the date is real and its year is 2020 or later |
| CafeRealDate.NoPivot | naver_cafe_real_date.py:51-52 | a two-digit year is not pivoted: "75.1.1" reads as 2075-01-01 and is accepted |
| CafeRealDate.FirstMatchDate | naver_cafe_real_date.py:48-68 | within one pattern the first match that denotes a date decides, and there is none exactly when no match denotes one |
| CafeRealDate.FindAllFits | naver_cafe_real_date.py:47 | every match `re.findall` reports fills the pattern's three digit groups |
| CafeRealDate.PatternDate | naver_cafe_real_date.py:46-68 | one pattern contributes the date of the first of its findall matches that denotes a real date from 2020 on, and nothing exactly when no match does |
| CafeRealDate.PatternDates | naver_cafe_real_date.py:36-46 | there is one contribution per pattern, in the pattern order |
| CafeRealDate.TextDate | naver_cafe_real_date.py:46-68 | the page text's date is the first pattern's, in order, that yields one; there is none exactly when no pattern yields one |
| CafeRealDate.TagDate | naver_cafe_real_date.py:73-82 | a published-time or date tag with non-empty content yields exactly what the ISO parser makes of the content with `Z` spelled `+00:00`; any other tag yields nothing |
| CafeRealDate.MetaDate | naver_cafe_real_date.py:72-82 | the meta date is the first tag's that yields one; there is none exactly when no tag yields one |
| CafeRealDate.ExtractRealDate | naver_cafe_real_date.py:12-89 | a failed fetch gives no date; otherwise the text date wins, else the meta date |
| CafeRealDate.Decide | naver_cafe_real_date.py:113-165 | a result is kept exactly when its date exists, lies in the inclusive range and is not news; the record carries rating 5, "ixio", its link and the ISO date with "Z" |
| CafeRealDate.Filter | naver_cafe_real_date.py:91-177 | at most the first 30 results are examined, at most max_results records are emitted, in input order, each with "ixio" and a non-empty link |
| CafeRealDate.EmptyLinksUseCap | naver_cafe_real_date.py:107-117 | results with empty links still use up the cap of 30, so thirty of them in front leave nothing |
| CafeSelenium.DotDate | server/naver_cafe_selenium.py:181-186 | the first `YYYY.M.D` match's three numbers as year, month and day; nothing exactly when there is no match or they form no real date |
| CafeSelenium.SlashDate | server/naver_cafe_selenium.py:187-192 | the first `M/D` match's numbers as month and day of the given year; nothing exactly when there is no match or they form no real date |
| CafeSelenium.ShownDates | server/naver_cafe_selenium.py:181-192 | "2025.07.16." reads as 2025-07-16, and "07/16" as the 16th of July of the given year |
| CafeSelenium.ParseNaverDate | server/naver_cafe_selenium.py:172-197 | minutes or hours ago give today; "N일 전" gives N days back; otherwise a dot gives the first `YYYY.M.D` date, then a slash the first `M/D` date of this year, and text with neither gives nothing |
| CafeSelenium.RelativeNotFuture | server/naver_cafe_selenium.py:176-180 | a relative date is never after today |
| CafeSelenium.UserIdFromLink | server/naver_cafe_selenium.py:199-210 | a link naming a cafe segment after "cafe.naver.com" gives "카페_" followed by that segment; every other link gives "Unknown" |
| CafeSelenium.Keep | server/naver_cafe_selenium.py:117-143 | a search result is kept exactly when its date parses and lies in the inclusive range; the record carries rating 5, "ixio", the link's user id and the ISO date with "Z" |
| Markup.StripTags | server/naver_api.py:93 | removing tags never lengthens the text and keeps only characters of the input |
| Markup.TagAtCharacterised | server/naver_api.py:93 | a `<` starts no tag exactly when it is directly followed by `>` or no `>` follows it at all |
| Markup.StripTagsFixed | server/naver_api.py:93 | text without tags is left unchanged |
| Markup.StripTagsTagFree | server/naver_api.py:93 | the result of tag removal contains no tag |
| Markup.StripTagsIdempotent | server/naver_api.py:93 | removing tags twice removes nothing more |
| Markup.DecodeEntities | server/naver_api.py:96-97 | text without an ampersand is left unchanged by entity decoding |
| Markup.DecodeAmpersand | server/naver_api.py:96-97 | the five replacements turn "&amp;" into "&" |
| Markup.DecodeNotIdempotent | server/naver_api.py:96-97 | decoding is a single pass: "&amp;amp;" becomes "&amp;", and only a second pass gives "&" |
| Markup.CollapseShape | server/naver_api.py:100 | after collapsing, whitespace occurs only as single spaces, and every other character is kept in order |
| Markup.StripKeepsContent | server/naver_api.py:100 | `strip()` removes only whitespace |
| Markup.NormalizeShape | server/naver_api.py:100 | normalised text has no leading, trailing or doubled whitespace and keeps every other character in order |
| Markup.NormalizeFixed | server/naver_api.py:100 | text already in normal form is left unchanged |
| Markup.NormalizeIdempotent | server/naver_api.py:100 | normalising twice changes nothing more |
| Markup.StripHtml | server/naver_api.py:80-102 | the cleaned text is in normal whitespace form and keeps, in order, every non-space character of the tag-stripped, entity-decoded input |
| NaverApi.Utf8 | server/naver_api.py:36 | a character encodes as one to four bytes, one byte exactly for ASCII, where it is the character's own code |
| NaverApi.PercentBytes | server/naver_api.py:36 | each byte becomes three characters, all unreserved or `%` |
| NaverApi.QuoteChar | server/naver_api.py:36 | an unreserved character is kept and any other becomes the percent-escapes of its UTF-8 bytes |
| NaverApi.Quote | server/naver_api.py:36 | the encoded text contains only URL-safe characters and is never shorter than the input |
| NaverApi.QuoteConcat | server/naver_api.py:36 | encoding distributes over concatenation |
| NaverApi.QuoteUnreserved | server/naver_api.py:36 | text made only of unreserved characters is left unchanged |
| NaverApi.QuoteCharDistinguishes | server/naver_api.py:36 | a character stays one character exactly when it is unreserved; otherwise its encoding starts with `%` |
| NaverApi.Endpoint | server/naver_api.py:27-33 | "blog" and "cafe" select their endpoints and every other search type is a `ValueError` |
| NaverApi.Query | server/naver_api.py:36-37 | the query is the keyword in encoded double quotes and is URL-safe |
| NaverApi.SearchNaver | server/naver_api.py:15-54 | a bad search type fails before any request; otherwise the request for the built URL is made and a failed request gives no items |
| NaverApi.IsLikelyUserReview | server/naver_api.py:104-136 | a result reads as a user review exactly when it has a review signal, no press marker, at least 30 characters and a service keyword |
| NaverApi.ServiceMentioned | server/naver_api.py:132 | the scan over the service keywords answers exactly whether some lower-cased keyword occurs |
| NaverApi.NoKeywordsNoReview | server/naver_api.py:132-133 | with no service keywords no result reads as a user review |
| Services.GetServiceInfo | server/service_data.py:9-43 | a name has configuration exactly when it is one of the three configured services, and each has at least one keyword |
| Services.GetServiceKeywords | server/service_data.py:45-56 | a configured service gives its keywords and any other name gives itself as the only keyword |
| Services.DisplayNamesUnknown | server/service_data.py:9-56 | the display name "익시오" is not a configured key, so it has no configuration and is its own only keyword |
| Crawler.Hits | server/crawler.py:43 | a search with a valid type always succeeds with the request's items |
| Crawler.SearchAll | server/crawler.py:41-50 | an item is collected exactly when the search for some keyword returned it |
| Crawler.SearchAllAppend | server/crawler.py:41-50 | searching two keyword lists one after the other concatenates their results, in keyword order with duplicates kept |
| Crawler.Collect | server/crawler.py:31-52 | the result has exactly the selected channels' keys, each holding that channel's crawl or keyword search |
| Crawler.Crawl | server/crawler.py:12-52 | an unconfigured service name is a `ValueError`; otherwise the result has exactly the selected channels' keys |
| Crawler.NothingSelected | server/crawler.py:28-52 | selecting no channel for a configured service gives an empty result, not an error |
| KeywordNetwork.StripEnding | keyword_network.py:124-125 | the ending removed is a listed ending that makes up the rest of the word, from the leftmost position at which one does; what remains is a prefix of the word |
| KeywordNetwork.StripEndingExact | keyword_network.py:124-125 | a stem followed by a listed ending gives the stem back when no earlier position starts a listed ending |
| KeywordNetwork.Stem | keyword_network.py:123-125 | both rounds of ending removal leave a prefix of the Hangul run |
| KeywordNetwork.Present | keyword_network.py:115-118 | an app keyword is collected exactly when it occurs in the text |
| KeywordNetwork.Stems | keyword_network.py:120-128 | a word is collected from the runs exactly when it is the stem of some run, has at least two characters and is not a filler word |
| KeywordNetwork.AppKeywordsHangul | keyword_network.py:100-113 | every listed app keyword consists of Hangul syllables |
| KeywordNetwork.CandidatesHangul | keyword_network.py:87-130 | every keyword candidate of a text consists of Hangul syllables |
| KeywordNetwork.ReviewKeywords | keyword_network.py:55-73 | a review contributes each accepted candidate exactly once |
| KeywordNetwork.AcceptedCandidate | keyword_network.py:58-73 | for a candidate, the digit and special-character tests never reject: acceptance is two to eight characters and not a stopword |
| KeywordNetwork.Frequencies | keyword_network.py:19-82 | the frequency table has distinct, positive entries, and a word is in it exactly when some review contributes it |
| KeywordNetwork.FrequencyIsMentions | keyword_network.py:51-75 | a keyword's frequency is the number of reviews that contribute it |
| KeywordNetwork.PairCountSymmetric | keyword_network.py:151-156 | within one review the pair count of (a, b) equals that of (b, a) |
| KeywordNetwork.PairCountSelf | keyword_network.py:155 | a word is never counted with itself |
| KeywordNetwork.CountPair | keyword_network.py:148-156 | the nested window loops over one review count exactly the pairs of keyword tokens at most the window apart with different words |
| KeywordNetwork.CooccurrenceSymmetric | keyword_network.py:132-158 | the co-occurrence matrix is symmetric |
| KeywordNetwork.CooccurrenceSelf | keyword_network.py:132-158 | the co-occurrence matrix has nothing on its diagonal |
| KeywordNetwork.CountCooccurrence | keyword_network.py:146-158 | the loop over the reviews sums the per-review pair counts |
| KeywordNetwork.TopKeywords | keyword_network.py:205 | the top keywords are thirty of the table's entries, or all of them when there are fewer, in descending frequency, and no entry left out is more frequent than one kept |
| KeywordNetwork.NodesOf | keyword_network.py:208-215 | there is one node per top keyword, in order, whose size and frequency are its count |
| KeywordNetwork.LinkedPairs | keyword_network.py:221-227 | a pair of top keywords is listed exactly when its words differ and its count is at least one and reaches the minimum weight |
| KeywordNetwork.Edges | keyword_network.py:218-237 | edges are numbered from 0 in order, join two different top keywords with their count as weight, and exist exactly for the linked pairs |
| KeywordNetwork.EdgesPaired | keyword_network.py:221-235 | with a symmetric matrix every edge has its reverse |
| KeywordNetwork.CooccurrenceMatrixSymmetric | keyword_network.py:132-158 | the matrix the analysis builds is symmetric |
| KeywordNetwork.Close | keyword_network.py:261-267 | the depth-first search reaches a set that holds its start and that no edge leaves |
| KeywordNetwork.CloseMinimal | keyword_network.py:261-267 | the search stays inside every edge-closed set that holds its start |
| KeywordNetwork.Component | keyword_network.py:261-267 | a word's component holds the word and no edge leaves it |
| KeywordNetwork.ComponentsApart | keyword_network.py:261-275 | two components are the same or share no word |
| KeywordNetwork.SameComponent | keyword_network.py:261-275 | every member of a component has that same component |
| KeywordNetwork.ComponentOutside | keyword_network.py:269-273 | an unvisited word's component shares nothing with the words already visited |
| KeywordNetwork.ClustersAreComponents | keyword_network.py:269-275 | each cluster is the whole component of a node unvisited when it was reached, with at least three words |
| KeywordNetwork.ClustersDisjoint | keyword_network.py:269-275 | the clusters are pairwise disjoint |
| KeywordNetwork.ClustersComplete | keyword_network.py:269-275 | every node whose component has at least three words is in some cluster |
| KeywordNetwork.ClustersPartition | keyword_network.py:239-290 | the clusters are components of nodes with at least three words, pairwise disjoint, and cover every node of such a component |
| KeywordNetwork.FirstCluster | keyword_network.py:284-288 | a node gets the first cluster that holds it, or -1 when none does |
| KeywordNetwork.OnlyCluster | keyword_network.py:284-288 | with disjoint clusters the first cluster holding a node is the only one |
| KeywordNetwork.Colour | keyword_network.py:278-287 | an unclustered node is grey; cluster k gets palette entry k mod 8, never grey |
| KeywordNetwork.Coloured | keyword_network.py:280-288 | each node keeps its id, size and frequency and gets its first cluster and that cluster's colour |
| KeywordNetwork.ClusterLabel | keyword_network.py:305-325 | a cluster's label is the service's label when it returns one, else "클러스터 i+1" |
| KeywordNetwork.Analyze | keyword_network.py:329-389 | fewer than 10 reviews, fewer than 3 keywords and fewer than 3 edges are refused in that order, and any other input succeeds; a network's clusters are those found among its top keywords' edges, its nodes are the top keywords coloured by those clusters, cluster i is labelled from the service's answer for it, and its stats count what it holds |
| KeywordNetwork.NetworkShape | keyword_network.py:329-389 | in a built network every edge has its reverse, and a node is grey exactly when no cluster holds it |
| KeywordNetwork.NetworkClusters | keyword_network.py:364-373 | the clusters of a built network are whole components of at least three top keywords, pairwise disjoint, and every top keyword in a component that large is in one |
| KeywordAnalysis.AnyRelated | server/keyword_network_analysis.py:108-114 | the loop answers yes exactly when the word contains, or is contained in, one of the listed words |
| KeywordAnalysis.IsMeaningful | server/keyword_network_analysis.py:74-120 | a word is meaningful exactly when it has two to six characters, is not all digits, and is related to a listed word or made of Hangul syllables |
| KeywordAnalysis.RunsAreMeaningful | server/keyword_network_analysis.py:117-118 | every Hangul run of two to six syllables passes the test, so the test never rejects a regex match |
| Tally.SortDescStable | server/keyword_network_analysis.py:173 | sorting by descending count keeps the entries of any one count in their input order, as Python's stable `sorted(..., reverse=True)` does |
| KeywordAnalysis.ReviewWords | server/keyword_network_analysis.py:55-70 | a word is among those a review contributes exactly when it is one of the review's Hangul runs of two to six syllables and not a stopword, and it occurs as often as the text has that run |
| KeywordAnalysis.Filter | server/keyword_network_analysis.py:62-70 | a run is kept exactly when it is not a stopword, as often as the runs have it |
| KeywordAnalysis.FilterConcat | server/keyword_network_analysis.py:62-70 | the kept runs of a longer list follow those of its prefix, so the filter keeps text order |
| KeywordAnalysis.FilterOne | server/keyword_network_analysis.py:65-70 | one run is kept exactly when it is not a stopword |
| KeywordAnalysis.ExtractKeywords | server/keyword_network_analysis.py:37-72 | the table has distinct, positive entries for exactly the counted words, each with its number of occurrences over all reviews |
| KeywordAnalysis.KeywordShape | server/keyword_network_analysis.py:37-72 | every keyword is a Hangul run of two to six syllables and not a stopword |
| KeywordAnalysis.KeywordsIn | server/keyword_network_analysis.py:131-134 | a review's keyword list holds only keywords |
| KeywordAnalysis.Only | server/keyword_network_analysis.py:134 | a word is kept exactly when it is a keyword, as often as the input has it |
| KeywordAnalysis.OnlyConcat | server/keyword_network_analysis.py:134 | the keywords of a longer list follow those of its prefix, so the filter keeps text order |
| KeywordAnalysis.OnlyOne | server/keyword_network_analysis.py:134 | one word is kept exactly when it is a keyword |
| KeywordAnalysis.Cooccurrence | server/keyword_network_analysis.py:122-144 | the matrix has distinct, positive entries; each sorted pair of keywords counts how often the window loops emit it |
| KeywordAnalysis.NoSelfPairs | server/keyword_network_analysis.py:140 | a word is never paired with itself |
| KeywordAnalysis.FallbackClusters | server/keyword_network_analysis.py:168-184 | the chunks, read in order, are the keywords by descending frequency; every chunk is non-empty and all but the last have max(3, n // 3) members |
| KeywordAnalysis.FallbackCovers | server/keyword_network_analysis.py:168-184 | the chunks hold every keyword once and nothing else |
| KeywordAnalysis.Communities | server/keyword_network_analysis.py:186-220 | without NetworkX the frequency chunks; when detection succeeds its communities with at least two members; when it fails one community of all keywords |
| KeywordAnalysis.FallbackLabel | server/keyword_network_analysis.py:279-300 | no keywords gives "기타"; otherwise the category of the first rule the first keyword meets, or the keyword followed by " 관련" |
| KeywordAnalysis.CallKeywordLabel | server/keyword_network_analysis.py:289-290 | a first keyword containing a call word is labelled a call feature |
| KeywordAnalysis.CleanLabel | server/keyword_network_analysis.py:259-277 | a label of at most twelve characters is kept; a longer one becomes the category of the first rule it meets, else its first ten characters and "..."; the result never exceeds thirteen characters |
| KeywordAnalysis.LongCallLabel | server/keyword_network_analysis.py:266-267 | a long label mentioning a call is shortened to the call-quality category |
| KeywordAnalysis.StripQuotes | server/keyword_network_analysis.py:245 | the result neither opens nor closes with a quote and is the text between the opening and the closing run of quotes |
| KeywordAnalysis.StripQuotesUnquoted | server/keyword_network_analysis.py:245 | a text without quotes at its ends is left as it is |
| KeywordAnalysis.StripQuotesIdempotent | server/keyword_network_analysis.py:245 | stripping twice strips nothing more |
| KeywordAnalysis.TopMembers | server/keyword_network_analysis.py:229-231 | eight members of the community, or all of them when it is smaller, taken from it without repetition beyond its own, most frequent first, and no member left over is more frequent than one kept |
| KeywordAnalysis.ClusterLabel | server/keyword_network_analysis.py:232-255 | with no reply the fallback label of the top members; a reply's label has its quotes stripped and is then cleaned, which keeps it when short and unquoted; a reply without a label gives "클러스터 i+1" |
| KeywordAnalysis.ClusterLabels | server/keyword_network_analysis.py:222-257 | one label per community, each obtained from the reply to its top members |
| KeywordAnalysis.NodeSize | server/keyword_network_analysis.py:326 | a node is 10 to 30 wide, and 30 for the most frequent keyword |
| KeywordAnalysis.NodeSizeMonotone | server/keyword_network_analysis.py:326 | a more frequent keyword never gets a smaller node |
| KeywordAnalysis.MaxCount | server/keyword_network_analysis.py:319 | the largest count, attained by some entry, or 1 for an empty table |
| KeywordAnalysis.MaxCountPositive | server/keyword_network_analysis.py:319 | with positive counts the largest count is positive |
| KeywordAnalysis.ClusterOf | server/keyword_network_analysis.py:311-315 | the last community holding the keyword, or 0 when none does |
| KeywordAnalysis.Nodes | server/keyword_network_analysis.py:318-330 | one node per keyword in order, with its frequency, a size from 10 to 30 (30 at the maximum) and its cluster |
| KeywordAnalysis.Clusters | server/keyword_network_analysis.py:350-358 | one cluster per community in order, with its members, its size and its label or "클러스터 i+1" |
| KeywordAnalysis.Analyze | server/keyword_network_analysis.py:371-418 | no reviews give an empty network; fewer than three keywords give the empty network with the message; otherwise the nodes and labelled clusters of the detected communities |
| KeywordAnalysis.NetworkShape | server/keyword_network_analysis.py:371-418 | a built network has a node per keyword sized 10 to 30 and a cluster per community named by its label |
| KeywordAnalysis.NodesAreKeywords | server/keyword_network_analysis.py:318-330 | every node is a keyword found in the reviews and made of Hangul syllables |
| NegativeKeywords.NegativeReviews | server/negative_keyword_analysis.py:27-38 | a review is kept exactly when its stripped sentiment is "부정" or its content holds a complaint word, as often as the input has it |
| NegativeKeywords.NegativeReviewsConcat | server/negative_keyword_analysis.py:27-38 | the kept reviews of a longer list follow those of its prefix, so the filter keeps input order |
| NegativeKeywords.NegativeReviewsOne | server/negative_keyword_analysis.py:30-38 | one review is kept exactly when it reads negative |
| NegativeKeywords.StrictNegatives | server/negative_keyword_analysis.py:120 | a review is kept exactly when its stripped sentiment is "부정", as often as the input has it |
| NegativeKeywords.StrictNegativesConcat | server/negative_keyword_analysis.py:120 | the kept reviews of a longer list follow those of its prefix, so the filter keeps input order |
| NegativeKeywords.StrictNegativesOne | server/negative_keyword_analysis.py:120 | one review is kept exactly when its stripped sentiment is "부정" |
| NegativeKeywords.StrictNegativesRead | server/negative_keyword_analysis.py:27-38 | every strictly negative review also reads negative |
| NegativeKeywords.ComplaintReadsNegative | server/negative_keyword_analysis.py:33-37 | a complaint word makes a review read negative whatever its sentiment |
| NegativeKeywords.IsMeaningful | server/negative_keyword_analysis.py:79-110 | a word passes exactly when it is related to a listed word by containment or has at least two Hangul syllables |
| NegativeKeywords.RunsAreMeaningful | server/negative_keyword_analysis.py:107-108 | every regex match passes the test, so the word list decides nothing |
| NegativeKeywords.Counted | server/negative_keyword_analysis.py:63-70 | a run is counted exactly when it is not a stopword and is meaningful, as often as the runs have it |
| NegativeKeywords.CountedConcat | server/negative_keyword_analysis.py:63-70 | the counted runs of a longer list follow those of its prefix, so counting keeps text order |
| NegativeKeywords.CountedOne | server/negative_keyword_analysis.py:66-70 | one run is counted exactly when it is not a stopword and is meaningful |
| NegativeKeywords.ReviewWords | server/negative_keyword_analysis.py:57-70 | a word is among a review's counted words exactly when it is one of its Hangul runs of two to six syllables and not a stopword, and it occurs as often as the text has that run |
| NegativeKeywords.ExtractKeywords | server/negative_keyword_analysis.py:22-77 | at most twenty distinct keywords in descending frequency, each with its count over the negative-reading reviews; no word left out is more frequent than one kept, and with fewer than twenty every word is kept |
| NegativeKeywords.KeywordsExistIff | server/negative_keyword_analysis.py:40-41 | there are keywords exactly when some negative-reading review has a counted word |
| NegativeKeywords.KeywordShape | server/negative_keyword_analysis.py:57-70 | a keyword is a Hangul run of two to six syllables, not a stopword, found in a review that reads negative |
| NegativeKeywords.Cooccurrence | server/negative_keyword_analysis.py:112-137 | distinct positive entries counting how often the window loops over the strictly negative reviews emit each sorted pair of different keywords |
| NegativeKeywords.CooccurrenceIgnores | server/negative_keyword_analysis.py:120 | a review whose sentiment is not exactly negative changes no co-occurrence count, even when it reads negative |
| NegativeKeywords.Total | server/negative_keyword_analysis.py:355 | the total is at least every count, and at least the number of keywords when counts are positive |
| NegativeKeywords.Edges | server/negative_keyword_analysis.py:139-159 | one edge per co-occurring pair with at least two co-occurrences, positive pointwise mutual information and a score above the threshold, and no other |
| NegativeKeywords.EdgesBetweenKeywords | server/negative_keyword_analysis.py:295-302 | every edge joins two different keywords |
| NegativeKeywords.FallbackClusters | server/negative_keyword_analysis.py:228-248 | the frequency chunks in order, named "문제 유형 1", "문제 유형 2" and so on |
| NegativeKeywords.FallbackCovers | server/negative_keyword_analysis.py:228-248 | a word is in some fallback cluster exactly when it is a keyword |
| NegativeKeywords.Clustering | server/negative_keyword_analysis.py:161-226 | no keywords give no clusters; otherwise the service's clusters, or the fallback clusters when it fails |
| NegativeKeywords.Colour | server/negative_keyword_analysis.py:255-262 | every cluster colour is one of the six pastel colours |
| NegativeKeywords.ColourCycle | server/negative_keyword_analysis.py:277 | colours repeat every six clusters and differ among any six in a row |
| NegativeKeywords.NodeSize | server/negative_keyword_analysis.py:288 | a node is 20 to 50 wide: 20 up to frequency 2, ten times the frequency between 2 and 5, 50 from 5 on |
| NegativeKeywords.NodeSizeMonotone | server/negative_keyword_analysis.py:288 | a more frequent keyword never gets a smaller node |
| NegativeKeywords.ClusterNodes | server/negative_keyword_analysis.py:283-292 | a cluster has a node for a word exactly when the word is a member and a keyword |
| NegativeKeywords.NodeRows | server/negative_keyword_analysis.py:269-292 | one row of nodes per cluster, in order |
| NegativeKeywords.NodesAreMembers | server/negative_keyword_analysis.py:269-292 | a node is shown exactly when it is a keyword member of its cluster, sized and coloured from its frequency and cluster |
| NegativeKeywords.Infos | server/negative_keyword_analysis.py:274-280 | one entry per cluster with its index, name, colour, members and member count |
| NegativeKeywords.Portfolio | server/negative_keyword_analysis.py:250-314 | a result exists exactly when every cluster has a name and a keyword list, and its stats count its nodes, edges and clusters |
| NegativeKeywords.Analyze | server/negative_keyword_analysis.py:316-382 | no keywords give the empty result with the review counts; a malformed cluster gives the empty result without them; otherwise the portfolio of the clusters and edges |
| NegativeKeywords.FallbackShowsEveryKeyword | server/negative_keyword_analysis.py:221-226 | when the clustering service fails, every keyword is shown as a node of some cluster |
| NegativeKeywords.NodesAreKeywords | server/negative_keyword_analysis.py:283-292 | every node is one of the keywords, with its frequency among the negative words, a size from 20 to 50 and its cluster's colour |
| DeployAnalysis.Sentiment | server/deploy_analysis.py:14-56 | the answer is one of the three labels; negative exactly when the lower-cased text has an explicit phrase, two negative words, or a negative word and no positive one; positive exactly when otherwise the positive counts win, or, with no neutral word, the text is long and says "좋" or "괜찮" |
| DeployAnalysis.ExplicitPhraseIsNegative | server/deploy_analysis.py:36-37 | an explicit negative phrase makes the text negative whatever else it says |
| DeployAnalysis.SentimentByPresence | server/deploy_analysis.py:40-56 | only which listed words occur matters: texts of the same length with the same listed words present get the same label |
| DeployAnalysis.Relabel | server/deploy_analysis.py:164-166 | contents are kept; a review marked "분석중" gets the rule-based label, which is never "분석중"; every other review is unchanged |
| DeployAnalysis.RelabelIdempotent | server/deploy_analysis.py:164-166 | a second relabelling pass changes nothing |
| DeployAnalysis.WithSentiment | server/deploy_analysis.py:61 | a review is kept exactly when its sentiment equals the filter, as often as the input has it |
| DeployAnalysis.WithSentimentConcat | server/deploy_analysis.py:61 | the kept reviews of a longer list follow those of its prefix, so the filter keeps input order |
| DeployAnalysis.WithSentimentOne | server/deploy_analysis.py:61 | one review is kept exactly when its sentiment equals the filter |
| DeployAnalysis.Unstopped | server/deploy_analysis.py:85-87 | a word is kept exactly when it is not a stopword and has at least two characters, as often as the input has it |
| DeployAnalysis.UnstoppedConcat | server/deploy_analysis.py:85-87 | the kept words of a longer list follow those of its prefix, so the filter keeps text order |
| DeployAnalysis.CloudWords | server/deploy_analysis.py:67-87 | a word is counted exactly when it is a Hangul run of two to four syllables of the joined contents of the sentiment's reviews and not a stopword, and it is counted as often as that text has the run |
| DeployAnalysis.AsWordCounts | server/deploy_analysis.py:91 | one text and frequency pair per counted entry, in order |
| DeployAnalysis.CloudTop | server/deploy_analysis.py:58-90 | nothing without reviews of the sentiment; otherwise at most limit distinct words in descending frequency, each with its count, none left out more frequent than one kept, and every word when fewer than limit are kept |
| DeployAnalysis.ExtractKeywordsBasic | server/deploy_analysis.py:58-91 | nothing without reviews of the sentiment; otherwise at most limit distinct counted words (Hangul, two to four syllables, not stopwords), most frequent first with their counts; no counted word left out is more frequent than one listed, and every counted word is listed when fewer than limit are |
| DeployAnalysis.HeartInsightsBasic | server/deploy_analysis.py:93-144 | fewer than three negative reviews give no insights; otherwise the performance, adoption and happiness insights appear exactly when their trigger words occur in the joined negative text, in that order, and the engagement insight alone when none does; no other insight is ever emitted |
| DeployAnalysis.Triggered | server/deploy_analysis.py:105-131 | the performance, adoption and happiness insights are present exactly when their trigger words occur, in that order, and no other insight is |
| DeployAnalysis.SlowReviewBringsTaskSuccess | server/deploy_analysis.py:107-114 | a slowness complaint in any one negative review brings the performance insight |
| DeployAnalysis.Analyze | server/deploy_analysis.py:163-185 | after relabelling, word clouds of ten positive and ten negative words for "wordcloud" and "full", insights for "heart" and "full", and nothing else |
| PlayScraper.ToRecord | server/scraper.py:38-50 | a record is positive exactly for a score of four or more and negative otherwise; an empty or missing user name becomes "익명"; a missing date becomes the current time; score and content are copied |
| PlayScraper.ScrapeReviews | server/scraper.py:13-56 | one record per fetched review in order, or none when the fetch raised |
| PlayScraper.SentimentSplitsAtFour | server/scraper.py:40 | scores up to three make negative records and four or five positive ones |
| PlayScraper.IssueOf | server/scraper.py:84-89 | a stability word gives the stability issue; else an interface word the interface issue; else a feature word the features issue; else none |
| PlayScraper.Issues | server/scraper.py:79-89 | at most one issue per record; an issue is listed exactly when some negative record's lower-cased content raises it |
| PlayScraper.IssuesConcat | server/scraper.py:82-89 | the issues of a longer list follow those of its prefix, so the issues keep record order |
| PlayScraper.IssuesOne | server/scraper.py:82-89 | one record gives its issue when it is negative and raises one, and nothing otherwise |
| PlayScraper.FirstMax | server/scraper.py:92 | the chosen candidate has the largest count, and every candidate before it in iteration order has a strictly smaller one |
| PlayScraper.MostCommonIssue | server/scraper.py:92 | the chosen issue occurs and no issue occurs more often |
| PlayScraper.Present | server/scraper.py:92 | the kinds listed are exactly those of the order that occur among the issues |
| PlayScraper.IssueInsights | server/scraper.py:78-110 | at most one insight, none without issues, and exactly one whenever features is not a most common issue (ties included); an insight carries the count of an issue no other issue outnumbers |
| PlayScraper.StrictMajorityDecides | server/scraper.py:91-110 | an issue more common than both others decides the insight whatever the set order: stability and interface bring theirs with the count, features none |
| PlayScraper.PresentKeywords | server/scraper.py:126-133 | a keyword is listed exactly when it is a keyword of the side and occurs in the content, as often as the side's list has it |
| PlayScraper.PresentKeywordsConcat | server/scraper.py:126-133 | the keywords found from a longer list follow those of its prefix, so they keep list order |
| PlayScraper.HangulOnly | server/scraper.py:142 | the cleaned word is no longer than the token and made of Hangul syllables, and is non-empty only when the token holds Hangul |
| PlayScraper.CleanToken | server/scraper.py:137-143 | a token contributes exactly when it holds Hangul, has two to four characters and keeps at least two syllables, and then contributes its syllables |
| PlayScraper.HangulTestRedundant | server/scraper.py:137 | the Hangul test before cleaning decides nothing once two syllables are kept |
| PlayScraper.CleanTokens | server/scraper.py:136-147 | at most one word per token; the words contributed are exactly the cleaned forms of the tokens that qualify |
| PlayScraper.CleanTokensConcat | server/scraper.py:136-147 | the words of a longer token list follow those of its prefix, so they keep token order |
| PlayScraper.CleanTokensOne | server/scraper.py:140-147 | one token gives its cleaned form when it qualifies, and nothing otherwise |
| PlayScraper.OtherSideUnchanged | server/scraper.py:126-147 | a record adds nothing to the other side's counts |
| PlayScraper.OwnSideAppends | server/scraper.py:126-147 | a record adds its listed keywords and then its cleaned tokens at the end of its own side's counts |
| PlayScraper.Cloud | server/scraper.py:149-153 | at most twenty distinct words of the side, most frequent first, each with its count and the side's sentiment; no word of the side left out is more frequent than one kept, and every word is kept when fewer than twenty are |
| PlayScraper.AnalyzeSentiments | server/scraper.py:58-161 | no records give no insights and empty clouds; otherwise the issue insights and the two clouds |
| PlayScraper.EmptyGuardAgrees | server/scraper.py:68-69 | without records the later steps would give the same empty result, so the guard only short-cuts |
| Heart.Position | heart_analysis_python.py:26-34 | a category key is found at its own index among the five categories, and any other string at 5 |
| Heart.Select | heart_analysis_python.py:37-43 | a category receives no more contents than there are reviews, and every content it receives names one of the category's keywords after lower-casing (the converse is Heart.SelectMember) |
| Heart.SelectMember | heart_analysis_python.py:37-43 | a content is filed under a category exactly when some review with that content names one of the category's keywords after lower-casing |
| Heart.SelectConcat | heart_analysis_python.py:37-43 | filing keeps input order: the reviews of a longer list are filed after those of its prefix |
| Heart.SelectOne | heart_analysis_python.py:41-43 | one review is filed once under each category it matches and nowhere else |
| Heart.ContinuingLandsTwice | heart_analysis_python.py:28-30 | a review mentioning 계속 is filed under both Engagement and Retention |
| Heart.Categorize | heart_analysis_python.py:16-45 | the result has the five category keys in order, each holding the original contents of the reviews that name one of its keywords, in input order |
| Heart.Prompt | heart_analysis_python.py:82-83 | each of the first ten reviews appears in the user prompt |
| Heart.PromptSeesFirstTen | heart_analysis_python.py:82 | reviews after the tenth never reach the model |
| Heart.Analysis | heart_analysis_python.py:47-99 | no reviews give the fixed no-review answer; otherwise the model's reply to the prompt, or the fixed error answer when the call fails |
| Heart.EmptyNeedsNoModel | heart_analysis_python.py:51-52 | with no reviews the answer is the same whatever the model would say |
| Heart.Classify | heart_analysis_python.py:123-127 | critical exactly when the lower-cased text has a critical word; major exactly when it has a major word and no critical one |
| Heart.LowerConcat | heart_analysis_python.py:124-126 | lower-casing a concatenation lower-cases each part |
| Heart.ContainsAnyExtends | heart_analysis_python.py:124-126 | a listed word present in a text is present in any extension of it |
| Heart.PriorityOnlyRises | heart_analysis_python.py:123-127 | more analysis text never lowers the priority |
| Heart.LineEnd | heart_analysis_python.py:132 | the index found is the first newline at or after the start, or the end of the text |
| Heart.Summary | heart_analysis_python.py:132 | the summary is a newline-free prefix of the text: everything before the first newline, or the first 200 characters when there is none |
| Heart.LineEndAt | heart_analysis_python.py:132 | the scan stops at the first newline it meets |
| Heart.SummaryOfLines | heart_analysis_python.py:132 | a newline-free first line is recovered exactly, whatever follows it |
| Heart.InsightFor | heart_analysis_python.py:120-135 | a category's insight carries its title, the analysis of its filed contents, the priority of that analysis and its first-line summary |
| Heart.Present | heart_analysis_python.py:116-117 | the categories listed received a review and are in increasing category order |
| Heart.PresentCovers | heart_analysis_python.py:116-117 | every category that received a review is listed |
| Heart.Comprehensive | heart_analysis_python.py:101-139 | no reviews give no insights; otherwise exactly one insight per category that received a review, in category order, each the insight built for that category |
| Heart.EmptyGuardAgrees | heart_analysis_python.py:105-106 | the early return for an empty input agrees with the general rule: no category would yield an insight |

## Left out

- Network, browser and language-model calls are oracle parameters and are not modelled:
  Naver search requests, page fetches and HEAD requests, the Selenium driver and its page
  loop, the store crawlers, the cluster-label and clustering services, and the chat
  completions. Only their documented fallbacks are modelled.
- The page-scraping and HTTP-header stages of server/naver_cafe_real_date_only.py (62-276)
  are one oracle, `page`, that answers with a date or nothing. That stage also holds the
  `break` outside any loop (158-159), which makes the file as written fail to compile. The
  model follows the evident intent of the pure stages around it.
- Floating point: pointwise mutual information, its logarithm and the 0.1 edge threshold,
  edge weights and widths, and the PMI values on keyword-network edges. The two float
  truncations that decide results (`int(id_progress * days)` and
  `int(30 * freq / max_freq)`) are floor divisions on integers.
- NegativeKeywords.Edges: the `log(...) > 0.1` test is the oracle `above`. Positivity of
  the PMI is modelled exactly, as `cooc * total > fa * fb`.
- KeywordAnalysis.Analyze: the PMI edges and the `stats` counts of the result are not
  modelled. The communities come from the `detect` oracle, which stands for NetworkX's
  greedy modularity detection. The library's own algorithm is left out.
- KeywordNetwork.Frequencies: the per-review `list(set(...))` keeps first-occurrence order.
  Python's set order decides only ties among equally frequent keywords, and through them the
  order of nodes and clusters.
- PlayScraper.MostCommonIssue: the iteration order of `set(common_issues)` is a parameter,
  so among tied issues the model proves only that a most common one is chosen.
- KeywordAnalysis.ClusterLabel: the default label "클러스터 i+1" is stated to come out
  whole only while the number has at most seven digits. A longer default passes through
  `clean_cluster_label` and is cut like any long label, which the contract also states.
- Heart.Analysis: the model is given the user prompt only. The fixed system prompt, the
  model name and the temperature are constant arguments of the call.
- Heart.Categorize: a review without content reads as the empty string. The sentiment lists
  at heart_analysis_python.py:21-23 are computed but never used.
- Text.Lower and Text.IsAllDigits: lower-casing and `isdigit` cover ASCII only. The texts are
  Korean, which has no case; non-ASCII digits are not modelled.
- KeywordNetwork.ReviewKeywords: the `except` that turns any error in
  `extract_keywords_from_reviews` into `{}` is not modelled, since the modelled code cannot
  raise.
- The ValueError of `search_naver` for a search type other than blog or cafe is
  `NaverApi.SearchNaver`'s `Failure`. The crawler only ever passes the two valid types.
- server/crawler.py:12 takes no date or count arguments, while server/run_crawler.py
  passes them, which would raise a TypeError. run_crawler.py is plumbing and is not part of
  this model. `Crawler.Crawl` models the function as declared.
- Channel flags are booleans. Python's truthiness of other values is not modelled.
- Date members that read the current date require it to be a valid date. The members that
  subtract days (CafeDateSimple.LinkStage, GenericStage and DaysBack,
  CafeAdvanced.ContextDate, CafeSelenium.ParseNaverDate) require nothing more: a result
  before the calendar's first day is a value (`Overflow` or `None`), as Python raises
  OverflowError there. Only the totality lemmas CafeDateSimple.ExtractTotal,
  CafeDateSimple.WithFallbackTotal and CafeAdvanced.DispatchTotal also require today to lie
  past the calendar's first week (or, for WithFallbackTotal, its third day).
- Random date fabrication (naver_fallback.py, naver_cafe_date_extractor.py and their server
  copies), the store API wrappers (store_api.py), server/naver_cafe_scraper.py,
  server/analyze_reviews.py, the test drivers and every `main`, CLI, file read, print and
  sleep. These are synthetic data, library wrappers or plumbing.

## Findings

| source | as written | input that shows it | evidently intended | confidence | as-written member | corrected member |
|---|---|---|---|---|---|---|
| server/naver_cafe_advanced_date.py:200 | `extract_cafe_date_advanced` calls `extract_date_from_mobile_url`, which is defined nowhere, so every link without a URL date raises NameError | a result whose link is `x` | fall through to the mobile page and then to the context estimate, so every linked post gets a date | not executed | CafeAdvanced.AsWrittenRaises | CafeAdvanced.DispatchTotal |

=== FILE: advanced.dfy ===
/** The "advanced" cafe date estimator and its filter. A post's date comes from the
    numbers in its link (an `articleid=` parameter first, else the last `/digits`), then
    from a mobile page, then from the wording of its title and description. The filter
    itself dates posts with the simple estimator and keeps only those in range.

    As written, the dispatch calls a mobile-page helper that is defined nowhere
    (server/naver_cafe_advanced_date.py:200), so every non-empty link without a date in
    its numbers raises `NameError`. `DispatchAsWritten` models that; `Dispatch` models the
    evident intent, with the mobile page as an oracle. */
module CafeAdvanced {
  import opened Wrappers
  import Text
  import Dates
  import Markup
  import CafeLinks
  import Patterns
  import Cafe
  import Seqs
  import CafeDateSimple

  // ---------------------------------------------------------------------------
  // Dates from the link's numbers
  // ---------------------------------------------------------------------------

  /** An `articleid` number mapped by strict thresholds to a fixed date. */
  function ArticleDate(n: nat): (d: Dates.Date)
    ensures Dates.Valid(d)
    ensures Dates.InRange(d, Dates.Date(2022, 7, 1), Dates.Date(2025, 7, 10))
    ensures n > 8800000 <==> d == Dates.Date(2025, 7, 10)
    ensures n <= 7000000 <==> d == Dates.Date(2022, 7, 1)
  {
    if n > 8800000 then Dates.Date(2025, 7, 10)
    else if n > 8700000 then Dates.Date(2025, 6, 15)
    else if n > 8600000 then Dates.Date(2025, 5, 15)
    else if n > 8500000 then Dates.Date(2025, 4, 15)
    else if n > 8400000 then Dates.Date(2025, 3, 15)
    else if n > 8300000 then Dates.Date(2025, 2, 15)
    else if n > 8200000 then Dates.Date(2025, 1, 15)
    else if n > 8000000 then Dates.Date(2024, 10, 1)
    else if n > 7500000 then Dates.Date(2024, 4, 1)
    else if n > 7000000 then Dates.Date(2023, 7, 1)
    else Dates.Date(2022, 7, 1)
  }

  /** A larger `articleid` never gives an earlier date. */
  lemma ArticleDateMonotone(n1: nat, n2: nat)
    requires n1 <= n2
    ensures Dates.AtMost(ArticleDate(n1), ArticleDate(n2))
  {
  }

  /** Any other post number: three fixed dates by strict thresholds. */
  function PostDate(n: nat): (d: Dates.Date)
    ensures Dates.Valid(d)
    ensures n > 8000000 <==> d == Dates.Date(2025, 7, 1)
    ensures 7000000 < n <= 8000000 <==> d == Dates.Date(2024, 7, 1)
    ensures n <= 7000000 <==> d == Dates.Date(2023, 7, 1)
  {
    if n > 8000000 then Dates.Date(2025, 7, 1)
    else if n > 7000000 then Dates.Date(2024, 7, 1)
    else Dates.Date(2023, 7, 1)
  }

  lemma PostDateMonotone(n1: nat, n2: nat)
    requires n1 <= n2
    ensures Dates.AtMost(PostDate(n1), PostDate(n2))
  {
  }

  /** The link carries `articleid=` and the parameter has digits. */
  predicate ArticleMatch(url: string) {
    Text.In("articleid=", url) && CafeLinks.SearchNumber(CafeLinks.ArticleId(), url).Some?
  }

  /** `extract_date_from_url_pattern`: `None` when the link has no usable number. */
  function UrlDate(url: string): (r: Option<Dates.Date>)
    ensures r.None? <==> !ArticleMatch(url) && Patterns.Search(CafeLinks.SlashNumber(), url).None?
    ensures ArticleMatch(url) ==> r == Some(ArticleDate(CafeLinks.SearchNumber(CafeLinks.ArticleId(), url).value))
    ensures !ArticleMatch(url) && r.Some? ==> r == Some(PostDate(CafeLinks.LastNumber(CafeLinks.SlashNumber(), url).value))
    ensures r.Some? ==> Dates.Valid(r.value) && Dates.InRange(r.value, Dates.Date(2022, 7, 1), Dates.Date(2025, 7, 10))
  {
    if ArticleMatch(url) then Some(ArticleDate(CafeLinks.SearchNumber(CafeLinks.ArticleId(), url).value))
    else
      match CafeLinks.LastNumber(CafeLinks.SlashNumber(), url)
      case None => None
      case Some(n) =>
        var d := PostDate(n);
        assert Dates.InRange(d, Dates.Date(2022, 7, 1), Dates.Date(2025, 7, 10));
        Some(d)
  }

  /** A link with no slash and no `articleid=` parameter yields no date. */
  lemma NoSlashNoUrlDate(url: string)
    requires '/' !in url && !Text.In("articleid=", url)
    ensures UrlDate(url).None?
  {
    var p := CafeLinks.SlashNumber();
    assert p[0] == Patterns.Lit("/");
    Patterns.SearchNone(p, url);
    forall j: nat, e: nat, gs | j <= |url|
      ensures !Patterns.Accepts(p, url, j, e, gs)
    {
      if j < |url| {
        assert url[j] != '/';
      }
    }
  }

  // ---------------------------------------------------------------------------
  // Dates from the post's wording
  // ---------------------------------------------------------------------------

  const RecentIndicators: seq<string> := ["2025", "최근", "지금", "요즘", "현재", "오늘", "어제", "이번달", "이번주"]

  /** The post says it is recent. */
  predicate SoundsRecent(item: Cafe.CafeItem) {
    Text.ContainsAny(Cafe.LowerText(item.title, item.description), RecentIndicators)
  }

  /** How many days before today the wording places the post. */
  function ContextLag(item: Cafe.CafeItem, keyword: string): (lag: nat)
    ensures lag == 1 || lag == 3 || lag == 7
    ensures lag == 1 <==> SoundsRecent(item)
    ensures lag == 3 <==> !SoundsRecent(item) && Text.In(Text.Lower(keyword), Cafe.LowerText(item.title, item.description))
  {
    if SoundsRecent(item) then 1
    else if Text.In(Text.Lower(keyword), Cafe.LowerText(item.title, item.description)) then 3
    else 7
  }

  /** `estimate_date_from_cafe_context`. An `OverflowError` in the subtraction is caught and
      answered with a week ago, whose own overflow escapes: `None`. */
  function ContextDate(item: Cafe.CafeItem, keyword: string, today: Dates.Date): (r: Option<Dates.Date>)
    requires Dates.Valid(today)
    ensures r.Some? ==> Dates.Valid(r.value) && Dates.Before(r.value, today)
    ensures Dates.Ordinal(today) > 7 ==> r.Some? && Dates.Ordinal(r.value) == Dates.Ordinal(today) - ContextLag(item, keyword)
  {
    Dates.OrdinalBounds(today);
    match Dates.AddDays(today, -(ContextLag(item, keyword) as int))
    case Some(d) => Dates.OrdinalOrder(today, d); Some(d)
    case None =>
      match Dates.AddDays(today, -7)
      case Some(d) => Dates.OrdinalOrder(today, d); Some(d)
      case None => None
  }

  /** The empty keyword occurs in every text, so with the default keyword a post that does
      not sound recent is dated three days ago. */
  lemma EmptyKeywordLag(item: Cafe.CafeItem)
    requires !SoundsRecent(item)
    ensures ContextLag(item, "") == 3
  {
    assert Text.OccursAt(Cafe.LowerText(item.title, item.description), Text.Lower(""), 0);
  }

  // ---------------------------------------------------------------------------
  // The dispatch
  // ---------------------------------------------------------------------------

  /** What `extract_cafe_date_advanced` ends with. */
  datatype Outcome = Found(date: Dates.Date) | NoDate | Raises

  /** The dispatch as written: the call at the second step raises `NameError`. */
  function DispatchAsWritten(item: Cafe.CafeItem): (r: Outcome)
    ensures r.NoDate? <==> item.link == ""
    ensures r.Found? <==> item.link != "" && UrlDate(item.link).Some?
    ensures r.Found? ==> r.date == UrlDate(item.link).value
  {
    if item.link == "" then NoDate
    else
      match UrlDate(item.link)
      case Some(d) => Found(d)
      case None => Raises
  }

  /** A bare link such as "x" makes the dispatch as written raise. */
  lemma AsWrittenRaises()
    ensures DispatchAsWritten(Cafe.ItemFromLink("x")).Raises?
  {
    assert !Text.OccursAt("x", "articleid=", 0);
    NoSlashNoUrlDate("x");
  }

  /** The evident intent: the link's numbers, else the mobile page `mobile`, else the
      wording. */
  function Dispatch(item: Cafe.CafeItem, keyword: string, mobile: Option<Dates.ValidDate>, today: Dates.Date): (r: Option<Dates.Date>)
    requires Dates.Valid(today)
    ensures item.link == "" ==> r.None?
    ensures DispatchAsWritten(item).Found? ==> r == Some(DispatchAsWritten(item).date)
    ensures DispatchAsWritten(item).Raises? && mobile.Some? ==> r == Some(mobile.value)
    ensures DispatchAsWritten(item).Raises? && mobile.None? ==> r == ContextDate(item, keyword, today)
    ensures r.Some? ==> Dates.Valid(r.value)
  {
    if item.link == "" then None
    else
      match UrlDate(item.link)
      case Some(d) => Some(d)
      case None =>
        match mobile
        case Some(d) => Some(d)
        case None => ContextDate(item, keyword, today)
  }

  /** Corrected, the dispatch dates every post with a link once today is past the
      calendar's first week. */
  lemma DispatchTotal(item: Cafe.CafeItem, keyword: string, mobile: Option<Dates.ValidDate>, today: Dates.Date)
    requires Dates.Valid(today) && Dates.Ordinal(today) > 7 && item.link != ""
    ensures Dispatch(item, keyword, mobile, today).Some?
  {
  }

  // ---------------------------------------------------------------------------
  // The filter
  // ---------------------------------------------------------------------------

  /** The SOHO screen reads the cleaned title and description. */
  function CleanLowerText(item: Cafe.CafeItem): string {
    Text.Lower(Markup.CleanField(item.title) + " " + Markup.CleanField(item.description))
  }

  const SohoPackage: string := "soho-package"

  /** What the filter does with one result, given its date. */
  function Decide(item: Cafe.CafeItem, date: Option<Dates.Date>, start: Dates.Date, end: Dates.Date, keyword: string): (r: Option<Cafe.CafeReview>)
    requires date.Some? ==> Dates.Valid(date.value)
    ensures r.Some? <==>
      date.Some? && Dates.InRange(date.value, start, end) &&
      !Cafe.IsNews(Cafe.LowerText(item.title, item.description)) &&
      (keyword == Cafe.SohoService ==> Cafe.SohoRelevant(CleanLowerText(item)))
    ensures r.Some? ==> r.value.rating == Cafe.CafeRating && r.value.serviceId == SohoPackage
    ensures r.Some? ==> r.value.userId == Cafe.UserId(item) && r.value.content == Cafe.CleanContent(item)
    ensures r.Some? ==> r.value.createdAt == Dates.IsoDate(date.value) + "T00:00:00.000Z"
  {
    match date
    case None => None
    case Some(d) =>
      if !Dates.InRange(d, start, end) || Cafe.IsNews(Cafe.LowerText(item.title, item.description)) then None
      else if keyword == Cafe.SohoService && !Cafe.SohoRelevant(CleanLowerText(item)) then None
      else
        var stamp := Cafe.MidnightStamp(d);
        assert stamp == stamp[..10] + stamp[10..];
        Some(Cafe.ApiReview(item, SohoPackage, stamp))
  }

  /** The per-result decision, dated by the simple estimator with its fallback. */
  function DecideFor(start: Dates.Date, end: Dates.Date, keyword: string, today: Dates.Date): Cafe.CafeItem -> Option<Cafe.CafeReview>
    requires Dates.Valid(today)
  {
    (item: Cafe.CafeItem) => Decide(item, CafeDateSimple.WithFallback(item, today), start, end, keyword)
  }

  /** The most results `filter_cafe_by_advanced_date` examines. */
  const Cap: nat := 20

  /** `filter_cafe_by_advanced_date`. */
  method Filter(items: seq<Cafe.CafeItem>, start: Dates.Date, end: Dates.Date, keyword: string, maxResults: int, today: Dates.Date)
    returns (records: seq<Cafe.CafeReview>)
    requires Dates.Valid(today)
    ensures records == Seqs.Take(Cafe.Kept(DecideFor(start, end, keyword, today), items[..Seqs.Min(Cap, |items|)]), maxResults)
    ensures |records| <= Cap
    ensures forall k :: 0 <= k < |records| ==> records[k].serviceId == SohoPackage && records[k].rating == Cafe.CafeRating
  {
    var decide := DecideFor(start, end, keyword, today);
    var processed;
    records, processed := Cafe.CollectCapped(items, decide, Cap, maxResults);
    Cafe.KeptLength(decide, items[..processed]);
    forall k | 0 <= k < |records|
      ensures records[k].serviceId == SohoPackage && records[k].rating == Cafe.CafeRating
    {
      Cafe.KeptSource(decide, items[..processed], k);
      var i :| 0 <= i < processed && decide(items[..processed][i]) == Some(records[k]);
      var item := items[..processed][i];
      assert decide(item) == Decide(item, CafeDateSimple.WithFallback(item, today), start, end, keyword);
    }
  }
}

=== FILE: arith.dfy ===
/** Integer facts the date estimators rely on, and Python's `int()` of a quotient, which
    truncates toward zero where Dafny's `/` is Euclidean. */
module Arith {

  lemma MulMono(a: int, b: int, n: int)
    requires a <= b && n >= 0
    ensures a * n <= b * n
  {
    assert b * n - a * n == (b - a) * n;
  }

  /** Euclidean division by a positive number is determined by quotient and remainder. */
  lemma DivUnique(n: int, k: int, q: int, r: int)
    requires k > 0 && n == k * q + r && 0 <= r < k
    ensures n / k == q
  {
    var q', r' := n / k, n % k;
    assert k * (q - q') == r' - r;
    if q - q' >= 1 {
      MulMono(1, q - q', k);
    } else if q' - q >= 1 {
      MulMono(1, q' - q, k);
    }
  }

  /** Division by a positive number is monotone. */
  lemma DivMono(a: int, b: int, k: int)
    requires a <= b && k > 0
    ensures a / k <= b / k
  {
    var qa, qb := a / k, b / k;
    if qa > qb {
      MulMono(qb + 1, qa, k);
    }
  }

  /** `(a * n) / b` stays within `[0, n]` when `0 <= a <= b`. */
  lemma ScaleBound(a: int, b: int, n: int)
    requires 0 <= a <= b && b > 0 && n >= 0
    ensures 0 <= (a * n) / b <= n
  {
    MulMono(a, b, n);
    MulMono(0, a, n);
    DivMono(0, a * n, b);
    DivMono(a * n, b * n, b);
    DivUnique(b * n, b, n, 0);
  }

  /** Python's `int(x)` of the quotient `a / b` (with `b > 0`): truncation toward zero. */
  function TruncDiv(a: int, b: int): (q: int)
    requires b > 0
    ensures a >= 0 ==> q == a / b
    ensures a < 0 ==> q == -((-a) / b)
  {
    if a >= 0 then a / b else -((-a) / b)
  }

}

=== FILE: cafe.dfy ===
/** What the Naver cafe collectors share: the search-result item they read, the review
    record they emit, the news and SOHO keyword screens, and the capped loop that walks
    the search results. */
module Cafe {
  import opened Wrappers
  import Text
  import Dates
  import Markup
  import Seqs

  /** One cafe search result as the collectors read it. A key that is absent from the
      result dictionary is `None`. */
  datatype CafeItem = CafeItem(
    title: string,
    description: string,
    link: string,
    cafename: Option<string>,
    extractedUserId: Option<string>)

  /** A result given as a bare URL carries no title or description. */
  function ItemFromLink(link: string): (item: CafeItem)
    ensures item.link == link && item.title == "" && item.description == ""
  {
    CafeItem("", "", link, None, None)
  }

  /** The review record every cafe collector appends. */
  datatype CafeReview = CafeReview(
    userId: string,
    source: string,
    serviceId: string,
    appId: string,
    rating: int,
    content: string,
    createdAt: string,
    link: string,
    platform: string)

  const CafeSource: string := "naver_cafe"
  const CafeRating: int := 5

  /** The timestamp formats the collectors use for a post date. */
  function MidnightStamp(d: Dates.Date): (s: string)
    requires Dates.Valid(d)
    ensures |s| == 24 && s[..10] == Dates.IsoDate(d) && s[10..] == "T00:00:00.000Z"
  {
    Dates.IsoDate(d) + "T00:00:00.000Z"
  }

  function ZuluStamp(d: Dates.Date): (s: string)
    requires Dates.Valid(d)
    ensures |s| == 11 && s[..10] == Dates.IsoDate(d) && s[10] == 'Z'
  {
    Dates.IsoDate(d) + "Z"
  }

  // ---------------------------------------------------------------------------
  // Keyword screens
  // ---------------------------------------------------------------------------

  const NewsIndicators: seq<string> := [
    "뉴스", "기사", "보도", "보도자료", "press", "뉴스기사", "언론", "미디어",
    "기자", "취재", "신문", "방송", "뉴스룸", "보도국", "편집부", "news",
    "관련 기사", "속보", "단독", "특보", "일보", "타임즈", "헤럴드"]

  const StoreWords: seq<string> := ["우리가게", "우리 가게"]

  const CarrierWords: seq<string> := [
    "lg", "l g", "lgu", "lg u+", "lg유플러스",
    "유플러스", "유 플러스", "유플", "uplus", "u plus", "u+", "u +"]

  /** The service name that switches on the SOHO screen. */
  const SohoService: string := "SOHO우리가게패키지"

  /** `(title + " " + description).lower()`. */
  function LowerText(title: string, description: string): string {
    Text.Lower(title + " " + description)
  }

  /** A result that reads like a news article. */
  predicate IsNews(text: string) {
    Text.ContainsAny(text, NewsIndicators)
  }

  /** A SOHO result must name the store package and the carrier. */
  predicate SohoRelevant(text: string) {
    Text.ContainsAny(text, StoreWords) && Text.ContainsAny(text, CarrierWords)
  }

  /** An article mentioning "뉴스" anywhere is screened out. */
  lemma NewsWordScreens(text: string)
    requires Text.Contains(text, "뉴스")
    ensures IsNews(text)
  {
    Text.ContainsAnyWitness(text, NewsIndicators, 0);
  }

  /** Any text naming "u+" and "우리가게" passes the SOHO screen, whatever else it says. */
  lemma SohoWitness(text: string)
    requires Text.Contains(text, "우리가게") && Text.Contains(text, "u+")
    ensures SohoRelevant(text)
  {
    Text.ContainsAnyWitness(text, StoreWords, 0);
    Text.ContainsAnyWitness(text, CarrierWords, 10);
  }

  // ---------------------------------------------------------------------------
  // Record fields
  // ---------------------------------------------------------------------------

  /** `cafe.get("cafename", "unknown")`. */
  function CafeName(item: CafeItem): string {
    item.cafename.GetOr("unknown")
  }

  /** `cafe.get("extracted_user_id") or f"카페_{cafename}"`: an empty id counts as missing. */
  function UserId(item: CafeItem): (u: string)
    ensures item.extractedUserId.Some? && item.extractedUserId.value != "" ==> u == item.extractedUserId.value
    ensures item.extractedUserId.None? || item.extractedUserId.value == "" ==> u == "카페_" + CafeName(item)
  {
    match item.extractedUserId
    case Some(u) => if u != "" then u else "카페_" + CafeName(item)
    case None => "카페_" + CafeName(item)
  }

  function AppId(item: CafeItem): string {
    "cafe_" + CafeName(item)
  }

  /** `f"{clean_title} {clean_description}".strip()`. */
  function CleanContent(item: CafeItem): string {
    Text.Strip(Markup.CleanField(item.title) + " " + Markup.CleanField(item.description))
  }

  /** The record the API-based filters build for an accepted result. */
  function ApiReview(item: CafeItem, serviceId: string, createdAt: string): (r: CafeReview)
    ensures r.source == CafeSource && r.platform == CafeSource && r.rating == CafeRating
    ensures r.link == item.link && r.serviceId == serviceId && r.createdAt == createdAt
  {
    CafeReview(UserId(item), CafeSource, serviceId, AppId(item), CafeRating, CleanContent(item),
               createdAt, item.link, CafeSource)
  }

  // ---------------------------------------------------------------------------
  // The capped loop over search results
  // ---------------------------------------------------------------------------

  /** The records that `decide` keeps from `items`, in order. */
  function Kept(decide: CafeItem -> Option<CafeReview>, items: seq<CafeItem>): seq<CafeReview> {
    if |items| == 0 then []
    else
      var last := decide(items[|items| - 1]);
      Kept(decide, items[..|items| - 1]) + (if last.Some? then [last.value] else [])
  }

  lemma {:induction false} KeptPrefix(decide: CafeItem -> Option<CafeReview>, items: seq<CafeItem>, n: nat, m: nat)
    requires n <= m <= |items|
    ensures |Kept(decide, items[..n])| <= |Kept(decide, items[..m])|
    ensures Kept(decide, items[..m])[..|Kept(decide, items[..n])|] == Kept(decide, items[..n])
    decreases m - n
  {
    if n < m {
      KeptPrefix(decide, items, n, m - 1);
      assert items[..m][..m - 1] == items[..m - 1];
    }
  }

  lemma {:induction false} KeptLength(decide: CafeItem -> Option<CafeReview>, items: seq<CafeItem>)
    ensures |Kept(decide, items)| <= |items|
  {
    if |items| > 0 {
      KeptLength(decide, items[..|items| - 1]);
    }
  }

  /** Every kept record is what `decide` made of one of the items. */
  lemma {:induction false} KeptSource(decide: CafeItem -> Option<CafeReview>, items: seq<CafeItem>, k: nat)
    requires k < |Kept(decide, items)|
    ensures exists i :: 0 <= i < |items| && decide(items[i]) == Some(Kept(decide, items)[k])
  {
    var n := |items|;
    var pre := items[..n - 1];
    if k < |Kept(decide, pre)| {
      KeptSource(decide, pre, k);
      var i :| 0 <= i < |pre| && decide(pre[i]) == Some(Kept(decide, pre)[k]);
      assert pre[i] == items[i];
    } else {
      assert decide(items[n - 1]) == Some(Kept(decide, items)[k]);
    }
  }

  /** A decision that keeps none of the items keeps nothing. */
  lemma {:induction false} KeptNone(decide: CafeItem -> Option<CafeReview>, items: seq<CafeItem>)
    requires forall i :: 0 <= i < |items| ==> decide(items[i]).None?
    ensures Kept(decide, items) == []
  {
    if |items| > 0 {
      KeptNone(decide, items[..|items| - 1]);
    }
  }

  /** The shared loop: stop once `maxResults` records are kept or `cap` results were
      examined, otherwise count the result as examined and keep what `decide` returns.
      It returns the records and how many results were examined. */
  method CollectCapped(items: seq<CafeItem>, decide: CafeItem -> Option<CafeReview>, cap: nat, maxResults: int)
    returns (records: seq<CafeReview>, processed: nat)
    ensures processed <= Seqs.Min(cap, |items|)
    ensures records == Kept(decide, items[..processed])
    ensures records == Seqs.Take(Kept(decide, items[..Seqs.Min(cap, |items|)]), maxResults)
  {
    records := [];
    processed := 0;
    while processed < |items|
      invariant processed <= |items| && processed <= cap
      invariant records == Kept(decide, items[..processed])
      invariant |records| <= if maxResults <= 0 then 0 else maxResults
    {
      if |records| >= maxResults || processed >= cap {
        break;
      }
      assert items[..processed + 1][..processed] == items[..processed];
      var d := decide(items[processed]);
      if d.Some? {
        records := records + [d.value];
      }
      processed := processed + 1;
    }
    var limit := Seqs.Min(cap, |items|);
    KeptPrefix(decide, items, processed, limit);
    if processed < limit {
      assert |records| >= maxResults;
    }
  }
}

=== FILE: crawler.dfy ===
/** `crawl_service_by_selection`: one result list per selected channel for a configured
    service. The store crawlers and the Naver HTTP request are oracles. */
module Crawler {
  import opened Wrappers
  import Services
  import NaverApi

  /** Which channels the caller selected. */
  datatype Channels = Channels(googlePlay: bool, appleStore: bool, naverBlog: bool, naverCafe: bool)

  /** The outside world: the two store crawlers, called with the store's app id, and the
      Naver API, which answers a request URL with its items (`None` for a failed request). */
  datatype Sources<T> = Sources(googlePlay: string -> seq<T>, appleStore: string -> seq<T>, respond: string -> Option<seq<T>>)

  predicate SearchType(searchType: string) {
    searchType == "blog" || searchType == "cafe"
  }

  /** `search_naver(kw, search_type=...)` with the default `display=10`; a valid search
      type never raises. */
  function Hits<T>(kw: string, searchType: string, respond: string -> Option<seq<T>>): (r: seq<T>)
    requires SearchType(searchType)
    ensures NaverApi.SearchNaver(kw, searchType, 10, respond) == Success(r)
  {
    NaverApi.SearchNaver(kw, searchType, 10, respond).value
  }

  /** The `extend` loop: each keyword's hits, in keyword order, duplicates kept. */
  function SearchAll<T(!new)>(keywords: seq<string>, searchType: string, respond: string -> Option<seq<T>>): (r: seq<T>)
    requires SearchType(searchType)
    ensures forall x :: x in r <==> exists k :: 0 <= k < |keywords| && x in Hits(keywords[k], searchType, respond)
  {
    if |keywords| == 0 then []
    else
      var rest := SearchAll(keywords[1..], searchType, respond);
      assert forall k :: 1 <= k < |keywords| ==> keywords[1..][k - 1] == keywords[k];
      Hits(keywords[0], searchType, respond) + rest
  }

  /** Searching two keyword lists one after the other concatenates the results. */
  lemma {:induction false} SearchAllAppend<T(!new)>(a: seq<string>, b: seq<string>, searchType: string, respond: string -> Option<seq<T>>)
    requires SearchType(searchType)
    ensures SearchAll(a + b, searchType, respond) == SearchAll(a, searchType, respond) + SearchAll(b, searchType, respond)
  {
    if |a| > 0 {
      assert (a + b)[1..] == a[1..] + b;
      SearchAllAppend(a[1..], b, searchType, respond);
    } else {
      assert a + b == b;
    }
  }

  /** The result keys for a selection, in the source's naming. */
  function SelectedKeys(channels: Channels): set<string> {
    (if channels.googlePlay then {"google_play"} else {}) +
    (if channels.appleStore then {"apple_store"} else {}) +
    (if channels.naverBlog then {"naver_blog"} else {}) +
    (if channels.naverCafe then {"naver_cafe"} else {})
  }

  /** The result dictionary for one service's configuration. */
  function Collect<T(!new)>(info: Services.ServiceInfo, channels: Channels, sources: Sources<T>): (m: map<string, seq<T>>)
    ensures m.Keys == SelectedKeys(channels)
    ensures "google_play" in m ==> m["google_play"] == sources.googlePlay(info.googlePlayId)
    ensures "apple_store" in m ==> m["apple_store"] == sources.appleStore(info.appleStoreId)
    ensures "naver_blog" in m ==> m["naver_blog"] == SearchAll(info.keywords, "blog", sources.respond)
    ensures "naver_cafe" in m ==> m["naver_cafe"] == SearchAll(info.keywords, "cafe", sources.respond)
  {
    var m0: map<string, seq<T>> := map[];
    var m1 := if channels.googlePlay then m0["google_play" := sources.googlePlay(info.googlePlayId)] else m0;
    var m2 := if channels.appleStore then m1["apple_store" := sources.appleStore(info.appleStoreId)] else m1;
    var m3 := if channels.naverBlog then m2["naver_blog" := SearchAll(info.keywords, "blog", sources.respond)] else m2;
    if channels.naverCafe then m3["naver_cafe" := SearchAll(info.keywords, "cafe", sources.respond)] else m3
  }

  /** `crawl_service_by_selection`: a `ValueError` for a name that is not configured. */
  function Crawl<T(!new)>(serviceName: string, channels: Channels, sources: Sources<T>): (r: Result<map<string, seq<T>>, string>)
    ensures r.Failure? <==> serviceName !in Services.ServiceNames
    ensures r.Success? ==> r.value.Keys == SelectedKeys(channels)
    ensures r.Success? ==> r.value == Collect(Services.GetServiceInfo(serviceName).value, channels, sources)
  {
    match Services.GetServiceInfo(serviceName)
    case None => Failure("유효하지 않은 서비스명입니다.")
    case Some(info) => Success(Collect(info, channels, sources))
  }

  /** Selecting nothing for a configured service gives an empty result, not an error. */
  lemma NothingSelected<T(!new)>(serviceName: string, sources: Sources<T>)
    requires serviceName in Services.ServiceNames
    ensures Crawl(serviceName, Channels(false, false, false, false), sources) == Success(map[])
  {
  }
}

=== FILE: date_only.dfy ===
/** The "real dates only" cafe collector. A post's date comes from, in order: an explicit
    date in its title or description, a date found on the post's page (an oracle here),
    or an interpolation of its post number inside a calibrated range for its cafe. Where
    none applies it refuses to guess, and the post is dropped.

    The module as written does not compile: a `break` stands outside any loop in the
    page-scraping stage (server/naver_cafe_real_date_only.py:158-159). The model follows
    the evident intent of the pure stages around it. */
module CafeDateOnly {
  import opened Wrappers
  import Arith
  import Dates
  import TitleDates
  import CafeLinks
  import Cafe
  import Seqs

  // ---------------------------------------------------------------------------
  // Stage 1: an explicit date in the text
  // ---------------------------------------------------------------------------

  /** Full Korean form, dashes, dots, slashes, then the two-digit Korean form. */
  function TextPatterns(): seq<TitleDates.DatePattern> {
    [TitleDates.KoreanDatePattern(4), TitleDates.SeparatedPattern(4, '-'),
     TitleDates.SeparatedPattern(4, '.'), TitleDates.SeparatedPattern(4, '/'),
     TitleDates.KoreanDatePattern(2)]
  }

  /** None of the patterns yields an acceptable date from `text`. */
  predicate NoTextDate(text: string) {
    forall k :: 0 <= k < |TextPatterns()| ==> TitleDates.PatternDate(TextPatterns()[k], text).None?
  }

  function TextStage(item: Cafe.CafeItem): (r: Option<Dates.Date>)
    ensures r.Some? ==> Dates.Valid(r.value) && 2020 <= r.value.year <= 2025
    ensures r.None? <==> NoTextDate(item.title + " " + item.description)
  {
    TitleDates.FirstDate(TextPatterns(), item.title + " " + item.description)
  }

  // ---------------------------------------------------------------------------
  // Stage 3: the calibration table
  // ---------------------------------------------------------------------------

  /** Post numbers `idStart..idEnd` were observed on dates `dateStart..dateEnd`. */
  datatype IdRange = IdRange(idStart: int, idEnd: int, dateStart: Dates.ValidDate, dateEnd: Dates.ValidDate)

  /** A cafe has calibrated ranges, or only a legacy base and daily rate that are no
      longer used for estimates. */
  datatype Calibration = Ranges(ranges: seq<IdRange>) | Legacy(base: int, dailyIncrement: int)

  /** The table of calibrated cafes. */
  function Calibrate(cafe: string): Option<Calibration> {
    if cafe == "appleiphone" then
      Some(Ranges([IdRange(8812000, 8813000, Dates.Date(2025, 7, 1), Dates.Date(2025, 7, 5)),
                   IdRange(8810000, 8812000, Dates.Date(2025, 6, 25), Dates.Date(2025, 7, 1))]))
    else if cafe == "koreagift" then Some(Ranges([IdRange(18000, 18100, Dates.Date(2025, 7, 10), Dates.Date(2025, 7, 15))]))
    else if cafe == "stockhouse7" then Some(Ranges([IdRange(120, 140, Dates.Date(2025, 7, 10), Dates.Date(2025, 7, 20))]))
    else if cafe == "ainows25" then Some(Ranges([IdRange(3100, 3200, Dates.Date(2025, 7, 10), Dates.Date(2025, 7, 20))]))
    else if cafe == "wjdrkrjqn" then Some(Legacy(10000000, 100))
    else if cafe == "rainup" then Some(Legacy(3300000, 20))
    else if cafe == "bonjukbibimbap" then Some(Legacy(400, 1))
    else if cafe == "saleagent" then Some(Legacy(540000, 10))
    else if cafe == "forcso" then Some(Legacy(2000, 1))
    else None
  }

  predicate Covers(r: IdRange, id: int) {
    r.idStart <= id <= r.idEnd
  }

  /** A range that can be interpolated: some numbers and forward in time. */
  predicate Proper(r: IdRange) {
    r.idStart < r.idEnd && Dates.AtMost(r.dateStart, r.dateEnd)
  }

  /** `int(progress * days)`: the whole days into the range, truncated toward zero. */
  function Offset(r: IdRange, id: int): int
    requires r.idStart < r.idEnd
  {
    Arith.TruncDiv((id - r.idStart) * Dates.DaysBetween(r.dateStart, r.dateEnd), r.idEnd - r.idStart)
  }

  /** In a proper range the offset is between zero and the range's length in days, and
      grows with the post number. */
  lemma OffsetBounds(r: IdRange, id: int)
    requires Covers(r, id) && Proper(r)
    ensures 0 <= Offset(r, id) <= Dates.DaysBetween(r.dateStart, r.dateEnd)
  {
    var a, b, n := id - r.idStart, r.idEnd - r.idStart, Dates.DaysBetween(r.dateStart, r.dateEnd);
    Dates.OrdinalOrder(r.dateStart, r.dateEnd);
    assert n >= 0;
    Arith.ScaleBound(a, b, n);
    Arith.MulMono(0, a, n);
    assert Offset(r, id) == (a * n) / b;
  }

  lemma OffsetMonotone(r: IdRange, id1: int, id2: int)
    requires Covers(r, id1) && Covers(r, id2) && Proper(r) && id1 <= id2
    ensures Offset(r, id1) <= Offset(r, id2)
  {
    var days := Dates.DaysBetween(r.dateStart, r.dateEnd);
    Dates.OrdinalOrder(r.dateStart, r.dateEnd);
    Arith.MulMono(id1 - r.idStart, id2 - r.idStart, days);
    Arith.MulMono(0, id1 - r.idStart, days);
    Arith.DivMono((id1 - r.idStart) * days, (id2 - r.idStart) * days, r.idEnd - r.idStart);
  }

  /** `date_start + timedelta(days=int(progress * days))`, with `None` where Python raises:
      `ZeroDivisionError` on an empty range, `OverflowError` off the calendar. */
  function Interpolate(r: IdRange, id: int): (d: Option<Dates.Date>)
    requires Covers(r, id)
    ensures d.Some? ==> Dates.Valid(d.value)
    ensures d.Some? ==> r.idStart < r.idEnd && Dates.Ordinal(d.value) == Dates.Ordinal(r.dateStart) + Offset(r, id)
  {
    if r.idEnd == r.idStart then None
    else Dates.AddDays(r.dateStart, Offset(r, id))
  }

  /** In a proper range the estimate exists and lies between the range's dates. */
  lemma InterpolateWithin(r: IdRange, id: int)
    requires Covers(r, id) && Proper(r)
    ensures Interpolate(r, id).Some?
    ensures Dates.InRange(Interpolate(r, id).value, r.dateStart, r.dateEnd)
  {
    OffsetBounds(r, id);
    Dates.OrdinalBounds(r.dateEnd);
    Dates.OrdinalBounds(r.dateStart);
    var d := Interpolate(r, id).value;
    Dates.OrdinalOrder(r.dateStart, d);
    Dates.OrdinalOrder(d, r.dateEnd);
  }

  /** Within one proper range a larger post number never gives an earlier date. */
  lemma InterpolateMonotone(r: IdRange, id1: int, id2: int)
    requires Covers(r, id1) && Covers(r, id2) && Proper(r) && id1 <= id2
    ensures Interpolate(r, id1).Some? && Interpolate(r, id2).Some?
    ensures Dates.AtMost(Interpolate(r, id1).value, Interpolate(r, id2).value)
  {
    InterpolateWithin(r, id1);
    InterpolateWithin(r, id2);
    OffsetMonotone(r, id1, id2);
    Dates.OrdinalOrder(Interpolate(r, id1).value, Interpolate(r, id2).value);
  }

  /** The outcome of one covering range. */
  datatype Estimate = Accepted(date: Dates.Date) | OutOfWindow | Raised

  /** An interpolated date is accepted only between 2020-01-01 and today. */
  function EstimateIn(r: IdRange, id: int, today: Dates.Date): (e: Estimate)
    requires Covers(r, id)
    ensures e.Accepted? <==> Interpolate(r, id).Some? && Dates.InRange(Interpolate(r, id).value, Dates.Date(2020, 1, 1), today)
    ensures e.Accepted? ==> e.date == Interpolate(r, id).value && Dates.Valid(e.date)
    ensures e.Raised? <==> Interpolate(r, id).None?
  {
    match Interpolate(r, id)
    case None => Raised
    case Some(d) => if Dates.InRange(d, Dates.Date(2020, 1, 1), today) then Accepted(d) else OutOfWindow
  }

  /** Range `k` is the first covering range whose estimate is not out of the window, and
      it accepts `d`. */
  predicate ChosenBy(rs: seq<IdRange>, id: int, today: Dates.Date, k: int, d: Dates.Date) {
    0 <= k < |rs| && Covers(rs[k], id) && EstimateIn(rs[k], id, today) == Accepted(d) &&
    forall j :: 0 <= j < k && Covers(rs[j], id) ==> EstimateIn(rs[j], id, today).OutOfWindow?
  }

  /** A range passed over by the loop keeps the choice among the later ranges. */
  lemma ChosenLater(rs: seq<IdRange>, id: int, today: Dates.Date, k: int, d: Dates.Date)
    requires |rs| > 0 && (Covers(rs[0], id) ==> EstimateIn(rs[0], id, today).OutOfWindow?)
    requires ChosenBy(rs[1..], id, today, k, d)
    ensures ChosenBy(rs, id, today, k + 1, d)
  {
    assert forall j :: 1 <= j < |rs| ==> rs[j] == rs[1..][j - 1];
  }

  /** A range chosen after the first is chosen among the later ranges, and the first range
      was passed over. */
  lemma ChosenEarlier(rs: seq<IdRange>, id: int, today: Dates.Date, k: int, d: Dates.Date)
    requires ChosenBy(rs, id, today, k, d) && (k > 0 || !Covers(rs[0], id))
    ensures k > 0 && ChosenBy(rs[1..], id, today, k - 1, d)
  {
    assert forall j :: 1 <= j < |rs| ==> rs[j] == rs[1..][j - 1];
  }

  /** The loop over a cafe's ranges: the first acceptable estimate, skipping estimates
      outside the window; an exception ends the stage with no date. */
  function ScanRanges(rs: seq<IdRange>, id: int, today: Dates.Date): (r: Option<Dates.Date>)
    ensures r.Some? ==> exists k :: ChosenBy(rs, id, today, k, r.value)
    ensures r.Some? ==> Dates.Valid(r.value) && Dates.InRange(r.value, Dates.Date(2020, 1, 1), today)
    ensures forall k, d :: ChosenBy(rs, id, today, k, d) ==> r == Some(d)
    ensures (forall k :: 0 <= k < |rs| ==> !Covers(rs[k], id)) ==> r.None?
  {
    if |rs| == 0 then None
    else
      var rest := ScanRanges(rs[1..], id, today);
      if Covers(rs[0], id) then
        match EstimateIn(rs[0], id, today)
        case Accepted(d) =>
          assert ChosenBy(rs, id, today, 0, d);
          assert forall k, d' :: ChosenBy(rs, id, today, k, d') ==> d' == d;
          Some(d)
        case OutOfWindow =>
          assert rest.Some? ==> exists k :: ChosenBy(rs, id, today, k, rest.value) by {
            if rest.Some? {
              var k :| ChosenBy(rs[1..], id, today, k, rest.value);
              ChosenLater(rs, id, today, k, rest.value);
            }
          }
          assert forall k, d :: ChosenBy(rs, id, today, k, d) ==> rest == Some(d) by {
            forall k, d | ChosenBy(rs, id, today, k, d) ensures rest == Some(d) {
              ChosenEarlier(rs, id, today, k, d);
            }
          }
          rest
        case Raised =>
          assert forall k, d :: !ChosenBy(rs, id, today, k, d);
          None
      else
        assert rest.Some? ==> exists k :: ChosenBy(rs, id, today, k, rest.value) by {
          if rest.Some? {
            var k :| ChosenBy(rs[1..], id, today, k, rest.value);
            ChosenLater(rs, id, today, k, rest.value);
          }
        }
        assert forall k, d :: ChosenBy(rs, id, today, k, d) ==> rest == Some(d) by {
          forall k, d | ChosenBy(rs, id, today, k, d) ensures rest == Some(d) {
            ChosenEarlier(rs, id, today, k, d);
          }
        }
        rest
  }

  /** The cafe named by the link, when the link also ends in a post number. */
  function LinkParts(link: string): (r: Option<(nat, string)>)
    ensures r.Some? <==> CafeLinks.SearchNumber(CafeLinks.TrailingId(), link).Some? &&
                         CafeLinks.SearchSegment(CafeLinks.CafeSegment(), link).Some?
  {
    match (CafeLinks.SearchNumber(CafeLinks.TrailingId(), link), CafeLinks.SearchSegment(CafeLinks.CafeSegment(), link))
    case (Some(id), Some(cafe)) => Some((id, cafe))
    case _ => None
  }

  /** Whether the cafe of `link` has calibrated ranges. */
  predicate RangeCalibrated(link: string) {
    var parts := LinkParts(link);
    parts.Some? && Calibrate(parts.value.1).Some? && Calibrate(parts.value.1).value.Ranges?
  }

  /** `d` is the estimate of the first calibrated range of the link's cafe that covers the
      link's post number and does not fall outside the window. */
  ghost predicate Interpolated(link: string, today: Dates.Date, d: Dates.Date)
    requires RangeCalibrated(link)
  {
    exists k :: ChosenBy(Calibrate(LinkParts(link).value.1).value.ranges, LinkParts(link).value.0, today, k, d)
  }

  /** Stage 3: interpolation inside the cafe's calibrated ranges, and nothing else. */
  function IdStage(link: string, today: Dates.Date): (r: Option<Dates.Date>)
    ensures r.Some? ==> RangeCalibrated(link)
    ensures r.Some? ==> Dates.Valid(r.value)
    ensures r.Some? ==> Dates.InRange(r.value, Dates.Date(2020, 1, 1), today)
    ensures r.Some? ==> Interpolated(link, today, r.value)
    ensures RangeCalibrated(link) ==> forall d :: Interpolated(link, today, d) ==> r == Some(d)
  {
    match LinkParts(link)
    case None => None
    case Some((id, cafe)) =>
      match Calibrate(cafe)
      case Some(Ranges(rs)) => ScanRanges(rs, id, today)
      case _ => None
  }

  /** Every range in the table is proper, so interpolation there never raises. */
  lemma TableProper(cafe: string, k: nat)
    requires Calibrate(cafe).Some? && Calibrate(cafe).value.Ranges? && k < |Calibrate(cafe).value.ranges|
    ensures Proper(Calibrate(cafe).value.ranges[k])
  {
  }

  // ---------------------------------------------------------------------------
  // The extractor
  // ---------------------------------------------------------------------------

  /** `extract_real_date_only`: `scraped` is what the page stages found for this post. */
  function Extract(item: Cafe.CafeItem, scraped: Option<Dates.ValidDate>, today: Dates.Date): (r: Option<Dates.Date>)
    ensures r.Some? ==> Dates.Valid(r.value)
    ensures TextStage(item).Some? ==> r == TextStage(item)
    ensures r.Some? && scraped.None? ==> Dates.AtMost(Dates.Date(2020, 1, 1), r.value)
  {
    match TextStage(item)
    case Some(d) => Dates.YearFloor(d, 2020); Some(d)
    case None => PageOrId(item.link, scraped, today)
  }

  /** The stages after the text: the page's date, else the calibrated estimate. */
  function PageOrId(link: string, scraped: Option<Dates.ValidDate>, today: Dates.Date): (r: Option<Dates.Date>)
    ensures r.Some? ==> Dates.Valid(r.value)
    ensures scraped.Some? ==> r == Some(scraped.value)
    ensures scraped.None? ==> r == IdStage(link, today)
    ensures r.Some? && scraped.None? ==> Dates.AtMost(Dates.Date(2020, 1, 1), r.value)
  {
    match scraped
    case Some(d) => Some(d)
    case None => IdStage(link, today)
  }

  /** No guessing: without a text or page date, a post whose cafe has no calibrated
      ranges (unknown, legacy, or a link without cafe and number) gets no date. */
  lemma NoGuessUncalibrated(item: Cafe.CafeItem, today: Dates.Date)
    requires TextStage(item).None? && !RangeCalibrated(item.link)
    ensures Extract(item, None, today).None?
  {
  }

  /** No guessing either for a number outside every calibrated range of its cafe. */
  lemma NoGuessOutsideRanges(item: Cafe.CafeItem, today: Dates.Date)
    requires TextStage(item).None? && RangeCalibrated(item.link)
    requires var parts := LinkParts(item.link).value;
      forall k :: 0 <= k < |Calibrate(parts.1).value.ranges| ==> !Covers(Calibrate(parts.1).value.ranges[k], parts.0)
    ensures Extract(item, None, today).None?
  {
  }

  // ---------------------------------------------------------------------------
  // The filter
  // ---------------------------------------------------------------------------

  /** `service_id_map.get(service_name, "ixio")`. */
  function ServiceId(service: string): (id: string)
    ensures service == "익시오" ==> id == "ixio"
    ensures service == Cafe.SohoService ==> id == "soho-package"
    ensures service == "AI비즈콜" ==> id == "ai-bizcall"
    ensures service !in {"익시오", Cafe.SohoService, "AI비즈콜"} ==> id == "ixio"
  {
    if service == Cafe.SohoService then "soho-package"
    else if service == "AI비즈콜" then "ai-bizcall"
    else "ixio"
  }

  /** What the filter does with one result, given its extracted date. */
  function Decide(item: Cafe.CafeItem, date: Option<Dates.Date>, start: Dates.Date, end: Dates.Date, service: string): (r: Option<Cafe.CafeReview>)
    requires date.Some? ==> Dates.Valid(date.value)
    ensures r.Some? <==>
      date.Some? && Dates.InRange(date.value, start, end) &&
      !Cafe.IsNews(Cafe.LowerText(item.title, item.description)) &&
      (service == Cafe.SohoService ==> Cafe.SohoRelevant(Cafe.LowerText(item.title, item.description)))
    ensures r.Some? ==> r.value.rating == Cafe.CafeRating && r.value.source == Cafe.CafeSource
    ensures r.Some? ==> r.value.serviceId == ServiceId(service) && r.value.userId == Cafe.UserId(item)
    ensures r.Some? ==> r.value.createdAt == Dates.IsoDate(date.value) + "T00:00:00.000Z"
  {
    match date
    case None => None
    case Some(d) =>
      var text := Cafe.LowerText(item.title, item.description);
      if !Dates.InRange(d, start, end) || Cafe.IsNews(text) then None
      else if service == Cafe.SohoService && !Cafe.SohoRelevant(text) then None
      else
        var stamp := Cafe.MidnightStamp(d);
        assert stamp == stamp[..10] + stamp[10..];
        Some(Cafe.ApiReview(item, ServiceId(service), stamp))
  }

  /** The per-result decision, with the page oracle `scrape` consulted by link. */
  function DecideFor(scrape: string -> Option<Dates.ValidDate>, start: Dates.Date, end: Dates.Date,
                     service: string, today: Dates.Date): Cafe.CafeItem -> Option<Cafe.CafeReview> {
    (item: Cafe.CafeItem) => Decide(item, Extract(item, scrape(item.link), today), start, end, service)
  }

  /** The most results `filter_cafe_by_real_date_only` examines. */
  const Cap: nat := 30

  /** `filter_cafe_by_real_date_only`. */
  method Filter(items: seq<Cafe.CafeItem>, scrape: string -> Option<Dates.ValidDate>, start: Dates.Date, end: Dates.Date,
                service: string, maxResults: int, today: Dates.Date)
    returns (records: seq<Cafe.CafeReview>)
    ensures records == Seqs.Take(Cafe.Kept(DecideFor(scrape, start, end, service, today), items[..Seqs.Min(Cap, |items|)]), maxResults)
    ensures |records| <= Cap
    ensures forall k :: 0 <= k < |records| ==> records[k].rating == Cafe.CafeRating && records[k].serviceId == ServiceId(service)
  {
    var decide := DecideFor(scrape, start, end, service, today);
    var processed;
    records, processed := Cafe.CollectCapped(items, decide, Cap, maxResults);
    Cafe.KeptLength(decide, items[..processed]);
    forall k | 0 <= k < |records|
      ensures records[k].rating == Cafe.CafeRating && records[k].serviceId == ServiceId(service)
    {
      Cafe.KeptSource(decide, items[..processed], k);
      var i :| 0 <= i < processed && decide(items[..processed][i]) == Some(records[k]);
      var item := items[..processed][i];
      assert decide(item) == Decide(item, Extract(item, scrape(item.link), today), start, end, service);
    }
  }
}

=== FILE: date_simple.dfy ===
/** The simple cafe date estimator, which always produces a date. The link decides
    first: appleiphone post numbers fall into bands, each dated back from an anchor at a
    fixed number of posts per day; joonggonara post numbers map to fixed dates; any other
    cafe's trailing post number is dated a few days before today. Only a link without a
    usable number lets an explicit title date through, and the last resorts are
    yesterday or, after an exception, a week ago. */
module CafeDateSimple {
  import opened Wrappers
  import Text
  import Dates
  import TitleDates
  import CafeLinks
  import Cafe
  import Arith

  // ---------------------------------------------------------------------------
  // appleiphone bands
  // ---------------------------------------------------------------------------

  /** Post numbers from `low` up are dated `anchor - (top - id) // perDay` days. */
  datatype Band = Band(low: int, top: int, perDay: nat, anchor: Dates.ValidDate)

  /** The bands, highest first. */
  function AppleBands(): seq<Band> {
    [Band(8815000, 8816000, 200, Dates.Date(2025, 7, 15)),
     Band(8800000, 8815000, 500, Dates.Date(2025, 7, 10)),
     Band(8700000, 8800000, 1000, Dates.Date(2025, 6, 30)),
     Band(8600000, 8700000, 1500, Dates.Date(2025, 5, 31)),
     Band(8500000, 8600000, 2000, Dates.Date(2025, 4, 30))]
  }

  /** The index of the first band whose `low` the number reaches, or 5 below them all. */
  function BandOf(id: int): (k: nat)
    ensures k <= 5
    ensures k < 5 ==> AppleBands()[k].low <= id
    ensures forall j :: 0 <= j < k ==> id < AppleBands()[j].low
  {
    if id >= 8815000 then 0 else if id >= 8800000 then 1 else if id >= 8700000 then 2
    else if id >= 8600000 then 3 else if id >= 8500000 then 4 else 5
  }

  /** The day number `anchor - (top - id) // perDay`, wherever it falls. */
  function Estimate(b: Band, id: int): int
    requires b.perDay > 0
  {
    Dates.Ordinal(b.anchor) - (b.top - id) / b.perDay
  }

  /** `anchor - timedelta(days=(top - id) // perDay)`: `None` stands for `OverflowError`,
      raised exactly when the day number leaves the calendar. */
  function BandDate(b: Band, id: int): (r: Option<Dates.Date>)
    requires b.perDay > 0
    ensures r.Some? <==> 1 <= Estimate(b, id) <= Dates.MaxOrdinal
    ensures r.Some? ==> Dates.Valid(r.value) && Dates.Ordinal(r.value) == Estimate(b, id)
  {
    Dates.AddDays(b.anchor, -((b.top - id) / b.perDay))
  }

  /** The appleiphone estimate; numbers below every band get 2025-01-01. */
  function AppleDate(id: int): (r: Option<Dates.Date>)
    ensures r.Some? ==> Dates.Valid(r.value)
    ensures BandOf(id) == 5 ==> r == Some(Dates.Date(2025, 1, 1))
    ensures BandOf(id) < 5 ==> (r.Some? <==> 1 <= Estimate(AppleBands()[BandOf(id)], id) <= Dates.MaxOrdinal)
    ensures BandOf(id) < 5 && r.Some? ==> Dates.Ordinal(r.value) == Estimate(AppleBands()[BandOf(id)], id)
  {
    var k := BandOf(id);
    if k == 5 then Some(Dates.Date(2025, 1, 1)) else BandDate(AppleBands()[k], id)
  }

  /** Inside one band, a larger post number never gives an earlier date. */
  lemma AppleMonotoneInBand(id1: int, id2: int)
    requires BandOf(id1) == BandOf(id2) && id1 <= id2
    requires AppleDate(id1).Some? && AppleDate(id2).Some?
    ensures Dates.AtMost(AppleDate(id1).value, AppleDate(id2).value)
  {
    var k := BandOf(id1);
    if k < 5 {
      var b := AppleBands()[k];
      assert b.perDay > 0;
      Arith.DivMono(b.top - id2, b.top - id1, b.perDay);
    }
    Dates.OrdinalOrder(AppleDate(id1).value, AppleDate(id2).value);
  }

  /** Every number from the lowest band up to the top of the highest is dated, between
      2025-03-11 (8500000, fifty days before 2025-04-30) and 2025-07-15. */
  lemma AppleDatedInBands(id: int)
    requires 8500000 <= id <= 8816000
    ensures AppleDate(id).Some?
    ensures Dates.InRange(AppleDate(id).value, Dates.Date(2025, 3, 11), Dates.Date(2025, 7, 15))
  {
    var k := BandOf(id);
    var b := AppleBands()[k];
    assert b.low <= id <= b.top;
    Arith.DivMono(0, b.top - id, b.perDay);
    Arith.DivMono(b.top - id, b.top - b.low, b.perDay);
    var lo := Dates.Ordinal(Dates.Date(2025, 3, 11));
    var hi := Dates.Ordinal(Dates.Date(2025, 7, 15));
    assert lo <= Estimate(b, id) <= hi by {
      assert lo + 50 == Dates.Ordinal(Dates.Date(2025, 4, 30));
      assert lo + 66 <= Dates.Ordinal(Dates.Date(2025, 5, 31));
      assert lo + 100 <= Dates.Ordinal(Dates.Date(2025, 6, 30));
      assert lo + 30 <= Dates.Ordinal(Dates.Date(2025, 7, 10)) && hi >= Dates.Ordinal(Dates.Date(2025, 7, 10));
      assert (b.top - b.low) / b.perDay <= (if k == 0 then 5 else if k == 1 then 30 else if k == 2 then 100 else if k == 3 then 66 else 50);
    }
    var d := AppleDate(id).value;
    Dates.OrdinalOrder(Dates.Date(2025, 3, 11), d);
    Dates.OrdinalOrder(d, Dates.Date(2025, 7, 15));
  }

  /** Across the boundary at 8800000 the estimate jumps back twenty days: 8799999 is
      dated 2025-06-30 but 8800000 is dated 2025-06-10. */
  lemma AppleBandBoundary()
    ensures AppleDate(8799999) == Some(Dates.Date(2025, 6, 30))
    ensures AppleDate(8800000) == Some(Dates.Date(2025, 6, 10))
    ensures Dates.Before(AppleDate(8800000).value, AppleDate(8799999).value)
  {
    assert BandOf(8799999) == 2 && BandOf(8800000) == 1;
    assert Estimate(AppleBands()[2], 8799999) == Dates.Ordinal(Dates.Date(2025, 6, 30)) by {
      assert (8800000 - 8799999) / 1000 == 0;
    }
    assert Estimate(AppleBands()[1], 8800000) == Dates.Ordinal(Dates.Date(2025, 6, 10)) by {
      assert (8815000 - 8800000) / 500 == 30;
      assert Dates.Ordinal(Dates.Date(2025, 6, 10)) + 30 == Dates.Ordinal(Dates.Date(2025, 7, 10));
    }
    Dates.OrdinalBounds(Dates.Date(2025, 6, 30));
    var a := AppleDate(8799999);
    var b := AppleDate(8800000);
    Dates.OrdinalOrder(a.value, Dates.Date(2025, 6, 30));
    Dates.OrdinalOrder(b.value, Dates.Date(2025, 6, 10));
  }

  // ---------------------------------------------------------------------------
  // joonggonara and the other cafes
  // ---------------------------------------------------------------------------

  /** joonggonara: fixed dates by threshold, whatever today is. */
  function JoongDate(id: int): (d: Dates.Date)
    ensures Dates.Valid(d)
    ensures id >= 900000000 ==> d == Dates.Date(2025, 7, 15)
    ensures 850000000 <= id < 900000000 ==> d == Dates.Date(2025, 6, 1)
    ensures 800000000 <= id < 850000000 ==> d == Dates.Date(2025, 3, 1)
    ensures id < 800000000 ==> d == Dates.Date(2024, 12, 1)
  {
    if id >= 900000000 then Dates.Date(2025, 7, 15)
    else if id >= 850000000 then Dates.Date(2025, 6, 1)
    else if id >= 800000000 then Dates.Date(2025, 3, 1)
    else Dates.Date(2024, 12, 1)
  }

  /** A larger joonggonara number never gives an earlier date. */
  lemma JoongMonotone(id1: int, id2: int)
    requires id1 <= id2
    ensures Dates.AtMost(JoongDate(id1), JoongDate(id2))
  {
  }

  /** Days before today for another cafe's post number: the larger, the more recent. */
  function GenericLag(id: int): (n: nat)
    ensures n in {0, 1, 2, 3, 5, 7, 10}
    ensures id >= 8000000 <==> n == 0
    ensures id < 100000 <==> n == 10
  {
    if id >= 8000000 then 0 else if id >= 7000000 then 1 else if id >= 5000000 then 2
    else if id >= 3000000 then 3 else if id >= 1000000 then 5 else if id >= 100000 then 7
    else 10
  }

  lemma GenericLagMonotone(id1: int, id2: int)
    requires id1 <= id2
    ensures GenericLag(id2) <= GenericLag(id1)
  {
  }

  // ---------------------------------------------------------------------------
  // The extractor
  // ---------------------------------------------------------------------------

  /** What the link yields: a date, an `OverflowError`, or no usable post number. */
  datatype LinkOutcome = Dated(date: Dates.Date) | Overflow | NoId

  /** The link's outcome by cafe: appleiphone posts by band, joonggonara posts by
      threshold, and any other cafe's post `GenericLag` days before today. */
  function LinkStage(link: string, today: Dates.Date): (r: LinkOutcome)
    requires Dates.Valid(today)
    ensures r.Dated? ==> Dates.Valid(r.date)
    ensures Text.In("/appleiphone/", link) ==>
      match CafeLinks.SearchNumber(CafeLinks.PostIn("appleiphone"), link)
      case None => r.NoId?
      case Some(id) => r == if AppleDate(id).Some? then Dated(AppleDate(id).value) else Overflow
    ensures !Text.In("/appleiphone/", link) && Text.In("/joonggonara/", link) ==>
      match CafeLinks.SearchNumber(CafeLinks.PostIn("joonggonara"), link)
      case None => r.NoId?
      case Some(id) => r == Dated(JoongDate(id))
    ensures !Text.In("/appleiphone/", link) && !Text.In("/joonggonara/", link) ==>
      match CafeLinks.SearchNumber(CafeLinks.TrailingId(), link)
      case None => r.NoId?
      case Some(id) =>
        (r.Overflow? <==> Dates.Ordinal(today) <= GenericLag(id)) &&
        (r.Dated? ==> Dates.Ordinal(r.date) == Dates.Ordinal(today) - GenericLag(id))
    ensures !Text.In("/appleiphone/", link) && !Text.In("/joonggonara/", link) && r.Dated? ==>
      Dates.AtMost(r.date, today)
  {
    if Text.In("/appleiphone/", link) then AppleStage(link)
    else if Text.In("/joonggonara/", link) then JoongStage(link)
    else GenericStage(link, today)
  }

  /** An appleiphone link: the band estimate of `/appleiphone/<n>`. */
  function AppleStage(link: string): (r: LinkOutcome)
    ensures r.Dated? ==> Dates.Valid(r.date)
    ensures match CafeLinks.SearchNumber(CafeLinks.PostIn("appleiphone"), link)
      case None => r.NoId?
      case Some(id) => r == if AppleDate(id).Some? then Dated(AppleDate(id).value) else Overflow
  {
    match CafeLinks.SearchNumber(CafeLinks.PostIn("appleiphone"), link)
    case None => NoId
    case Some(id) => (match AppleDate(id) case None => Overflow case Some(d) => Dated(d))
  }

  /** A joonggonara link: the threshold date of `/joonggonara/<n>`. */
  function JoongStage(link: string): (r: LinkOutcome)
    ensures r.Dated? ==> Dates.Valid(r.date)
    ensures match CafeLinks.SearchNumber(CafeLinks.PostIn("joonggonara"), link)
      case None => r.NoId?
      case Some(id) => r == Dated(JoongDate(id))
  {
    match CafeLinks.SearchNumber(CafeLinks.PostIn("joonggonara"), link)
    case None => NoId
    case Some(id) => Dated(JoongDate(id))
  }

  /** Any other cafe: the trailing post number sets how many days before today. */
  function GenericStage(link: string, today: Dates.Date): (r: LinkOutcome)
    requires Dates.Valid(today)
    ensures r.Dated? ==> Dates.Valid(r.date) && Dates.AtMost(r.date, today)
    ensures match CafeLinks.SearchNumber(CafeLinks.TrailingId(), link)
      case None => r.NoId?
      case Some(id) =>
        (r.Overflow? <==> Dates.Ordinal(today) <= GenericLag(id)) &&
        (r.Dated? ==> Dates.Ordinal(r.date) == Dates.Ordinal(today) - GenericLag(id))
  {
    match CafeLinks.SearchNumber(CafeLinks.TrailingId(), link)
    case None => NoId
    case Some(id) => DaysBack(today, GenericLag(id))
  }

  /** `today - timedelta(days=lag)`, an `OverflowError` before the first day. */
  function DaysBack(today: Dates.Date, lag: nat): (r: LinkOutcome)
    requires Dates.Valid(today)
    ensures !r.NoId?
    ensures r.Overflow? <==> Dates.Ordinal(today) <= lag
    ensures r.Dated? ==> Dates.Valid(r.date) && Dates.AtMost(r.date, today) && Dates.Ordinal(r.date) == Dates.Ordinal(today) - lag
  {
    Dates.OrdinalBounds(today);
    match Dates.AddDays(today, -(lag as int))
    case None => Overflow
    case Some(d) => Dates.AddDaysBackward(today, lag); Dated(d)
  }

  /** `(\d{4})[년\-\.](\d{1,2})[월\-\.](\d{1,2})`, then its two-digit variant. */
  function TitlePatterns(): seq<TitleDates.DatePattern> {
    [TitleDates.MixedPattern(4), TitleDates.MixedPattern(2)]
  }

  /** The title's date: the four-digit pattern's, else the two-digit pattern's. */
  function TitleStage(title: string): (r: Option<Dates.Date>)
    ensures r.Some? ==> Dates.Valid(r.value) && 2020 <= r.value.year <= 2025
    ensures TitleDates.PatternDate(TitleDates.MixedPattern(4), title).Some? ==>
      r == TitleDates.PatternDate(TitleDates.MixedPattern(4), title)
    ensures TitleDates.PatternDate(TitleDates.MixedPattern(4), title).None? ==>
      r == TitleDates.PatternDate(TitleDates.MixedPattern(2), title)
    ensures r.None? <==> TitleDates.PatternDate(TitleDates.MixedPattern(4), title).None? &&
                         TitleDates.PatternDate(TitleDates.MixedPattern(2), title).None?
  {
    TitleDates.FirstOfTwo(TitlePatterns(), title);
    TitleDates.FirstDate(TitlePatterns(), title)
  }

  /** `extract_real_cafe_date`; `None` stands for an exception that escapes it, which
      happens only when even "a week ago" is off the calendar. */
  function Extract(item: Cafe.CafeItem, today: Dates.Date): (r: Option<Dates.Date>)
    requires Dates.Valid(today)
    ensures r.Some? ==> Dates.Valid(r.value)
    ensures LinkStage(item.link, today).Dated? ==> r == Some(LinkStage(item.link, today).date)
    ensures LinkStage(item.link, today).Overflow? ==> r == Dates.AddDays(today, -7)
    ensures LinkStage(item.link, today).NoId? && TitleStage(item.title).Some? ==> r == TitleStage(item.title)
    ensures LinkStage(item.link, today).NoId? && TitleStage(item.title).None? && Dates.Ordinal(today) > 1 ==>
      r == Dates.AddDays(today, -1)
  {
    match LinkStage(item.link, today)
    case Dated(d) => Some(d)
    case Overflow => Dates.AddDays(today, -7)
    case NoId =>
      match TitleStage(item.title)
      case Some(d) => Some(d)
      case None =>
        match Dates.AddDays(today, -1)
        case Some(d) => Some(d)
        case None => Dates.AddDays(today, -7)
  }

  /** Once today is past the first week of the calendar, the extractor always has a date. */
  lemma ExtractTotal(item: Cafe.CafeItem, today: Dates.Date)
    requires Dates.Valid(today) && Dates.Ordinal(today) > 7
    ensures Extract(item, today).Some?
  {
    Dates.OrdinalBounds(today);
    assert Dates.AddDays(today, -7).Some?;
    assert Dates.AddDays(today, -1).Some?;
  }

  /** `get_cafe_date_with_fallback`: the extractor's date, or three days ago if it raised. */
  function WithFallback(item: Cafe.CafeItem, today: Dates.Date): (r: Option<Dates.Date>)
    requires Dates.Valid(today)
    ensures Extract(item, today).Some? ==> r == Extract(item, today)
    ensures r.Some? ==> Dates.Valid(r.value)
  {
    match Extract(item, today)
    case Some(d) => Some(d)
    case None => Dates.AddDays(today, -3)
  }

  /** The fallback wrapper has a date for any today past the calendar's third day. */
  lemma WithFallbackTotal(item: Cafe.CafeItem, today: Dates.Date)
    requires Dates.Valid(today) && Dates.Ordinal(today) > 3
    ensures WithFallback(item, today).Some?
  {
    Dates.OrdinalBounds(today);
    assert Dates.AddDays(today, -3).Some?;
  }
}

=== FILE: dates.dfy ===
/** Calendar dates with the semantics of Python's `datetime.date`: proleptic Gregorian
    dates of years 1 to 9999, compared field by field, shifted by whole days with
    `timedelta`, and printed by `isoformat()`. A shift that leaves the representable
    range raises `OverflowError` in Python; here it yields `None`. */
module Dates {
  import opened Wrappers
  import Text
  import Arith

  datatype Date = Date(year: int, month: int, day: int)

  const MinYear: int := 1
  const MaxYear: int := 9999

  predicate IsLeap(y: int) {
    y % 4 == 0 && (y % 100 != 0 || y % 400 == 0)
  }

  function YearLength(y: int): int {
    if IsLeap(y) then 366 else 365
  }

  function MonthLength(y: int, m: int): int
    requires 1 <= m <= 12
  {
    if m == 2 then (if IsLeap(y) then 29 else 28)
    else if m == 4 || m == 6 || m == 9 || m == 11 then 30
    else 31
  }

  /** What `date(year, month, day)` accepts without raising `ValueError`. */
  predicate Valid(d: Date) {
    MinYear <= d.year <= MaxYear && 1 <= d.month <= 12 && 1 <= d.day <= MonthLength(d.year, d.month)
  }

  /** Python's `date(y, m, d)`: `None` stands for the `ValueError` it raises. */
  function MakeDate(y: int, m: int, d: int): (r: Option<Date>)
    ensures r.Some? <==> Valid(Date(y, m, d))
    ensures r.Some? ==> r.value == Date(y, m, d)
  {
    if Valid(Date(y, m, d)) then Some(Date(y, m, d)) else None
  }

  /** The dates Python can represent: every `date` object the collectors handle. */
  type ValidDate = d: Date | Valid(d) witness Date(2025, 1, 1)

  const FirstDate: Date := Date(MinYear, 1, 1)
  const LastDate: Date := Date(MaxYear, 12, 31)

  // ---------------------------------------------------------------------------
  // Ordering (Python compares dates as (year, month, day) tuples)
  // ---------------------------------------------------------------------------

  predicate Before(a: Date, b: Date) {
    || a.year < b.year
    || (a.year == b.year && a.month < b.month)
    || (a.year == b.year && a.month == b.month && a.day < b.day)
  }

  predicate AtMost(a: Date, b: Date) {
    a == b || Before(a, b)
  }

  /** Python's `lo <= d <= hi`. */
  predicate InRange(d: Date, lo: Date, hi: Date) {
    AtMost(lo, d) && AtMost(d, hi)
  }

  /** A valid date is on or after the first of January of `y` exactly when its year is
      at least `y`. */
  lemma YearFloor(d: Date, y: int)
    requires Valid(d)
    ensures AtMost(Date(y, 1, 1), d) <==> d.year >= y
  {
  }

  // ---------------------------------------------------------------------------
  // Day numbers (`date.toordinal()`: 0001-01-01 is day 1)
  // ---------------------------------------------------------------------------

  /** Days in the years before `y`. */
  function DaysBeforeYear(y: int): int
    requires y >= 1
  {
    var p := y - 1;
    p * 365 + p / 4 - p / 100 + p / 400
  }

  /** Days in the months of year `y` before month `m`. */
  function DaysBeforeMonth(y: int, m: int): int
    requires 1 <= m <= 12
  {
    var table := [0, 31, 59, 90, 120, 151, 181, 212, 243, 273, 304, 334];
    table[m - 1] + (if m > 2 && IsLeap(y) then 1 else 0)
  }

  function Ordinal(d: Date): int
    requires Valid(d)
  {
    DaysBeforeYear(d.year) + DaysBeforeMonth(d.year, d.month) + d.day
  }

  const MaxOrdinal: int := 3652059

  lemma DivStep(p: int, k: int)
    requires p >= 0 && k > 0
    ensures (p + 1) / k == p / k + (if (p + 1) % k == 0 then 1 else 0)
  {
    var q, r := p / k, p % k;
    if r + 1 == k {
      assert p + 1 == k * (q + 1) + 0;
      Arith.DivUnique(p + 1, k, q + 1, 0);
      assert (p + 1) % k == 0;
    } else {
      assert p + 1 == k * q + (r + 1);
      Arith.DivUnique(p + 1, k, q, r + 1);
      assert (p + 1) % k == r + 1;
    }
  }

  /** The closed form counts each year with its own length. */
  lemma DaysBeforeYearStep(y: int)
    requires y >= 1
    ensures DaysBeforeYear(y + 1) == DaysBeforeYear(y) + YearLength(y)
  {
    DivStep(y - 1, 4);
    DivStep(y - 1, 100);
    DivStep(y - 1, 400);
    ModChain(y);
    var p := y - 1;
    assert DaysBeforeYear(y + 1) == y * 365 + y / 4 - y / 100 + y / 400;
    assert DaysBeforeYear(y) == p * 365 + p / 4 - p / 100 + p / 400;
  }

  /** A multiple of 400 is a multiple of 100, and a multiple of 100 one of 4. */
  lemma ModChain(y: int)
    requires y >= 1
    ensures y % 400 == 0 ==> y % 100 == 0
    ensures y % 100 == 0 ==> y % 4 == 0
  {
    if y % 400 == 0 {
      Arith.DivUnique(y, 100, 4 * (y / 400), 0);
    }
    if y % 100 == 0 {
      Arith.DivUnique(y, 4, 25 * (y / 100), 0);
    }
  }

  lemma {:induction false} DaysBeforeYearMonotone(y1: int, y2: int)
    requires 1 <= y1 <= y2
    ensures DaysBeforeYear(y1) + 365 * (y2 - y1) <= DaysBeforeYear(y2)
    decreases y2 - y1
  {
    if y1 < y2 {
      DaysBeforeYearStep(y1);
      DaysBeforeYearMonotone(y1 + 1, y2);
    }
  }

  /** The month table agrees with the month lengths. */
  lemma DaysBeforeMonthStep(y: int, m: int)
    requires 1 <= m <= 12
    ensures m < 12 ==> DaysBeforeMonth(y, m + 1) == DaysBeforeMonth(y, m) + MonthLength(y, m)
    ensures m == 12 ==> DaysBeforeMonth(y, m) + MonthLength(y, m) == YearLength(y)
  {
  }

  lemma {:induction false} DaysBeforeMonthMonotone(y: int, m1: int, m2: int)
    requires 1 <= m1 < m2 <= 12
    ensures DaysBeforeMonth(y, m1) + MonthLength(y, m1) <= DaysBeforeMonth(y, m2)
    decreases m2 - m1
  {
    DaysBeforeMonthStep(y, m1);
    if m1 + 1 < m2 {
      DaysBeforeMonthMonotone(y, m1 + 1, m2);
      DaysBeforeMonthStep(y, m1 + 1);
    }
  }

  lemma OrdinalWithinYear(d: Date)
    requires Valid(d)
    ensures DaysBeforeYear(d.year) < Ordinal(d) <= DaysBeforeYear(d.year + 1)
  {
    DaysBeforeYearStep(d.year);
    DaysBeforeMonthStep(d.year, d.month);
    if d.month < 12 {
      DaysBeforeMonthMonotone(d.year, d.month, 12);
      DaysBeforeMonthStep(d.year, 12);
    }
  }

  /** Earlier dates have smaller day numbers. */
  lemma OrdinalStrict(a: Date, b: Date)
    requires Valid(a) && Valid(b) && Before(a, b)
    ensures Ordinal(a) < Ordinal(b)
  {
    if a.year < b.year {
      OrdinalWithinYear(a);
      OrdinalWithinYear(b);
      DaysBeforeYearMonotone(a.year + 1, b.year);
    } else if a.month < b.month {
      DaysBeforeMonthMonotone(a.year, a.month, b.month);
    }
  }

  /** Python's date comparison agrees with comparing day numbers, in both directions. */
  lemma OrdinalOrder(a: Date, b: Date)
    requires Valid(a) && Valid(b)
    ensures AtMost(a, b) <==> Ordinal(a) <= Ordinal(b)
    ensures a == b <==> Ordinal(a) == Ordinal(b)
  {
    if Before(a, b) {
      OrdinalStrict(a, b);
    } else if a != b {
      assert Before(b, a);
      OrdinalStrict(b, a);
    }
  }

  lemma OrdinalBounds(d: Date)
    requires Valid(d)
    ensures 1 <= Ordinal(d) <= MaxOrdinal
    ensures Ordinal(d) == MaxOrdinal <==> d == LastDate
    ensures Ordinal(d) == 1 <==> d == FirstDate
  {
    assert Ordinal(LastDate) == MaxOrdinal;
    OrdinalOrder(d, LastDate);
    OrdinalOrder(FirstDate, d);
  }

  // ---------------------------------------------------------------------------
  // Day arithmetic (`d + timedelta(days=k)`)
  // ---------------------------------------------------------------------------

  function Next(d: Date): (r: Option<Date>)
    requires Valid(d)
    ensures r.Some? <==> d != LastDate
    ensures r.Some? ==> Valid(r.value) && Ordinal(r.value) == Ordinal(d) + 1
  {
    if d.day < MonthLength(d.year, d.month) then Some(Date(d.year, d.month, d.day + 1))
    else if d.month < 12 then
      DaysBeforeMonthStep(d.year, d.month);
      Some(Date(d.year, d.month + 1, 1))
    else if d.year < MaxYear then
      DaysBeforeYearStep(d.year);
      DaysBeforeMonthStep(d.year, 12);
      Some(Date(d.year + 1, 1, 1))
    else None
  }

  function Prev(d: Date): (r: Option<Date>)
    requires Valid(d)
    ensures r.Some? <==> d != FirstDate
    ensures r.Some? ==> Valid(r.value) && Ordinal(r.value) + 1 == Ordinal(d)
  {
    if d.day > 1 then Some(Date(d.year, d.month, d.day - 1))
    else if d.month > 1 then
      DaysBeforeMonthStep(d.year, d.month - 1);
      Some(Date(d.year, d.month - 1, MonthLength(d.year, d.month - 1)))
    else if d.year > MinYear then
      DaysBeforeYearStep(d.year - 1);
      DaysBeforeMonthStep(d.year - 1, 12);
      Some(Date(d.year - 1, 12, 31))
    else None
  }

  /** `d + timedelta(days=k)`: the date `k` days later (earlier for negative `k`), or `None`
      where Python raises `OverflowError`. */
  function AddDays(d: Date, k: int): (r: Option<Date>)
    requires Valid(d)
    ensures r.Some? <==> 1 <= Ordinal(d) + k <= MaxOrdinal
    ensures r.Some? ==> Valid(r.value) && Ordinal(r.value) == Ordinal(d) + k
    decreases if k < 0 then -k else k
  {
    OrdinalBounds(d);
    if k == 0 then Some(d)
    else if k > 0 then
      match Next(d)
      case None => None
      case Some(e) => AddDays(e, k - 1)
    else
      match Prev(d)
      case None => None
      case Some(e) => AddDays(e, k + 1)
  }

  /** `(b - a).days`. */
  function DaysBetween(a: Date, b: Date): int
    requires Valid(a) && Valid(b)
  {
    Ordinal(b) - Ordinal(a)
  }

  /** Shifting back and forth by the same amount returns the original date. */
  lemma AddDaysInverse(d: Date, k: int)
    requires Valid(d) && AddDays(d, k).Some?
    ensures AddDays(AddDays(d, k).value, -k) == Some(d)
  {
    var e := AddDays(d, k).value;
    assert Ordinal(e) == Ordinal(d) + k;
    OrdinalBounds(d);
    var back := AddDays(e, -k);
    assert back.Some? && Ordinal(back.value) == Ordinal(d);
    OrdinalOrder(back.value, d);
  }

  /** Shifting back by a non-negative amount never moves a date later. */
  lemma AddDaysBackward(d: Date, k: nat)
    requires Valid(d) && AddDays(d, -(k as int)).Some?
    ensures AtMost(AddDays(d, -(k as int)).value, d)
  {
    OrdinalOrder(AddDays(d, -(k as int)).value, d);
  }

  // ---------------------------------------------------------------------------
  // Text form (`date.isoformat()`, `strftime('%Y-%m-%d')`)
  // ---------------------------------------------------------------------------

  /** `YYYY-MM-DD` with zero padding. */
  function IsoDate(d: Date): (s: string)
    requires Valid(d)
    ensures |s| == 10 && s[4] == '-' && s[7] == '-'
  {
    Text.PadDigits(d.year, 4) + "-" + Text.PadDigits(d.month, 2) + "-" + Text.PadDigits(d.day, 2)
  }

  predicate DigitsAt(s: string, lo: nat, hi: nat)
    requires lo <= hi <= |s|
  {
    forall i :: lo <= i < hi ==> Text.IsDigit(s[i])
  }

  /** `date.fromisoformat(s)` for the `YYYY-MM-DD` form: `None` where Python raises `ValueError`. */
  function ParseIsoDate(s: string): (r: Option<Date>)
    ensures r.Some? ==> Valid(r.value)
  {
    if |s| == 10 && s[4] == '-' && s[7] == '-' && DigitsAt(s, 0, 4) && DigitsAt(s, 5, 7) && DigitsAt(s, 8, 10) then
      MakeDate(Text.DigitsValue(s[0..4]), Text.DigitsValue(s[5..7]), Text.DigitsValue(s[8..10]))
    else None
  }

  /** Printing a date and reading it back gives the same date. */
  lemma IsoDateRoundTrip(d: Date)
    requires Valid(d)
    ensures ParseIsoDate(IsoDate(d)) == Some(d)
  {
    var s := IsoDate(d);
    assert s[0..4] == Text.PadDigits(d.year, 4);
    assert s[5..7] == Text.PadDigits(d.month, 2);
    assert s[8..10] == Text.PadDigits(d.day, 2);
    assert Text.Pow10(4) == 10000 && Text.Pow10(2) == 100;
    Text.PadDigitsRoundTrip(d.year, 4);
    Text.PadDigitsRoundTrip(d.month, 2);
    Text.PadDigitsRoundTrip(d.day, 2);
  }
}

=== FILE: deploy_analysis.dfy ===
/** The self-contained analysis of `server/deploy_analysis.py`: a rule-based sentiment for
    reviews still being analysed, word clouds of the most frequent Hangul words by
    sentiment, and HEART insights chosen by complaint patterns. */
module DeployAnalysis {
  import opened Wrappers
  import Text
  import Seqs
  import Tally
  import Words

  // ---------------------------------------------------------------------------
  // Sentiment
  // ---------------------------------------------------------------------------

  const Positive := "긍정"
  const Negative := "부정"
  const Neutral := "중립"

  /** Phrases that make a review negative before anything is counted. */
  const ExplicitNegatives: seq<string> := ["단점", "아쉬운 점", "불편한 점", "불만", "싫은 점"]

  const NegativeWords: seq<string> := [
    "안되", "안돼", "불편", "문제", "오류", "실패", "느림", "끊어", "멈춤",
    "복잡", "어려", "힘들", "귀찮", "스트레스", "형편없", "구리", "실망",
    "렉", "직관", "광고", "강제", "먹통", "뜨거움", "방해", "차단", "과열",
    "거슬림", "못하는", "안하는", "안돼는", "조치", "거절"]

  const PositiveWords: seq<string> := [
    "좋다", "편하다", "만족", "추천", "최고", "훌륭", "완벽", "빠르다",
    "안정", "깔끔", "유용", "도움", "감사", "고마워", "좋네", "괜찮"]

  const NeutralWords: seq<string> := ["보통", "그저그래", "나쁘지않", "무난", "평범", "일반적"]

  /** The negative rule on the lower-cased text: an explicit phrase, two listed negative
      words, or one with no positive word. */
  predicate NegativeRule(t: string) {
    var neg := Text.CountPresent(NegativeWords, t);
    var pos := Text.CountPresent(PositiveWords, t);
    Text.ContainsAny(t, ExplicitNegatives) || neg >= 2 || (neg > 0 && pos == 0)
  }

  /** The positive rule, read once the negative one failed. */
  predicate PositiveRule(t: string) {
    var neg := Text.CountPresent(NegativeWords, t);
    var pos := Text.CountPresent(PositiveWords, t);
    pos >= 2 || (pos > 0 && neg == 0)
  }

  /** The last resort for a text with no listed word of either polarity and no neutral
      word: ten characters or more, mentioning 좋 or 괜찮. */
  predicate LongAndLiked(t: string) {
    |t| >= 10 && (Text.In("좋", t) || Text.In("괜찮", t))
  }

  /** `analyze_sentiment_basic`. */
  function Sentiment(text: string): (s: string)
    ensures s == Negative || s == Positive || s == Neutral
    ensures s == Negative <==> NegativeRule(Text.Lower(text))
    ensures var t := Text.Lower(text);
      s == Positive <==> (!NegativeRule(t) && (PositiveRule(t) || (!Text.ContainsAny(t, NeutralWords) && LongAndLiked(t))))
  {
    Classify(Text.Lower(text))
  }

  /** The rules, applied to the lower-cased text. */
  function Classify(t: string): string {
    Decide(Text.ContainsAny(t, ExplicitNegatives),
      Text.CountPresent(NegativeWords, t), Text.CountPresent(PositiveWords, t), Text.CountPresent(NeutralWords, t),
      |t|, Text.In("좋", t) || Text.In("괜찮", t))
  }

  /** The rules, given whether an explicit negative phrase occurs, how many listed words of
      each polarity occur, the text's length and whether it mentions 좋 or 괜찮. */
  function Decide(explicit: bool, neg: nat, pos: nat, neu: nat, length: nat, liked: bool): string {
    if explicit then Negative
    else if neg >= 2 || (neg > 0 && pos == 0) then Negative
    else if pos >= 2 || (pos > 0 && neg == 0) then Positive
    else if neu > 0 then Neutral
    else if length < 10 then Neutral
    else if liked then Positive
    else Neutral
  }

  /** An explicit negative phrase decides, whatever else the text says. */
  lemma ExplicitPhraseIsNegative(text: string, k: nat)
    requires k < |ExplicitNegatives| && Text.In(ExplicitNegatives[k], Text.Lower(text))
    ensures Sentiment(text) == Negative
  {
    Text.ContainsAnyWitness(Text.Lower(text), ExplicitNegatives, k);
  }

  /** Only which listed words occur matters, not how often: two texts of the same
      length holding the same listed words and fallback words get the same sentiment. */
  lemma SentimentByPresence(a: string, b: string)
    requires |a| == |b|
    requires forall k :: 0 <= k < |ExplicitNegatives| ==> (Text.In(ExplicitNegatives[k], Text.Lower(a)) <==> Text.In(ExplicitNegatives[k], Text.Lower(b)))
    requires forall k :: 0 <= k < |NegativeWords| ==> (Text.In(NegativeWords[k], Text.Lower(a)) <==> Text.In(NegativeWords[k], Text.Lower(b)))
    requires forall k :: 0 <= k < |PositiveWords| ==> (Text.In(PositiveWords[k], Text.Lower(a)) <==> Text.In(PositiveWords[k], Text.Lower(b)))
    requires forall k :: 0 <= k < |NeutralWords| ==> (Text.In(NeutralWords[k], Text.Lower(a)) <==> Text.In(NeutralWords[k], Text.Lower(b)))
    requires (Text.In("좋", Text.Lower(a)) <==> Text.In("좋", Text.Lower(b))) && (Text.In("괜찮", Text.Lower(a)) <==> Text.In("괜찮", Text.Lower(b)))
    ensures Sentiment(a) == Sentiment(b)
  {
    ClassifyByPresence(Text.Lower(a), Text.Lower(b));
  }

  /** `SentimentByPresence` on the lower-cased texts. */
  lemma ClassifyByPresence(ta: string, tb: string)
    requires |ta| == |tb|
    requires forall k :: 0 <= k < |ExplicitNegatives| ==> (Text.In(ExplicitNegatives[k], ta) <==> Text.In(ExplicitNegatives[k], tb))
    requires forall k :: 0 <= k < |NegativeWords| ==> (Text.In(NegativeWords[k], ta) <==> Text.In(NegativeWords[k], tb))
    requires forall k :: 0 <= k < |PositiveWords| ==> (Text.In(PositiveWords[k], ta) <==> Text.In(PositiveWords[k], tb))
    requires forall k :: 0 <= k < |NeutralWords| ==> (Text.In(NeutralWords[k], ta) <==> Text.In(NeutralWords[k], tb))
    requires (Text.In("좋", ta) <==> Text.In("좋", tb)) && (Text.In("괜찮", ta) <==> Text.In("괜찮", tb))
    ensures Classify(ta) == Classify(tb)
  {
    Text.CountPresentByPresence(NegativeWords, ta, tb);
    Text.CountPresentByPresence(PositiveWords, ta, tb);
    Text.CountPresentByPresence(NeutralWords, ta, tb);
    Text.ContainsAnyByPresence(ExplicitNegatives, ta, tb);
  }

  // ---------------------------------------------------------------------------
  // Relabelling
  // ---------------------------------------------------------------------------

  const Pending := "분석중"

  /** The relabel step of `main`: a review still marked "분석중" gets the rule-based
      sentiment of its content; every other review is kept as it is. */
  function Relabel(reviews: seq<Words.Review>): (rs: seq<Words.Review>)
    ensures |rs| == |reviews|
    ensures forall i :: 0 <= i < |rs| ==> rs[i].content == reviews[i].content
    ensures forall i :: 0 <= i < |rs| && reviews[i].sentiment != Pending ==> rs[i] == reviews[i]
    ensures forall i :: 0 <= i < |rs| && reviews[i].sentiment == Pending ==>
      rs[i].sentiment == Sentiment(reviews[i].content) && rs[i].sentiment != Pending
  {
    seq(|reviews|, i requires 0 <= i < |reviews| =>
      if reviews[i].sentiment == Pending then Words.Review(reviews[i].content, Sentiment(reviews[i].content))
      else reviews[i])
  }

  /** Relabelling leaves nothing pending it can change, so a second pass changes nothing. */
  lemma RelabelIdempotent(reviews: seq<Words.Review>)
    ensures Relabel(Relabel(reviews)) == Relabel(reviews)
  {
    var once := Relabel(reviews);
    forall i | 0 <= i < |once| ensures once[i].sentiment != Pending {
      if reviews[i].sentiment == Pending {
        assert once[i].sentiment == Sentiment(reviews[i].content);
      }
    }
  }

  // ---------------------------------------------------------------------------
  // Word clouds
  // ---------------------------------------------------------------------------

  const Stopwords: seq<string> := [
    "익시오", "앱", "어플", "애플리케이션", "유플러스", "LG", "LGU", "U+",
    "사용", "사용자", "좋다", "나쁘다", "괜찮다", "별로", "그냥", "정말",
    "너무", "조금", "많이", "아주", "가끔", "항상", "때문", "이제", "지금",
    "이번", "다음", "처음", "마지막", "하지만", "그래서", "그리고", "또한",
    "있다", "없다", "된다", "한다", "같다", "다르다", "것", "거", "게",
    "서비스", "기능", "시스템", "여기", "저기", "이거", "그거", "뭔가"]

  /** The test "has sentiment `sentiment`", as a value. */
  function HasSentiment(sentiment: string): (test: Words.Review -> bool)
    ensures forall r :: test(r) == (r.sentiment == sentiment)
  {
    (r: Words.Review) => r.sentiment == sentiment
  }

  /** The reviews whose sentiment equals `sentiment` exactly, in order and as often as the
      input has them. */
  function WithSentiment(reviews: seq<Words.Review>, sentiment: string): (rs: seq<Words.Review>)
    ensures |rs| <= |reviews|
    ensures forall r :: r in rs <==> r in reviews && r.sentiment == sentiment
    ensures forall r {:trigger Tally.Occurrences(rs, r)} ::
      Tally.Occurrences(rs, r) == if r.sentiment == sentiment then Tally.Occurrences(reviews, r) else 0
  {
    Tally.FilterCount(HasSentiment(sentiment), reviews);
    Seqs.Filter(HasSentiment(sentiment), reviews)
  }

  /** `WithSentiment` keeps input order: the reviews of a longer list follow those of its
      prefix. */
  lemma WithSentimentConcat(a: seq<Words.Review>, b: seq<Words.Review>, sentiment: string)
    ensures WithSentiment(a + b, sentiment) == WithSentiment(a, sentiment) + WithSentiment(b, sentiment)
  {
    Seqs.FilterConcat(HasSentiment(sentiment), a, b);
  }

  /** One review is kept exactly when its sentiment is `sentiment`. */
  lemma WithSentimentOne(r: Words.Review, sentiment: string)
    ensures WithSentiment([r], sentiment) == if r.sentiment == sentiment then [r] else []
  {
    Seqs.FilterOne(HasSentiment(sentiment), r);
  }

  /** A word the clouds keep: not a stopword, and two characters or more. */
  predicate NotStopped(w: string) {
    w !in Stopwords && |w| >= 2
  }

  /** The words of a list that are not stopwords and have two characters or more, in order
      and as often as the list has them. */
  function Unstopped(ws: seq<string>): (r: seq<string>)
    ensures forall w {:trigger w in r} {:trigger w in ws} :: w in r <==> w in ws && w !in Stopwords && |w| >= 2
    ensures forall w {:trigger Tally.Occurrences(r, w)} ::
      Tally.Occurrences(r, w) == if w !in Stopwords && |w| >= 2 then Tally.Occurrences(ws, w) else 0
  {
    Tally.FilterCount(NotStopped, ws);
    Seqs.Filter(NotStopped, ws)
  }

  /** `Unstopped` keeps order: the words of a longer list follow those of its prefix. */
  lemma UnstoppedConcat(a: seq<string>, b: seq<string>)
    ensures Unstopped(a + b) == Unstopped(a) + Unstopped(b)
  {
    Seqs.FilterConcat(NotStopped, a, b);
  }

  /** A word the clouds count: two to four Hangul syllables and not a stopword. */
  predicate CloudShaped(w: string) {
    Text.AllHangul(w) && 2 <= |w| <= 4 && w !in Stopwords
  }

  /** The two-to-four-syllable Hangul runs of the contents of the reviews of `sentiment`,
      joined by spaces. */
  function CloudRuns(reviews: seq<Words.Review>, sentiment: string): (runs: seq<string>)
    ensures forall k :: 0 <= k < |runs| ==> Text.AllHangul(runs[k]) && 2 <= |runs[k]| <= 4
  {
    Words.HangulRuns(Text.Join(" ", Words.Contents(WithSentiment(reviews, sentiment))), 2, 4)
  }

  /** The counted words: the runs without stopwords, in order and as often as the runs
      have them. */
  function CloudWords(reviews: seq<Words.Review>, sentiment: string): (ws: seq<string>)
    ensures forall w {:trigger w in ws} :: w in ws ==> CloudShaped(w)
    ensures forall w {:trigger w in ws} {:trigger w in CloudRuns(reviews, sentiment)} ::
      w in ws <==> w in CloudRuns(reviews, sentiment) && w !in Stopwords
    ensures forall w {:trigger Tally.Occurrences(ws, w)} ::
      Tally.Occurrences(ws, w) == if w !in Stopwords then Tally.Occurrences(CloudRuns(reviews, sentiment), w) else 0
  {
    var runs := CloudRuns(reviews, sentiment);
    var ws := Unstopped(runs);
    forall w | w in ws ensures CloudShaped(w) {
      assert w in runs;
    }
    forall w ensures Tally.Occurrences(ws, w) == if w !in Stopwords then Tally.Occurrences(runs, w) else 0 {
      if w !in runs {
        Tally.OccurrencesAbsent(runs, w);
      } else {
        var k :| 0 <= k < |runs| && runs[k] == w;
      }
    }
    ws
  }

  datatype WordCount = WordCount(text: string, frequency: nat)

  function AsWordCounts(es: seq<Tally.Entry<string>>): (ws: seq<WordCount>)
    ensures |ws| == |es|
    ensures forall i :: 0 <= i < |ws| ==> ws[i] == WordCount(es[i].key, es[i].count)
  {
    seq(|es|, i requires 0 <= i < |es| => WordCount(es[i].key, es[i].count))
  }

  /** The counted words most common first, at most `limit` of them; nothing without
      reviews of the sentiment. */
  function CloudTop(reviews: seq<Words.Review>, sentiment: string, limit: int): (es: seq<Tally.Entry<string>>)
    ensures |WithSentiment(reviews, sentiment)| == 0 ==> es == []
    ensures limit >= 0 ==> |es| <= limit
    ensures Tally.DistinctKeys(es) && Tally.Descending(es)
    ensures forall i :: 0 <= i < |es| ==>
      es[i].key in CloudWords(reviews, sentiment) && es[i].count == Tally.Occurrences(CloudWords(reviews, sentiment), es[i].key)
    ensures forall w :: w in CloudWords(reviews, sentiment) && w !in Tally.KeySet(es) ==>
      forall i :: 0 <= i < |es| ==> Tally.Occurrences(CloudWords(reviews, sentiment), w) <= es[i].count
    ensures |es| < limit ==> forall w :: w in CloudWords(reviews, sentiment) ==> w in Tally.KeySet(es)
  {
    if |WithSentiment(reviews, sentiment)| == 0 then [] else Tally.MostCommon(CloudWords(reviews, sentiment), limit)
  }

  /** Some word count is for `w`. */
  predicate Listed(ws: seq<WordCount>, w: string) {
    exists i :: 0 <= i < |ws| && ws[i].text == w
  }

  /** A word is among the word counts exactly when it is a key of the entries. */
  lemma WordCountsKeys(es: seq<Tally.Entry<string>>)
    ensures forall w :: w in Tally.KeySet(es) <==> Listed(AsWordCounts(es), w)
  {
    var ws := AsWordCounts(es);
    forall w | w in Tally.KeySet(es) ensures exists i :: 0 <= i < |ws| && ws[i].text == w {
      var i :| 0 <= i < |es| && es[i].key == w;
      assert ws[i].text == w;
    }
  }

  /** `extract_keywords_basic`: nothing without reviews of the sentiment; otherwise the up
      to `limit` most frequent counted words, most frequent first, each with its count. */
  function ExtractKeywordsBasic(reviews: seq<Words.Review>, sentiment: string, limit: int): (ws: seq<WordCount>)
    ensures |WithSentiment(reviews, sentiment)| == 0 ==> ws == []
    ensures limit >= 0 ==> |ws| <= limit
    ensures forall i :: 0 <= i < |ws| ==>
      CloudShaped(ws[i].text) && ws[i].text in CloudWords(reviews, sentiment) &&
      ws[i].frequency == Tally.Occurrences(CloudWords(reviews, sentiment), ws[i].text)
    ensures forall i, j :: 0 <= i < j < |ws| ==> ws[i].frequency >= ws[j].frequency && ws[i].text != ws[j].text
    ensures forall w :: w in CloudWords(reviews, sentiment) && !Listed(ws, w) ==>
      forall i :: 0 <= i < |ws| ==> Tally.Occurrences(CloudWords(reviews, sentiment), w) <= ws[i].frequency
    ensures |ws| < limit ==> forall w :: w in CloudWords(reviews, sentiment) ==> Listed(ws, w)
  {
    var top := CloudTop(reviews, sentiment, limit);
    WordCountsCut(CloudWords(reviews, sentiment), top, limit);
    AsWordCounts(top)
  }

  /** A cut that keeps the most frequent words, and all of them when it is short, keeps
      those properties as word counts. */
  lemma WordCountsCut(words: seq<string>, top: seq<Tally.Entry<string>>, limit: int)
    requires forall w :: w in words ==> CloudShaped(w)
    requires forall i :: 0 <= i < |top| ==> top[i].key in words && top[i].count == Tally.Occurrences(words, top[i].key)
    requires forall w :: w in words && w !in Tally.KeySet(top) ==>
      forall i :: 0 <= i < |top| ==> Tally.Occurrences(words, w) <= top[i].count
    requires |top| < limit ==> forall w :: w in words ==> w in Tally.KeySet(top)
    ensures var ws := AsWordCounts(top);
      (forall i :: 0 <= i < |ws| ==> CloudShaped(ws[i].text) && ws[i].text in words) &&
      (forall w :: w in words && !Listed(ws, w) ==>
        forall i :: 0 <= i < |ws| ==> Tally.Occurrences(words, w) <= ws[i].frequency) &&
      (|ws| < limit ==> forall w :: w in words ==> Listed(ws, w))
  {
    var ws := AsWordCounts(top);
    forall i | 0 <= i < |ws| ensures CloudShaped(ws[i].text) && ws[i].text in words {
      assert ws[i].text == top[i].key;
    }
    WordCountsKeys(top);
  }

  // ---------------------------------------------------------------------------
  // HEART insights
  // ---------------------------------------------------------------------------

  datatype Insight = Insight(category: string, summary: string, benchmark: string, suggestions: seq<string>, priority: string)

  const TaskSuccess := Insight("Task Success",
    "앱 성능 및 속도 관련 불만이 지속적으로 제기되고 있습니다.",
    "카카오톡, 라인 등 메신저 앱의 빠른 반응속도와 비교하여 개선이 필요합니다.",
    ["앱 로딩 시간 단축을 위한 성능 최적화", "사용자에게 로딩 상태를 명확히 표시하는 프로그레스 바 추가"],
    "critical")

  const Adoption := Insight("Adoption",
    "UI/UX 복잡성으로 인한 사용성 문제가 발견됩니다.",
    "네이버 라인, 페이스북 메신저의 직관적인 인터페이스를 참고한 개선이 필요합니다.",
    ["주요 기능 접근성 향상을 위한 내비게이션 단순화", "사용자 가이드 및 온보딩 프로세스 개선"],
    "major")

  const Happiness := Insight("Happiness",
    "앱 사용 중 발생하는 기술적 문제들이 사용자 만족도를 저하시키고 있습니다.",
    "텔레그램, 왓츠앱의 안정적인 서비스 품질을 벤치마크하여 개선해야 합니다.",
    ["오류 발생 시 사용자 친화적인 에러 메시지 제공", "문제 해결을 위한 즉시 지원 기능 추가"],
    "critical")

  const Engagement := Insight("Engagement",
    "사용자 피드백을 통해 전반적인 사용 경험 개선이 필요한 상황입니다.",
    "주요 통신 앱들의 사용자 중심적 설계를 참고하여 개선점을 도출해야 합니다.",
    ["사용자 피드백 수집 시스템 강화", "개인화된 사용자 경험 제공"],
    "minor")

  /** The contents of the negative reviews joined by spaces. */
  function NegativeText(reviews: seq<Words.Review>): string {
    Text.Join(" ", Words.Contents(WithSentiment(reviews, Negative)))
  }

  predicate SlowTrigger(t: string) { Text.In("느림", t) || Text.In("속도", t) }
  predicate HardTrigger(t: string) { Text.In("복잡", t) || Text.In("어려", t) }
  predicate FaultTrigger(t: string) { Text.In("문제", t) || Text.In("오류", t) }

  /** `generate_heart_insights_basic`: nothing for fewer than three negative reviews;
      otherwise the performance, complexity and fault insights whose triggers occur, in
      that order, or the engagement insight alone when none does. */
  function HeartInsightsBasic(reviews: seq<Words.Review>): (ins: seq<Insight>)
    ensures |WithSentiment(reviews, Negative)| < 3 <==> |ins| == 0
    ensures |ins| <= 3
    ensures |WithSentiment(reviews, Negative)| >= 3 ==>
      var t := NegativeText(reviews);
      (TaskSuccess in ins <==> SlowTrigger(t)) &&
      (Adoption in ins <==> HardTrigger(t)) &&
      (Happiness in ins <==> FaultTrigger(t)) &&
      (Engagement in ins <==> !SlowTrigger(t) && !HardTrigger(t) && !FaultTrigger(t)) &&
      (Engagement in ins ==> ins == [Engagement])
    ensures forall i, j :: 0 <= i < j < |ins| ==> Rank(ins[i]) < Rank(ins[j])
    ensures forall i :: 0 <= i < |ins| ==>
      ins[i] == TaskSuccess || ins[i] == Adoption || ins[i] == Happiness || ins[i] == Engagement
  {
    if |WithSentiment(reviews, Negative)| < 3 then []
    else
      var found := Triggered(NegativeText(reviews));
      if |found| == 0 then [Engagement] else found
  }

  /** The performance, complexity and fault insights whose triggers occur in `t`, in
      that order. */
  function Triggered(t: string): (found: seq<Insight>)
    ensures |found| <= 3 && Engagement !in found
    ensures TaskSuccess in found <==> SlowTrigger(t)
    ensures Adoption in found <==> HardTrigger(t)
    ensures Happiness in found <==> FaultTrigger(t)
    ensures forall i, j :: 0 <= i < j < |found| ==> Rank(found[i]) < Rank(found[j])
    ensures forall i :: 0 <= i < |found| ==> found[i] == TaskSuccess || found[i] == Adoption || found[i] == Happiness
  {
    Emitted(SlowTrigger(t), HardTrigger(t), FaultTrigger(t))
  }

  /** The performance, complexity and fault insights whose flags are set, in that order. */
  function Emitted(slow: bool, hard: bool, fault: bool): (found: seq<Insight>)
    ensures |found| <= 3 && Engagement !in found
    ensures TaskSuccess in found <==> slow
    ensures Adoption in found <==> hard
    ensures Happiness in found <==> fault
    ensures forall i, j :: 0 <= i < j < |found| ==> Rank(found[i]) < Rank(found[j])
    ensures forall i :: 0 <= i < |found| ==> found[i] == TaskSuccess || found[i] == Adoption || found[i] == Happiness
  {
    var a := if slow then [TaskSuccess] else [];
    var b := if hard then [Adoption] else [];
    var c := if fault then [Happiness] else [];
    InsightRanks();
    Picked(TaskSuccess, Adoption, Happiness, slow, hard, fault, a + b + c);
    PickedInOrder(Rank, TaskSuccess, Adoption, Happiness, slow, hard, fault, a + b + c);
    a + b + c
  }

  /** Three distinct values, each kept when its flag is set: each is present exactly when
      its flag is, and nothing else is. */
  lemma Picked<T>(x: T, y: T, z: T, p: bool, q: bool, r: bool, found: seq<T>)
    requires x != y && x != z && y != z
    requires found == (if p then [x] else []) + (if q then [y] else []) + (if r then [z] else [])
    ensures x in found <==> p
    ensures y in found <==> q
    ensures z in found <==> r
    ensures forall i :: 0 <= i < |found| ==> found[i] == x || found[i] == y || found[i] == z
  {
    var a := if p then [x] else [];
    var b := if q then [y] else [];
    var c := if r then [z] else [];
    forall i | 0 <= i < |found| ensures found[i] == x || found[i] == y || found[i] == z {
      if i < |a| {
        assert found[i] == a[i];
      } else if i < |a| + |b| {
        assert found[i] == b[i - |a|];
      } else {
        assert found[i] == c[i - |a| - |b|];
      }
    }
  }

  /** Three values of increasing rank, each kept when its flag is set, come out in rank
      order. */
  lemma PickedInOrder<T>(rank: T -> nat, x: T, y: T, z: T, p: bool, q: bool, r: bool, found: seq<T>)
    requires rank(x) < rank(y) < rank(z)
    requires found == (if p then [x] else []) + (if q then [y] else []) + (if r then [z] else [])
    ensures forall i, j :: 0 <= i < j < |found| ==> rank(found[i]) < rank(found[j])
  {
    var a := if p then [x] else [];
    var b := if q then [y] else [];
    var c := if r then [z] else [];
    assert forall i :: 0 <= i < |a| ==> a[i] == x;
    assert forall i :: 0 <= i < |b| ==> b[i] == y;
    assert forall i :: 0 <= i < |c| ==> c[i] == z;
    RankedConcat(rank, a, b);
    assert forall i :: 0 <= i < |a + b| ==> rank((a + b)[i]) < rank(z);
    RankedConcat(rank, a + b, c);
  }

  /** The place of an insight in the emitted order. */
  function Rank(i: Insight): nat {
    if i == TaskSuccess then 0 else if i == Adoption then 1 else if i == Happiness then 2 else 3
  }

  /** The four insights are distinct, ranked in the order they are emitted. */
  lemma InsightRanks()
    ensures TaskSuccess != Adoption && TaskSuccess != Happiness && TaskSuccess != Engagement
    ensures Adoption != Happiness && Adoption != Engagement && Happiness != Engagement
    ensures Rank(TaskSuccess) == 0 && Rank(Adoption) == 1 && Rank(Happiness) == 2 && Rank(Engagement) == 3
  {
    assert Adoption.category != TaskSuccess.category;
    assert Happiness.category != TaskSuccess.category && Happiness.category != Adoption.category;
    assert Engagement.category != TaskSuccess.category && Engagement.category != Adoption.category;
    assert Engagement.category != Happiness.category;
  }

  /** Two lists each in rank order, all of the first ranked before all of the second,
      are in rank order together. */
  lemma RankedConcat<T>(rank: T -> nat, x: seq<T>, y: seq<T>)
    requires forall i, j :: 0 <= i < j < |x| ==> rank(x[i]) < rank(x[j])
    requires forall i, j :: 0 <= i < j < |y| ==> rank(y[i]) < rank(y[j])
    requires forall i, j :: 0 <= i < |x| && 0 <= j < |y| ==> rank(x[i]) < rank(y[j])
    ensures forall i, j :: 0 <= i < j < |x + y| ==> rank((x + y)[i]) < rank((x + y)[j])
  {
    forall i, j | 0 <= i < j < |x + y| ensures rank((x + y)[i]) < rank((x + y)[j]) {
      if j < |x| {
      } else if i < |x| {
        assert rank(x[i]) < rank(y[j - |x|]);
      } else {
        assert rank(y[i - |x|]) < rank(y[j - |x|]);
      }
    }
  }

  /** A slowness complaint in any one negative review brings the performance insight. */
  lemma SlowReviewBringsTaskSuccess(reviews: seq<Words.Review>, k: nat)
    requires |WithSentiment(reviews, Negative)| >= 3
    requires k < |reviews| && reviews[k].sentiment == Negative && Text.In("느림", reviews[k].content)
    ensures TaskSuccess in HeartInsightsBasic(reviews)
  {
    var negs := WithSentiment(reviews, Negative);
    assert reviews[k] in negs;
    var j :| 0 <= j < |negs| && negs[j] == reviews[k];
    Text.JoinContains(" ", Words.Contents(negs), j, "느림");
  }

  // ---------------------------------------------------------------------------
  // The requested analyses
  // ---------------------------------------------------------------------------

  datatype WordCloud = WordCloud(positive: seq<WordCount>, negative: seq<WordCount>)
  datatype Output = Output(wordCloud: Option<WordCloud>, insights: Option<seq<Insight>>)

  /** What `main` writes for an analysis type, after relabelling: the word clouds for
      "wordcloud" and "full", the insights for "heart" and "full". */
  function Analyze(reviews: seq<Words.Review>, analysisType: string): (o: Output)
    ensures o.wordCloud.Some? <==> analysisType == "wordcloud" || analysisType == "full"
    ensures o.insights.Some? <==> analysisType == "heart" || analysisType == "full"
    ensures o.wordCloud.Some? ==>
      o.wordCloud.value == WordCloud(ExtractKeywordsBasic(Relabel(reviews), Positive, 10), ExtractKeywordsBasic(Relabel(reviews), Negative, 10))
    ensures o.insights.Some? ==> o.insights.value == HeartInsightsBasic(Relabel(reviews))
  {
    var rs := Relabel(reviews);
    Output(
      if analysisType == "wordcloud" || analysisType == "full" then
        Some(WordCloud(ExtractKeywordsBasic(rs, Positive, 10), ExtractKeywordsBasic(rs, Negative, 10)))
      else None,
      if analysisType == "heart" || analysisType == "full" then Some(HeartInsightsBasic(rs)) else None)
  }
}

=== FILE: heart.dfy ===
/** The HEART framework analysis of `heart_analysis_python.py` (the copy under `server/`
    is identical): reviews are sorted into the five HEART categories by keyword, each
    non-empty category is handed to a language model, and the answer is turned into an
    insight with a priority tier and a one-line summary. The language model is an oracle
    parameter. */
module Heart {
  import opened Wrappers
  import Text
  import Seqs

  // ---------------------------------------------------------------------------
  // Categories
  // ---------------------------------------------------------------------------

  /** The five category keys, in the order the analysis visits them. */
  const Categories: seq<string> := ["Happiness", "Engagement", "Adoption", "Retention", "Task Success"]

  /** The keywords of each category, indexed like `Categories`. */
  const Keywords: seq<seq<string>> := [
    ["좋아요", "만족", "예쁘다", "좋네요", "훌륭", "완벽", "최고", "감사", "행복"],
    ["자주", "계속", "매일", "습관", "재미", "흥미", "몰입", "빠져들"],
    ["처음", "시작", "가입", "설치", "온보딩", "첫", "초기", "어려워"],
    ["다시", "재방문", "돌아", "계속", "지속", "유지", "꾸준", "알림"],
    ["완료", "성공", "달성", "해결", "찾기", "기능", "작업", "오류", "버그", "실패"]]

  /** The index of a category key among `Categories`, or 5 for any other string. */
  function Position(cat: string): (p: nat)
    ensures p <= 5
    ensures forall d :: 0 <= d < 5 ==> (cat == Categories[d] <==> p == d)
  {
    if cat == "Happiness" then 0
    else if cat == "Engagement" then 1
    else if cat == "Adoption" then 2
    else if cat == "Retention" then 3
    else if cat == "Task Success" then 4
    else 5
  }

  /** A review as the analysis reads it: only its content. A review without content reads
      as the empty text, which matches no keyword. */
  datatype Review = Review(content: string)

  /** Whether a review's text names a keyword of category `c`, after lower-casing. */
  predicate Matches(content: string, c: nat)
    requires c < 5
  {
    Text.ContainsAny(Text.Lower(content), Keywords[c])
  }

  /** The contents filed under category `c`, in input order: the reference reading of
      the categorisation, one category at a time. Every filed content matches the
      category; `SelectMember` states the converse, that each matching review is filed. */
  function Select(reviews: seq<Review>, c: nat): (r: seq<string>)
    requires c < 5
    ensures |r| <= |reviews|
    ensures forall i :: 0 <= i < |r| ==> Matches(r[i], c)
  {
    if |reviews| == 0 then []
    else
      var last := reviews[|reviews| - 1];
      Select(reviews[..|reviews| - 1], c) + (if Matches(last.content, c) then [last.content] else [])
  }

  /** The last review is filed after the others, when it matches. */
  lemma SelectLast(reviews: seq<Review>, c: nat, s: string)
    requires c < 5 && |reviews| > 0
    ensures s in Select(reviews, c) <==>
      s in Select(reviews[..|reviews| - 1], c) || (Matches(reviews[|reviews| - 1].content, c) && s == reviews[|reviews| - 1].content)
  {
    var last := reviews[|reviews| - 1];
    assert Select(reviews, c) == Select(reviews[..|reviews| - 1], c) + (if Matches(last.content, c) then [last.content] else []);
  }

  /** A content is filed under a category exactly when some review with that content
      names one of the category's keywords. */
  lemma {:induction false} SelectMember(reviews: seq<Review>, c: nat, s: string)
    requires c < 5
    ensures s in Select(reviews, c) <==>
      exists j :: 0 <= j < |reviews| && reviews[j].content == s && Matches(s, c)
  {
    if |reviews| > 0 {
      var init := reviews[..|reviews| - 1];
      var last := reviews[|reviews| - 1];
      SelectMember(init, c, s);
      SelectLast(reviews, c, s);
      if s in Select(init, c) {
        var j :| 0 <= j < |init| && init[j].content == s && Matches(s, c);
        assert reviews[j] == init[j];
      } else if Matches(last.content, c) && s == last.content {
        assert reviews[|reviews| - 1].content == s;
      } else {
        forall j | 0 <= j < |reviews| && reviews[j].content == s ensures !Matches(s, c) {
          if j < |init| { assert init[j] == reviews[j]; }
        }
      }
    }
  }

  /** Filing keeps input order: the reviews of a longer list are filed after those of
      its prefix, and each review is filed at most once per category. */
  lemma {:induction false} SelectConcat(a: seq<Review>, b: seq<Review>, c: nat)
    requires c < 5
    ensures Select(a + b, c) == Select(a, c) + Select(b, c)
  {
    if |b| > 0 {
      var init := b[..|b| - 1];
      SelectConcat(a, init, c);
      assert (a + b)[..|a + b| - 1] == a + init;
      assert (a + b)[|a + b| - 1] == b[|b| - 1];
    } else {
      assert a + b == a;
    }
  }

  /** One review is filed once under each category it matches and nowhere else. */
  lemma SelectOne(r: Review, c: nat)
    requires c < 5
    ensures Select([r], c) == if Matches(r.content, c) then [r.content] else []
  {
    assert [r][..0] == [];
  }

  /** A review mentioning 계속 is filed under both Engagement and Retention. */
  lemma ContinuingLandsTwice(r: Review)
    requires Text.In("계속", Text.Lower(r.content))
    ensures Select([r], 1) == [r.content] && Select([r], 3) == [r.content]
  {
    assert Keywords[1][1] == "계속" && Keywords[3][3] == "계속";
    Text.ContainsAnyWitness(Text.Lower(r.content), Keywords[1], 1);
    Text.ContainsAnyWitness(Text.Lower(r.content), Keywords[3], 3);
    SelectOne(r, 1);
    SelectOne(r, 3);
  }

  /** Filing one more review extends each category by that review or by nothing. */
  lemma SelectStep(reviews: seq<Review>, i: nat, c: nat)
    requires i < |reviews| && c < 5
    ensures Select(reviews[..i + 1], c) ==
      Select(reviews[..i], c) + (if Matches(reviews[i].content, c) then [reviews[i].content] else [])
  {
    assert reviews[..i + 1] == reviews[..i] + [reviews[i]];
    SelectConcat(reviews[..i], [reviews[i]], c);
    SelectOne(reviews[i], c);
  }

  /** One entry of the categorised dictionary. */
  datatype Bucket = Bucket(category: string, reviews: seq<string>)

  /** `categorize_reviews_by_heart`: every review is appended, with its original content,
      to each category whose keyword it names. The result always has the five keys. */
  method Categorize(reviews: seq<Review>) returns (buckets: seq<Bucket>)
    ensures |buckets| == 5
    ensures forall c :: 0 <= c < 5 ==> buckets[c].category == Categories[c]
    ensures forall c :: 0 <= c < 5 ==> buckets[c].reviews == Select(reviews, c)
  {
    buckets := [Bucket(Categories[0], []), Bucket(Categories[1], []), Bucket(Categories[2], []),
                Bucket(Categories[3], []), Bucket(Categories[4], [])];
    var i := 0;
    while i < |reviews|
      invariant 0 <= i <= |reviews|
      invariant |buckets| == 5
      invariant forall c :: 0 <= c < 5 ==> buckets[c] == Bucket(Categories[c], Select(reviews[..i], c))
    {
      var content := reviews[i].content;
      forall c | 0 <= c < 5
        ensures Select(reviews[..i + 1], c) == Select(reviews[..i], c) + (if Matches(content, c) then [content] else [])
      {
        SelectStep(reviews, i, c);
      }
      buckets := seq(5, c requires 0 <= c < 5 =>
        Bucket(Categories[c], buckets[c].reviews + (if Matches(content, c) then [content] else [])));
      i := i + 1;
    }
    assert reviews[..|reviews|] == reviews;
  }

  // ---------------------------------------------------------------------------
  // The per-category analysis
  // ---------------------------------------------------------------------------

  /** The answer for a category with no reviews; no model is asked. */
  function NoReviews(key: string): string {
    "HEART: " + key + " | 분석할 리뷰가 없습니다."
  }

  /** The answer when the model call fails. */
  function Failed(key: string): string {
    "HEART: " + key + " | 분석 생성 중 오류가 발생했습니다."
  }

  const Separator := "\"\n- \""

  /** The user prompt: the category key and at most the first ten reviews, quoted one
      per line. */
  function Prompt(key: string, reviews: seq<string>): (p: string)
    ensures forall k :: 0 <= k < |reviews| && k < 10 ==> Text.In(reviews[k], p)
  {
    var head := "다음은 HEART: " + key + " 관련 사용자 리뷰입니다:\n- \"";
    var body := Text.Join(Separator, Seqs.Take(reviews, 10));
    var tail := "\"\n\n위 리뷰를 기반으로 전문가처럼 HEART 분석을 작성해주세요.";
    assert forall k :: 0 <= k < |reviews| && k < 10 ==> Text.In(reviews[k], head + body + tail) by {
      forall k | 0 <= k < |reviews| && k < 10
        ensures Text.In(reviews[k], head + body + tail)
      {
        var shown := Seqs.Take(reviews, 10);
        assert shown[k] == reviews[k];
        assert Text.OccursAt(reviews[k], reviews[k], 0);
        Text.JoinContains(Separator, shown, k, reviews[k]);
        Text.ContainsInConcat(head, body, reviews[k]);
        Text.ContainsInConcat(head + body, tail, reviews[k]);
      }
    }
    head + body + tail
  }

  /** Reviews after the tenth never reach the model. */
  lemma PromptSeesFirstTen(key: string, a: seq<string>, b: seq<string>)
    requires Seqs.Take(a, 10) == Seqs.Take(b, 10)
    ensures Prompt(key, a) == Prompt(key, b)
  {
  }

  /** `generate_heart_analysis`. `model` stands for the chat-completion call: it is given
      the user prompt and answers with a text, or `None` when the call raises. */
  function Analysis(key: string, reviews: seq<string>, model: string -> Option<string>): (text: string)
    ensures |reviews| == 0 ==> text == NoReviews(key)
    ensures |reviews| > 0 && model(Prompt(key, reviews)).None? ==> text == Failed(key)
    ensures |reviews| > 0 && model(Prompt(key, reviews)).Some? ==> text == model(Prompt(key, reviews)).value
  {
    if |reviews| == 0 then NoReviews(key)
    else
      match model(Prompt(key, reviews))
      case None => Failed(key)
      case Some(answer) => answer
  }

  /** With no reviews the answer is fixed, whatever the model would have said. */
  lemma EmptyNeedsNoModel(key: string, m1: string -> Option<string>, m2: string -> Option<string>)
    ensures Analysis(key, [], m1) == Analysis(key, [], m2) == NoReviews(key)
  {
  }

  // ---------------------------------------------------------------------------
  // Priority and summary
  // ---------------------------------------------------------------------------

  datatype Priority = Critical | Major | Minor {
    function Name(): string {
      match this
      case Critical => "critical"
      case Major => "major"
      case Minor => "minor"
    }

    /** Higher is more urgent. */
    function Level(): nat {
      match this
      case Critical => 2
      case Major => 1
      case Minor => 0
    }
  }

  const CriticalWords: seq<string> := ["치명적", "심각", "이탈", "중단"]
  const MajorWords: seq<string> := ["불편", "문제", "오류", "실패"]

  /** The priority tier of an analysis text: critical words first, then major words. */
  function Classify(text: string): (p: Priority)
    ensures p == Critical <==> Text.ContainsAny(Text.Lower(text), CriticalWords)
    ensures p == Major <==>
      !Text.ContainsAny(Text.Lower(text), CriticalWords) && Text.ContainsAny(Text.Lower(text), MajorWords)
  {
    var t := Text.Lower(text);
    if Text.ContainsAny(t, CriticalWords) then Critical
    else if Text.ContainsAny(t, MajorWords) then Major
    else Minor
  }

  lemma LowerConcat(a: string, b: string)
    ensures Text.Lower(a + b) == Text.Lower(a) + Text.Lower(b)
  {
  }

  /** A listed word present in a text is present in any extension of it. */
  lemma ContainsAnyExtends(a: string, b: string, subs: seq<string>)
    requires Text.ContainsAny(a, subs)
    ensures Text.ContainsAny(a + b, subs)
  {
    var k :| 0 <= k < |subs| && Text.In(subs[k], a);
    Text.ContainsInConcat(a, b, subs[k]);
    Text.ContainsAnyWitness(a + b, subs, k);
  }

  /** More text never lowers the priority. */
  lemma {:induction false} PriorityOnlyRises(a: string, b: string)
    ensures Classify(a).Level() <= Classify(a + b).Level()
  {
    LowerConcat(a, b);
    if Text.ContainsAny(Text.Lower(a), CriticalWords) {
      ContainsAnyExtends(Text.Lower(a), Text.Lower(b), CriticalWords);
    }
    if Text.ContainsAny(Text.Lower(a), MajorWords) {
      ContainsAnyExtends(Text.Lower(a), Text.Lower(b), MajorWords);
    }
  }

  /** The index of the first newline at or after `i`, or the length when there is none. */
  function LineEnd(s: string, i: nat): (e: nat)
    requires i <= |s|
    ensures i <= e <= |s|
    ensures forall k :: i <= k < e ==> s[k] != '\n'
    ensures e < |s| ==> s[e] == '\n'
    decreases |s| - i
  {
    if i == |s| || s[i] == '\n' then i else LineEnd(s, i + 1)
  }

  /** `problem_summary`: the first line when the text has a newline, otherwise its first
      200 characters. */
  function Summary(text: string): (s: string)
    ensures |s| <= |text| && s == text[..|s|]
    ensures '\n' !in s
    ensures '\n' in text ==> |s| < |text| && text[|s|] == '\n'
    ensures '\n' !in text ==> |s| == Seqs.Min(200, |text|)
  {
    var e := LineEnd(text, 0);
    if e < |text| then text[..e] else Text.Prefix(text, 200)
  }

  /** The scan stops at the first newline it meets. */
  lemma {:induction false} LineEndAt(s: string, i: nat, e: nat)
    requires i <= e < |s| && s[e] == '\n'
    requires forall k :: i <= k < e ==> s[k] != '\n'
    ensures LineEnd(s, i) == e
    decreases e - i
  {
    if i < e {
      LineEndAt(s, i + 1, e);
    }
  }

  /** A newline-free first line is recovered exactly, whatever follows it. */
  lemma SummaryOfLines(first: string, rest: string)
    requires '\n' !in first
    ensures Summary(first + "\n" + rest) == first
  {
    var t := first + "\n" + rest;
    assert forall k :: 0 <= k < |first| ==> t[k] == first[k];
    LineEndAt(t, 0, |first|);
    assert t[..|first|] == first;
  }

  // ---------------------------------------------------------------------------
  // The comprehensive analysis
  // ---------------------------------------------------------------------------

  datatype Insight = Insight(title: string, priority: string, problemSummary: string,
                             uxSuggestions: string, heartCategory: string)

  /** The insight built for category `c` from the contents filed under it. */
  function InsightFor(c: nat, reviews: seq<Review>, model: string -> Option<string>): (ins: Insight)
    requires c < 5
    ensures ins.heartCategory == Categories[c]
    ensures ins.title == "HEART: " + Categories[c] + " | UX 분석"
    ensures ins.uxSuggestions == Analysis(Categories[c], Select(reviews, c), model)
    ensures ins.priority == Classify(ins.uxSuggestions).Name()
    ensures ins.problemSummary == Summary(ins.uxSuggestions)
  {
    var text := Analysis(Categories[c], Select(reviews, c), model);
    Insight("HEART: " + Categories[c] + " | UX 분석", Classify(text).Name(), Summary(text), text, Categories[c])
  }

  /** The categories from `c` on that received a review, in category order. */
  function Present(reviews: seq<Review>, c: nat): (ds: seq<nat>)
    requires c <= 5
    ensures |ds| <= 5 - c
    ensures forall i :: 0 <= i < |ds| ==> c <= ds[i] < 5 && |Select(reviews, ds[i])| > 0
    ensures forall i, j :: 0 <= i < j < |ds| ==> ds[i] < ds[j]
    decreases 5 - c
  {
    if c == 5 then []
    else if |Select(reviews, c)| > 0 then [c] + Present(reviews, c + 1)
    else Present(reviews, c + 1)
  }

  /** Every category from `c` on that received a review is listed. */
  lemma {:induction false} PresentCovers(reviews: seq<Review>, c: nat, d: nat)
    requires c <= d < 5 && |Select(reviews, d)| > 0
    ensures d in Present(reviews, c)
    decreases 5 - c
  {
    var rest := Present(reviews, c + 1);
    if d == c {
      assert Present(reviews, c) == [c] + rest;
    } else {
      PresentCovers(reviews, c + 1, d);
      assert Present(reviews, c) == rest || Present(reviews, c) == [c] + rest;
    }
  }

  /** `analyze_heart_framework_comprehensive`: one insight per category that received a
      review, in category order, and none for an empty input. */
  function Comprehensive(reviews: seq<Review>, model: string -> Option<string>): (r: seq<Insight>)
    ensures |reviews| == 0 ==> r == []
    ensures |r| <= 5
    ensures forall i :: 0 <= i < |r| ==>
      var d := Position(r[i].heartCategory);
      d < 5 && |Select(reviews, d)| > 0 && r[i] == InsightFor(d, reviews, model)
    ensures forall i, j :: 0 <= i < j < |r| ==> Position(r[i].heartCategory) < Position(r[j].heartCategory)
    ensures forall d :: 0 <= d < 5 ==>
      (|Select(reviews, d)| > 0 <==> exists i :: 0 <= i < |r| && r[i].heartCategory == Categories[d])
  {
    if |reviews| == 0 then []
    else
      var r := InsightsOf(reviews, Present(reviews, 0), model);
      assert forall d :: 0 <= d < 5 && |Select(reviews, d)| > 0 ==>
        exists i :: 0 <= i < |r| && r[i].heartCategory == Categories[d] by {
        forall d | 0 <= d < 5 && |Select(reviews, d)| > 0
          ensures exists i :: 0 <= i < |r| && r[i].heartCategory == Categories[d]
        {
          InsightsCover(reviews, model, d);
        }
      }
      r
  }

  /** The insights of the categories `ds`, in order. */
  function InsightsOf(reviews: seq<Review>, ds: seq<nat>, model: string -> Option<string>): (r: seq<Insight>)
    requires forall i :: 0 <= i < |ds| ==> ds[i] < 5
    ensures |r| == |ds|
    ensures forall i :: 0 <= i < |r| ==> r[i] == InsightFor(ds[i], reviews, model) && Position(r[i].heartCategory) == ds[i]
  {
    seq(|ds|, i requires 0 <= i < |ds| => InsightFor(ds[i], reviews, model))
  }

  /** A category that received a review has its insight among those of the present
      categories. */
  lemma InsightsCover(reviews: seq<Review>, model: string -> Option<string>, d: nat)
    requires d < 5 && |Select(reviews, d)| > 0
    ensures exists i :: (0 <= i < |InsightsOf(reviews, Present(reviews, 0), model)| &&
                         InsightsOf(reviews, Present(reviews, 0), model)[i].heartCategory == Categories[d])
  {
    var ds := Present(reviews, 0);
    PresentCovers(reviews, 0, d);
    var i :| 0 <= i < |ds| && ds[i] == d;
    assert InsightsOf(reviews, ds, model)[i].heartCategory == Categories[d];
  }

  /** The early return for an empty input agrees with the general rule: no review is
      filed anywhere, so no category would yield an insight. */
  lemma EmptyGuardAgrees(model: string -> Option<string>)
    ensures Comprehensive([], model) == [] && Present([], 0) == []
  {
    assert forall d :: 0 <= d < 5 ==> Select([], d) == [];
  }
}

=== FILE: keyword_analysis.dfy ===
/** The keyword network of `server/keyword_network_analysis.py`: keyword frequencies
    from Hangul runs, co-occurrence of keywords within a window, the frequency-chunk
    clusters used without NetworkX, cluster labels, and the node data for display.
    Community detection, the cluster-label service and the PMI edges are not modelled:
    the clusters and labels are parameters and the edge list is left out. */
module KeywordAnalysis {
  import opened Wrappers
  import Text
  import Seqs
  import Tally
  import Words
  import Arith

  // ---------------------------------------------------------------------------
  // Keywords
  // ---------------------------------------------------------------------------

  const Stopwords: seq<string> := [
    "익시오", "앱", "어플", "애플리케이션", "유플러스", "LG", "LGU", "U+",
    "사용", "사용자", "좋다", "나쁘다", "괜찮다", "별로", "그냥", "정말",
    "너무", "조금", "많이", "아주", "가끔", "항상", "때문", "이제", "지금",
    "이번", "다음", "처음", "마지막", "하지만", "그래서", "그리고", "또한",
    "수", "있다", "없다", "된다", "한다", "같다", "다르다", "것", "거", "게",
    "서비스", "기능", "시스템", "개발", "업데이트", "버전", "설정", "화면",
    "메뉴", "버튼", "클릭", "터치", "선택", "입력", "출력", "실행", "종료"]

  const MeaningfulWords: seq<string> := [
    "통화", "전화", "연결", "끊김", "끊어", "수신", "발신", "벨소리",
    "기능", "녹음", "음성", "소리", "볼륨", "알림", "메시지", "문자",
    "품질", "속도", "느림", "빠름", "안정", "불안", "깨끗", "선명",
    "오류", "버그", "문제", "에러", "실패", "작동", "멈춤", "충돌",
    "편리", "불편", "쉬움", "어려", "복잡", "간단", "직관", "사용",
    "만족", "불만", "좋음", "나쁨", "훌륭", "최고", "최악", "답답",
    "스트레스", "도움", "유용", "쓸모", "필요", "개선", "수정",
    "화면", "버튼", "메뉴", "설정", "디자인", "인터페이스", "레이아웃",
    "지연", "반응", "처리", "로딩", "시간", "대기"]

  /** One of the listed words is part of `w`, or `w` is part of one of them. */
  predicate Related(w: string, words: seq<string>) {
    exists k :: 0 <= k < |words| && (Text.In(words[k], w) || Text.In(w, words[k]))
  }

  function AnyRelated(w: string, words: seq<string>): (b: bool)
    ensures b <==> Related(w, words)
  {
    if |words| == 0 then false
    else
      assert forall k :: 1 <= k < |words| ==> words[1..][k - 1] == words[k];
      assert Related(w, words) <==> Text.In(words[0], w) || Text.In(w, words[0]) || Related(w, words[1..]) by {
        if Related(w, words[1..]) {
          var k :| 0 <= k < |words[1..]| && (Text.In(words[1..][k], w) || Text.In(w, words[1..][k]));
          assert words[k + 1] == words[1..][k];
        }
      }
      Text.In(words[0], w) || Text.In(w, words[0]) || AnyRelated(w, words[1..])
  }

  /** `is_meaningful_keyword`: two to six characters, not all digits, and either related
      to a listed word or made of Hangul syllables only. */
  function IsMeaningful(w: string): (b: bool)
    ensures b <==> 2 <= |w| <= 6 && !Text.IsAllDigits(w) && (Related(w, MeaningfulWords) || Text.AllHangul(w))
  {
    if |w| < 2 || |w| > 6 then false
    else if Text.IsAllDigits(w) then false
    else if w in MeaningfulWords then
      var k :| 0 <= k < |MeaningfulWords| && MeaningfulWords[k] == w;
      assert Text.OccursAt(w, w, 0);
      true
    else if AnyRelated(w, MeaningfulWords) then true
    else Text.AllHangul(w)
  }

  /** Every Hangul run of two to six syllables passes the test, so on the words it is
      given the test rejects nothing. */
  lemma RunsAreMeaningful(w: string)
    requires Text.AllHangul(w) && 2 <= |w| <= 6
    ensures IsMeaningful(w)
  {
    assert !Text.IsDigit(w[0]);
  }

  /** The words of one review that count: each Hangul run of two to six syllables that is
      not a stopword, as often as the text has it. */
  function ReviewWords(content: string): (ws: seq<string>)
    ensures forall k :: 0 <= k < |ws| ==> Text.AllHangul(ws[k]) && 2 <= |ws[k]| <= 6 && ws[k] !in Stopwords
    ensures forall w :: w in ws <==> w in Words.HangulRuns(content, 2, 6) && w !in Stopwords
    ensures forall w {:trigger Tally.Occurrences(ws, w)} ::
      Tally.Occurrences(ws, w) == if w !in Stopwords then Tally.Occurrences(Words.HangulRuns(content, 2, 6), w) else 0
  {
    Filter(Words.HangulRuns(content, 2, 6))
  }

  /** A word that is counted: not a stopword, and meaningful. */
  predicate IsCounted(w: string) {
    w !in Stopwords && IsMeaningful(w)
  }

  /** The stopword and meaningfulness tests over a list of runs, keeping order and repeats. */
  function Filter(runs: seq<string>): (ws: seq<string>)
    requires forall k :: 0 <= k < |runs| ==> Text.AllHangul(runs[k]) && 2 <= |runs[k]| <= 6
    ensures forall k :: 0 <= k < |ws| ==> Text.AllHangul(ws[k]) && 2 <= |ws[k]| <= 6 && ws[k] !in Stopwords
    ensures forall w :: w in ws <==> w in runs && w !in Stopwords
    ensures forall w {:trigger Tally.Occurrences(ws, w)} :: Tally.Occurrences(ws, w) == if w !in Stopwords then Tally.Occurrences(runs, w) else 0
  {
    forall w | w in runs ensures IsMeaningful(w) {
      var k :| 0 <= k < |runs| && runs[k] == w;
      RunsAreMeaningful(w);
    }
    Tally.FilterCount(IsCounted, runs);
    var ws := Seqs.Filter(IsCounted, runs);
    forall w ensures Tally.Occurrences(ws, w) == if w !in Stopwords then Tally.Occurrences(runs, w) else 0 {
      if w !in runs {
        Tally.OccurrencesAbsent(runs, w);
      }
    }
    forall k | 0 <= k < |ws| ensures Text.AllHangul(ws[k]) && 2 <= |ws[k]| <= 6 {
      assert ws[k] in runs;
    }
    ws
  }

  /** `Filter` keeps order: the words of a longer list of runs follow those of its prefix. */
  lemma FilterConcat(a: seq<string>, b: seq<string>)
    requires forall k :: 0 <= k < |a| ==> Text.AllHangul(a[k]) && 2 <= |a[k]| <= 6
    requires forall k :: 0 <= k < |b| ==> Text.AllHangul(b[k]) && 2 <= |b[k]| <= 6
    ensures Filter(a + b) == Filter(a) + Filter(b)
  {
    Seqs.FilterConcat(IsCounted, a, b);
  }

  /** One run is kept exactly when it is not a stopword. */
  lemma FilterOne(w: string)
    requires Text.AllHangul(w) && 2 <= |w| <= 6
    ensures Filter([w]) == if w !in Stopwords then [w] else []
  {
    Seqs.FilterOne(IsCounted, w);
    RunsAreMeaningful(w);
  }

  /** All counted words of all reviews, review by review. */
  function AllWords(contents: seq<string>): seq<string> {
    Seqs.Flatten(seq(|contents|, i requires 0 <= i < |contents| => ReviewWords(contents[i])))
  }

  /** `extract_meaningful_keywords`: each counted word with its number of occurrences, in
      order of first occurrence. */
  function ExtractKeywords(contents: seq<string>): (es: seq<Tally.Entry<string>>)
    ensures Tally.DistinctKeys(es) && Tally.Positive(es)
    ensures Tally.KeySet(es) == set w | w in AllWords(contents)
    ensures forall w :: Tally.Lookup(es, w) == Tally.Occurrences(AllWords(contents), w)
  {
    Tally.Count(AllWords(contents))
  }

  /** A keyword is a Hangul run of two to six syllables that is not a stopword. */
  lemma KeywordShape(contents: seq<string>, w: string)
    requires w in Tally.KeySet(ExtractKeywords(contents))
    ensures Text.AllHangul(w) && 2 <= |w| <= 6 && w !in Stopwords
  {
    var xss := seq(|contents|, i requires 0 <= i < |contents| => ReviewWords(contents[i]));
    Seqs.FlattenMember(xss, w);
    var i :| 0 <= i < |xss| && w in xss[i];
    var k :| 0 <= k < |xss[i]| && xss[i][k] == w;
  }

  // ---------------------------------------------------------------------------
  // Co-occurrence
  // ---------------------------------------------------------------------------

  /** The keywords of one review, in text order, repeats kept. */
  function KeywordsIn(content: string, keys: set<string>): (ws: seq<string>)
    ensures forall k :: 0 <= k < |ws| ==> ws[k] in keys
  {
    Only(Words.HangulRuns(content, 2, 6), keys)
  }

  /** The words of `ws` that are keys, in order and as often as `ws` has them. */
  function Only(ws: seq<string>, keys: set<string>): (r: seq<string>)
    ensures forall k :: 0 <= k < |r| ==> r[k] in keys
    ensures forall w :: w in r <==> w in ws && w in keys
    ensures forall w {:trigger Tally.Occurrences(r, w)} :: Tally.Occurrences(r, w) == if w in keys then Tally.Occurrences(ws, w) else 0
  {
    Tally.FilterCount(IsKey(keys), ws);
    Seqs.Filter(IsKey(keys), ws)
  }

  /** The test "is one of `keys`", as a value. */
  function IsKey(keys: set<string>): (test: string -> bool)
    ensures forall w :: test(w) == (w in keys)
  {
    w => w in keys
  }

  /** `Only` keeps order: the keys of a longer list follow those of its prefix. */
  lemma OnlyConcat(a: seq<string>, b: seq<string>, keys: set<string>)
    ensures Only(a + b, keys) == Only(a, keys) + Only(b, keys)
  {
    Seqs.FilterConcat(IsKey(keys), a, b);
  }

  /** One word is kept exactly when it is a key. */
  lemma OnlyOne(w: string, keys: set<string>)
    ensures Only([w], keys) == if w in keys then [w] else []
  {
    Seqs.FilterOne(IsKey(keys), w);
  }

  /** Every sorted pair the loops emit, review by review. */
  function EmittedPairs(contents: seq<string>, keys: set<string>, window: nat): seq<(string, string)> {
    Seqs.Flatten(seq(|contents|, i requires 0 <= i < |contents| => Words.WindowPairs(KeywordsIn(contents[i], keys), window)))
  }

  /** `calculate_cooccurrence_matrix`: how often each sorted pair of different keywords
      appears within `window` keyword positions of each other. */
  function Cooccurrence(contents: seq<string>, keywords: seq<Tally.Entry<string>>, window: nat): (m: seq<Tally.Entry<(string, string)>>)
    ensures Tally.DistinctKeys(m) && Tally.Positive(m)
    ensures forall p :: Tally.Lookup(m, p) == Tally.Occurrences(EmittedPairs(contents, Tally.KeySet(keywords), window), p)
    ensures forall p :: p in Tally.KeySet(m) ==> Text.LexLess(p.0, p.1) && p.0 in Tally.KeySet(keywords) && p.1 in Tally.KeySet(keywords)
  {
    var keys := Tally.KeySet(keywords);
    var xss := seq(|contents|, i requires 0 <= i < |contents| => Words.WindowPairs(KeywordsIn(contents[i], keys), window));
    var m := Tally.Count(EmittedPairs(contents, keys, window));
    forall p | p in Tally.KeySet(m) ensures Text.LexLess(p.0, p.1) && p.0 in keys && p.1 in keys {
      Seqs.FlattenMember(xss, p);
      var i :| 0 <= i < |xss| && p in xss[i];
      var ws := KeywordsIn(contents[i], keys);
      var a, b :| Words.InWindow(ws, window, a, b) && p == Words.SortedPair(ws[a], ws[b]);
    }
    m
  }

  /** A word never co-occurs with itself. */
  lemma NoSelfPairs(contents: seq<string>, keywords: seq<Tally.Entry<string>>, window: nat, w: string)
    ensures Tally.Lookup(Cooccurrence(contents, keywords, window), (w, w)) == 0
  {
    Text.LexLessIrreflexive(w);
    Tally.LookupAbsent(Cooccurrence(contents, keywords, window), (w, w));
  }

  // ---------------------------------------------------------------------------
  // Clusters without NetworkX
  // ---------------------------------------------------------------------------

  /** `simple_clustering_fallback`: the keywords by descending frequency, cut into
      consecutive groups of `max(3, n // 3)`. */
  function FallbackClusters(keywords: seq<Tally.Entry<string>>): (cs: seq<seq<string>>)
    ensures Seqs.Flatten(cs) == Tally.Keys(Tally.SortDesc(keywords))
    ensures forall k :: 0 <= k < |cs| ==> 0 < |cs[k]| <= Seqs.Max(3, |keywords| / 3)
    ensures forall k :: 0 <= k < |cs| - 1 ==> |cs[k]| == Seqs.Max(3, |keywords| / 3)
  {
    var sorted := Tally.SortDesc(keywords);
    assert |sorted| == |keywords| by {
      assert |multiset(sorted)| == |multiset(keywords)|;
    }
    Seqs.Chunks(Tally.Keys(sorted), Seqs.Max(3, |sorted| / 3))
  }

  /** The fallback clusters hold every keyword and nothing else, as many as there are
      keywords. */
  lemma FallbackCovers(keywords: seq<Tally.Entry<string>>)
    ensures |Seqs.Flatten(FallbackClusters(keywords))| == |keywords|
    ensures forall w :: w in Seqs.Flatten(FallbackClusters(keywords)) <==> w in Tally.KeySet(keywords)
  {
    var sorted := Tally.SortDesc(keywords);
    assert |multiset(sorted)| == |multiset(keywords)|;
    forall w ensures w in Tally.Keys(sorted) <==> w in Tally.KeySet(keywords) {
      if w in Tally.Keys(sorted) {
        var i :| 0 <= i < |sorted| && Tally.Keys(sorted)[i] == w;
        assert sorted[i] in multiset(keywords);
        var j :| 0 <= j < |keywords| && keywords[j] == sorted[i];
      }
      if w in Tally.KeySet(keywords) {
        var j :| 0 <= j < |keywords| && keywords[j].key == w;
        assert keywords[j] in multiset(sorted);
        var i :| 0 <= i < |sorted| && sorted[i] == keywords[j];
        assert Tally.Keys(sorted)[i] == w;
      }
    }
  }

  // ---------------------------------------------------------------------------
  // Communities
  // ---------------------------------------------------------------------------

  /** What community detection gives: no NetworkX, the communities greedy modularity
      found, or an exception. */
  datatype Detection = NoNetworkX | Found(communities: seq<seq<string>>) | DetectionFailed

  /** `detect_communities`: the frequency chunks without NetworkX, the communities of at
      least two keywords, or one community of all keywords after an exception. */
  function Communities(keywords: seq<Tally.Entry<string>>, d: Detection): (cs: seq<seq<string>>)
    ensures d.NoNetworkX? ==> cs == FallbackClusters(keywords)
    ensures d.Found? ==> forall c :: c in cs <==> c in d.communities && |c| >= 2
    ensures d.DetectionFailed? ==> cs == [Tally.Keys(keywords)]
  {
    match d
    case NoNetworkX => FallbackClusters(keywords)
    case Found(found) => Seqs.AtLeast(found, 2)
    case DetectionFailed => [Tally.Keys(keywords)]
  }

  // ---------------------------------------------------------------------------
  // Labels
  // ---------------------------------------------------------------------------

  function FallbackRules(): seq<Words.Rule> {
    [Words.Rule(["통화", "전화", "연결", "수신", "발신"], "통화 기능"),
     Words.Rule(["화면", "버튼", "메뉴", "설정"], "UI 요소"),
     Words.Rule(["오류", "문제", "버그", "실패"], "안정성 문제"),
     Words.Rule(["음성", "소리", "녹음", "볼륨"], "음성 품질"),
     Words.Rule(["편리", "불편", "사용", "조작"], "사용성")]
  }

  /** `generate_fallback_label`: `기타` with no keywords; otherwise the category of the
      first keyword, or "<keyword> 관련". */
  function FallbackLabel(keywords: seq<string>): (l: string)
    ensures |keywords| == 0 ==> l == "기타"
    ensures |keywords| > 0 && Words.FirstRule(FallbackRules(), keywords[0]).Some? ==>
      l == Words.FirstRule(FallbackRules(), keywords[0]).value
    ensures |keywords| > 0 && Words.FirstRule(FallbackRules(), keywords[0]).None? ==> l == keywords[0] + " 관련"
  {
    if |keywords| == 0 then "기타"
    else Words.FirstRule(FallbackRules(), keywords[0]).GetOr(keywords[0] + " 관련")
  }

  /** A first keyword containing a call word is labelled a call feature, whatever
      follows it. */
  lemma CallKeywordLabel(keywords: seq<string>)
    requires |keywords| > 0 && Text.In("통화", keywords[0])
    ensures FallbackLabel(keywords) == "통화 기능"
  {
    var rules := FallbackRules();
    Text.ContainsAnyWitness(keywords[0], rules[0].words, 0);
    assert Words.FirstRuleAt(rules, keywords[0], 0);
    Words.FirstRulePicks(rules, keywords[0], 0);
  }

  function LabelRules(): seq<Words.Rule> {
    [Words.Rule(["통화", "전화", "연결"], "통화 품질"),
     Words.Rule(["화면", "버튼", "설정"], "UI/UX 개선"),
     Words.Rule(["오류", "문제", "버그"], "기능 안정성"),
     Words.Rule(["편리", "불편", "사용"], "사용성 개선")]
  }

  /** `clean_cluster_label`: a label of at most twelve characters is kept; a longer one
      becomes a category name or its first ten characters and `...`. */
  function CleanLabel(l: string): (r: string)
    ensures |l| <= 12 ==> r == l
    ensures |l| > 12 && Words.FirstRule(LabelRules(), l).None? ==> r == l[..10] + "..."
    ensures |l| > 12 && Words.FirstRule(LabelRules(), l).Some? ==> r == Words.FirstRule(LabelRules(), l).value
    ensures |r| <= 13
  {
    if |l| <= 12 then l
    else Words.FirstRule(LabelRules(), l).GetOr(l[..10] + "...")
  }

  /** A long label that mentions a call is shortened to the call-quality category. */
  lemma LongCallLabel(l: string)
    requires |l| > 12 && Text.In("통화", l)
    ensures CleanLabel(l) == "통화 품질"
  {
    var rules := LabelRules();
    Text.ContainsAnyWitness(l, rules[0].words, 0);
    assert Words.FirstRuleAt(rules, l, 0);
    Words.FirstRulePicks(rules, l, 0);
  }

  /** How many double quotes open `s`. */
  function LeadingQuotes(s: string): (n: nat)
    ensures n <= |s|
    ensures forall k :: 0 <= k < n ==> s[k] == '"'
    ensures n < |s| ==> s[n] != '"'
  {
    if |s| == 0 || s[0] != '"' then 0 else 1 + LeadingQuotes(s[1..])
  }

  /** How many double quotes close `s`. */
  function TrailingQuotes(s: string): (n: nat)
    ensures n <= |s|
    ensures forall k :: |s| - n <= k < |s| ==> s[k] == '"'
    ensures n < |s| ==> s[|s| - 1 - n] != '"'
  {
    if |s| == 0 || s[|s| - 1] != '"' then 0 else 1 + TrailingQuotes(s[..|s| - 1])
  }

  /** `str.strip('"')`: the text between the opening and the closing run of quotes. */
  function StripQuotes(s: string): (r: string)
    ensures |r| > 0 ==> r[0] != '"' && r[|r| - 1] != '"'
    ensures LeadingQuotes(s) == |s| ==> r == []
    ensures LeadingQuotes(s) < |s| ==>
      LeadingQuotes(s) + TrailingQuotes(s) < |s| && r == s[LeadingQuotes(s)..|s| - TrailingQuotes(s)]
  {
    var i := LeadingQuotes(s);
    if i == |s| then []
    else
      var t := TrailingQuotes(s);
      assert s[i] != '"';
      s[i..|s| - t]
  }

  /** A text that neither opens nor closes with a quote is left as it is. */
  lemma StripQuotesUnquoted(s: string)
    requires |s| > 0 && s[0] != '"' && s[|s| - 1] != '"'
    ensures StripQuotes(s) == s
  {
    assert LeadingQuotes(s) == 0 && TrailingQuotes(s) == 0;
  }

  /** Stripping quotes twice strips nothing more. */
  lemma StripQuotesIdempotent(s: string)
    ensures StripQuotes(StripQuotes(s)) == StripQuotes(s)
  {
    var r := StripQuotes(s);
    if |r| > 0 {
      StripQuotesUnquoted(r);
    }
  }

  /** The members of a community with their frequencies, in community order. */
  function Ranked(community: seq<string>, keywords: seq<Tally.Entry<string>>): (es: seq<Tally.Entry<string>>)
    ensures |es| == |community|
    ensures forall i :: 0 <= i < |es| ==> es[i] == Tally.Entry(community[i], Tally.Lookup(keywords, community[i]))
  {
    seq(|community|, i requires 0 <= i < |community| => Tally.Entry(community[i], Tally.Lookup(keywords, community[i])))
  }

  /** The up to eight most frequent members of a community, most frequent first, ties in
      community order: the keywords sent to the labelling service. */
  function TopMembers(community: seq<string>, keywords: seq<Tally.Entry<string>>): (ts: seq<string>)
    ensures |ts| == Seqs.Min(8, |community|)
    ensures multiset(ts) <= multiset(community)
    ensures forall k :: 0 <= k < |ts| ==> ts[k] in community
    ensures forall a, b :: 0 <= a < b < |ts| ==> Tally.Lookup(keywords, ts[a]) >= Tally.Lookup(keywords, ts[b])
    ensures forall x :: x in multiset(community) - multiset(ts) ==>
      forall k :: 0 <= k < |ts| ==> Tally.Lookup(keywords, x) <= Tally.Lookup(keywords, ts[k])
  {
    var top := Tally.Top(Ranked(community, keywords), 8);
    TopFromRanked(community, keywords);
    TopMembersKept(community, keywords);
    Tally.Keys(top)
  }

  /** The top members are drawn from the community, and any member left over is no more
      frequent than one taken. */
  lemma TopMembersKept(community: seq<string>, keywords: seq<Tally.Entry<string>>)
    ensures var ts := Tally.Keys(Tally.Top(Ranked(community, keywords), 8));
      multiset(ts) <= multiset(community) &&
      forall x :: x in multiset(community) - multiset(ts) ==>
        forall k :: 0 <= k < |ts| ==> Tally.Lookup(keywords, x) <= Tally.Lookup(keywords, ts[k])
  {
    var ts := Tally.Keys(Tally.Top(Ranked(community, keywords), 8));
    forall x ensures multiset(ts)[x] <= multiset(community)[x] {
      MemberCount(community, keywords, x);
    }
    forall x | x in multiset(community) - multiset(ts)
      ensures forall k :: 0 <= k < |ts| ==> Tally.Lookup(keywords, x) <= Tally.Lookup(keywords, ts[k])
    {
      MemberCount(community, keywords, x);
      LeftOverDominated(community, keywords, x);
    }
  }

  /** How often a member is among the top members and among the community, in terms of
      its ranked entry. */
  lemma MemberCount(community: seq<string>, keywords: seq<Tally.Entry<string>>, x: string)
    ensures var ranked := Ranked(community, keywords);
      var top := Tally.Top(ranked, 8);
      var e := Tally.Entry(x, Tally.Lookup(keywords, x));
      multiset(Tally.Keys(top))[x] == multiset(top)[e] <= multiset(ranked)[e] == multiset(community)[x]
  {
    var ranked := Ranked(community, keywords);
    var top := Tally.Top(ranked, 8);
    var e := Tally.Entry(x, Tally.Lookup(keywords, x));
    Tally.TopDominates(ranked, 8);
    TopFromRanked(community, keywords);
    assert Tally.Keys(ranked) == community;
    assert Tally.CountsFrom(top, keywords);
    Tally.KeysCount(top, keywords, x);
    Tally.KeysCount(ranked, keywords, x);
  }

  /** A member's entry left out of the cut counts no more than any entry in it. */
  lemma LeftOverDominated(community: seq<string>, keywords: seq<Tally.Entry<string>>, x: string)
    requires var ranked := Ranked(community, keywords);
      var e := Tally.Entry(x, Tally.Lookup(keywords, x));
      multiset(Tally.Top(ranked, 8))[e] < multiset(ranked)[e]
    ensures var top := Tally.Top(Ranked(community, keywords), 8);
      forall k :: 0 <= k < |top| ==> Tally.Lookup(keywords, x) <= Tally.Lookup(keywords, top[k].key)
  {
    var ranked := Ranked(community, keywords);
    var top := Tally.Top(ranked, 8);
    var e := Tally.Entry(x, Tally.Lookup(keywords, x));
    Tally.TopDominates(ranked, 8);
    TopFromRanked(community, keywords);
    assert e in Tally.Dropped(ranked, top);
  }

  /** Each of the top entries is a member of the community with its own frequency. */
  lemma TopFromRanked(community: seq<string>, keywords: seq<Tally.Entry<string>>)
    ensures forall k :: 0 <= k < |Tally.Top(Ranked(community, keywords), 8)| ==>
      Tally.Top(Ranked(community, keywords), 8)[k].key in community &&
      Tally.Top(Ranked(community, keywords), 8)[k].count == Tally.Lookup(keywords, Tally.Top(Ranked(community, keywords), 8)[k].key)
  {
    var ranked := Ranked(community, keywords);
    var top := Tally.Top(ranked, 8);
    Tally.TopDominates(ranked, 8);
    forall k | 0 <= k < |top| ensures top[k].key in community && top[k].count == Tally.Lookup(keywords, top[k].key) {
      assert top[k] in multiset(ranked);
      var i :| 0 <= i < |ranked| && ranked[i] == top[k];
    }
  }

  /** The labelling service's answer: no answer (no HTTP library, a status other than 200,
      an exception), or an answer with or without a `label` field. */
  datatype LabelReply = NoReply | Reply(text: Option<string>)

  /** The label of cluster `i`: the cleaned answer, the default "클러스터 i+1" for an
      answer without a label, or the fallback label of the top members without an answer. */
  function ClusterLabel(i: nat, community: seq<string>, keywords: seq<Tally.Entry<string>>, reply: LabelReply): (l: string)
    ensures reply.NoReply? ==> l == FallbackLabel(TopMembers(community, keywords))
    ensures reply.Reply? ==> |l| <= 13
    ensures reply.Reply? && reply.text.Some? && |reply.text.value| <= 12 && StripQuotes(reply.text.value) == reply.text.value ==>
      l == reply.text.value
    ensures reply.Reply? && reply.text.Some? ==> l == CleanLabel(StripQuotes(reply.text.value))
    ensures reply == Reply(None) ==> l == CleanLabel("클러스터 " + Text.NatToString(i + 1))
    ensures reply == Reply(None) && i + 1 < Text.Pow10(7) ==> l == "클러스터 " + Text.NatToString(i + 1)
  {
    match reply
    case NoReply => FallbackLabel(TopMembers(community, keywords))
    case Reply(text) =>
      var d := "클러스터 " + Text.NatToString(i + 1);
      StripQuotesUnquoted(d);
      assert i + 1 < Text.Pow10(7) ==> |d| <= 12 by {
        if i + 1 < Text.Pow10(7) {
          Text.NatToStringWidth(i + 1, 7);
        }
      }
      CleanLabel(StripQuotes(text.GetOr(d)))
  }

  /** `generate_cluster_labels_with_gpt`: one label per community. `respond` answers a
      request carrying the community's top members. */
  function ClusterLabels(communities: seq<seq<string>>, keywords: seq<Tally.Entry<string>>, respond: seq<string> -> LabelReply): (ls: seq<string>)
    ensures |ls| == |communities|
    ensures forall i :: 0 <= i < |ls| ==>
      ls[i] == ClusterLabel(i, communities[i], keywords, respond(TopMembers(communities[i], keywords)))
  {
    seq(|communities|, i requires 0 <= i < |communities| =>
      ClusterLabel(i, communities[i], keywords, respond(TopMembers(communities[i], keywords))))
  }

  // ---------------------------------------------------------------------------
  // Display data
  // ---------------------------------------------------------------------------

  /** `max(10, int(30 * freq / max_freq))`. */
  function NodeSize(freq: nat, maxFreq: nat): (size: int)
    requires maxFreq > 0
    ensures freq <= maxFreq ==> 10 <= size <= 30
    ensures freq == maxFreq ==> size == 30
  {
    assert freq <= maxFreq ==> (30 * freq) / maxFreq <= 30 by {
      if freq <= maxFreq { ScaleBound(freq, maxFreq); }
    }
    assert (30 * maxFreq) / maxFreq == 30 by { ScaleBound(maxFreq, maxFreq); }
    Seqs.Max(10, (30 * freq) / maxFreq)
  }

  lemma ScaleBound(a: nat, b: nat)
    requires b > 0 && a <= b
    ensures (30 * a) / b <= 30
    ensures a == b ==> (30 * a) / b == 30
  {
    assert 30 * a <= 30 * b;
    Arith.DivMono(30 * a, 30 * b, b);
    Arith.DivUnique(30 * b, b, 30, 0);
  }

  /** A more frequent keyword never gets a smaller node. */
  lemma NodeSizeMonotone(f1: nat, f2: nat, maxFreq: nat)
    requires maxFreq > 0 && f1 <= f2
    ensures NodeSize(f1, maxFreq) <= NodeSize(f2, maxFreq)
  {
    Arith.DivMono(30 * f1, 30 * f2, maxFreq);
  }

  /** `max(counts) if counts else 1`. */
  function MaxCount<K>(es: seq<Tally.Entry<K>>): (m: nat)
    ensures forall i :: 0 <= i < |es| ==> es[i].count <= m
    ensures |es| == 0 ==> m == 1
    ensures |es| > 0 ==> exists i :: 0 <= i < |es| && es[i].count == m
  {
    if |es| == 0 then 1
    else if |es| == 1 then es[0].count
    else
      var rest := MaxCount(es[1..]);
      assert forall i :: 1 <= i < |es| ==> es[1..][i - 1] == es[i];
      if es[0].count >= rest then es[0].count else rest
  }

  /** With positive counts the largest count is positive, so it can divide. */
  lemma MaxCountPositive<K>(es: seq<Tally.Entry<K>>)
    requires Tally.Positive(es)
    ensures MaxCount(es) > 0
  {
    if |es| > 0 {
      var i :| 0 <= i < |es| && es[i].count == MaxCount(es);
    }
  }

  /** The cluster a keyword is shown in: the last community holding it (later ones
      overwrite earlier ones in the mapping), or 0 when none does. */
  function ClusterOf(communities: seq<seq<string>>, w: string): (c: nat)
    ensures (forall k :: 0 <= k < |communities| ==> w !in communities[k]) ==> c == 0
    ensures (exists k :: 0 <= k < |communities| && w in communities[k]) ==>
      c < |communities| && w in communities[c] && forall k :: c < k < |communities| ==> w !in communities[k]
    decreases |communities|
  {
    if |communities| == 0 then 0
    else
      var last := |communities| - 1;
      if w in communities[last] then last
      else
        var init := communities[..last];
        assert forall k :: 0 <= k < last ==> init[k] == communities[k];
        ClusterOf(init, w)
  }

  datatype Node = Node(id: string, size: int, frequency: nat, cluster: nat)
  datatype Cluster = Cluster(id: nat, keywords: seq<string>, size: nat, name: string)

  /** The nodes of `create_network_visualization_data`: one per keyword, in order. */
  function Nodes(keywords: seq<Tally.Entry<string>>, communities: seq<seq<string>>): (ns: seq<Node>)
    requires Tally.Positive(keywords)
    ensures |ns| == |keywords|
    ensures forall i :: 0 <= i < |ns| ==>
      ns[i].id == keywords[i].key && ns[i].frequency == keywords[i].count &&
      10 <= ns[i].size <= 30 && ns[i].cluster == ClusterOf(communities, keywords[i].key)
    ensures forall i :: 0 <= i < |ns| && keywords[i].count == MaxCount(keywords) ==> ns[i].size == 30
  {
    var m := MaxCount(keywords);
    MaxCountPositive(keywords);
    seq(|keywords|, i requires 0 <= i < |keywords| =>
      Node(keywords[i].key, NodeSize(keywords[i].count, m), keywords[i].count, ClusterOf(communities, keywords[i].key)))
  }

  /** The clusters of `create_network_visualization_data`: one per community, in order,
      named by its label or "클러스터 i+1" without one. */
  function Clusters(communities: seq<seq<string>>, labels: seq<string>): (cs: seq<Cluster>)
    ensures |cs| == |communities|
    ensures forall i :: 0 <= i < |cs| ==>
      cs[i].id == i && cs[i].keywords == communities[i] && cs[i].size == |communities[i]| &&
      cs[i].name == (if i < |labels| then labels[i] else "클러스터 " + Text.NatToString(i + 1))
  {
    seq(|communities|, i requires 0 <= i < |communities| =>
      Cluster(i, communities[i], |communities[i]|, if i < |labels| then labels[i] else "클러스터 " + Text.NatToString(i + 1)))
  }

  datatype Network = Network(nodes: seq<Node>, clusters: seq<Cluster>, message: Option<string>)

  const TooFewKeywords := "키워드가 부족하여 네트워크 분석을 수행할 수 없습니다. 더 많은 리뷰를 수집하거나 날짜 범위를 확장해주세요."

  /** `analyze_keyword_network`. `detect` stands for community detection and `respond` for
      the labelling service. */
  function Analyze(contents: seq<string>, detect: seq<Tally.Entry<string>> -> Detection, respond: seq<string> -> LabelReply): (n: Network)
    ensures |contents| == 0 ==> n == Network([], [], None)
    ensures |contents| > 0 && |ExtractKeywords(contents)| < 3 ==> n == Network([], [], Some(TooFewKeywords))
    ensures |contents| > 0 && |ExtractKeywords(contents)| >= 3 ==>
      var keywords := ExtractKeywords(contents);
      var cs := Communities(keywords, detect(keywords));
      n == Network(Nodes(keywords, cs), Clusters(cs, ClusterLabels(cs, keywords, respond)), None)
  {
    if |contents| == 0 then Network([], [], None)
    else
      var keywords := ExtractKeywords(contents);
      if |keywords| < 3 then Network([], [], Some(TooFewKeywords))
      else
        var communities := Communities(keywords, detect(keywords));
        Network(Nodes(keywords, communities), Clusters(communities, ClusterLabels(communities, keywords, respond)), None)
  }

  /** The network shown for enough keywords: a node per keyword in first-occurrence
      order, sized from 10 to 30, and a labelled cluster per community. */
  lemma NetworkShape(contents: seq<string>, detect: seq<Tally.Entry<string>> -> Detection, respond: seq<string> -> LabelReply)
    requires |contents| > 0 && |ExtractKeywords(contents)| >= 3
    ensures var n := Analyze(contents, detect, respond);
      var keywords := ExtractKeywords(contents);
      var cs := Communities(keywords, detect(keywords));
      n.message.None? && |n.nodes| == |keywords| && |n.clusters| == |cs| &&
      (forall i :: 0 <= i < |n.nodes| ==> n.nodes[i].id == keywords[i].key && 10 <= n.nodes[i].size <= 30) &&
      (forall i :: 0 <= i < |n.clusters| ==>
         n.clusters[i].keywords == cs[i] &&
         n.clusters[i].name == ClusterLabel(i, cs[i], keywords, respond(TopMembers(cs[i], keywords))))
  {
    var keywords := ExtractKeywords(contents);
    var cs := Communities(keywords, detect(keywords));
    var ls := ClusterLabels(cs, keywords, respond);
    var n := Analyze(contents, detect, respond);
    assert n == Network(Nodes(keywords, cs), Clusters(cs, ls), None);
    assert |ls| == |cs|;
  }

  /** Every node of the network is a keyword found in the reviews. */
  lemma NodesAreKeywords(contents: seq<string>, detect: seq<Tally.Entry<string>> -> Detection, respond: seq<string> -> LabelReply, i: nat)
    requires i < |Analyze(contents, detect, respond).nodes|
    ensures Analyze(contents, detect, respond).nodes[i].id in Tally.KeySet(ExtractKeywords(contents))
    ensures Text.AllHangul(Analyze(contents, detect, respond).nodes[i].id)
  {
    var keywords := ExtractKeywords(contents);
    assert Analyze(contents, detect, respond).nodes[i].id == keywords[i].key;
    assert keywords[i].key in Tally.KeySet(keywords);
    KeywordShape(contents, keywords[i].key);
  }
}

=== FILE: keyword_network.dfy ===
/** The co-occurrence keyword network of `keyword_network.py` (the server copy is the same
    file): keywords found per review, their per-review frequencies, the symmetric
    co-occurrence of keywords among whitespace tokens, the node and edge lists, the
    connected-component clusters and the guards of the analysis. PMI scores and the
    cluster-label service are not modelled beyond their fallbacks. */
module KeywordNetwork {
  import opened Wrappers
  import Text
  import Seqs
  import Tally
  import Words
  import Sums

  // ---------------------------------------------------------------------------
  // Keyword candidates of one review
  // ---------------------------------------------------------------------------

  // The app keywords `extract_keywords_regex` searches for directly, in the groups of its list.
  const CallWords: seq<string> := ["통화", "연결", "끊김", "음성", "화질", "소리", "볼륨", "진동"]
  const SpeedWords: seq<string> := ["로딩", "속도", "느림", "빠름", "반응", "지연", "멈춤", "튕김"]
  const ScreenWords: seq<string> := ["인터페이스", "화면", "버튼", "메뉴", "아이콘", "디자인", "레이아웃"]
  const FeatureWords: seq<string> := ["기능", "설정", "옵션", "편의", "사용성", "직관", "복잡", "간단"]
  const PowerWords: seq<string> := ["배터리", "발열", "과열", "소모", "충전", "성능", "메모리"]
  const ErrorWords: seq<string> := ["업데이트", "버전", "오류", "버그", "문제", "개선", "수정"]
  const SecurityWords: seq<string> := ["보안", "안전", "인증", "로그인", "비밀번호", "개인정보"]
  const NoticeWords: seq<string> := ["알림", "푸시", "메시지", "경고", "안내", "표시", "출력"]
  const QualityWords: seq<string> := ["품질", "안정", "시간", "크기", "터치", "정확", "데이터"]
  const UseWords: seq<string> := ["녹음", "재인증", "번거", "유용", "만족", "어려", "걱정"]
  const FeelingWords: seq<string> := ["깔끔", "헷갈", "편리", "강화", "안심", "불편", "좋음"]
  const VerdictWords: seq<string> := ["나쁨", "문제점", "개선점", "장점", "단점", "효과", "결과"]

  const AppKeywords: seq<string> :=
    CallWords + SpeedWords + ScreenWords + FeatureWords + PowerWords + ErrorWords +
    SecurityWords + NoticeWords + QualityWords + UseWords + FeelingWords + VerdictWords

  /** Verb and adjective endings removed first. */
  const VerbEndings: seq<string> := [
    "하다", "되다", "이다", "았다", "었다", "했다", "든다", "ㄴ다", "다가", "다고", "다는", "다면",
    "다네", "다니", "다만", "다보니", "다시", "다음", "다음에", "다음엔", "다음은", "다음이", "다음을",
    "다음으로", "다음에는", "다음에도", "다음에만", "다음에서", "다음에야"]

  /** Polite endings removed second. */
  const PoliteEndings: seq<string> := [
    "습니다", "ㅂ니다", "이에요", "예요", "해요", "세요", "네요", "데요", "군요", "구나", "구만", "구먼", "구려"]

  /** Words dropped after the endings are removed. */
  const Fillers: seq<string> := ["하지", "그런", "이런", "저런", "그래", "이래", "저래", "아니", "맞음", "틀림"]

  const Stopwords: seq<string> := [
    "익시오", "앱", "어플", "애플리케이션", "앱스", "어플리케이션", "유플러스", "LG", "사용", "사용자",
    "아직", "이번", "조금", "정말", "너무", "그냥", "다시", "하지만", "그래서", "그리고", "또한", "이것",
    "그것", "이제", "다음", "처음", "마지막", "지금", "오늘", "내일", "어제", "하루", "시간", "무엇",
    "어떤", "어디", "언제", "누구", "어떻게", "왜", "얼마나", "거의", "많이", "전혀", "항상", "때때로",
    "가끔", "자주", "빨리", "천천히", "쉽게", "어렵게", "좋게", "나쁘게", "잘못", "계속", "중단", "시작",
    "끝", "중간", "앞", "뒤", "위", "아래", "특히", "주로", "대부분", "일부", "전부", "모든", "각각",
    "서로", "있다", "없다", "된다", "안된다", "한다", "안한다", "같다", "다르다", "보다", "말다", "가다",
    "오다", "살다", "죽다", "먹다", "마시다", "것", "거", "게", "수", "데", "지", "해", "해서", "하여",
    "하고", "했다", "할", "함", "한", "해야", "하면", "하니", "하자", "하여야", "사람", "분", "님", "자",
    "씨", "개", "명", "번", "회", "차"]

  /** The first position from `p` at which a listed ending makes up the rest of `w`. */
  function EndingFrom(w: string, endings: seq<string>, p: nat): (q: nat)
    requires p <= |w|
    ensures p <= q <= |w|
    ensures q < |w| ==> w[q..] in endings
    ensures forall k :: p <= k < q ==> w[k..] !in endings
    decreases |w| - p
  {
    if p == |w| || w[p..] in endings then p else EndingFrom(w, endings, p + 1)
  }

  /** `re.sub(r'(e1|e2|...)$', '', w)`: the match that starts leftmost wins, so the longest
      listed ending is removed. */
  function StripEnding(w: string, endings: seq<string>): (r: string)
    ensures |r| <= |w| && r == w[..|r|]
    ensures |r| < |w| ==> w[|r|..] in endings
    ensures forall k :: 0 <= k < |r| ==> w[k..] !in endings
  {
    w[..EndingFrom(w, endings, 0)]
  }

  /** Removing an ending that is a listed one gives the stem back, when no longer
      listed ending covers the stem's tail. */
  lemma StripEndingExact(stem: string, ending: string, endings: seq<string>)
    requires ending in endings && |ending| > 0
    requires forall k :: 0 <= k < |stem| ==> (stem + ending)[k..] !in endings
    ensures StripEnding(stem + ending, endings) == stem
  {
    var w := stem + ending;
    var r := StripEnding(w, endings);
    assert w[|stem|..] == ending;
    assert |r| <= |stem|;
  }

  /** Both rounds of ending removal. */
  function Stem(run: string): (w: string)
    ensures |w| <= |run| && w == run[..|w|]
  {
    var once := StripEnding(run, VerbEndings);
    StripEnding(once, PoliteEndings)
  }

  /** The listed app keywords that occur in the text, in list order. */
  function Present(keywords: seq<string>, text: string): (ks: seq<string>)
    ensures forall k :: k in ks <==> k in keywords && Text.In(k, text)
  {
    if |keywords| == 0 then []
    else
      assert forall k :: k in keywords <==> k == keywords[0] || k in keywords[1..];
      (if Text.In(keywords[0], text) then [keywords[0]] else []) + Present(keywords[1..], text)
  }

  /** A stem that survives: at least two characters and not a filler. */
  predicate Survives(w: string) {
    |w| >= 2 && w !in Fillers
  }

  function Surviving(ws: seq<string>): (r: seq<string>)
    ensures forall w :: w in r <==> w in ws && Survives(w)
  {
    if |ws| == 0 then []
    else
      assert forall w :: w in ws <==> w == ws[0] || w in ws[1..];
      (if Survives(ws[0]) then [ws[0]] else []) + Surviving(ws[1..])
  }

  /** The stems of the runs that survive, in run order. */
  function Stems(runs: seq<string>): (ws: seq<string>)
    ensures forall w :: w in ws <==> (exists k :: 0 <= k < |runs| && w == Stem(runs[k])) && Survives(w)
  {
    var all := seq(|runs|, k requires 0 <= k < |runs| => Stem(runs[k]));
    assert forall w :: w in all <==> exists k :: 0 <= k < |runs| && w == Stem(runs[k]) by {
      forall w | w in all ensures exists k :: 0 <= k < |runs| && w == Stem(runs[k]) {
        var k :| 0 <= k < |all| && all[k] == w;
      }
      forall w, k | 0 <= k < |runs| && w == Stem(runs[k]) ensures w in all {
        assert all[k] == w;
      }
    }
    Surviving(all)
  }

  /** `extract_keywords_regex` before the duplicates are dropped: the app keywords in the
      text, then the surviving stems of its Hangul runs of two to six syllables. */
  function Candidates(text: string): seq<string> {
    Present(AppKeywords, text) + Stems(Words.HangulRuns(text, 2, 6))
  }

  lemma CallWordsHangul() ensures forall w :: w in CallWords ==> Text.AllHangul(w) { }
  lemma SpeedWordsHangul() ensures forall w :: w in SpeedWords ==> Text.AllHangul(w) { }
  lemma ScreenWordsHangul() ensures forall w :: w in ScreenWords ==> Text.AllHangul(w) { }
  lemma FeatureWordsHangul() ensures forall w :: w in FeatureWords ==> Text.AllHangul(w) { }
  lemma PowerWordsHangul() ensures forall w :: w in PowerWords ==> Text.AllHangul(w) { }
  lemma ErrorWordsHangul() ensures forall w :: w in ErrorWords ==> Text.AllHangul(w) { }
  lemma SecurityWordsHangul() ensures forall w :: w in SecurityWords ==> Text.AllHangul(w) { }
  lemma NoticeWordsHangul() ensures forall w :: w in NoticeWords ==> Text.AllHangul(w) { }
  lemma QualityWordsHangul() ensures forall w :: w in QualityWords ==> Text.AllHangul(w) { }
  lemma UseWordsHangul() ensures forall w :: w in UseWords ==> Text.AllHangul(w) { }
  lemma FeelingWordsHangul() ensures forall w :: w in FeelingWords ==> Text.AllHangul(w) { }
  lemma VerdictWordsHangul() ensures forall w :: w in VerdictWords ==> Text.AllHangul(w) { }

  /** Every app keyword is made of Hangul syllables. */
  lemma AppKeywordsHangul()
    ensures forall w :: w in AppKeywords ==> Text.AllHangul(w)
  {
    CallWordsHangul();
    SpeedWordsHangul();
    ScreenWordsHangul();
    FeatureWordsHangul();
    PowerWordsHangul();
    ErrorWordsHangul();
    SecurityWordsHangul();
    NoticeWordsHangul();
    QualityWordsHangul();
    UseWordsHangul();
    FeelingWordsHangul();
    VerdictWordsHangul();
  }

  /** Every candidate is made of Hangul syllables: the app keywords are, and a stem is a
      prefix of a Hangul run. So the digit and special-character filters never reject a
      candidate. */
  lemma CandidatesHangul(text: string, w: string)
    requires w in Candidates(text)
    ensures Text.AllHangul(w)
  {
    var runs := Words.HangulRuns(text, 2, 6);
    if w in Present(AppKeywords, text) {
      AppKeywordsHangul();
    } else {
      assert w in Stems(runs);
      var k :| 0 <= k < |runs| && w == Stem(runs[k]);
      assert forall i :: 0 <= i < |w| ==> w[i] == runs[k][i];
    }
  }

  // ---------------------------------------------------------------------------
  // Keyword frequencies
  // ---------------------------------------------------------------------------

  predicate IsAsciiAlnum(c: char) {
    Text.IsAsciiLetter(c) || Text.IsDigit(c)
  }

  /** The filters of `extract_keywords_from_reviews`: two to eight characters, not a
      stopword, not all digits, and only Hangul syllables and ASCII letters and digits. */
  predicate Accepted(w: string) {
    2 <= |w| <= 8 && w !in Stopwords && !Text.IsAllDigits(w) &&
    forall i :: 0 <= i < |w| ==> Text.IsHangul(w[i]) || IsAsciiAlnum(w[i])
  }

  function Keep(ws: seq<string>): (r: seq<string>)
    ensures forall w :: w in r <==> w in ws && Accepted(w)
  {
    if |ws| == 0 then []
    else
      assert forall w :: w in ws <==> w == ws[0] || w in ws[1..];
      (if Accepted(ws[0]) then [ws[0]] else []) + Keep(ws[1..])
  }

  /** The keywords one review contributes, each once. */
  function ReviewKeywords(content: string): (ks: seq<string>)
    ensures forall w :: w in ks <==> w in Candidates(content) && Accepted(w)
    ensures forall i, j :: 0 <= i < j < |ks| ==> ks[i] != ks[j]
  {
    Seqs.Dedup(Keep(Candidates(content)))
  }

  /** For a candidate, acceptance comes down to its length and the stopwords. */
  lemma AcceptedCandidate(content: string, w: string)
    requires w in Candidates(content)
    ensures Accepted(w) <==> 2 <= |w| <= 8 && w !in Stopwords
  {
    CandidatesHangul(content, w);
    if |w| > 0 {
      assert !Text.IsDigit(w[0]);
    }
  }

  function PerReview(contents: seq<string>): (kss: seq<seq<string>>)
    ensures |kss| == |contents|
    ensures forall i :: 0 <= i < |contents| ==> kss[i] == ReviewKeywords(contents[i])
  {
    seq(|contents|, i requires 0 <= i < |contents| => ReviewKeywords(contents[i]))
  }

  /** `extract_keywords_from_reviews`: each keyword with its count over all reviews. */
  function Frequencies(contents: seq<string>): (es: seq<Tally.Entry<string>>)
    ensures Tally.DistinctKeys(es) && Tally.Positive(es)
    ensures forall w :: w in Tally.KeySet(es) <==> exists i :: 0 <= i < |contents| && w in ReviewKeywords(contents[i])
  {
    var kss := PerReview(contents);
    var es := Tally.Count(Seqs.Flatten(kss));
    forall w ensures w in Tally.KeySet(es) <==> exists i :: 0 <= i < |contents| && w in ReviewKeywords(contents[i]) {
      Seqs.FlattenMember(kss, w);
    }
    es
  }

  /** How many reviews contain `w` among their keywords. */
  function Mentions(contents: seq<string>, w: string): (n: nat)
    ensures n <= |contents|
  {
    if |contents| == 0 then 0
    else (if w in ReviewKeywords(contents[0]) then 1 else 0) + Mentions(contents[1..], w)
  }

  /** A keyword's frequency is the number of reviews mentioning it: each review's
      keywords are free of duplicates. */
  lemma {:induction false} FrequencyIsMentions(contents: seq<string>, w: string)
    ensures Tally.Lookup(Frequencies(contents), w) == Mentions(contents, w)
  {
    var kss := PerReview(contents);
    FlattenOccurrences(contents, w);
  }

  lemma {:induction false} FlattenOccurrences(contents: seq<string>, w: string)
    ensures Tally.Occurrences(Seqs.Flatten(PerReview(contents)), w) == Mentions(contents, w)
  {
    var kss := PerReview(contents);
    if |contents| > 0 {
      assert PerReview(contents[1..]) == kss[1..];
      FlattenOccurrences(contents[1..], w);
      Tally.OccurrencesConcat(kss[0], Seqs.Flatten(kss[1..]), w);
      Tally.OccurrencesDistinct(kss[0], w);
    }
  }

  // ---------------------------------------------------------------------------
  // Co-occurrence
  // ---------------------------------------------------------------------------

  /** One increment of `cooccurrence[a][b]`: token `i` is `a`, token `j` is `b`, both are
      keywords, they differ, and `j` lies within `window` positions of `i`. */
  function Hit(ts: seq<string>, keys: set<string>, window: nat, a: string, b: string, i: int, j: int): nat {
    if 0 <= i < |ts| && 0 <= j < |ts| && i - window <= j <= i + window &&
       ts[i] == a && ts[j] == b && a in keys && b in keys && a != b
    then 1 else 0
  }

  function Hits(ts: seq<string>, keys: set<string>, window: nat, a: string, b: string): (int, int) -> nat {
    (i, j) => Hit(ts, keys, window, a, b, i, j)
  }

  /** How often the pair `(a, b)` is counted in one token list: the sum over all pairs
      of positions. */
  function PairCount(ts: seq<string>, keys: set<string>, window: nat, a: string, b: string): nat {
    Sums.Grid(Hits(ts, keys, window, a, b), |ts|, |ts|)
  }

  /** The window relation is symmetric, so the count is too. */
  lemma PairCountSymmetric(ts: seq<string>, keys: set<string>, window: nat, a: string, b: string)
    ensures PairCount(ts, keys, window, a, b) == PairCount(ts, keys, window, b, a)
  {
    var f := Hits(ts, keys, window, a, b);
    var g := Hits(ts, keys, window, b, a);
    Sums.Exchange(g, |ts|, |ts|);
    Sums.GridExt(f, Sums.Swap(g), |ts|, |ts|);
  }

  /** A word is never counted with itself. */
  lemma PairCountSelf(ts: seq<string>, keys: set<string>, window: nat, a: string)
    ensures PairCount(ts, keys, window, a, a) == 0
  {
    Sums.GridZero(Hits(ts, keys, window, a, a), |ts|, |ts|);
  }

  /** The loops of `calculate_cooccurrence` over one review, followed for the pair
      `(a, b)`: every keyword token, and the tokens within the window around it. */
  method CountPair(ts: seq<string>, keys: set<string>, window: nat, a: string, b: string) returns (c: nat)
    ensures c == PairCount(ts, keys, window, a, b)
  {
    var f := Hits(ts, keys, window, a, b);
    c := 0;
    var i := 0;
    while i < |ts|
      invariant 0 <= i <= |ts|
      invariant c == Sums.Grid(f, i, |ts|)
    {
      if ts[i] in keys {
        var lo := Seqs.Max(0, i - window);
        var hi := Seqs.Min(|ts|, i + window + 1);
        Sums.RowZero(f, i, lo);
        var row := 0;
        var j := lo;
        while j < hi
          invariant lo <= j <= hi
          invariant row == Sums.Row(f, i, j)
        {
          if ts[j] in keys && ts[i] != ts[j] && ts[i] == a && ts[j] == b {
            row := row + 1;
          }
          j := j + 1;
        }
        Sums.RowZeroTail(f, i, hi, |ts|);
        c := c + row;
      } else {
        Sums.RowZero(f, i, |ts|);
      }
      i := i + 1;
    }
  }

  /** `cooccurrence[a][b]` after all reviews, reviews split on whitespace. */
  function Cooccurrence(contents: seq<string>, keys: set<string>, window: nat, a: string, b: string): nat {
    if |contents| == 0 then 0
    else
      Cooccurrence(contents[..|contents| - 1], keys, window, a, b) +
      PairCount(Text.SplitWhitespace(contents[|contents| - 1]), keys, window, a, b)
  }

  /** The matrix is symmetric. */
  lemma {:induction false} CooccurrenceSymmetric(contents: seq<string>, keys: set<string>, window: nat, a: string, b: string)
    ensures Cooccurrence(contents, keys, window, a, b) == Cooccurrence(contents, keys, window, b, a)
  {
    if |contents| > 0 {
      CooccurrenceSymmetric(contents[..|contents| - 1], keys, window, a, b);
      PairCountSymmetric(Text.SplitWhitespace(contents[|contents| - 1]), keys, window, a, b);
    }
  }

  /** The matrix has nothing on its diagonal. */
  lemma {:induction false} CooccurrenceSelf(contents: seq<string>, keys: set<string>, window: nat, a: string)
    ensures Cooccurrence(contents, keys, window, a, a) == 0
  {
    if |contents| > 0 {
      CooccurrenceSelf(contents[..|contents| - 1], keys, window, a);
      PairCountSelf(Text.SplitWhitespace(contents[|contents| - 1]), keys, window, a);
    }
  }

  /** `calculate_cooccurrence` for the pair `(a, b)`, review by review. */
  method CountCooccurrence(contents: seq<string>, keys: set<string>, window: nat, a: string, b: string) returns (c: nat)
    ensures c == Cooccurrence(contents, keys, window, a, b)
  {
    c := 0;
    var r := 0;
    while r < |contents|
      invariant 0 <= r <= |contents|
      invariant c == Cooccurrence(contents[..r], keys, window, a, b)
    {
      var n := CountPair(Text.SplitWhitespace(contents[r]), keys, window, a, b);
      assert contents[..r + 1][..r] == contents[..r];
      c := c + n;
      r := r + 1;
    }
    assert contents[..|contents|] == contents;
  }

  // ---------------------------------------------------------------------------
  // Nodes and edges
  // ---------------------------------------------------------------------------

  datatype KeywordNode = KeywordNode(id: string, size: nat, frequency: nat)
  datatype Edge = Edge(id: nat, source: string, target: string, weight: nat)

  /** The thirty most frequent keywords, ties in first-occurrence order. */
  function TopKeywords(keywords: seq<Tally.Entry<string>>): (top: seq<Tally.Entry<string>>)
    ensures |top| == Seqs.Min(30, |keywords|)
    ensures Tally.Descending(top)
    ensures multiset(top) <= multiset(keywords)
    ensures forall j :: 0 <= j < |keywords| && keywords[j] !in top ==>
      forall i :: 0 <= i < |top| ==> keywords[j].count <= top[i].count
  {
    Tally.TopDominates(keywords, 30);
    Tally.TopKeepsBestEntries(keywords, 30);
    Tally.Top(keywords, 30)
  }

  /** One node per top keyword; its size is its frequency. */
  function NodesOf(top: seq<Tally.Entry<string>>): (ns: seq<KeywordNode>)
    ensures |ns| == |top|
    ensures forall i :: 0 <= i < |ns| ==> ns[i].id == top[i].key && ns[i].size == top[i].count && ns[i].frequency == top[i].count
  {
    seq(|top|, i requires 0 <= i < |top| => KeywordNode(top[i].key, top[i].count, top[i].count))
  }

  /** A pair gets an edge when its words differ, it has an entry in the matrix (a count of
      at least one), and its count reaches the minimum weight. */
  predicate Linked(cooc: (string, string) -> nat, minWeight: int, a: string, b: string) {
    a != b && cooc(a, b) >= 1 && cooc(a, b) >= minWeight
  }

  /** The pairs `(w, t)` for the targets `t` in order that are linked to `w`. */
  function RowPairs(w: string, targets: seq<string>, cooc: (string, string) -> nat, minWeight: int): (ps: seq<(string, string)>)
    ensures forall p :: p in ps <==> p.0 == w && p.1 in targets && Linked(cooc, minWeight, w, p.1)
  {
    if |targets| == 0 then []
    else
      assert forall t :: t in targets <==> t == targets[0] || t in targets[1..];
      (if Linked(cooc, minWeight, w, targets[0]) then [(w, targets[0])] else []) + RowPairs(w, targets[1..], cooc, minWeight)
  }

  /** The linked ordered pairs of top keywords, source by source. */
  function LinkedPairs(top: seq<string>, cooc: (string, string) -> nat, minWeight: int): (ps: seq<(string, string)>)
    ensures forall p :: p in ps <==> p.0 in top && p.1 in top && Linked(cooc, minWeight, p.0, p.1)
  {
    var rows := seq(|top|, i requires 0 <= i < |top| => RowPairs(top[i], top, cooc, minWeight));
    forall p ensures p in Seqs.Flatten(rows) <==> p.0 in top && p.1 in top && Linked(cooc, minWeight, p.0, p.1) {
      Seqs.FlattenMember(rows, p);
      if p.0 in top && p.1 in top && Linked(cooc, minWeight, p.0, p.1) {
        var i :| 0 <= i < |top| && top[i] == p.0;
        assert p in rows[i];
      }
    }
    Seqs.Flatten(rows)
  }

  /** The edges of `create_network_data`, numbered from 0 in the order they are made. */
  function Edges(top: seq<string>, cooc: (string, string) -> nat, minWeight: int): (es: seq<Edge>)
    ensures forall k :: 0 <= k < |es| ==>
      es[k].id == k && es[k].source in top && es[k].target in top &&
      es[k].source != es[k].target && es[k].weight == cooc(es[k].source, es[k].target) &&
      es[k].weight >= Seqs.Max(1, minWeight)
    ensures forall a, b :: HasEdge(es, a, b) <==> a in top && b in top && Linked(cooc, minWeight, a, b)
  {
    var ps := LinkedPairs(top, cooc, minWeight);
    var es := seq(|ps|, k requires 0 <= k < |ps| => Edge(k, ps[k].0, ps[k].1, cooc(ps[k].0, ps[k].1)));
    forall k | 0 <= k < |es| ensures es[k].source in top && es[k].target in top && Linked(cooc, minWeight, es[k].source, es[k].target) {
      assert ps[k] in ps;
    }
    forall a, b ensures HasEdge(es, a, b) <==> a in top && b in top && Linked(cooc, minWeight, a, b) {
      if a in top && b in top && Linked(cooc, minWeight, a, b) {
        assert (a, b) in ps;
        var k :| 0 <= k < |ps| && ps[k] == (a, b);
        assert es[k].source == a && es[k].target == b;
      }
    }
    es
  }

  /** Some edge runs from `a` to `b`. */
  predicate HasEdge(es: seq<Edge>, a: string, b: string) {
    exists k :: 0 <= k < |es| && es[k].source == a && es[k].target == b
  }

  ghost predicate Symmetric(cooc: (string, string) -> nat) {
    forall a, b :: cooc(a, b) == cooc(b, a)
  }

  /** With a symmetric matrix every edge has its reverse. */
  lemma EdgesPaired(top: seq<string>, cooc: (string, string) -> nat, minWeight: int, a: string, b: string)
    requires Symmetric(cooc)
    ensures HasEdge(Edges(top, cooc, minWeight), a, b) <==> HasEdge(Edges(top, cooc, minWeight), b, a)
  {
    assert cooc(a, b) == cooc(b, a);
  }

  /** The co-occurrence counts of a set of reviews form a symmetric matrix. */
  lemma CooccurrenceMatrixSymmetric(contents: seq<string>, keys: set<string>, window: nat)
    ensures Symmetric((a, b) => Cooccurrence(contents, keys, window, a, b))
  {
    forall a, b ensures Cooccurrence(contents, keys, window, a, b) == Cooccurrence(contents, keys, window, b, a) {
      CooccurrenceSymmetric(contents, keys, window, a, b);
    }
  }

  // ---------------------------------------------------------------------------
  // Connected components
  // ---------------------------------------------------------------------------

  /** Every edge has both ends in `s` or both outside it. */
  predicate Closed(es: seq<Edge>, s: set<string>) {
    forall k :: 0 <= k < |es| ==> (es[k].source in s <==> es[k].target in s)
  }

  function Ends(es: seq<Edge>): set<string> {
    (set k | 0 <= k < |es| :: es[k].source) + (set k | 0 <= k < |es| :: es[k].target)
  }

  /** `s` and the neighbours of its members. */
  function Grow(es: seq<Edge>, s: set<string>): (g: set<string>)
    ensures s <= g && g - s <= Ends(es)
  {
    s + (set k | 0 <= k < |es| && es[k].source in s :: es[k].target) +
        (set k | 0 <= k < |es| && es[k].target in s :: es[k].source)
  }

  /** Growing a set that is not closed leaves fewer edge ends outside it. */
  lemma Shrinks(es: seq<Edge>, s: set<string>, g: set<string>)
    requires g == Grow(es, s) && g != s
    ensures |Ends(es) - g| < |Ends(es) - s|
  {
    assert g == s + (g - s);
    assert g - s != {};
    var x :| x in g - s;
    var rest := (Ends(es) - s) - {x};
    assert Ends(es) - g <= rest;
    SubsetSize(Ends(es) - g, rest);
  }

  lemma {:induction false} SubsetSize<T>(a: set<T>, b: set<T>)
    requires a <= b
    ensures |a| <= |b|
    decreases |a|
  {
    if a != {} {
      var y :| y in a;
      SubsetSize(a - {y}, b - {y});
    }
  }

  /** `s` grown until no edge leaves it. */
  function Close(es: seq<Edge>, s: set<string>): (r: set<string>)
    ensures s <= r && Closed(es, r)
    decreases |Ends(es) - s|
  {
    var g := Grow(es, s);
    if g == s then
      assert forall k :: 0 <= k < |es| ==> (es[k].source in s ==> es[k].target in g) && (es[k].target in s ==> es[k].source in g);
      s
    else
      Shrinks(es, s, g);
      Close(es, g)
  }

  /** Growing stays inside any closed set that holds the start. */
  lemma {:induction false} CloseMinimal(es: seq<Edge>, s: set<string>, t: set<string>)
    requires s <= t && Closed(es, t)
    ensures Close(es, s) <= t
    decreases |Ends(es) - s|
  {
    var g := Grow(es, s);
    assert g <= t by {
      forall y | y in g ensures y in t {
        if y !in s {
          if y in (set k | 0 <= k < |es| && es[k].source in s :: es[k].target) {
            var k :| 0 <= k < |es| && es[k].source in s && es[k].target == y;
          } else {
            var k :| 0 <= k < |es| && es[k].target in s && es[k].source == y;
          }
        }
      }
    }
    if g != s {
      Shrinks(es, s, g);
      CloseMinimal(es, g, t);
    }
  }

  /** The connected component of `v`: the smallest closed set holding it. */
  function Component(es: seq<Edge>, v: string): (c: set<string>)
    ensures v in c && Closed(es, c)
  {
    Close(es, {v})
  }

  /** Two components are the same or share nothing. */
  lemma ComponentsApart(es: seq<Edge>, u: string, v: string)
    ensures u in Component(es, v) || Component(es, u) * Component(es, v) == {}
  {
    var cu := Component(es, u);
    var cv := Component(es, v);
    if u !in cv {
      CloseMinimal(es, {u}, cu - cv);
    }
  }

  /** Every member of a component has that same component. */
  lemma SameComponent(es: seq<Edge>, v: string, x: string)
    requires x in Component(es, v)
    ensures Component(es, x) == Component(es, v)
  {
    CloseMinimal(es, {x}, Component(es, v));
    ComponentsApart(es, v, x);
    assert x in Component(es, x) * Component(es, v);
    CloseMinimal(es, {v}, Component(es, x));
  }

  // ---------------------------------------------------------------------------
  // Clusters
  // ---------------------------------------------------------------------------

  const MinClusterSize: nat := 3

  /** A set of visited words that holds the whole component of each of its members. */
  ghost predicate Saturated(es: seq<Edge>, visited: set<string>) {
    forall x :: x in visited ==> Component(es, x) <= visited
  }

  /** `simple_clustering` from node `i` on: an unvisited node's search reaches its whole
      component (the visited words are whole components, none of them touching it), which
      is kept when it has at least three words. */
  function ClustersFrom(es: seq<Edge>, ids: seq<string>, i: nat, visited: set<string>): seq<set<string>>
    requires i <= |ids|
    decreases |ids| - i
  {
    if i == |ids| then []
    else if ids[i] in visited then ClustersFrom(es, ids, i + 1, visited)
    else
      var c := Component(es, ids[i]);
      (if |c| >= MinClusterSize then [c] else []) + ClustersFrom(es, ids, i + 1, visited + c)
  }

  /** The clusters, found in node order. */
  function Clusters(es: seq<Edge>, ids: seq<string>): seq<set<string>> {
    ClustersFrom(es, ids, 0, {})
  }

  /** An unvisited word's component shares nothing with a saturated visited set. */
  lemma ComponentOutside(es: seq<Edge>, visited: set<string>, v: string)
    requires Saturated(es, visited) && v !in visited
    ensures Component(es, v) * visited == {}
    ensures Saturated(es, visited + Component(es, v))
  {
    var c := Component(es, v);
    forall x | x in c ensures x !in visited {
      SameComponent(es, v, x);
    }
    forall x | x in visited + c ensures Component(es, x) <= visited + c {
      if x in c {
        SameComponent(es, v, x);
      }
    }
  }

  /** Each cluster is the component of an unvisited node and has at least three words. */
  lemma {:induction false} ClustersAreComponents(es: seq<Edge>, ids: seq<string>, i: nat, visited: set<string>)
    requires i <= |ids|
    ensures forall k :: 0 <= k < |ClustersFrom(es, ids, i, visited)| ==>
      |ClustersFrom(es, ids, i, visited)[k]| >= MinClusterSize &&
      exists j :: i <= j < |ids| && ids[j] !in visited && ClustersFrom(es, ids, i, visited)[k] == Component(es, ids[j])
    decreases |ids| - i
  {
    if i < |ids| {
      var cs := ClustersFrom(es, ids, i, visited);
      if ids[i] in visited {
        ClustersAreComponents(es, ids, i + 1, visited);
      } else {
        var c := Component(es, ids[i]);
        var rest := ClustersFrom(es, ids, i + 1, visited + c);
        ClustersAreComponents(es, ids, i + 1, visited + c);
        var off := if |c| >= MinClusterSize then 1 else 0;
        assert cs == (if |c| >= MinClusterSize then [c] else []) + rest;
        forall k | 0 <= k < |cs|
          ensures |cs[k]| >= MinClusterSize && exists j :: i <= j < |ids| && ids[j] !in visited && cs[k] == Component(es, ids[j])
        {
          if k < off {
            assert cs[k] == Component(es, ids[i]);
          } else {
            assert cs[k] == rest[k - off];
            var j :| i + 1 <= j < |ids| && ids[j] !in visited + c && rest[k - off] == Component(es, ids[j]);
          }
        }
      }
    } else {
      assert ClustersFrom(es, ids, i, visited) == [];
    }
  }

  /** Sets pairwise disjoint and disjoint from `outside`. */
  ghost predicate Apart(cs: seq<set<string>>, outside: set<string>) {
    (forall k :: 0 <= k < |cs| ==> cs[k] * outside == {}) &&
    (forall a, b :: 0 <= a < b < |cs| ==> cs[a] * cs[b] == {})
  }

  /** Putting a set in front of sets kept apart from it keeps them all apart. */
  lemma ApartCons(c: set<string>, rest: seq<set<string>>, visited: set<string>, keep: bool)
    requires c * visited == {} && Apart(rest, visited + c)
    ensures Apart((if keep then [c] else []) + rest, visited)
  {
    var cs := (if keep then [c] else []) + rest;
    var off := if keep then 1 else 0;
    forall k | 0 <= k < |cs| ensures cs[k] * visited == {} {
      if k >= off {
        assert cs[k] == rest[k - off];
      }
    }
    forall a, b | 0 <= a < b < |cs| ensures cs[a] * cs[b] == {} {
      assert cs[b] == rest[b - off];
      if a >= off {
        assert cs[a] == rest[a - off];
      } else {
        assert rest[b - off] * (visited + c) == {};
      }
    }
  }

  /** The clusters are pairwise disjoint, and disjoint from what was visited before. */
  lemma {:induction false} ClustersDisjoint(es: seq<Edge>, ids: seq<string>, i: nat, visited: set<string>)
    requires i <= |ids| && Saturated(es, visited)
    ensures Apart(ClustersFrom(es, ids, i, visited), visited)
    decreases |ids| - i
  {
    if i < |ids| {
      if ids[i] in visited {
        ClustersDisjoint(es, ids, i + 1, visited);
      } else {
        var c := Component(es, ids[i]);
        ComponentOutside(es, visited, ids[i]);
        ClustersDisjoint(es, ids, i + 1, visited + c);
        ApartCons(c, ClustersFrom(es, ids, i + 1, visited + c), visited, |c| >= MinClusterSize);
      }
    }
  }

  /** Some set of the list holds `w`. */
  ghost predicate Covers(cs: seq<set<string>>, w: string) {
    exists k :: 0 <= k < |cs| && w in cs[k]
  }

  lemma CoversCons(c: set<string>, rest: seq<set<string>>, keep: bool, w: string)
    requires (keep && w in c) || Covers(rest, w)
    ensures Covers((if keep then [c] else []) + rest, w)
  {
    var cs := (if keep then [c] else []) + rest;
    if keep && w in c {
      assert cs[0] == c;
    } else {
      var k :| 0 <= k < |rest| && w in rest[k];
      var off := if keep then 1 else 0;
      assert cs[k + off] == rest[k];
    }
  }

  /** Every unvisited node whose component has at least three words is in a cluster. */
  lemma {:induction false} ClustersComplete(es: seq<Edge>, ids: seq<string>, i: nat, visited: set<string>, j: nat)
    requires i <= j < |ids| && Saturated(es, visited)
    requires ids[j] !in visited && |Component(es, ids[j])| >= MinClusterSize
    ensures Covers(ClustersFrom(es, ids, i, visited), ids[j])
    decreases |ids| - i
  {
    if ids[i] in visited {
      ClustersComplete(es, ids, i + 1, visited, j);
    } else {
      var c := Component(es, ids[i]);
      var rest := ClustersFrom(es, ids, i + 1, visited + c);
      if ids[j] in c {
        SameComponent(es, ids[i], ids[j]);
      } else {
        ComponentOutside(es, visited, ids[i]);
        ClustersComplete(es, ids, i + 1, visited + c, j);
      }
      CoversCons(c, rest, |c| >= MinClusterSize, ids[j]);
    }
  }

  /** The clusters of a node list: components of nodes, at least three words each,
      pairwise disjoint, and covering every node whose component is that large. */
  lemma ClustersPartition(es: seq<Edge>, ids: seq<string>)
    ensures forall k :: 0 <= k < |Clusters(es, ids)| ==>
      |Clusters(es, ids)[k]| >= MinClusterSize && exists j :: 0 <= j < |ids| && Clusters(es, ids)[k] == Component(es, ids[j])
    ensures forall a, b :: 0 <= a < b < |Clusters(es, ids)| ==> Clusters(es, ids)[a] * Clusters(es, ids)[b] == {}
    ensures forall j :: 0 <= j < |ids| && |Component(es, ids[j])| >= MinClusterSize ==>
      exists k :: 0 <= k < |Clusters(es, ids)| && ids[j] in Clusters(es, ids)[k]
  {
    ClustersAreComponents(es, ids, 0, {});
    ClustersDisjoint(es, ids, 0, {});
    assert Apart(Clusters(es, ids), {});
    forall j | 0 <= j < |ids| && |Component(es, ids[j])| >= MinClusterSize
      ensures Covers(Clusters(es, ids), ids[j])
    {
      ClustersComplete(es, ids, 0, {}, j);
    }
  }

  // ---------------------------------------------------------------------------
  // Node colours
  // ---------------------------------------------------------------------------

  const Palette: seq<string> := ["#FF6B6B", "#4ECDC4", "#45B7D1", "#FFA07A", "#98D8C8", "#F7DC6F", "#BB8FCE", "#85C1E9"]
  const Unclustered: string := "#CCCCCC"

  /** The index of the first cluster holding `w`, or -1. */
  function FirstCluster(cs: seq<set<string>>, w: string): (k: int)
    ensures -1 <= k < |cs|
    ensures k == -1 <==> forall j :: 0 <= j < |cs| ==> w !in cs[j]
    ensures k >= 0 ==> w in cs[k] && forall j :: 0 <= j < k ==> w !in cs[j]
  {
    if |cs| == 0 then -1
    else if w in cs[0] then 0
    else
      var k := FirstCluster(cs[1..], w);
      assert forall j :: 1 <= j < |cs| ==> cs[1..][j - 1] == cs[j];
      if k == -1 then -1 else k + 1
  }

  /** With disjoint clusters the first holding a word is the only one. */
  lemma OnlyCluster(cs: seq<set<string>>, w: string, j: nat)
    requires forall a, b :: 0 <= a < b < |cs| ==> cs[a] * cs[b] == {}
    requires j < |cs| && w in cs[j]
    ensures FirstCluster(cs, w) == j
  {
    var k := FirstCluster(cs, w);
    assert k >= 0 && k <= j;
    assert w in cs[k] * cs[j];
  }

  /** The colour for a cluster index: the palette in turn, grey for none. */
  function Colour(k: int): (c: string)
    ensures k < 0 ==> c == Unclustered
    ensures k >= 0 ==> c == Palette[k % 8] && c != Unclustered
  {
    if k < 0 then Unclustered else Palette[k % |Palette|]
  }

  datatype ClusteredNode = ClusteredNode(id: string, size: nat, frequency: nat, cluster: int, color: string)

  /** The nodes with their cluster and colour. */
  function Coloured(ns: seq<KeywordNode>, cs: seq<set<string>>): (r: seq<ClusteredNode>)
    ensures |r| == |ns|
    ensures forall i :: 0 <= i < |r| ==>
      r[i].id == ns[i].id && r[i].size == ns[i].size && r[i].frequency == ns[i].frequency &&
      r[i].cluster == FirstCluster(cs, ns[i].id) && r[i].color == Colour(r[i].cluster)
  {
    seq(|ns|, i requires 0 <= i < |ns| =>
      var k := FirstCluster(cs, ns[i].id);
      ClusteredNode(ns[i].id, ns[i].size, ns[i].frequency, k, Colour(k)))
  }

  // ---------------------------------------------------------------------------
  // The analysis
  // ---------------------------------------------------------------------------

  /** The label service's answer for a cluster: none (status other than 200 or an
      exception), or a body with or without a `label` field. */
  datatype LabelAnswer = NoAnswer | Answer(text: Option<string>)

  /** The label: the service's label, or "클러스터 i+1" when there is none. */
  function ClusterLabel(i: nat, answer: LabelAnswer): (l: string)
    ensures answer.Answer? && answer.text.Some? ==> l == answer.text.value
    ensures answer.NoAnswer? || answer.text.None? ==> l == "클러스터 " + Text.NatToString(i + 1)
  {
    match answer
    case Answer(Some(text)) => text
    case _ => "클러스터 " + Text.NatToString(i + 1)
  }

  datatype Refusal = Refusal(error: string, message: string)
  datatype Stats = Stats(totalKeywords: nat, totalNodes: nat, totalEdges: nat, totalClusters: nat)
  datatype Network = Network(nodes: seq<ClusteredNode>, edges: seq<Edge>, clusters: seq<set<string>>, labels: seq<string>, stats: Stats)

  const NotEnoughData := Refusal("데이터 부족", "네트워크 분석을 위해서는 최소 10개 이상의 리뷰가 필요합니다.")
  const NotEnoughKeywords := Refusal("키워드 부족", "분석할 키워드가 부족합니다. 더 많은 리뷰가 필요합니다.")
  const NotEnoughLinks := Refusal("연결 부족", "키워드 간 연결이 부족합니다. 더 다양한 리뷰가 필요합니다.")

  const Window: nat := 10
  const MinEdgeWeight: int := 1

  /** The co-occurrence matrix of the reviews over the keyword set. */
  function Matrix(contents: seq<string>, keys: set<string>): (string, string) -> nat {
    (a, b) => Cooccurrence(contents, keys, Window, a, b)
  }

  /** The edges the analysis builds from the reviews. */
  function NetworkEdges(contents: seq<string>): seq<Edge> {
    var keywords := Frequencies(contents);
    Edges(Tally.Keys(TopKeywords(keywords)), Matrix(contents, Tally.KeySet(keywords)), MinEdgeWeight)
  }

  /** `analyze_keyword_network`: the guards in order, then the network. `respond` stands
      for the label service, asked per cluster. */
  function Analyze(contents: seq<string>, respond: (nat, set<string>) -> LabelAnswer): (r: Result<Network, Refusal>)
    ensures |contents| < 10 ==> r == Failure(NotEnoughData)
    ensures |contents| >= 10 && |Frequencies(contents)| < 3 ==> r == Failure(NotEnoughKeywords)
    ensures |contents| >= 10 && |Frequencies(contents)| >= 3 && |NetworkEdges(contents)| < 3 ==> r == Failure(NotEnoughLinks)
    ensures |contents| >= 10 && |Frequencies(contents)| >= 3 && |NetworkEdges(contents)| >= 3 ==> r.Success?
    ensures r.Success? ==>
      |contents| >= 10 && |Frequencies(contents)| >= 3 && |NetworkEdges(contents)| >= 3 &&
      r.value.edges == NetworkEdges(contents) &&
      |r.value.nodes| == Seqs.Min(30, |Frequencies(contents)|) && |r.value.labels| == |r.value.clusters| &&
      r.value.stats == Stats(|Frequencies(contents)|, |r.value.nodes|, |r.value.edges|, |r.value.clusters|)
    ensures r.Success? ==>
      var top := TopKeywords(Frequencies(contents));
      r.value.clusters == Clusters(r.value.edges, Tally.Keys(top)) &&
      r.value.nodes == Coloured(NodesOf(top), r.value.clusters) &&
      forall i :: 0 <= i < |r.value.labels| ==> r.value.labels[i] == ClusterLabel(i, respond(i, r.value.clusters[i]))
  {
    if |contents| < 10 then Failure(NotEnoughData)
    else
      var keywords := Frequencies(contents);
      if |keywords| < 3 then Failure(NotEnoughKeywords)
      else
        var top := TopKeywords(keywords);
        var edges := NetworkEdges(contents);
        if |edges| < 3 then Failure(NotEnoughLinks)
        else
          var clusters := Clusters(edges, Tally.Keys(top));
          var nodes := Coloured(NodesOf(top), clusters);
          var labels := seq(|clusters|, i requires 0 <= i < |clusters| => ClusterLabel(i, respond(i, clusters[i])));
          Success(Network(nodes, edges, clusters, labels, Stats(|keywords|, |nodes|, |edges|, |clusters|)))
  }

  /** In a network that is built, every edge has its reverse, and a node is grey exactly
      when no cluster holds it. */
  lemma NetworkShape(contents: seq<string>, respond: (nat, set<string>) -> LabelAnswer, a: string, b: string)
    requires Analyze(contents, respond).Success?
    ensures var n := Analyze(contents, respond).value;
      (HasEdge(n.edges, a, b) <==> HasEdge(n.edges, b, a)) &&
      forall i :: 0 <= i < |n.nodes| ==>
        (n.nodes[i].color == Unclustered <==> forall k :: 0 <= k < |n.clusters| ==> n.nodes[i].id !in n.clusters[k])
  {
    var n := Analyze(contents, respond).value;
    var keywords := Frequencies(contents);
    var top := TopKeywords(keywords);
    assert n.edges == Edges(Tally.Keys(top), Matrix(contents, Tally.KeySet(keywords)), MinEdgeWeight);
    CooccurrenceMatrixSymmetric(contents, Tally.KeySet(keywords), Window);
    EdgesPaired(Tally.Keys(top), Matrix(contents, Tally.KeySet(keywords)), MinEdgeWeight, a, b);
    assert n.nodes == Coloured(NodesOf(top), n.clusters);
    ColouredGrey(NodesOf(top), n.clusters);
  }

  /** A coloured node is grey exactly when no cluster holds it. */
  lemma ColouredGrey(ns: seq<KeywordNode>, cs: seq<set<string>>)
    ensures forall i :: 0 <= i < |Coloured(ns, cs)| ==>
      (Coloured(ns, cs)[i].color == Unclustered <==> forall k :: 0 <= k < |cs| ==> Coloured(ns, cs)[i].id !in cs[k])
  {
    var r := Coloured(ns, cs);
    forall i | 0 <= i < |r|
      ensures r[i].color == Unclustered <==> forall k :: 0 <= k < |cs| ==> r[i].id !in cs[k]
    {
      assert r[i].cluster == FirstCluster(cs, r[i].id);
    }
  }

  /** The clusters of a built network are the linked groups of at least three of its top
      keywords: each is a whole component, no two share a keyword, and every top keyword
      in a component that large is in one. */
  lemma NetworkClusters(contents: seq<string>, respond: (nat, set<string>) -> LabelAnswer)
    requires Analyze(contents, respond).Success?
    ensures var n := Analyze(contents, respond).value;
      var ids := Tally.Keys(TopKeywords(Frequencies(contents)));
      (forall k :: 0 <= k < |n.clusters| ==>
        |n.clusters[k]| >= MinClusterSize && exists j :: 0 <= j < |ids| && n.clusters[k] == Component(n.edges, ids[j])) &&
      (forall a, b :: 0 <= a < b < |n.clusters| ==> n.clusters[a] * n.clusters[b] == {}) &&
      (forall j :: 0 <= j < |ids| && |Component(n.edges, ids[j])| >= MinClusterSize ==>
        exists k :: 0 <= k < |n.clusters| && ids[j] in n.clusters[k])
  {
    var n := Analyze(contents, respond).value;
    ClustersPartition(n.edges, Tally.Keys(TopKeywords(Frequencies(contents))));
  }
}

=== FILE: links.dfy ===
/** The parts of a cafe post link the collectors read: a post number (after the cafe
    name, at the very end, or in an `articleid=` parameter) and the cafe's path segment
    after `cafe.naver.com/`. */
module CafeLinks {
  import opened Wrappers
  import Text
  import opened Patterns

  /** A pattern with exactly one group, of digits. */
  type NumberPattern = p: Pattern | CaptureClasses(p) == [Digit] witness [Number]

  /** `([^/]+)`. */
  const Segment: Token := Run(Except('/'), 1, Unbounded, true)

  /** A pattern with exactly one group, of characters other than `/`. */
  type SegmentPattern = p: Pattern | CaptureClasses(p) == [Except('/')] witness [Segment]

  lemma OneGroup(lead: string, t: Token, tail: Pattern)
    requires t.Run? && t.capture && CaptureClasses(tail) == []
    ensures CaptureClasses(Word(lead) + [t] + tail) == [t.cls]
  {
    WordNoGroups(lead);
    CaptureClassesConcat(Word(lead) + [t], tail);
    CaptureClassesConcat(Word(lead), [t]);
    assert [t][1..] == [];
  }

  /** `<lead>(\d+)<tail>`. */
  function NumberAfter(lead: string, tail: Pattern): NumberPattern
    requires CaptureClasses(tail) == []
  {
    OneGroup(lead, Number, tail);
    Word(lead) + [Number] + tail
  }

  /** `<lead>([^/]+)<tail>`. */
  function SegmentAfter(lead: string, tail: Pattern): SegmentPattern
    requires CaptureClasses(tail) == []
  {
    OneGroup(lead, Segment, tail);
    Word(lead) + [Segment] + tail
  }

  /** `/(\d+)$`: the number that ends the link. */
  function TrailingId(): NumberPattern {
    NoGroups([End]);
    NumberAfter("/", [End])
  }

  /** `/<cafe>/(\d+)`: the number right after a given cafe's path segment. */
  function PostIn(cafe: string): NumberPattern {
    NumberAfter("/" + cafe + "/", [])
  }

  /** `articleid=(\d+)`. */
  function ArticleId(): NumberPattern {
    NumberAfter("articleid=", [])
  }

  /** `/(\d+)`: any number following a slash. */
  function SlashNumber(): NumberPattern {
    NumberAfter("/", [])
  }

  /** `cafe\.naver\.com/([^/]+)/`: a cafe segment followed by a further path. */
  function CafeSegment(): SegmentPattern {
    WordNoGroups("/");
    SegmentAfter("cafe.naver.com/", Word("/"))
  }

  /** `cafe\.naver\.com/([^/]+)`: a cafe segment, whatever follows. */
  function CafeRoot(): SegmentPattern {
    SegmentAfter("cafe.naver.com/", [])
  }

  /** Somewhere in `s` the pattern matches with a group of digits denoting `n`. */
  ghost predicate NumberFound(p: NumberPattern, s: string, n: nat) {
    exists i: nat, e: nat, g :: Accepts(p, s, i, e, [g]) && AllIn(g, Digit) && n == Text.DigitsValue(g)
  }

  /** Somewhere in `s` the pattern matches with group `g`. */
  ghost predicate SegmentFound(p: SegmentPattern, s: string, g: string) {
    exists i: nat, e: nat :: Accepts(p, s, i, e, [g])
  }

  /** `int(re.search(p, s).group(1))`, `None` when there is no match. */
  function SearchNumber(p: NumberPattern, s: string): (r: Option<nat>)
    ensures r.Some? <==> Search(p, s).Some?
    ensures r.Some? ==> NumberFound(p, s, r.value)
  {
    match Search(p, s)
    case None => None
    case Some(m) =>
      var g := m.groups[0];
      assert AllIn(g, Digit) && m.groups == [g];
      Some(Text.DigitsValue(g))
  }

  /** `re.search(p, s).group(1)` for a segment pattern, `None` when there is no match. */
  function SearchSegment(p: SegmentPattern, s: string): (r: Option<string>)
    ensures r.Some? <==> Search(p, s).Some?
    ensures r.Some? ==> '/' !in r.value && SegmentFound(p, s, r.value)
  {
    match Search(p, s)
    case None => None
    case Some(m) =>
      var g := m.groups[0];
      assert AllIn(g, Except('/')) && m.groups == [g];
      assert '/' !in g by {
        forall k | 0 <= k < |g| ensures g[k] != '/' {
          assert InClass(Except('/'), g[k]);
        }
      }
      Some(g)
  }

  /** `int(re.findall(p, s)[-1])`: the number of the last match, `None` when there is none. */
  function LastNumber(p: NumberPattern, s: string): (r: Option<nat>)
    ensures r.Some? <==> Search(p, s).Some?
    ensures r.Some? ==> NumberFound(p, s, r.value)
  {
    var ms := FindAll(p, s);
    if |ms| == 0 then None
    else
      var m := ms[|ms| - 1];
      FindAllSound(p, s, 0, |ms| - 1);
      var g := m.groups[0];
      assert AllIn(g, Digit) && m.groups == [g];
      Some(Text.DigitsValue(g))
  }
}

=== FILE: markup.dfy ===
/** Cleaning of the HTML fragments the Naver search API returns: removing tags
    (`re.sub(r'<[^>]+>', '', s)`), decoding the five entities the system knows about, and
    collapsing whitespace (`re.sub(r'\s+', ' ', s).strip()`). */
module Markup {
  import Text

  // ---------------------------------------------------------------------------
  // Tags
  // ---------------------------------------------------------------------------

  /** Position of the first `c` at or after `i`, if any. */
  function IndexOf(s: string, c: char, i: nat): (r: nat)
    requires i <= |s|
    ensures i <= r <= |s|
    ensures r < |s| ==> s[r] == c
    ensures forall k :: i <= k < r ==> s[k] != c
    decreases |s| - i
  {
    if i == |s| || s[i] == c then i else IndexOf(s, c, i + 1)
  }

  /** `<[^>]+>` matches at the start of `s`: a `<`, at least one character that is not `>`,
      then a `>`. It returns where the match ends. */
  function TagAt(s: string): (r: nat)
    ensures r <= |s|
  {
    if |s| >= 3 && s[0] == '<' && s[1] != '>' then
      var j := IndexOf(s, '>', 1);
      if j < |s| then j + 1 else 0
    else 0
  }

  /** `re.sub(r'<[^>]+>', '', s)`. */
  function StripTags(s: string): (r: string)
    ensures |r| <= |s|
    ensures forall i :: 0 <= i < |r| ==> r[i] in s
    decreases |s|
  {
    if |s| == 0 then ""
    else
      var t := TagAt(s);
      if t > 0 then
        var r := StripTags(s[t..]);
        assert forall i :: 0 <= i < |r| ==> r[i] in s[t..];
        r
      else
        var r := StripTags(s[1..]);
        assert forall i :: 0 <= i < |r| ==> r[i] in s[1..];
        [s[0]] + r
  }

  /** No tag starts anywhere: each `<` is followed directly by `>`, or by no `>` at all. */
  predicate TagFree(t: string) {
    forall i :: 0 <= i < |t| && t[i] == '<' ==> TagAt(t[i..]) == 0
  }

  lemma TagAtCharacterised(s: string)
    requires |s| > 0 && s[0] == '<'
    ensures TagAt(s) == 0 <==> (|s| >= 2 && s[1] == '>') || '>' !in s[1..]
  {
    var j := IndexOf(s, '>', 1);
    if j < |s| {
      assert s[1..][j - 1] == '>';
    } else {
      assert forall k :: 0 <= k < |s[1..]| ==> s[1..][k] != '>';
    }
  }

  /** Text without tags is left alone. */
  lemma {:induction false} StripTagsFixed(t: string)
    requires TagFree(t)
    ensures StripTags(t) == t
    decreases |t|
  {
    if |t| > 0 {
      assert TagAt(t) == 0 by {
        if t[0] == '<' {
          assert t[0..] == t;
        }
        if t[0] != '<' {
        }
      }
      assert TagFree(t[1..]) by {
        forall i | 0 <= i < |t[1..]| && t[1..][i] == '<'
          ensures TagAt(t[1..][i..]) == 0
        {
          assert t[1..][i..] == t[i + 1..];
        }
      }
      StripTagsFixed(t[1..]);
    }
  }

  /** The output of `StripTags` contains no tag. */
  lemma {:induction false} StripTagsTagFree(s: string)
    ensures TagFree(StripTags(s))
    decreases |s|
  {
    if |s| > 0 {
      var t := TagAt(s);
      if t > 0 {
        StripTagsTagFree(s[t..]);
      } else {
        var rest := StripTags(s[1..]);
        StripTagsTagFree(s[1..]);
        var r := [s[0]] + rest;
        forall i | 0 <= i < |r| && r[i] == '<'
          ensures TagAt(r[i..]) == 0
        {
          if i == 0 {
            TagAtCharacterised(s);
            TagAtCharacterised(r);
            if |s| >= 2 && s[1] == '>' {
              assert TagAt(s[1..]) == 0;
              assert s[1..][1..] == s[2..];
              assert rest == [s[1]] + StripTags(s[2..]);
              assert r[1] == '>';
            } else {
              assert '>' !in rest by {
                forall k | 0 <= k < |rest| ensures rest[k] != '>' {
                  assert rest[k] in s[1..];
                }
              }
              assert r[1..] == rest;
            }
          } else {
            assert r[i..] == rest[i - 1..];
          }
        }
      }
    }
  }

  /** Removing tags twice removes nothing more. */
  lemma StripTagsIdempotent(s: string)
    ensures StripTags(StripTags(s)) == StripTags(s)
  {
    StripTagsTagFree(s);
    StripTagsFixed(StripTags(s));
  }

  // ---------------------------------------------------------------------------
  // Entities
  // ---------------------------------------------------------------------------

  /** The five `str.replace` calls, in the order the source applies them. */
  function DecodeEntities(s: string): (r: string)
    ensures '&' !in s ==> r == s
  {
    var a := Text.Replace(s, "&lt;", "<");
    var b := Text.Replace(a, "&gt;", ">");
    var c := Text.Replace(b, "&amp;", "&");
    var d := Text.Replace(c, "&quot;", "\"");
    var e := Text.Replace(d, "&#39;", "'");
    if '&' !in s then
      NoAmpersandNoEntity(s, "&lt;");
      NoAmpersandNoEntity(s, "&gt;");
      NoAmpersandNoEntity(s, "&amp;");
      NoAmpersandNoEntity(s, "&quot;");
      NoAmpersandNoEntity(s, "&#39;");
      e
    else e
  }

  /** A pattern that occurs at no position is not in the text. */
  lemma Absent(s: string, pat: string)
    requires forall i: nat :: !Text.OccursAt(s, pat, i)
    ensures !Text.In(pat, s)
  {
  }

  lemma NoAmpersandNoEntity(s: string, pat: string)
    requires |pat| > 0 && pat[0] == '&' && '&' !in s
    ensures !Text.In(pat, s)
  {
    forall i: nat | i + |pat| <= |s| ensures !Text.OccursAt(s, pat, i) {
      assert s[i..i + |pat|][0] == s[i] != '&';
    }
    Absent(s, pat);
  }

  /** The five `str.replace` calls amount to `&amp;` turning into `&`. */
  lemma DecodeAmpersand()
    ensures DecodeEntities("&amp;") == "&"
  {
    assert Text.Replace("&amp;", "&lt;", "<") == "&amp;" by { NotInAmp("&lt;"); }
    assert Text.Replace("&amp;", "&gt;", ">") == "&amp;" by { NotInAmp("&gt;"); }
    assert "&amp;"[..5] == "&amp;";
    assert Text.Replace("&amp;", "&amp;", "&") == "&" + Text.Replace("", "&amp;", "&");
    assert Text.Replace("&", "&quot;", "\"") == "&";
    assert Text.Replace("&", "&#39;", "'") == "&";
  }

  /** No other entity occurs inside `&amp;`. */
  lemma NotInAmp(pat: string)
    requires pat == "&lt;" || pat == "&gt;" || pat == "&quot;" || pat == "&#39;"
    ensures !Text.In(pat, "&amp;")
  {
    var s := "&amp;";
    forall i: nat | i + |pat| <= |s| ensures !Text.OccursAt(s, pat, i) {
      assert s[i..i + |pat|][1] == s[i + 1] != pat[1];
    }
    Absent(s, pat);
  }

  /** Decoding is a single pass, not a fixed point: a doubly escaped `&amp;amp;` comes out
      as `&amp;`, which a second pass would decode again. */
  lemma DecodeNotIdempotent()
    ensures DecodeEntities("&amp;amp;") == "&amp;"
    ensures DecodeEntities(DecodeEntities("&amp;amp;")) == "&"
  {
    var s := "&amp;amp;";
    assert !Text.In("&lt;", s) by { NotInDoubled("&lt;"); }
    assert !Text.In("&gt;", s) by { NotInDoubled("&gt;"); }
    assert s[..5] == "&amp;" && s[5..] == "amp;";
    assert Text.Replace("amp;", "&amp;", "&") == "amp;" by {
      assert '&' !in "amp;";
      NoAmpersandNoEntity("amp;", "&amp;");
    }
    assert Text.Replace(s, "&amp;", "&") == "&amp;";
    assert !Text.In("&quot;", "&amp;") by { NotInAmp("&quot;"); }
    assert !Text.In("&#39;", "&amp;") by { NotInAmp("&#39;"); }
    DecodeAmpersand();
  }

  lemma NotInDoubled(pat: string)
    requires pat == "&lt;" || pat == "&gt;"
    ensures !Text.In(pat, "&amp;amp;")
  {
    var s := "&amp;amp;";
    forall i: nat | i + |pat| <= |s| ensures !Text.OccursAt(s, pat, i) {
      assert s[i..i + |pat|][0] == s[i];
      assert s[i..i + |pat|][1] == s[i + 1];
    }
    Absent(s, pat);
  }

  /** Tag removal then entity decoding, as every cafe filter cleans a title or description. */
  function CleanField(s: string): string {
    DecodeEntities(StripTags(s))
  }

  // ---------------------------------------------------------------------------
  // Whitespace
  // ---------------------------------------------------------------------------

  /** The non-whitespace characters of `s`, in order (Python's `''.join(s.split())`). */
  function NonSpace(s: string): (r: string)
    ensures |r| <= |s|
  {
    if |s| == 0 then ""
    else (if Text.IsSpace(s[0]) then "" else [s[0]]) + NonSpace(s[1..])
  }

  lemma {:induction false} NonSpaceConcat(a: string, b: string)
    ensures NonSpace(a + b) == NonSpace(a) + NonSpace(b)
    decreases |a|
  {
    if |a| > 0 {
      assert (a + b)[1..] == a[1..] + b;
      NonSpaceConcat(a[1..], b);
    } else {
      assert a + b == b;
    }
  }

  lemma {:induction false} NonSpaceOfBlank(s: string)
    requires forall i :: 0 <= i < |s| ==> Text.IsSpace(s[i])
    ensures NonSpace(s) == ""
    decreases |s|
  {
    if |s| > 0 {
      NonSpaceOfBlank(s[1..]);
    }
  }

  /** `re.sub(r'\s+', ' ', s)`: every maximal run of whitespace becomes one space. */
  function Collapse(s: string): (r: string)
    ensures |r| <= |s|
    decreases |s|
  {
    if |s| == 0 then ""
    else if Text.IsSpace(s[0]) then " " + Collapse(Text.TrimStart(s))
    else [s[0]] + Collapse(s[1..])
  }

  /** What whitespace normalisation produces: the only whitespace is single inner spaces. */
  predicate Normalized(t: string) {
    && (forall i :: 0 <= i < |t| && Text.IsSpace(t[i]) ==> t[i] == ' ' && 0 < i < |t| - 1)
    && (forall i :: 0 <= i < |t| - 1 ==> !(Text.IsSpace(t[i]) && Text.IsSpace(t[i + 1])))
  }

  /** `re.sub(r'\s+', ' ', s).strip()`. */
  function Normalize(s: string): string {
    Text.Strip(Collapse(s))
  }

  /** Whitespace in the collapsed text is single spaces. */
  predicate SingleSpaced(t: string) {
    && (forall i :: 0 <= i < |t| && Text.IsSpace(t[i]) ==> t[i] == ' ')
    && (forall i :: 0 <= i < |t| - 1 ==> !(Text.IsSpace(t[i]) && Text.IsSpace(t[i + 1])))
  }

  lemma {:induction false} CollapseShape(s: string)
    ensures SingleSpaced(Collapse(s))
    ensures NonSpace(Collapse(s)) == NonSpace(s)
    ensures |Collapse(s)| > 0 ==> (Text.IsSpace(Collapse(s)[0]) <==> Text.IsSpace(s[0]))
  {
    CollapseSingleSpaced(s);
    CollapseNonSpace(s);
    CollapseHead(s);
  }

  /** The collapsed text opens with whitespace exactly when the text does. */
  lemma CollapseHead(s: string)
    ensures |Collapse(s)| > 0 ==> (Text.IsSpace(Collapse(s)[0]) <==> Text.IsSpace(s[0]))
  {
    if |s| > 0 && Text.IsSpace(s[0]) {
      assert Collapse(s)[0] == ' ';
    }
  }

  lemma {:induction false} CollapseSingleSpaced(s: string)
    ensures SingleSpaced(Collapse(s))
    decreases |s|
  {
    if |s| > 0 {
      if Text.IsSpace(s[0]) {
        var t := Text.TrimStart(s);
        CollapseSingleSpaced(t);
        CollapseHead(t);
        assert Collapse(s) == " " + Collapse(t);
      } else {
        CollapseSingleSpaced(s[1..]);
        assert Collapse(s) == [s[0]] + Collapse(s[1..]);
      }
    }
  }

  lemma {:induction false} CollapseNonSpace(s: string)
    ensures NonSpace(Collapse(s)) == NonSpace(s)
    decreases |s|
  {
    if |s| > 0 {
      if Text.IsSpace(s[0]) {
        var t := Text.TrimStart(s);
        CollapseNonSpace(t);
        assert Collapse(s) == " " + Collapse(t);
        assert s == s[..|s| - |t|] + t;
        NonSpaceConcat(s[..|s| - |t|], t);
        NonSpaceOfBlank(s[..|s| - |t|]);
        NonSpaceConcat(" ", Collapse(t));
      } else {
        CollapseNonSpace(s[1..]);
        NonSpaceConcat([s[0]], Collapse(s[1..]));
        assert s == [s[0]] + s[1..];
        NonSpaceConcat([s[0]], s[1..]);
      }
    }
  }

  lemma {:induction false} DropLead(c: string, k: nat)
    requires k <= |c| && forall i :: 0 <= i < k ==> Text.IsSpace(c[i])
    ensures NonSpace(c) == NonSpace(c[k..])
    decreases k
  {
    if k > 0 {
      DropLead(c[1..], k - 1);
      assert c[1..][k - 1..] == c[k..];
    }
  }

  lemma {:induction false} DropTrail(c: string, n: nat)
    requires n <= |c| && forall i :: n <= i < |c| ==> Text.IsSpace(c[i])
    ensures NonSpace(c) == NonSpace(c[..n])
    decreases n
  {
    if n == 0 {
      NonSpaceOfBlank(c);
    } else {
      DropTrail(c[1..], n - 1);
      assert c[1..][..n - 1] == c[..n][1..];
    }
  }

  /** Stripping removes only whitespace. */
  lemma StripKeepsContent(c: string)
    ensures NonSpace(Text.Strip(c)) == NonSpace(c)
  {
    var t := Text.TrimStart(c);
    DropLead(c, |c| - |t|);
    var r := Text.TrimEnd(t);
    DropTrail(t, |r|);
  }

  /** A slice of single-spaced text that starts and ends with non-whitespace is normalised. */
  lemma SliceNormalized(c: string, r: string, off: nat)
    requires SingleSpaced(c)
    requires off + |r| <= |c| && r == c[off..off + |r|]
    requires |r| > 0 ==> !Text.IsSpace(r[0]) && !Text.IsSpace(r[|r| - 1])
    ensures Normalized(r)
  {
    forall i | 0 <= i < |r| && Text.IsSpace(r[i]) ensures r[i] == ' ' && 0 < i < |r| - 1 {
      assert r[i] == c[off + i];
    }
    forall i | 0 <= i < |r| - 1 ensures !(Text.IsSpace(r[i]) && Text.IsSpace(r[i + 1])) {
      assert r[i] == c[off + i] && r[i + 1] == c[off + i + 1];
    }
  }

  /** Stripping single-spaced text leaves it in normal form. */
  lemma StripNormalizes(c: string)
    requires SingleSpaced(c)
    ensures Normalized(Text.Strip(c))
  {
    Text.StripSlice(c);
    SliceNormalized(c, Text.Strip(c), |c| - |Text.TrimStart(c)|);
  }

  /** Whitespace normalisation keeps every other character, in order, and leaves text in
      normal form. */
  lemma NormalizeShape(s: string)
    ensures Normalized(Normalize(s))
    ensures NonSpace(Normalize(s)) == NonSpace(s)
  {
    CollapseShape(s);
    StripKeepsContent(Collapse(s));
    StripNormalizes(Collapse(s));
  }

  /** Text already in normal form is left alone, so normalising twice changes nothing. */
  lemma {:induction false} NormalizeFixed(t: string)
    requires Normalized(t)
    ensures Normalize(t) == t
  {
    CollapseFixed(t);
    if |t| > 0 {
      assert !Text.IsSpace(t[0]) && !Text.IsSpace(t[|t| - 1]);
    }
  }

  lemma {:induction false} CollapseFixed(t: string)
    requires SingleSpaced(t)
    ensures Collapse(t) == t
    decreases |t|
  {
    if |t| > 0 {
      SingleSpacedTail(t);
      CollapseFixed(t[1..]);
      assert t == [t[0]] + t[1..];
      if Text.IsSpace(t[0]) {
        assert t[0] == ' ';
        assert |t| == 1 || !Text.IsSpace(t[1]);
        assert Text.TrimStart(t[1..]) == t[1..];
        assert Text.TrimStart(t) == t[1..];
        assert Collapse(t) == " " + t[1..];
      } else {
        assert Collapse(t) == [t[0]] + t[1..];
      }
    }
  }

  /** Dropping the first character keeps text single-spaced. */
  lemma SingleSpacedTail(t: string)
    requires SingleSpaced(t) && |t| > 0
    ensures SingleSpaced(t[1..])
  {
    forall i | 0 <= i < |t| - 1 ensures t[1..][i] == t[i + 1] { }
  }

  lemma NormalizeIdempotent(s: string)
    ensures Normalize(Normalize(s)) == Normalize(s)
  {
    NormalizeShape(s);
    NormalizeFixed(Normalize(s));
  }

  /** `strip_html` and `extract_text_from_html` in the API client: tags, entities, whitespace. */
  function StripHtml(s: string): (r: string)
    ensures Normalized(r)
    ensures NonSpace(r) == NonSpace(CleanField(s))
  {
    NormalizeShape(CleanField(s));
    Normalize(CleanField(s))
  }
}

=== FILE: naver_api.dfy ===
/** The Naver search API client: the request URL it builds for a blog or cafe search,
    and its test for whether a search result reads like a user's own review. The HTTP
    request is an oracle from URL to the returned items; tag stripping is `Markup.StripHtml`,
    the one function behind both `strip_html` and `extract_text_from_html`. */
module NaverApi {
  import opened Wrappers
  import Text
  import Markup

  // ---------------------------------------------------------------------------
  // Percent-encoding (`urllib.parse.quote` with its default safe set)
  // ---------------------------------------------------------------------------

  /** Characters `quote` leaves as they are: ASCII letters and digits, `_.-~`, and `/`. */
  predicate Unreserved(c: char) {
    ('A' <= c <= 'Z') || ('a' <= c <= 'z') || ('0' <= c <= '9') || c == '_' || c == '.' || c == '-' || c == '~' || c == '/'
  }

  /** The UTF-8 encoding of one character, as byte values. */
  function Utf8(c: char): (bs: seq<nat>)
    ensures 1 <= |bs| <= 4
    ensures forall i :: 0 <= i < |bs| ==> bs[i] < 256
    ensures |bs| == 1 <==> (c as int) < 0x80
    ensures |bs| == 1 ==> bs[0] == c as int
  {
    var cp := c as int;
    if cp < 0x80 then [cp]
    else if cp < 0x800 then [0xC0 + cp / 64, 0x80 + cp % 64]
    else if cp < 0x10000 then [0xE0 + cp / 4096, 0x80 + (cp / 64) % 64, 0x80 + cp % 64]
    else [0xF0 + cp / 262144, 0x80 + (cp / 4096) % 64, 0x80 + (cp / 64) % 64, 0x80 + cp % 64]
  }

  function HexDigit(n: nat): (c: char)
    requires n < 16
    ensures Unreserved(c)
  {
    "0123456789ABCDEF"[n]
  }

  /** `%XX` for one byte, upper-case hexadecimal. */
  function PercentByte(b: nat): (r: string)
    requires b < 256
    ensures |r| == 3 && r[0] == '%' && Unreserved(r[1]) && Unreserved(r[2])
  {
    ['%', HexDigit(b / 16), HexDigit(b % 16)]
  }

  function PercentBytes(bs: seq<nat>): (r: string)
    requires forall i :: 0 <= i < |bs| ==> bs[i] < 256
    ensures |r| == 3 * |bs|
    ensures forall i :: 0 <= i < |r| ==> Unreserved(r[i]) || r[i] == '%'
  {
    if |bs| == 0 then "" else PercentByte(bs[0]) + PercentBytes(bs[1..])
  }

  function QuoteChar(c: char): (r: string)
    ensures Unreserved(c) ==> r == [c]
    ensures !Unreserved(c) ==> r == PercentBytes(Utf8(c))
  {
    if Unreserved(c) then [c] else PercentBytes(Utf8(c))
  }

  /** The characters of an encoded text: nothing that could end the query parameter. */
  predicate UrlSafe(s: string) {
    forall i :: 0 <= i < |s| ==> Unreserved(s[i]) || s[i] == '%'
  }

  /** `urllib.parse.quote(s)`. */
  function Quote(s: string): (r: string)
    ensures UrlSafe(r)
    ensures |r| >= |s|
  {
    if |s| == 0 then "" else QuoteChar(s[0]) + Quote(s[1..])
  }

  /** Encoding distributes over concatenation. */
  lemma {:induction false} QuoteConcat(a: string, b: string)
    ensures Quote(a + b) == Quote(a) + Quote(b)
  {
    if |a| > 0 {
      assert (a + b)[1..] == a[1..] + b;
      QuoteConcat(a[1..], b);
    } else {
      assert a + b == b;
    }
  }

  /** A text made only of unreserved characters is left as it is. */
  lemma {:induction false} QuoteUnreserved(s: string)
    requires forall i :: 0 <= i < |s| ==> Unreserved(s[i])
    ensures Quote(s) == s
  {
    if |s| > 0 {
      QuoteUnreserved(s[1..]);
    }
  }

  /** An unreserved character stays one character; every other one becomes `%XX`
      escapes, so it cannot pass through unencoded. */
  lemma QuoteCharDistinguishes(c: char)
    ensures |QuoteChar(c)| == 1 <==> Unreserved(c)
    ensures !Unreserved(c) ==> QuoteChar(c)[0] == '%'
  {
  }

  // ---------------------------------------------------------------------------
  // The search request
  // ---------------------------------------------------------------------------

  const BlogEndpoint: string := "https://openapi.naver.com/v1/search/blog"
  const CafeEndpoint: string := "https://openapi.naver.com/v1/search/cafearticle"

  /** The endpoint for a search type; any type but `blog` and `cafe` is a `ValueError`. */
  function Endpoint(searchType: string): (r: Result<string, string>)
    ensures r.Success? <==> searchType == "blog" || searchType == "cafe"
    ensures searchType == "blog" ==> r == Success(BlogEndpoint)
    ensures searchType == "cafe" ==> r == Success(CafeEndpoint)
  {
    if searchType == "blog" then Success(BlogEndpoint)
    else if searchType == "cafe" then Success(CafeEndpoint)
    else Failure("search_type은 'blog' 또는 'cafe' 이어야 합니다")
  }

  /** The query parameter: the keyword in double quotes, percent-encoded. */
  function Query(keyword: string): (q: string)
    ensures q == "%22" + Quote(keyword) + "%22"
    ensures UrlSafe(q)
  {
    QuoteConcat("\"" + keyword, "\"");
    QuoteConcat("\"", keyword);
    assert Quote("\"") == "%22";
    Quote("\"" + keyword + "\"")
  }

  /** `search_naver`: the type is checked before any request; the request `respond`
      answers with the result items, or `None` for a failed request or a status other than
      200, which give no items. */
  function SearchNaver<T>(keyword: string, searchType: string, display: int, respond: string -> Option<seq<T>>): (r: Result<seq<T>, string>)
    ensures r.Failure? <==> Endpoint(searchType).Failure?
    ensures r.Success? ==> r.value == respond(Endpoint(searchType).value + "?query=" + Query(keyword) + "&display=" + Text.IntToString(display)).GetOr([])
  {
    var base :- Endpoint(searchType);
    Success(respond(base + "?query=" + Query(keyword) + "&display=" + Text.IntToString(display)).GetOr([]))
  }

  // ---------------------------------------------------------------------------
  // The review heuristic
  // ---------------------------------------------------------------------------

  const ReviewSignals: seq<string> := ["후기", "리뷰", "사용기", "써봤어요", "추천", "단점", "장점", "불편", "좋았던 점"]

  /** The text the heuristic reads: cleaned, lower-cased title and description. */
  function ReviewText(title: string, description: string): string {
    Text.Lower(Markup.StripHtml(title)) + " " + Text.Lower(Markup.StripHtml(description))
  }

  /** Some service keyword, lower-cased, occurs in the text. */
  predicate MentionsService(text: string, serviceKeywords: seq<string>) {
    exists k :: 0 <= k < |serviceKeywords| && Text.In(Text.Lower(serviceKeywords[k]), text)
  }

  /** `is_likely_user_review`: the four tests in order, each able to reject. */
  function IsLikelyUserReview(title: string, description: string, serviceKeywords: seq<string>): (b: bool)
    ensures var text := ReviewText(title, description);
      b <==> Text.ContainsAny(text, ReviewSignals) &&
             !Text.In("press", text) && !Text.In("보도자료", text) &&
             |text| >= 30 &&
             MentionsService(text, serviceKeywords)
  {
    var text := ReviewText(title, description);
    if !Text.ContainsAny(text, ReviewSignals) then false
    else if Text.In("press", text) || Text.In("보도자료", text) then false
    else if |text| < 30 then false
    else ServiceMentioned(text, serviceKeywords)
  }

  /** `any(sk.lower() in text for sk in service_keywords)`. */
  function ServiceMentioned(text: string, serviceKeywords: seq<string>): (b: bool)
    ensures b <==> MentionsService(text, serviceKeywords)
  {
    if |serviceKeywords| == 0 then false
    else
      var rest := ServiceMentioned(text, serviceKeywords[1..]);
      assert MentionsService(text, serviceKeywords[1..]) ==> MentionsService(text, serviceKeywords) by {
        if MentionsService(text, serviceKeywords[1..]) {
          var k :| 0 <= k < |serviceKeywords[1..]| && Text.In(Text.Lower(serviceKeywords[1..][k]), text);
          assert serviceKeywords[k + 1] == serviceKeywords[1..][k];
        }
      }
      assert MentionsService(text, serviceKeywords) ==> Text.In(Text.Lower(serviceKeywords[0]), text) || MentionsService(text, serviceKeywords[1..]) by {
        if MentionsService(text, serviceKeywords) {
          var k :| 0 <= k < |serviceKeywords| && Text.In(Text.Lower(serviceKeywords[k]), text);
          if k > 0 { assert serviceKeywords[1..][k - 1] == serviceKeywords[k]; }
        }
      }
      Text.In(Text.Lower(serviceKeywords[0]), text) || rest
  }

  /** With no service keywords nothing passes. */
  lemma NoKeywordsNoReview(title: string, description: string)
    ensures !IsLikelyUserReview(title, description, [])
  {
  }
}

=== FILE: negative_keywords.dfy ===
/** The negative-review keyword network of `server/negative_keyword_analysis.py`: the
    reviews it reads as negative, their twenty most common keywords, co-occurrence among
    strictly negative reviews, the pairs with positive pointwise mutual information, the
    problem-type clusters, and the display data. The clustering service and the `0.1`
    threshold on a logarithm are parameters. */
module NegativeKeywords {
  import opened Wrappers
  import Text
  import Seqs
  import Tally
  import Words
  import KeywordAnalysis

  // ---------------------------------------------------------------------------
  // Which reviews count as negative
  // ---------------------------------------------------------------------------

  const NegativeSentiment := "부정"

  /** Complaint words whose presence makes a review negative whatever its sentiment. */
  const ComplaintWords: seq<string> := [
    "불편", "안되", "안돼", "문제", "오류", "실패", "느림", "끊어", "멈춤", "복잡", "어려", "힘들"]

  /** The sentiment, stripped, is exactly "부정". */
  predicate StrictlyNegative(r: Words.Review) {
    Text.Strip(r.sentiment) == NegativeSentiment
  }

  /** The lenient test keyword extraction uses: a negative sentiment or a complaint word. */
  predicate ReadsNegative(r: Words.Review) {
    StrictlyNegative(r) || Text.ContainsAny(r.content, ComplaintWords)
  }

  /** The reviews that read negative, in order and as often as the input has them. */
  function NegativeReviews(reviews: seq<Words.Review>): (rs: seq<Words.Review>)
    ensures |rs| <= |reviews|
    ensures forall r :: r in rs <==> r in reviews && ReadsNegative(r)
    ensures forall r {:trigger Tally.Occurrences(rs, r)} :: Tally.Occurrences(rs, r) == if ReadsNegative(r) then Tally.Occurrences(reviews, r) else 0
  {
    Tally.FilterCount(ReadsNegative, reviews);
    Seqs.Filter(ReadsNegative, reviews)
  }

  /** The reviews whose sentiment is exactly negative, in order and as often as the input
      has them. */
  function StrictNegatives(reviews: seq<Words.Review>): (rs: seq<Words.Review>)
    ensures |rs| <= |reviews|
    ensures forall r :: r in rs <==> r in reviews && StrictlyNegative(r)
    ensures forall r {:trigger Tally.Occurrences(rs, r)} :: Tally.Occurrences(rs, r) == if StrictlyNegative(r) then Tally.Occurrences(reviews, r) else 0
  {
    Tally.FilterCount(StrictlyNegative, reviews);
    Seqs.Filter(StrictlyNegative, reviews)
  }

  /** `NegativeReviews` keeps input order: the reviews of a longer list follow those of its prefix. */
  lemma NegativeReviewsConcat(a: seq<Words.Review>, b: seq<Words.Review>)
    ensures NegativeReviews(a + b) == NegativeReviews(a) + NegativeReviews(b)
  {
    Seqs.FilterConcat(ReadsNegative, a, b);
  }

  /** One review is kept exactly when it reads negative. */
  lemma NegativeReviewsOne(r: Words.Review)
    ensures NegativeReviews([r]) == if ReadsNegative(r) then [r] else []
  {
    Seqs.FilterOne(ReadsNegative, r);
  }

  /** `StrictNegatives` keeps input order: the reviews of a longer list follow those of its prefix. */
  lemma StrictNegativesConcat(a: seq<Words.Review>, b: seq<Words.Review>)
    ensures StrictNegatives(a + b) == StrictNegatives(a) + StrictNegatives(b)
  {
    Seqs.FilterConcat(StrictlyNegative, a, b);
  }

  /** One review is kept exactly when its sentiment is exactly negative. */
  lemma StrictNegativesOne(r: Words.Review)
    ensures StrictNegatives([r]) == if StrictlyNegative(r) then [r] else []
  {
    Seqs.FilterOne(StrictlyNegative, r);
  }

  /** Every strictly negative review also reads negative, so co-occurrence looks at no
      review that keyword extraction skipped. */
  lemma StrictNegativesRead(reviews: seq<Words.Review>)
    ensures forall r :: r in StrictNegatives(reviews) ==> r in NegativeReviews(reviews)
  {
  }

  /** A complaint word makes a review read negative even with a positive sentiment. */
  lemma ComplaintReadsNegative(content: string, sentiment: string, k: nat)
    requires k < |ComplaintWords| && Text.In(ComplaintWords[k], content)
    ensures ReadsNegative(Words.Review(content, sentiment))
  {
    Text.ContainsAnyWitness(content, ComplaintWords, k);
  }

  // ---------------------------------------------------------------------------
  // Keywords
  // ---------------------------------------------------------------------------

  const Stopwords: seq<string> := [
    "익시오", "앱", "어플", "애플리케이션", "유플러스", "LG", "LGU", "U+",
    "사용", "사용자", "좋다", "나쁘다", "괜찮다", "별로", "그냥", "정말",
    "너무", "조금", "많이", "아주", "가끔", "항상", "때문", "이제", "지금",
    "이번", "다음", "처음", "마지막", "하지만", "그래서", "그리고", "또한",
    "수", "있다", "없다", "된다", "한다", "같다", "다르다", "것", "거", "게",
    "서비스", "기능", "시스템"]

  /** Problem, feeling and feature words. */
  const UxWords: seq<string> := [
    "오류", "버그", "문제", "에러", "실패", "작동", "멈춤", "충돌", "끊어짐",
    "안되", "안돼", "안됨", "불가", "차단", "제한", "금지", "거부",
    "불편", "불만", "답답", "짜증", "화남", "실망", "후회", "스트레스",
    "귀찮", "복잡", "어려", "힘들", "형편없", "구리", "최악", "렉",
    "통화", "전화", "연결", "수신", "발신", "녹음", "음성", "소리",
    "화면", "버튼", "메뉴", "설정", "배터리", "메모리", "속도", "느림",
    "빠름", "반응", "처리", "로딩", "시간", "대기", "지연"]

  /** `is_meaningful_keyword`: a listed word, a word related to one by containment either
      way, or two or more Hangul syllables. There is no length limit and no digit test. */
  function IsMeaningful(w: string): (b: bool)
    ensures b <==> KeywordAnalysis.Related(w, UxWords) || (|w| >= 2 && Text.AllHangul(w))
  {
    if w in UxWords then
      var k :| 0 <= k < |UxWords| && UxWords[k] == w;
      assert Text.OccursAt(w, w, 0);
      true
    else if KeywordAnalysis.AnyRelated(w, UxWords) then true
    else |w| >= 2 && Text.AllHangul(w)
  }

  /** The test passes every word the scanner produces: the word list decides nothing. */
  lemma RunsAreMeaningful(w: string)
    requires Text.AllHangul(w) && |w| >= 2
    ensures IsMeaningful(w)
  {
  }

  /** A word that is counted: not a stopword, and meaningful. */
  predicate IsCounted(w: string) {
    w !in Stopwords && IsMeaningful(w)
  }

  /** The words of a list that are counted, in order and as often as the list has them. */
  function Counted(runs: seq<string>): (ws: seq<string>)
    ensures forall w :: w in ws <==> w in runs && w !in Stopwords && IsMeaningful(w)
    ensures forall w {:trigger Tally.Occurrences(ws, w)} ::
      Tally.Occurrences(ws, w) == if w !in Stopwords && IsMeaningful(w) then Tally.Occurrences(runs, w) else 0
  {
    Tally.FilterCount(IsCounted, runs);
    Seqs.Filter(IsCounted, runs)
  }

  /** `Counted` keeps order: the words of a longer list follow those of its prefix. */
  lemma CountedConcat(a: seq<string>, b: seq<string>)
    ensures Counted(a + b) == Counted(a) + Counted(b)
  {
    Seqs.FilterConcat(IsCounted, a, b);
  }

  /** One word is kept exactly when it is not a stopword and is meaningful. */
  lemma CountedOne(w: string)
    ensures Counted([w]) == if w !in Stopwords && IsMeaningful(w) then [w] else []
  {
    Seqs.FilterOne(IsCounted, w);
  }

  /** The counted words of one review: Hangul runs of two to six syllables that are not
      stopwords, in text order and as often as the text has them. */
  function ReviewWords(content: string): (ws: seq<string>)
    ensures forall w :: w in ws <==> w in Words.HangulRuns(content, 2, 6) && w !in Stopwords
    ensures forall k :: 0 <= k < |ws| ==> Text.AllHangul(ws[k]) && 2 <= |ws[k]| <= 6
    ensures forall w {:trigger Tally.Occurrences(ws, w)} ::
      Tally.Occurrences(ws, w) == if w !in Stopwords then Tally.Occurrences(Words.HangulRuns(content, 2, 6), w) else 0
  {
    var runs := Words.HangulRuns(content, 2, 6);
    forall w | w in runs ensures IsMeaningful(w) {
      var k :| 0 <= k < |runs| && runs[k] == w;
      RunsAreMeaningful(w);
    }
    var ws := Counted(runs);
    forall w ensures Tally.Occurrences(ws, w) == if w !in Stopwords then Tally.Occurrences(runs, w) else 0 {
      if w !in runs {
        Tally.OccurrencesAbsent(runs, w);
      }
    }
    forall k | 0 <= k < |ws| ensures Text.AllHangul(ws[k]) && 2 <= |ws[k]| <= 6 {
      assert ws[k] in runs;
    }
    ws
  }

  /** All counted words of the reviews that read negative, review by review. */
  function NegativeWords(reviews: seq<Words.Review>): seq<string> {
    var rs := NegativeReviews(reviews);
    Seqs.Flatten(seq(|rs|, i requires 0 <= i < |rs| => ReviewWords(rs[i].content)))
  }

  /** `extract_negative_keywords`: the twenty most common counted words of the reviews
      that read negative, each with its number of occurrences, most frequent first. */
  function ExtractKeywords(reviews: seq<Words.Review>): (es: seq<Tally.Entry<string>>)
    ensures |es| <= 20
    ensures Tally.DistinctKeys(es) && Tally.Positive(es) && Tally.Descending(es)
    ensures forall i :: 0 <= i < |es| ==>
      es[i].key in NegativeWords(reviews) && es[i].count == Tally.Occurrences(NegativeWords(reviews), es[i].key)
    ensures forall w :: w in NegativeWords(reviews) && w !in Tally.KeySet(es) ==>
      forall i :: 0 <= i < |es| ==> Tally.Occurrences(NegativeWords(reviews), w) <= es[i].count
    ensures |es| < 20 ==> forall w :: w in NegativeWords(reviews) ==> w in Tally.KeySet(es)
  {
    if |NegativeReviews(reviews)| == 0 then []
    else Tally.MostCommon(NegativeWords(reviews), 20)
  }

  /** There are keywords exactly when some negative-reading review has a counted word. */
  lemma KeywordsExistIff(reviews: seq<Words.Review>)
    ensures |ExtractKeywords(reviews)| > 0 <==> |NegativeWords(reviews)| > 0
  {
    var ws := NegativeWords(reviews);
    if |ws| > 0 {
      assert ws[0] in ws;
    }
  }

  /** A keyword is a Hangul run of two to six syllables, not a stopword, from a review
      that reads negative. */
  lemma KeywordShape(reviews: seq<Words.Review>, w: string)
    requires w in Tally.KeySet(ExtractKeywords(reviews))
    ensures Text.AllHangul(w) && 2 <= |w| <= 6 && w !in Stopwords
    ensures exists r :: r in reviews && ReadsNegative(r) && w in Words.HangulRuns(r.content, 2, 6)
  {
    var es := ExtractKeywords(reviews);
    var i :| 0 <= i < |es| && es[i].key == w;
    var rs := NegativeReviews(reviews);
    var xss := seq(|rs|, i requires 0 <= i < |rs| => ReviewWords(rs[i].content));
    Seqs.FlattenMember(xss, w);
    var j :| 0 <= j < |xss| && w in xss[j];
    var k :| 0 <= k < |xss[j]| && xss[j][k] == w;
    assert rs[j] in rs;
  }

  // ---------------------------------------------------------------------------
  // Co-occurrence and pointwise mutual information
  // ---------------------------------------------------------------------------

  const Window: nat := 5

  /** `calculate_cooccurrence_matrix`: sorted pairs of different keywords at most five
      keyword positions apart, counted over the strictly negative reviews only. */
  function Cooccurrence(reviews: seq<Words.Review>, keywords: seq<Tally.Entry<string>>): (m: seq<Tally.Entry<(string, string)>>)
    ensures Tally.DistinctKeys(m) && Tally.Positive(m)
    ensures var emitted := KeywordAnalysis.EmittedPairs(Words.Contents(StrictNegatives(reviews)), Tally.KeySet(keywords), Window);
      forall p :: Tally.Lookup(m, p) == Tally.Occurrences(emitted, p)
    ensures forall p :: p in Tally.KeySet(m) ==> Text.LexLess(p.0, p.1) && p.0 in Tally.KeySet(keywords) && p.1 in Tally.KeySet(keywords)
  {
    KeywordAnalysis.Cooccurrence(Words.Contents(StrictNegatives(reviews)), keywords, Window)
  }

  /** A review whose sentiment is not exactly negative adds nothing to co-occurrence, even
      when its complaint words made it count for the keywords. */
  lemma CooccurrenceIgnores(reviews: seq<Words.Review>, r: Words.Review, keywords: seq<Tally.Entry<string>>)
    requires !StrictlyNegative(r)
    ensures Cooccurrence(reviews + [r], keywords) == Cooccurrence(reviews, keywords)
  {
    var all := reviews + [r];
    assert all[..|all| - 1] == reviews && all[|all| - 1] == r;
    assert StrictNegatives(all) == StrictNegatives(reviews);
  }

  /** `sum(keywords.values())`. */
  function Total(es: seq<Tally.Entry<string>>): (t: nat)
    ensures Tally.Positive(es) && |es| > 0 ==> t >= |es|
    ensures forall i :: 0 <= i < |es| ==> es[i].count <= t
  {
    if |es| == 0 then 0
    else
      var rest := Total(es[1..]);
      assert forall i :: 1 <= i < |es| ==> es[i] == es[1..][i - 1];
      es[0].count + rest
  }

  /** `log(p_xy / (p_x * p_y)) > 0` with `p = count / total`: at least two co-occurrences,
      both keywords counted, and `cooc * total > freq_a * freq_b`. */
  predicate PositivePmi(cooc: nat, fa: nat, fb: nat, total: nat) {
    cooc >= 2 && fa > 0 && fb > 0 && cooc * total > fa * fb
  }

  /** A link of the display, between the two keywords of a pair. Weights and widths are
      floating-point and not modelled. */
  datatype Edge = Edge(source: string, target: string)

  /** `above(cooc, fa, fb, total)` stands for `log(cooc * total / (fa * fb)) > 0.1`. */
  predicate Linked(e: Tally.Entry<(string, string)>, keywords: seq<Tally.Entry<string>>, total: nat, above: (nat, nat, nat, nat) -> bool) {
    var fa := Tally.Lookup(keywords, e.key.0);
    var fb := Tally.Lookup(keywords, e.key.1);
    PositivePmi(e.count, fa, fb, total) && above(e.count, fa, fb, total)
  }

  /** `calculate_pmi` followed by the edge loop: one edge per pair with positive pointwise
      mutual information above the threshold, in co-occurrence order. */
  function Edges(cooc: seq<Tally.Entry<(string, string)>>, keywords: seq<Tally.Entry<string>>, total: nat, above: (nat, nat, nat, nat) -> bool): (es: seq<Edge>)
    requires Tally.DistinctKeys(cooc)
    ensures |es| <= |cooc|
    ensures forall p: (string, string) :: Edge(p.0, p.1) in es <==>
      p in Tally.KeySet(cooc) && Linked(Tally.Entry(p, Tally.Lookup(cooc, p)), keywords, total, above)
    ensures forall k :: 0 <= k < |es| ==> (es[k].source, es[k].target) in Tally.KeySet(cooc)
  {
    if |cooc| == 0 then []
    else
      var rest := Edges(cooc[1..], keywords, total, above);
      assert cooc == [cooc[0]] + cooc[1..];
      Tally.KeySetCons(cooc[0], cooc[1..]);
      Tally.HeadKeyFresh(cooc);
      var p0 := cooc[0].key;
      assert Tally.Lookup(cooc, p0) == cooc[0].count;
      assert forall p :: p != p0 ==> Tally.Lookup(cooc, p) == Tally.Lookup(cooc[1..], p);
      assert Edge(p0.0, p0.1) !in rest;
      (if Linked(cooc[0], keywords, total, above) then [Edge(p0.0, p0.1)] else []) + rest
  }

  /** No edge joins a keyword to itself, and every edge joins two keywords. */
  lemma EdgesBetweenKeywords(reviews: seq<Words.Review>, keywords: seq<Tally.Entry<string>>, above: (nat, nat, nat, nat) -> bool, k: nat)
    requires k < |Edges(Cooccurrence(reviews, keywords), keywords, Total(keywords), above)|
    ensures var e := Edges(Cooccurrence(reviews, keywords), keywords, Total(keywords), above)[k];
      e.source != e.target && e.source in Tally.KeySet(keywords) && e.target in Tally.KeySet(keywords)
  {
    var e := Edges(Cooccurrence(reviews, keywords), keywords, Total(keywords), above)[k];
    Text.LexLessIrreflexive(e.source);
  }

  // ---------------------------------------------------------------------------
  // Clusters
  // ---------------------------------------------------------------------------

  /** A cluster as the clustering service returns it; either field may be missing. */
  datatype ReplyCluster = ReplyCluster(name: Option<string>, keywords: Option<seq<string>>)

  predicate WellFormed(c: ReplyCluster) {
    c.name.Some? && c.keywords.Some?
  }

  predicate AllWellFormed(cs: seq<ReplyCluster>) {
    forall i :: 0 <= i < |cs| ==> WellFormed(cs[i])
  }

  /** `create_fallback_clusters`: the frequency chunks of the keyword network, named
      "문제 유형 1", "문제 유형 2", and so on. */
  function FallbackClusters(keywords: seq<Tally.Entry<string>>): (cs: seq<ReplyCluster>)
    ensures AllWellFormed(cs)
    ensures |cs| == |KeywordAnalysis.FallbackClusters(keywords)|
    ensures forall i :: 0 <= i < |cs| ==>
      cs[i].name == Some("문제 유형 " + Text.NatToString(i + 1)) &&
      cs[i].keywords == Some(KeywordAnalysis.FallbackClusters(keywords)[i])
  {
    var chunks := KeywordAnalysis.FallbackClusters(keywords);
    seq(|chunks|, i requires 0 <= i < |chunks| => ReplyCluster(Some("문제 유형 " + Text.NatToString(i + 1)), Some(chunks[i])))
  }

  /** Every keyword is in some fallback cluster, and nothing else is. */
  lemma FallbackCovers(keywords: seq<Tally.Entry<string>>, w: string)
    ensures w in Tally.KeySet(keywords) <==>
      exists i :: 0 <= i < |FallbackClusters(keywords)| && w in FallbackClusters(keywords)[i].keywords.value
  {
    var chunks := KeywordAnalysis.FallbackClusters(keywords);
    KeywordAnalysis.FallbackCovers(keywords);
    Seqs.FlattenMember(chunks, w);
    var cs := FallbackClusters(keywords);
    assert forall i :: 0 <= i < |cs| ==> cs[i].keywords.value == chunks[i];
  }

  /** `gpt_clustering_analysis`: nothing without keywords; otherwise the service's clusters
      for the keyword list, or the fallback clusters when it fails (`None`). */
  function Clustering(keywords: seq<Tally.Entry<string>>, respond: seq<string> -> Option<seq<ReplyCluster>>): (cs: seq<ReplyCluster>)
    ensures |keywords| == 0 ==> cs == []
    ensures |keywords| > 0 && respond(Tally.Keys(keywords)).Some? ==> cs == respond(Tally.Keys(keywords)).value
    ensures |keywords| > 0 && respond(Tally.Keys(keywords)).None? ==> cs == FallbackClusters(keywords)
  {
    if |keywords| == 0 then []
    else
      match respond(Tally.Keys(keywords))
      case Some(cs) => cs
      case None => FallbackClusters(keywords)
  }

  // ---------------------------------------------------------------------------
  // Display data
  // ---------------------------------------------------------------------------

  const Palette: seq<string> := ["#FFE5E5", "#E5F3FF", "#E5FFE5", "#FFF5E5", "#F0E5FF", "#E5FFF5"]

  /** The colour of cluster `i`: the six pastel colours in turn. */
  function Colour(i: nat): (c: string)
    ensures c in Palette
  {
    Palette[i % |Palette|]
  }

  /** Colours repeat every six clusters and differ among any six in a row. */
  lemma ColourCycle(i: nat, j: nat)
    ensures Colour(i + 6) == Colour(i)
    ensures i < j < i + 6 ==> Colour(i) != Colour(j)
  {
    if i < j < i + 6 {
      assert i % 6 != j % 6;
    }
  }

  /** `min(50, max(20, freq * 10))`. */
  function NodeSize(freq: nat): (size: int)
    ensures 20 <= size <= 50
    ensures freq <= 2 ==> size == 20
    ensures freq >= 5 ==> size == 50
    ensures 2 <= freq <= 5 ==> size == 10 * freq
  {
    Seqs.Min(50, Seqs.Max(20, freq * 10))
  }

  lemma NodeSizeMonotone(f1: nat, f2: nat)
    requires f1 <= f2
    ensures NodeSize(f1) <= NodeSize(f2)
  {
  }

  datatype Node = Node(id: string, text: string, size: int, frequency: nat, cluster: nat, colour: string)
  datatype ClusterInfo = ClusterInfo(id: nat, name: string, colour: string, keywords: seq<string>, keywordCount: nat)

  /** The node of keyword `w` in cluster `i`. */
  function NodeFor(keywords: seq<Tally.Entry<string>>, i: nat, w: string): Node {
    var f := Tally.Lookup(keywords, w);
    Node(w, w, NodeSize(f), f, i, Colour(i))
  }

  /** The nodes of cluster `i`: one per member that is a keyword, in member order. */
  function ClusterNodes(keywords: seq<Tally.Entry<string>>, i: nat, members: seq<string>): (ns: seq<Node>)
    ensures |ns| <= |members|
    ensures forall w :: NodeFor(keywords, i, w) in ns <==> w in members && w in Tally.KeySet(keywords)
    ensures forall k :: 0 <= k < |ns| ==>
      ns[k] == NodeFor(keywords, i, ns[k].id) && ns[k].id in members && ns[k].id in Tally.KeySet(keywords)
  {
    if |members| == 0 then []
    else
      var rest := ClusterNodes(keywords, i, members[1..]);
      assert forall w :: w in members <==> w == members[0] || w in members[1..];
      (if members[0] in Tally.KeySet(keywords) then [NodeFor(keywords, i, members[0])] else []) + rest
  }

  function NodeRows(keywords: seq<Tally.Entry<string>>, cs: seq<ReplyCluster>): (rows: seq<seq<Node>>)
    requires AllWellFormed(cs)
    ensures |rows| == |cs|
    ensures forall i :: 0 <= i < |cs| ==> rows[i] == ClusterNodes(keywords, i, cs[i].keywords.value)
  {
    seq(|cs|, i requires 0 <= i < |cs| => ClusterNodes(keywords, i, cs[i].keywords.value))
  }

  /** The nodes, cluster by cluster. */
  function Nodes(keywords: seq<Tally.Entry<string>>, cs: seq<ReplyCluster>): seq<Node>
    requires AllWellFormed(cs)
  {
    Seqs.Flatten(NodeRows(keywords, cs))
  }

  /** A node is a member of its cluster that is a keyword, sized and coloured from its
      frequency and cluster; every member of a cluster that is a keyword has one. */
  lemma NodesAreMembers(keywords: seq<Tally.Entry<string>>, cs: seq<ReplyCluster>, n: Node)
    requires AllWellFormed(cs)
    ensures n in Nodes(keywords, cs) <==>
      n.cluster < |cs| && n.id in cs[n.cluster].keywords.value && n.id in Tally.KeySet(keywords) &&
      n == NodeFor(keywords, n.cluster, n.id)
  {
    var rows := NodeRows(keywords, cs);
    Seqs.FlattenMember(rows, n);
    if n in Nodes(keywords, cs) {
      var i :| 0 <= i < |rows| && n in rows[i];
      var k :| 0 <= k < |rows[i]| && rows[i][k] == n;
    }
    if n.cluster < |cs| && n.id in cs[n.cluster].keywords.value && n.id in Tally.KeySet(keywords) &&
       n == NodeFor(keywords, n.cluster, n.id) {
      assert n in rows[n.cluster];
    }
  }

  /** The cluster entries: one per cluster, in order. */
  function Infos(cs: seq<ReplyCluster>): (infos: seq<ClusterInfo>)
    requires AllWellFormed(cs)
    ensures |infos| == |cs|
    ensures forall i :: 0 <= i < |infos| ==>
      infos[i] == ClusterInfo(i, cs[i].name.value, Colour(i), cs[i].keywords.value, |cs[i].keywords.value|)
  {
    seq(|cs|, i requires 0 <= i < |cs| => ClusterInfo(i, cs[i].name.value, Colour(i), cs[i].keywords.value, |cs[i].keywords.value|))
  }

  /** The review counts an empty result reports. */
  datatype Counts = Counts(totalReviews: nat, negativeReviews: nat)

  datatype Stats = Stats(totalNodes: nat, totalEdges: nat, totalClusters: nat, analysisType: string, counts: Option<Counts>)

  datatype Visualization = Visualization(nodes: seq<Node>, edges: seq<Edge>, clusters: seq<ClusterInfo>, stats: Stats)

  const AnalysisType := "negative_reviews"

  /** `create_portfolio_visualization_data`; `None` stands for the `KeyError` a cluster
      without a name or keyword list raises. */
  function Portfolio(keywords: seq<Tally.Entry<string>>, cs: seq<ReplyCluster>, edges: seq<Edge>): (r: Option<Visualization>)
    ensures r.Some? <==> AllWellFormed(cs)
    ensures r.Some? ==>
      r.value.edges == edges && r.value.stats.counts.None? &&
      r.value.stats.totalNodes == |r.value.nodes| && r.value.stats.totalEdges == |edges| &&
      r.value.stats.totalClusters == |cs| == |r.value.clusters|
    ensures r.Some? ==> r.value.nodes == Nodes(keywords, cs) && r.value.clusters == Infos(cs)
  {
    if AllWellFormed(cs) then
      var nodes := Nodes(keywords, cs);
      Some(Visualization(nodes, edges, Infos(cs), Stats(|nodes|, |edges|, |cs|, AnalysisType, None)))
    else None
  }

  // ---------------------------------------------------------------------------
  // The analysis
  // ---------------------------------------------------------------------------

  function Empty(counts: Option<Counts>): Visualization {
    Visualization([], [], [], Stats(0, 0, 0, AnalysisType, counts))
  }

  /** `analyze_negative_keyword_network`. Without keywords the result is empty and reports
      the number of reviews and of strictly negative ones; an exception gives an empty
      result without them. `respond` stands for the clustering service. */
  function Analyze(reviews: seq<Words.Review>, respond: seq<string> -> Option<seq<ReplyCluster>>, above: (nat, nat, nat, nat) -> bool): (v: Visualization)
    ensures |ExtractKeywords(reviews)| == 0 ==> v == Empty(Some(Counts(|reviews|, |StrictNegatives(reviews)|)))
    ensures |ExtractKeywords(reviews)| > 0 ==>
      var keywords := ExtractKeywords(reviews);
      var cs := Clustering(keywords, respond);
      (!AllWellFormed(cs) ==> v == Empty(None)) &&
      (AllWellFormed(cs) ==>
        v.nodes == Nodes(keywords, cs) && v.clusters == Infos(cs) &&
        v.edges == Edges(Cooccurrence(reviews, keywords), keywords, Total(keywords), above) &&
        v.stats == Stats(|v.nodes|, |v.edges|, |cs|, AnalysisType, None))
  {
    var keywords := ExtractKeywords(reviews);
    if |keywords| == 0 then Empty(Some(Counts(|reviews|, |StrictNegatives(reviews)|)))
    else
      var cooc := Cooccurrence(reviews, keywords);
      var edges := Edges(cooc, keywords, Total(keywords), above);
      var cs := Clustering(keywords, respond);
      match Portfolio(keywords, cs, edges)
      case Some(v) => v
      case None => Empty(None)
  }

  /** When the clustering service fails, every keyword is shown as a node of the fallback
      cluster holding it. */
  lemma FallbackShowsEveryKeyword(reviews: seq<Words.Review>, respond: seq<string> -> Option<seq<ReplyCluster>>, above: (nat, nat, nat, nat) -> bool, w: string)
    requires w in Tally.KeySet(ExtractKeywords(reviews))
    requires respond(Tally.Keys(ExtractKeywords(reviews))).None?
    ensures var v := Analyze(reviews, respond, above);
      exists i :: 0 <= i < |v.clusters| && NodeFor(ExtractKeywords(reviews), i, w) in v.nodes
  {
    var keywords := ExtractKeywords(reviews);
    var cs := FallbackClusters(keywords);
    FallbackCovers(keywords, w);
    var i :| 0 <= i < |cs| && w in cs[i].keywords.value;
    NodesAreMembers(keywords, cs, NodeFor(keywords, i, w));
  }

  /** Every node shown is one of the twenty keywords, with its frequency among the
      reviews that read negative. */
  lemma NodesAreKeywords(reviews: seq<Words.Review>, respond: seq<string> -> Option<seq<ReplyCluster>>, above: (nat, nat, nat, nat) -> bool, n: Node)
    requires n in Analyze(reviews, respond, above).nodes
    ensures n.id in Tally.KeySet(ExtractKeywords(reviews))
    ensures n.frequency == Tally.Occurrences(NegativeWords(reviews), n.id)
    ensures 20 <= n.size <= 50 && n.colour == Colour(n.cluster)
  {
    var keywords := ExtractKeywords(reviews);
    var cs := Clustering(keywords, respond);
    NodesAreMembers(keywords, cs, n);
    var i :| 0 <= i < |keywords| && keywords[i].key == n.id;
    Tally.LookupMember(keywords, i);
  }
}

=== FILE: patterns.dfy ===
/** The fragment of Python's `re` module the system uses: patterns built from single
    characters, character classes, bounded and unbounded greedy repetitions (optionally
    captured) and `$`. Matching backtracks over repetition counts exactly as Python does
    (longest count first), `Search` returns the leftmost match (`re.search`) and `FindAll`
    the successive non-overlapping matches (`re.findall`).

    `\d` stands for the ASCII digits. */
module Patterns {
  import opened Wrappers
  import Text

  /** Character classes: `\d`, `\s`, and "any character but `c`" (`[^c]`). */
  datatype Class = Digit | Space | Except(c: char)

  datatype Bound = Upto(n: nat) | Unbounded

  datatype Token =
    | Lit(cs: string)                                    // one character from `cs`
    | Run(cls: Class, lo: nat, hi: Bound, capture: bool) // `cls{lo,hi}`, greedy
    | End                                                // `$`

  type Pattern = seq<Token>

  /** A successful match: where it starts and ends, and the captured groups in order. */
  datatype Match = Match(start: nat, end: nat, groups: seq<string>)

  datatype Hit = Hit(end: nat, groups: seq<string>)

  predicate InClass(cls: Class, c: char) {
    match cls
    case Digit => Text.IsDigit(c)
    case Space => Text.IsSpace(c)
    case Except(x) => c != x
  }

  predicate AllIn(g: string, cls: Class) {
    forall i :: 0 <= i < |g| ==> InClass(cls, g[i])
  }

  /** The pattern that matches the text `w` literally. */
  function Word(w: string): (p: Pattern)
    ensures |p| == |w|
    ensures forall i :: 0 <= i < |w| ==> p[i] == Lit([w[i]])
  {
    if |w| == 0 then [] else [Lit([w[0]])] + Word(w[1..])
  }

  /** `(\d{lo,hi})`. */
  function Num(lo: nat, hi: nat): Token {
    Run(Digit, lo, Upto(hi), true)
  }

  /** `(\d+)`. */
  const Number: Token := Run(Digit, 1, Unbounded, true)

  /** `\s*`. */
  const Blanks: Token := Run(Space, 0, Unbounded, false)

  /** The classes of the capturing repetitions, in order: one per group. */
  function CaptureClasses(p: Pattern): seq<Class> {
    if |p| == 0 then []
    else if p[0].Run? && p[0].capture then [p[0].cls] + CaptureClasses(p[1..])
    else CaptureClasses(p[1..])
  }

  lemma CaptureClassesConcat(a: Pattern, b: Pattern)
    ensures CaptureClasses(a + b) == CaptureClasses(a) + CaptureClasses(b)
  {
    if |a| > 0 {
      assert (a + b)[1..] == a[1..] + b;
      CaptureClassesConcat(a[1..], b);
    } else {
      assert a + b == b;
    }
  }

  lemma {:induction false} NoGroups(p: Pattern)
    requires forall i :: 0 <= i < |p| ==> !(p[i].Run? && p[i].capture)
    ensures CaptureClasses(p) == []
  {
    if |p| > 0 {
      NoGroups(p[1..]);
    }
  }

  lemma WordNoGroups(w: string)
    ensures CaptureClasses(Word(w)) == []
  {
    NoGroups(Word(w));
  }

  predicate GroupsFit(p: Pattern, gs: seq<string>) {
    var cc := CaptureClasses(p);
    |gs| == |cc| && forall j :: 0 <= j < |gs| ==> AllIn(gs[j], cc[j])
  }

  /** Length of the longest run of `cls` characters starting at `i`. */
  function ClassRun(s: string, i: nat, cls: Class): (n: nat)
    requires i <= |s|
    ensures i + n <= |s|
    ensures forall k :: i <= k < i + n ==> InClass(cls, s[k])
    ensures i + n < |s| ==> !InClass(cls, s[i + n])
    decreases |s| - i
  {
    if i < |s| && InClass(cls, s[i]) then 1 + ClassRun(s, i + 1, cls) else 0
  }

  function Cap(hi: Bound, n: nat): nat {
    match hi
    case Upto(m) => if m < n then m else n
    case Unbounded => n
  }

  predicate Allows(hi: Bound, k: nat) {
    hi.Unbounded? || k <= hi.n
  }

  /** `$`: the end of the text, or just before a final newline. */
  predicate AtEnd(s: string, i: nat) {
    i == |s| || (i + 1 == |s| && s[i] == '\n')
  }

  // ---------------------------------------------------------------------------
  // What a match is
  // ---------------------------------------------------------------------------

  /** `p` matches `s[i..e]` capturing `gs`. */
  ghost predicate Accepts(p: Pattern, s: string, i: nat, e: nat, gs: seq<string>)
    decreases |p|
  {
    if |p| == 0 then e == i && gs == []
    else match p[0]
      case Lit(cs) => i < |s| && s[i] in cs && Accepts(p[1..], s, i + 1, e, gs)
      case End => AtEnd(s, i) && Accepts(p[1..], s, i, e, gs)
      case Run(cls, lo, hi, capture) =>
        i <= |s| &&
        exists k: nat :: RunStep(p, s, i, k) && lo <= k <= ClassRun(s, i, cls) && Allows(hi, k) &&
          Rest(p, s, i, k, e, gs)
  }

  ghost predicate RunStep(p: Pattern, s: string, i: nat, k: nat) {
    |p| > 0 && p[0].Run? && i + k <= |s|
  }

  /** After a repetition of `k` characters, the rest of the pattern matches. */
  ghost predicate Rest(p: Pattern, s: string, i: nat, k: nat, e: nat, gs: seq<string>)
    requires RunStep(p, s, i, k)
    decreases |p|, 0
  {
    if p[0].capture then |gs| > 0 && gs[0] == s[i..i + k] && Accepts(p[1..], s, i + k, e, gs[1..])
    else Accepts(p[1..], s, i + k, e, gs)
  }

  // ---------------------------------------------------------------------------
  // Backtracking matcher
  // ---------------------------------------------------------------------------

  /** `re.match(p, s[i:])` anchored at `i`, with Python's greedy-first backtracking. */
  function MatchAt(p: Pattern, s: string, i: nat): (r: Option<Hit>)
    requires i <= |s|
    ensures r.Some? ==> i <= r.value.end <= |s| && GroupsFit(p, r.value.groups)
    decreases |p|, 1, 0
  {
    if |p| == 0 then Some(Hit(i, []))
    else match p[0]
      case Lit(cs) => if i < |s| && s[i] in cs then MatchAt(p[1..], s, i + 1) else None
      case End => if AtEnd(s, i) then MatchAt(p[1..], s, i) else None
      case Run(cls, lo, hi, capture) => TryRun(p, s, i, Cap(hi, ClassRun(s, i, cls)))
  }

  /** Tries the repetition at the front of `p` with `k`, `k - 1`, ... characters. */
  function TryRun(p: Pattern, s: string, i: nat, k: nat): (r: Option<Hit>)
    requires |p| > 0 && p[0].Run? && i <= |s|
    requires k <= ClassRun(s, i, p[0].cls)
    ensures r.Some? ==> i <= r.value.end <= |s| && GroupsFit(p, r.value.groups)
    decreases |p|, 0, k
  {
    if k < p[0].lo then None
    else match MatchAt(p[1..], s, i + k)
      case Some(h) =>
        if p[0].capture then
          var g := s[i..i + k];
          assert AllIn(g, p[0].cls);
          Some(Hit(h.end, [g] + h.groups))
        else Some(h)
      case None => if k == 0 then None else TryRun(p, s, i, k - 1)
  }

  /** Everything the matcher returns is a match. */
  lemma {:induction false} MatchAtSound(p: Pattern, s: string, i: nat)
    requires i <= |s| && MatchAt(p, s, i).Some?
    ensures Accepts(p, s, i, MatchAt(p, s, i).value.end, MatchAt(p, s, i).value.groups)
    decreases |p|, 1, 0
  {
    if |p| > 0 {
      match p[0]
      case Lit(cs) => MatchAtSound(p[1..], s, i + 1);
      case End => MatchAtSound(p[1..], s, i);
      case Run(cls, lo, hi, capture) => TryRunSound(p, s, i, Cap(hi, ClassRun(s, i, cls)));
    }
  }

  lemma {:induction false} TryRunSound(p: Pattern, s: string, i: nat, k: nat)
    requires |p| > 0 && p[0].Run? && i <= |s|
    requires k <= ClassRun(s, i, p[0].cls) && Allows(p[0].hi, k)
    requires TryRun(p, s, i, k).Some?
    ensures Accepts(p, s, i, TryRun(p, s, i, k).value.end, TryRun(p, s, i, k).value.groups)
    decreases |p|, 0, k
  {
    var h := TryRun(p, s, i, k).value;
    var m := MatchAt(p[1..], s, i + k);
    if m.Some? {
      MatchAtSound(p[1..], s, i + k);
      if p[0].capture {
        assert (h.groups)[1..] == m.value.groups;
      }
      assert RunStep(p, s, i, k) && Rest(p, s, i, k, h.end, h.groups);
    } else {
      TryRunSound(p, s, i, k - 1);
    }
  }

  /** Whenever there is a match at `i`, the matcher finds one (possibly another). */
  lemma {:induction false} MatchAtComplete(p: Pattern, s: string, i: nat, e: nat, gs: seq<string>)
    requires i <= |s| && Accepts(p, s, i, e, gs)
    ensures MatchAt(p, s, i).Some?
    decreases |p|, 1, 0
  {
    if |p| > 0 {
      match p[0]
      case Lit(cs) => MatchAtComplete(p[1..], s, i + 1, e, gs);
      case End => MatchAtComplete(p[1..], s, i, e, gs);
      case Run(cls, lo, hi, capture) =>
        var k: nat :| RunStep(p, s, i, k) && lo <= k <= ClassRun(s, i, cls) && Allows(hi, k) &&
          Rest(p, s, i, k, e, gs);
        TryRunComplete(p, s, i, Cap(hi, ClassRun(s, i, cls)), k, e, gs);
    }
  }

  lemma {:induction false} TryRunComplete(p: Pattern, s: string, i: nat, k: nat, k0: nat, e: nat, gs: seq<string>)
    requires |p| > 0 && p[0].Run? && i <= |s|
    requires k <= ClassRun(s, i, p[0].cls)
    requires RunStep(p, s, i, k0) && p[0].lo <= k0 <= k && Rest(p, s, i, k0, e, gs)
    ensures TryRun(p, s, i, k).Some?
    decreases |p|, 0, k
  {
    if MatchAt(p[1..], s, i + k).None? {
      if k == k0 {
        if p[0].capture {
          MatchAtComplete(p[1..], s, i + k, e, gs[1..]);
        } else {
          MatchAtComplete(p[1..], s, i + k, e, gs);
        }
      } else {
        TryRunComplete(p, s, i, k - 1, k0, e, gs);
      }
    }
  }

  // ---------------------------------------------------------------------------
  // Searching
  // ---------------------------------------------------------------------------

  /** `re.search(p, s[i:])` shifted to `s`: the leftmost position from `i` where `p` matches. */
  function SearchFrom(p: Pattern, s: string, i: nat): (r: Option<Match>)
    requires i <= |s|
    ensures r.Some? ==> (i <= r.value.start <= |s|
      && MatchAt(p, s, r.value.start) == Some(Hit(r.value.end, r.value.groups)))
    ensures r.Some? ==> forall j :: i <= j < r.value.start ==> MatchAt(p, s, j).None?
    ensures r.None? ==> forall j :: i <= j <= |s| ==> MatchAt(p, s, j).None?
    decreases |s| - i
  {
    match MatchAt(p, s, i)
    case Some(h) => Some(Match(i, h.end, h.groups))
    case None => if i == |s| then None else SearchFrom(p, s, i + 1)
  }

  /** `re.search(p, s)`. */
  function Search(p: Pattern, s: string): (r: Option<Match>)
    ensures r.Some? ==> r.value.start <= r.value.end <= |s| && GroupsFit(p, r.value.groups)
    ensures r.Some? ==> Accepts(p, s, r.value.start, r.value.end, r.value.groups)
  {
    var r := SearchFrom(p, s, 0);
    if r.Some? then MatchAtSound(p, s, r.value.start); r else r
  }

  /** `re.search` is leftmost and fails only when the pattern matches nowhere. */
  lemma SearchLeftmost(p: Pattern, s: string, j: nat, e: nat, gs: seq<string>)
    requires j <= |s| && Accepts(p, s, j, e, gs)
    ensures Search(p, s).Some? && Search(p, s).value.start <= j
  {
    MatchAtComplete(p, s, j, e, gs);
  }

  /** `re.search` fails exactly when the pattern matches at no position. */
  lemma SearchNone(p: Pattern, s: string)
    ensures Search(p, s).None? <==> forall j: nat, e: nat, gs :: j <= |s| ==> !Accepts(p, s, j, e, gs)
  {
    if Search(p, s).Some? {
      var m := Search(p, s).value;
      assert Accepts(p, s, m.start, m.end, m.groups);
    }
    forall j: nat, e: nat, gs | j <= |s| && Accepts(p, s, j, e, gs)
      ensures Search(p, s).Some?
    {
      SearchLeftmost(p, s, j, e, gs);
    }
  }

  /** `m` is what the matcher reports when started at `m.start`. */
  predicate IsHit(p: Pattern, s: string, m: Match) {
    m.start <= |s| && MatchAt(p, s, m.start) == Some(Hit(m.end, m.groups))
  }

  predicate Ordered(ms: seq<Match>) {
    forall k :: 0 <= k < |ms| - 1 ==> ms[k].end <= ms[k + 1].start
  }

  /** `re.findall(p, s[i:])` shifted to `s`: successive non-overlapping matches, each the
      leftmost one after the previous. The patterns in use never match the empty text. */
  function FindAllFrom(p: Pattern, s: string, i: nat): (r: seq<Match>)
    requires i <= |s|
    ensures forall k :: 0 <= k < |r| ==> i <= r[k].start && IsHit(p, s, r[k])
    ensures Ordered(r)
    ensures |r| > 0 ==> SearchFrom(p, s, i) == Some(r[0])
    ensures |r| == 0 <==> SearchFrom(p, s, i).None?
    decreases |s| - i
  {
    match SearchFrom(p, s, i)
    case None => []
    case Some(m) =>
      var next := if m.end > m.start then m.end else m.start + 1;
      if next > |s| then [m]
      else
        var rest := FindAllFrom(p, s, next);
        [m] + rest
  }

  /** Every match `re.findall` reports is a match. */
  lemma FindAllSound(p: Pattern, s: string, i: nat, k: nat)
    requires i <= |s| && k < |FindAllFrom(p, s, i)|
    ensures var m := FindAllFrom(p, s, i)[k];
      m.start <= m.end <= |s| && GroupsFit(p, m.groups) && Accepts(p, s, m.start, m.end, m.groups)
  {
    MatchAtSound(p, s, FindAllFrom(p, s, i)[k].start);
  }

  function FindAll(p: Pattern, s: string): seq<Match>
  {
    FindAllFrom(p, s, 0)
  }
}

=== FILE: real_date.dfy ===
/** The page-reading cafe collector. It fetches each post's page and takes the first date
    in the page's text that the date patterns produce, trying every match of each pattern
    in order; failing that, the first publication date among the page's meta tags. Unlike
    the title readers, a two-digit year is simply 2000 plus its value, and a date is
    accepted from 2020 on with no upper bound. The fetch and the ISO timestamp parser are
    oracles. */
module CafeRealDate {
  import opened Wrappers
  import Text
  import Dates
  import opened Patterns
  import TitleDates
  import Cafe
  import Seqs

  // ---------------------------------------------------------------------------
  // Dates in the page text
  // ---------------------------------------------------------------------------

  /** Dots, dashes, the Korean form, then dots with a two-digit year. */
  function PagePatterns(): seq<TitleDates.DatePattern> {
    [TitleDates.SeparatedPattern(4, '.'), TitleDates.SeparatedPattern(4, '-'),
     TitleDates.KoreanDatePattern(4), TitleDates.SeparatedPattern(2, '.')]
  }

  /** `2000 + int(g)` when the year group has two characters, else `int(g)`. */
  function MatchYear(g: string): (y: nat)
    requires AllIn(g, Digit)
    ensures |g| == 2 ==> y == 2000 + Text.DigitsValue(g)
    ensures |g| != 2 ==> y == Text.DigitsValue(g)
  {
    if |g| == 2 then 2000 + Text.DigitsValue(g) else Text.DigitsValue(g)
  }

  /** The date one match denotes: a real calendar date from 2020 on, else nothing (the
      range checks fail, or `date(...)` raises and the match is skipped). */
  function MatchDate(p: TitleDates.DatePattern, gs: seq<string>): (r: Option<Dates.Date>)
    requires GroupsFit(p, gs)
    ensures |gs| == 3 && AllIn(gs[0], Digit) && AllIn(gs[1], Digit) && AllIn(gs[2], Digit)
    ensures r.Some? <==>
      Dates.Valid(Dates.Date(MatchYear(gs[0]), Text.DigitsValue(gs[1]), Text.DigitsValue(gs[2]))) &&
      MatchYear(gs[0]) >= 2020
    ensures r.Some? ==> r.value == Dates.Date(MatchYear(gs[0]), Text.DigitsValue(gs[1]), Text.DigitsValue(gs[2]))
  {
    assert AllIn(gs[0], Digit) && AllIn(gs[1], Digit) && AllIn(gs[2], Digit);
    var year := MatchYear(gs[0]);
    var month := Text.DigitsValue(gs[1]);
    var day := Text.DigitsValue(gs[2]);
    if 1 <= month <= 12 && 1 <= day <= 31 then
      match Dates.MakeDate(year, month, day)
      case None => None
      case Some(d) => if d.year >= 2020 then Some(d) else None
    else None
  }

  /** A two-digit year is not pivoted: "75.1.1" is read as 2075-01-01 and accepted. */
  lemma NoPivot()
    ensures MatchDate(TitleDates.SeparatedPattern(2, '.'), ["75", "1", "1"]) == Some(Dates.Date(2075, 1, 1))
  {
    var p := TitleDates.SeparatedPattern(2, '.');
    assert GroupsFit(p, ["75", "1", "1"]);
    assert Text.DigitsValue("7") == 7;
    assert Text.DigitsValue("75") == 75;
    assert Text.DigitsValue("1") == 1;
  }

  predicate Fits(p: TitleDates.DatePattern, ms: seq<Match>) {
    forall k :: 0 <= k < |ms| ==> GroupsFit(p, ms[k].groups)
  }

  /** Match `k` is the first of `ms` that denotes a date, and it denotes `d`. */
  predicate FirstMatchAt(p: TitleDates.DatePattern, ms: seq<Match>, k: int, d: Dates.Date)
    requires Fits(p, ms)
  {
    0 <= k < |ms| && MatchDate(p, ms[k].groups) == Some(d) &&
    forall j :: 0 <= j < k ==> MatchDate(p, ms[j].groups).None?
  }

  /** The loop over one pattern's matches. */
  function FirstMatchDate(p: TitleDates.DatePattern, ms: seq<Match>): (r: Option<Dates.Date>)
    requires Fits(p, ms)
    ensures r.Some? ==> exists k :: FirstMatchAt(p, ms, k, r.value)
    ensures r.None? <==> forall k :: 0 <= k < |ms| ==> MatchDate(p, ms[k].groups).None?
  {
    if |ms| == 0 then None
    else
      match MatchDate(p, ms[0].groups)
      case Some(d) =>
        assert FirstMatchAt(p, ms, 0, d);
        Some(d)
      case None =>
        assert forall k :: 1 <= k < |ms| ==> ms[k] == ms[1..][k - 1];
        var r := FirstMatchDate(p, ms[1..]);
        assert r.Some? ==> exists k :: FirstMatchAt(p, ms, k, r.value) by {
          if r.Some? {
            var k :| FirstMatchAt(p, ms[1..], k, r.value);
            assert FirstMatchAt(p, ms, k + 1, r.value);
          }
        }
        r
  }

  /** Every match `re.findall` reports fills the pattern's three digit groups. */
  lemma FindAllFits(p: TitleDates.DatePattern, text: string)
    ensures Fits(p, FindAll(p, text))
  {
    forall k | 0 <= k < |FindAll(p, text)| ensures GroupsFit(p, FindAll(p, text)[k].groups) {
      FindAllSound(p, text, 0, k);
    }
  }

  /** What one pattern contributes: the first of its matches that denotes a date. */
  function PatternDate(p: TitleDates.DatePattern, text: string): (r: Option<Dates.Date>)
    ensures Fits(p, FindAll(p, text))
    ensures r.Some? ==> Dates.Valid(r.value) && r.value.year >= 2020
    ensures r.Some? ==> exists k :: FirstMatchAt(p, FindAll(p, text), k, r.value)
    ensures r.None? <==> forall k :: 0 <= k < |FindAll(p, text)| ==> MatchDate(p, FindAll(p, text)[k].groups).None?
  {
    FindAllFits(p, text);
    var r := FirstMatchDate(p, FindAll(p, text));
    assert r.Some? ==> Dates.Valid(r.value) && r.value.year >= 2020 by {
      if r.Some? {
        var k :| FirstMatchAt(p, FindAll(p, text), k, r.value);
      }
    }
    r
  }

  /** What each pattern contributes, in order. */
  function PatternDates(text: string): (rs: seq<Option<Dates.Date>>)
    ensures |rs| == |PagePatterns()|
    ensures forall k :: 0 <= k < |rs| ==> rs[k] == PatternDate(PagePatterns()[k], text)
  {
    seq(|PagePatterns()|, k requires 0 <= k < |PagePatterns()| => PatternDate(PagePatterns()[k], text))
  }

  /** The loop over the patterns: the first pattern that yields a date decides. */
  function TextDate(text: string): (r: Option<Dates.Date>)
    ensures r.Some? ==> Dates.Valid(r.value) && r.value.year >= 2020
    ensures r.Some? ==> exists k :: FirstSomeAt(PatternDates(text), k) && PatternDate(PagePatterns()[k], text) == r
    ensures r.None? <==> forall k :: 0 <= k < |PagePatterns()| ==> PatternDate(PagePatterns()[k], text).None?
  {
    var rs := PatternDates(text);
    var r := FirstSome(rs);
    assert r.Some? ==> Dates.Valid(r.value) && r.value.year >= 2020 by {
      if r.Some? {
        var k :| FirstSomeAt(rs, k) && rs[k] == r;
      }
    }
    r
  }

  // ---------------------------------------------------------------------------
  // Dates in the meta tags
  // ---------------------------------------------------------------------------

  /** A `<meta>` tag's attributes; an absent attribute is `None`. */
  datatype MetaTag = MetaTag(property: Option<string>, name: Option<string>, content: Option<string>)

  /** The tags that carry a publication date. */
  predicate Published(t: MetaTag) {
    t.property == Some("article:published_time") || t.name == Some("date")
  }

  /** What one tag yields: its non-empty content, with `Z` spelled as `+00:00`, read by
      `datetime.fromisoformat` (the oracle `parseIso`; `None` where it raises). */
  function TagDate(t: MetaTag, parseIso: string -> Option<Dates.ValidDate>): (r: Option<Dates.Date>)
    ensures r.Some? ==> Published(t) && t.content.Some? && t.content.value != ""
    ensures Published(t) && t.content.Some? && t.content.value != "" ==>
      r == parseIso(Text.Replace(t.content.value, "Z", "+00:00"))
    ensures r.Some? ==> Dates.Valid(r.value)
  {
    var content := t.content.GetOr("");
    if Published(t) && content != "" then
      match parseIso(Text.Replace(content, "Z", "+00:00"))
      case None => None
      case Some(d) => Some(d)
    else None
  }

  /** A tag without a date in front keeps the first dated tag of the rest first. */
  lemma FirstDateLater(tags: seq<MetaTag>, parseIso: string -> Option<Dates.ValidDate>, k: int, r: Option<Dates.Date>)
    requires |tags| > 0 && TagDate(tags[0], parseIso).None?
    requires 0 <= k < |tags[1..]| && TagDate(tags[1..][k], parseIso) == r
    requires forall j :: 0 <= j < k ==> TagDate(tags[1..][j], parseIso).None?
    ensures TagDate(tags[k + 1], parseIso) == r
    ensures forall j :: 0 <= j < k + 1 ==> TagDate(tags[j], parseIso).None?
  {
    assert forall j :: 1 <= j < |tags| ==> tags[j] == tags[1..][j - 1];
  }

  /** The first tag that yields a date. */
  function MetaDate(tags: seq<MetaTag>, parseIso: string -> Option<Dates.ValidDate>): (r: Option<Dates.Date>)
    ensures r.Some? ==> exists k :: 0 <= k < |tags| && TagDate(tags[k], parseIso) == r &&
                                    forall j :: 0 <= j < k ==> TagDate(tags[j], parseIso).None?
    ensures r.None? <==> forall k :: 0 <= k < |tags| ==> TagDate(tags[k], parseIso).None?
    ensures r.Some? ==> Dates.Valid(r.value)
  {
    if |tags| == 0 then None
    else
      match TagDate(tags[0], parseIso)
      case Some(d) => Some(d)
      case None =>
        assert forall k :: 1 <= k < |tags| ==> tags[k] == tags[1..][k - 1];
        var r := MetaDate(tags[1..], parseIso);
        assert r.Some? ==> exists k :: 0 <= k < |tags| && TagDate(tags[k], parseIso) == r &&
                                      forall j :: 0 <= j < k ==> TagDate(tags[j], parseIso).None? by {
          if r.Some? {
            var k :| 0 <= k < |tags[1..]| && TagDate(tags[1..][k], parseIso) == r &&
                     forall j :: 0 <= j < k ==> TagDate(tags[1..][j], parseIso).None?;
            FirstDateLater(tags, parseIso, k, r);
          }
        }
        r
  }

  // ---------------------------------------------------------------------------
  // The extractor
  // ---------------------------------------------------------------------------

  /** A fetched page: its text and its meta tags. */
  datatype Page = Page(text: string, metas: seq<MetaTag>)

  /** `extract_real_cafe_date` on what the fetch returned (`None`: the request failed). */
  function ExtractRealDate(page: Option<Page>, parseIso: string -> Option<Dates.ValidDate>): (r: Option<Dates.Date>)
    ensures page.None? ==> r.None?
    ensures page.Some? && TextDate(page.value.text).Some? ==>
      r == TextDate(page.value.text) && r.value.year >= 2020
    ensures page.Some? && TextDate(page.value.text).None? ==> r == MetaDate(page.value.metas, parseIso)
    ensures r.Some? ==> Dates.Valid(r.value)
  {
    match page
    case None => None
    case Some(pg) =>
      match TextDate(pg.text)
      case Some(d) => Some(d)
      case None => MetaDate(pg.metas, parseIso)
  }

  // ---------------------------------------------------------------------------
  // The filter
  // ---------------------------------------------------------------------------

  /** What the filter does with a result whose link is not empty, given its date. */
  function Decide(item: Cafe.CafeItem, date: Option<Dates.Date>, start: Dates.Date, end: Dates.Date): (r: Option<Cafe.CafeReview>)
    requires date.Some? ==> Dates.Valid(date.value)
    ensures r.Some? <==> date.Some? && Dates.InRange(date.value, start, end) &&
                         !Cafe.IsNews(Cafe.LowerText(item.title, item.description))
    ensures r.Some? ==> r.value.rating == Cafe.CafeRating && r.value.serviceId == "ixio"
    ensures r.Some? ==> r.value.userId == Cafe.UserId(item) && r.value.link == item.link
    ensures r.Some? ==> r.value.createdAt == Dates.IsoDate(date.value) + "Z"
  {
    match date
    case None => None
    case Some(d) =>
      if !Dates.InRange(d, start, end) || Cafe.IsNews(Cafe.LowerText(item.title, item.description)) then None
      else
        var stamp := Cafe.ZuluStamp(d);
        assert stamp == stamp[..10] + [stamp[10]];
        Some(Cafe.ApiReview(item, "ixio", stamp))
  }

  /** The per-result step: an empty link is skipped, otherwise the page is fetched. */
  function DecideFor(fetch: string -> Option<Page>, parseIso: string -> Option<Dates.ValidDate>,
                     start: Dates.Date, end: Dates.Date): Cafe.CafeItem -> Option<Cafe.CafeReview> {
    (item: Cafe.CafeItem) =>
      if item.link == "" then None else Decide(item, ExtractRealDate(fetch(item.link), parseIso), start, end)
  }

  /** The most results `filter_cafe_by_real_date` examines. */
  const Cap: nat := 30

  /** `filter_cafe_by_real_date`. */
  method Filter(items: seq<Cafe.CafeItem>, fetch: string -> Option<Page>, parseIso: string -> Option<Dates.ValidDate>,
                start: Dates.Date, end: Dates.Date, maxResults: int)
    returns (records: seq<Cafe.CafeReview>)
    ensures records == Seqs.Take(Cafe.Kept(DecideFor(fetch, parseIso, start, end), items[..Seqs.Min(Cap, |items|)]), maxResults)
    ensures |records| <= Cap
    ensures forall k :: 0 <= k < |records| ==> records[k].serviceId == "ixio" && records[k].link != ""
  {
    var decide := DecideFor(fetch, parseIso, start, end);
    var processed;
    records, processed := Cafe.CollectCapped(items, decide, Cap, maxResults);
    Cafe.KeptLength(decide, items[..processed]);
    forall k | 0 <= k < |records|
      ensures records[k].serviceId == "ixio" && records[k].link != ""
    {
      Cafe.KeptSource(decide, items[..processed], k);
      var i :| 0 <= i < processed && decide(items[..processed][i]) == Some(records[k]);
      var item := items[..processed][i];
      assert item.link != "";
      assert decide(item) == Decide(item, ExtractRealDate(fetch(item.link), parseIso), start, end);
    }
  }

  /** Results with empty links still use up the cap: when the first thirty all have empty
      links, nothing is kept, whatever follows. */
  lemma EmptyLinksUseCap(items: seq<Cafe.CafeItem>, fetch: string -> Option<Page>,
                         parseIso: string -> Option<Dates.ValidDate>, start: Dates.Date, end: Dates.Date)
    requires |items| >= Cap
    requires forall i :: 0 <= i < Cap ==> items[i].link == ""
    ensures Cafe.Kept(DecideFor(fetch, parseIso, start, end), items[..Seqs.Min(Cap, |items|)]) == []
  {
    var decide := DecideFor(fetch, parseIso, start, end);
    var pre := items[..Cap];
    forall i | 0 <= i < |pre| ensures decide(pre[i]).None? {
      assert pre[i].link == "";
    }
    Cafe.KeptNone(decide, pre);
  }
}

=== FILE: scraper.dfy ===
/** The Google Play scraper of `server/scraper.py`: the record built from each fetched
    review, and the analysis of the records into at most one issue insight and two word
    clouds. The store fetch is a parameter. */
module PlayScraper {
  import opened Wrappers
  import Text
  import Seqs
  import Tally

  // ---------------------------------------------------------------------------
  // Records
  // ---------------------------------------------------------------------------

  /** A review as the store library returns it. `at` is the ISO text of its timestamp,
      `None` when it has none; a `None` or empty user name is falsy. */
  datatype StoreReview = StoreReview(userName: Option<string>, score: int, content: string, at: Option<string>)

  datatype Record = Record(userId: string, source: string, rating: int, content: string, sentiment: string, createdAt: string)

  const Anonymous := "익명"

  /** The record of one fetched review; `now` is the ISO text of the current time. */
  function ToRecord(r: StoreReview, now: string): (rec: Record)
    ensures rec.sentiment == "positive" <==> r.score >= 4
    ensures rec.sentiment == "positive" || rec.sentiment == "negative"
    ensures rec.userId == (if r.userName.Some? && r.userName.value != "" then r.userName.value else Anonymous)
    ensures rec.userId != ""
    ensures rec.rating == r.score && rec.content == r.content && rec.source == "google_play"
    ensures rec.createdAt == r.at.GetOr(now)
  {
    Record(
      if r.userName.Some? && r.userName.value != "" then r.userName.value else Anonymous,
      "google_play",
      r.score,
      r.content,
      if r.score >= 4 then "positive" else "negative",
      match r.at case Some(t) => t case None => now)
  }

  /** `scrape_reviews`: one record per fetched review, in order, or none when the fetch
      raised (`None`). */
  function ScrapeReviews(fetched: Option<seq<StoreReview>>, now: string): (recs: seq<Record>)
    ensures fetched.None? ==> recs == []
    ensures fetched.Some? ==> |recs| == |fetched.value|
    ensures fetched.Some? ==> forall i :: 0 <= i < |recs| ==> recs[i] == ToRecord(fetched.value[i], now)
  {
    match fetched
    case None => []
    case Some(rs) => seq(|rs|, i requires 0 <= i < |rs| => ToRecord(rs[i], now))
  }

  /** Scores of four and five make positive records and lower scores negative ones. */
  lemma SentimentSplitsAtFour(r: StoreReview, now: string)
    ensures r.score <= 3 ==> ToRecord(r, now).sentiment == "negative"
    ensures r.score >= 4 ==> ToRecord(r, now).sentiment == "positive"
  {
  }

  // ---------------------------------------------------------------------------
  // Issues
  // ---------------------------------------------------------------------------

  datatype Issue = Stability | UiUx | Features

  /** The issue of a negative review's lower-cased content: stability before interface
      before features, and none without a trigger word. */
  function IssueOf(content: string): (i: Option<Issue>)
    ensures i == Some(Stability) <==> Text.In("오류", content) || Text.In("버그", content) || Text.In("튕김", content)
    ensures i == Some(UiUx) <==> i != Some(Stability) && (Text.In("어려움", content) || Text.In("복잡", content) || Text.In("불편", content))
    ensures i == Some(Features) <==> i != Some(Stability) && i != Some(UiUx) && (Text.In("기능", content) || Text.In("개선", content))
  {
    if Text.In("오류", content) || Text.In("버그", content) || Text.In("튕김", content) then Some(Stability)
    else if Text.In("어려움", content) || Text.In("복잡", content) || Text.In("불편", content) then Some(UiUx)
    else if Text.In("기능", content) || Text.In("개선", content) then Some(Features)
    else None
  }

  /** The issue a record contributes: that of its lower-cased content when it is negative,
      none otherwise. */
  function RecordIssue(rec: Record): (i: Option<Issue>)
    ensures i.Some? ==> rec.sentiment == "negative"
  {
    if rec.sentiment == "negative" then IssueOf(Text.Lower(rec.content)) else None
  }

  /** The issues of the negative records, in order, one at most per record: an issue is
      listed exactly when some negative record has it. */
  function Issues(recs: seq<Record>): (iss: seq<Issue>)
    ensures |iss| <= |recs|
    ensures forall k {:trigger k in iss} :: k in iss <==>
      exists i :: 0 <= i < |recs| && recs[i].sentiment == "negative" && IssueOf(Text.Lower(recs[i].content)) == Some(k)
  {
    var iss := Seqs.FilterMap(RecordIssue, recs);
    forall k ensures k in iss <==>
      exists i :: 0 <= i < |recs| && recs[i].sentiment == "negative" && IssueOf(Text.Lower(recs[i].content)) == Some(k)
    {
      if k in iss {
        var x :| x in recs && RecordIssue(x) == Some(k);
        var i :| 0 <= i < |recs| && recs[i] == x;
      }
      if exists i :: 0 <= i < |recs| && recs[i].sentiment == "negative" && IssueOf(Text.Lower(recs[i].content)) == Some(k) {
        var i :| 0 <= i < |recs| && recs[i].sentiment == "negative" && IssueOf(Text.Lower(recs[i].content)) == Some(k);
        assert recs[i] in recs && RecordIssue(recs[i]) == Some(k);
      }
    }
    iss
  }

  /** `Issues` keeps input order: the issues of a longer list follow those of its prefix. */
  lemma IssuesConcat(a: seq<Record>, b: seq<Record>)
    ensures Issues(a + b) == Issues(a) + Issues(b)
  {
    Seqs.FilterMapConcat(RecordIssue, a, b);
  }

  /** One record gives its issue when it is negative and has one, and nothing otherwise. */
  lemma IssuesOne(rec: Record)
    ensures Issues([rec]) == if rec.sentiment == "negative" && IssueOf(Text.Lower(rec.content)).Some?
      then [IssueOf(Text.Lower(rec.content)).value] else []
  {
    Seqs.FilterMapOne(RecordIssue, rec);
  }

  /** Every candidate listed before position `j` is strictly less frequent than the one at `j`. */
  predicate FirstReaches(cands: seq<Issue>, j: nat, iss: seq<Issue>)
    requires j < |cands|
  {
    forall k :: 0 <= k < j ==> Tally.Occurrences(iss, cands[k]) < Tally.Occurrences(iss, cands[j])
  }

  /** `max` over candidates in iteration order: the first one with the largest count. */
  function FirstMax(cands: seq<Issue>, iss: seq<Issue>): (m: Issue)
    requires |cands| > 0
    ensures m in cands
    ensures forall k :: k in cands ==> Tally.Occurrences(iss, k) <= Tally.Occurrences(iss, m)
    ensures exists j :: 0 <= j < |cands| && cands[j] == m && FirstReaches(cands, j, iss)
  {
    if |cands| == 1 then cands[0]
    else
      var rest := FirstMax(cands[1..], iss);
      assert forall k :: k in cands <==> k == cands[0] || k in cands[1..];
      assert forall k :: 1 <= k < |cands| ==> cands[k] == cands[1..][k - 1];
      if Tally.Occurrences(iss, cands[0]) >= Tally.Occurrences(iss, rest) then cands[0]
      else
        var j :| 0 <= j < |cands[1..]| && cands[1..][j] == rest && FirstReaches(cands[1..], j, iss);
        assert cands[j + 1] == rest;
        rest
  }

  /** The most common issue, `max(set(issues), key=issues.count)`. `order` is the
      iteration order of the set, given as an order of all three kinds. */
  function MostCommonIssue(iss: seq<Issue>, order: seq<Issue>): (m: Issue)
    requires |iss| > 0
    requires forall k: Issue :: k in order
    ensures m in iss
    ensures forall k :: Tally.Occurrences(iss, k) <= Tally.Occurrences(iss, m)
  {
    var cands := Present(order, iss);
    assert iss[0] in cands;
    var m := FirstMax(cands, iss);
    forall k ensures Tally.Occurrences(iss, k) <= Tally.Occurrences(iss, m) {
      if k !in iss { Tally.OccurrencesAbsent(iss, k); }
    }
    m
  }

  /** The kinds of `order` that occur in `iss`, in order. */
  function Present(order: seq<Issue>, iss: seq<Issue>): (r: seq<Issue>)
    ensures forall k :: k in r <==> k in order && k in iss
  {
    if |order| == 0 then []
    else
      assert forall k :: k in order <==> k == order[0] || k in order[1..];
      (if order[0] in iss then [order[0]] else []) + Present(order[1..], iss)
  }

  datatype Insight = Insight(title: string, description: string, priority: string, mentionCount: nat, trend: string, category: string)

  function StabilityInsight(n: nat): Insight {
    Insight("앱 안정성 개선", "앱 튕김 및 오류 관련 언급이 " + Text.NatToString(n) + "건 발견됨", "high", n, "increasing", "stability")
  }

  function UiUxInsight(n: nat): Insight {
    Insight("UI/UX 개선", "인터페이스 복잡성 관련 언급이 " + Text.NatToString(n) + "건 발견됨", "medium", n, "stable", "ui_ux")
  }

  /** The insight part of `analyze_sentiments`: one insight for a most common stability
      or interface issue, carrying its count, and none for a features majority or no
      issue at all. Whenever features is not a most common issue there is an insight,
      whichever of the tied kinds the set order puts first. */
  function IssueInsights(recs: seq<Record>, order: seq<Issue>): (ins: seq<Insight>)
    requires forall k: Issue :: k in order
    ensures |ins| <= 1
    ensures |Issues(recs)| == 0 ==> ins == []
    ensures |ins| == 1 ==>
      (ins[0] == StabilityInsight(Tally.Occurrences(Issues(recs), Stability)) ||
       ins[0] == UiUxInsight(Tally.Occurrences(Issues(recs), UiUx)))
    ensures forall j :: 0 <= j < |ins| ==> forall k :: Tally.Occurrences(Issues(recs), k) <= ins[j].mentionCount
    ensures (exists k: Issue :: Tally.Occurrences(Issues(recs), Features) < Tally.Occurrences(Issues(recs), k)) ==> |ins| == 1
    ensures |ins| == 1 && ins[0].category == "stability" ==>
      Tally.Occurrences(Issues(recs), UiUx) <= Tally.Occurrences(Issues(recs), Stability)
    ensures |ins| == 1 && ins[0].category == "ui_ux" ==>
      Tally.Occurrences(Issues(recs), Stability) <= Tally.Occurrences(Issues(recs), UiUx)
  {
    var iss := Issues(recs);
    if |iss| == 0 then
      assert forall k: Issue :: Tally.Occurrences(iss, k) == 0;
      []
    else
      match MostCommonIssue(iss, order)
      case Stability => [StabilityInsight(Tally.Occurrences(iss, Stability))]
      case UiUx => [UiUxInsight(Tally.Occurrences(iss, UiUx))]
      case Features => []
  }

  /** An issue more common than both others decides the insight, whatever the order. */
  lemma StrictMajorityDecides(recs: seq<Record>, order: seq<Issue>, k: Issue)
    requires forall k: Issue :: k in order
    requires forall j: Issue :: j != k ==> Tally.Occurrences(Issues(recs), j) < Tally.Occurrences(Issues(recs), k)
    ensures k == Stability ==> IssueInsights(recs, order) == [StabilityInsight(Tally.Occurrences(Issues(recs), Stability))]
    ensures k == UiUx ==> IssueInsights(recs, order) == [UiUxInsight(Tally.Occurrences(Issues(recs), UiUx))]
    ensures k == Features ==> IssueInsights(recs, order) == []
  {
    var iss := Issues(recs);
    var other: Issue := if k == Stability then UiUx else Stability;
    assert Tally.Occurrences(iss, other) < Tally.Occurrences(iss, k);
    Tally.OccurrencesPresent(iss, k);
    var m := MostCommonIssue(iss, order);
    assert Tally.Occurrences(iss, k) <= Tally.Occurrences(iss, m);
    assert m == k;
  }

  // ---------------------------------------------------------------------------
  // Word clouds
  // ---------------------------------------------------------------------------

  const PositiveKeywords: seq<string> := ["좋다", "좋아", "좋음", "만족", "편리", "쉬움", "빠름", "깔끔", "완벽", "추천", "유용", "효과적", "간편"]
  const NegativeKeywords: seq<string> := ["나쁘다", "나빠", "나쁨", "불편", "어려움", "복잡", "느림", "버그", "오류", "문제", "튕김", "실망", "짜증"]

  /** The test "occurs in `content`", as a value. */
  function OccursIn(content: string): (test: string -> bool)
    ensures forall w :: test(w) == Text.In(w, content)
  {
    w => Text.In(w, content)
  }

  /** The listed keywords that occur in the text, in list order and as often as the list
      has them. */
  function PresentKeywords(keywords: seq<string>, content: string): (r: seq<string>)
    ensures forall w {:trigger w in r} {:trigger w in keywords} :: w in r <==> w in keywords && Text.In(w, content)
    ensures forall w {:trigger Tally.Occurrences(r, w)} ::
      Tally.Occurrences(r, w) == if Text.In(w, content) then Tally.Occurrences(keywords, w) else 0
  {
    Tally.FilterCount(OccursIn(content), keywords);
    Seqs.Filter(OccursIn(content), keywords)
  }

  /** `PresentKeywords` keeps list order: the keywords of a longer list follow those of
      its prefix. */
  lemma PresentKeywordsConcat(a: seq<string>, b: seq<string>, content: string)
    ensures PresentKeywords(a + b, content) == PresentKeywords(a, content) + PresentKeywords(b, content)
  {
    Seqs.FilterConcat(OccursIn(content), a, b);
  }

  predicate HasHangul(w: string) {
    exists i :: 0 <= i < |w| && Text.IsHangul(w[i])
  }

  /** The Hangul syllables of a token, in order. */
  function HangulOnly(w: string): (r: string)
    ensures |r| <= |w|
    ensures Text.AllHangul(r)
    ensures |r| > 0 ==> HasHangul(w)
  {
    if |w| == 0 then ""
    else
      var rest := HangulOnly(w[1..]);
      assert |rest| > 0 ==> HasHangul(w) by {
        if |rest| > 0 {
          var i :| 0 <= i < |w[1..]| && Text.IsHangul(w[1..][i]);
          assert w[i + 1] == w[1..][i];
        }
      }
      (if Text.IsHangul(w[0]) then [w[0]] else "") + rest
  }

  /** The word a token contributes: its syllables, when it holds Hangul, has two to four
      characters, and keeps at least two syllables. */
  function CleanToken(w: string): (r: Option<string>)
    ensures r.Some? <==> HasHangul(w) && 2 <= |w| <= 4 && |HangulOnly(w)| >= 2
    ensures r.Some? ==> r.value == HangulOnly(w) && 2 <= |r.value| <= 4 && Text.AllHangul(r.value)
  {
    if HasHangul(w) && 2 <= |w| <= 4 && |HangulOnly(w)| >= 2 then Some(HangulOnly(w)) else None
  }

  /** The Hangul test before cleaning decides nothing: two kept syllables imply it. */
  lemma HangulTestRedundant(w: string)
    ensures CleanToken(w).Some? <==> 2 <= |w| <= 4 && |HangulOnly(w)| >= 2
  {
  }

  /** The words the tokens contribute, in token order, one at most per token. */
  function CleanTokens(tokens: seq<string>): (r: seq<string>)
    ensures |r| <= |tokens|
    ensures forall k :: 0 <= k < |r| ==> Text.AllHangul(r[k]) && 2 <= |r[k]| <= 4
    ensures forall w {:trigger w in r} :: w in r <==> exists t :: t in tokens && CleanToken(t) == Some(w)
  {
    var r := Seqs.FilterMap(CleanToken, tokens);
    forall k | 0 <= k < |r| ensures Text.AllHangul(r[k]) && 2 <= |r[k]| <= 4 {
      assert r[k] in r;
    }
    r
  }

  /** `CleanTokens` keeps token order: the words of a longer list follow those of its
      prefix. */
  lemma CleanTokensConcat(a: seq<string>, b: seq<string>)
    ensures CleanTokens(a + b) == CleanTokens(a) + CleanTokens(b)
  {
    Seqs.FilterMapConcat(CleanToken, a, b);
  }

  /** One token gives its cleaned word, or nothing. */
  lemma CleanTokensOne(t: string)
    ensures CleanTokens([t]) == match CleanToken(t) case Some(w) => [w] case None => []
  {
    Seqs.FilterMapOne(CleanToken, t);
  }

  /** What one record adds to its side's counts: each listed keyword of its side present
      in the lower-cased content, then the cleaned tokens of that content. */
  function RecordWords(rec: Record): seq<string> {
    var content := Text.Lower(rec.content);
    PresentKeywords(if rec.sentiment == "positive" then PositiveKeywords else NegativeKeywords, content) +
    CleanTokens(Text.SplitWhitespace(content))
  }

  /** All words counted for one side, record by record: positive records feed the
      positive side and every other record the negative side. */
  function SideWords(recs: seq<Record>, positive: bool): (ws: seq<string>)
  {
    if |recs| == 0 then []
    else
      var init := recs[..|recs| - 1];
      var last := recs[|recs| - 1];
      SideWords(init, positive) + (if (last.sentiment == "positive") == positive then RecordWords(last) else [])
  }

  /** A record adds nothing to the other side's counts. */
  lemma OtherSideUnchanged(recs: seq<Record>, rec: Record, positive: bool)
    requires (rec.sentiment == "positive") != positive
    ensures SideWords(recs + [rec], positive) == SideWords(recs, positive)
  {
    var all := recs + [rec];
    assert all[..|all| - 1] == recs;
  }

  /** A record adds its own words at the end of its side's counts. */
  lemma OwnSideAppends(recs: seq<Record>, rec: Record)
    ensures var positive := rec.sentiment == "positive";
      SideWords(recs + [rec], positive) == SideWords(recs, positive) + RecordWords(rec)
  {
    var all := recs + [rec];
    assert all[..|all| - 1] == recs;
  }

  datatype CloudWord = CloudWord(word: string, frequency: nat, sentiment: string)

  /** The twenty most frequent words of one side, most frequent first. */
  function Cloud(recs: seq<Record>, positive: bool): (c: seq<CloudWord>)
    ensures |c| <= 20
    ensures forall i :: 0 <= i < |c| ==>
      c[i].word in SideWords(recs, positive) &&
      c[i].frequency == Tally.Occurrences(SideWords(recs, positive), c[i].word) &&
      c[i].sentiment == (if positive then "positive" else "negative")
    ensures forall i, j :: 0 <= i < j < |c| ==> c[i].frequency >= c[j].frequency && c[i].word != c[j].word
    ensures forall w :: w in SideWords(recs, positive) && !InCloud(c, w) ==>
      forall i :: 0 <= i < |c| ==> Tally.Occurrences(SideWords(recs, positive), w) <= c[i].frequency
    ensures |c| < 20 ==> forall w :: w in SideWords(recs, positive) ==> InCloud(c, w)
  {
    var top := Tally.MostCommon(SideWords(recs, positive), 20);
    var c := seq(|top|, i requires 0 <= i < |top| => CloudWord(top[i].key, top[i].count, if positive then "positive" else "negative"));
    CloudKeys(top, c);
    c
  }

  /** Some word of the cloud is `w`. */
  predicate InCloud(c: seq<CloudWord>, w: string) {
    exists i :: 0 <= i < |c| && c[i].word == w
  }

  /** A cloud built entry by entry holds exactly the entries' keys. */
  lemma CloudKeys(top: seq<Tally.Entry<string>>, c: seq<CloudWord>)
    requires |c| == |top| && forall i :: 0 <= i < |c| ==> c[i].word == top[i].key
    ensures forall w :: InCloud(c, w) <==> w in Tally.KeySet(top)
  {
    forall w | w in Tally.KeySet(top) ensures InCloud(c, w) {
      var i :| 0 <= i < |top| && top[i].key == w;
      assert c[i].word == w;
    }
  }

  datatype Analysis = Analysis(insights: seq<Insight>, positive: seq<CloudWord>, negative: seq<CloudWord>)

  /** `analyze_sentiments`; `order` is the iteration order of the issue set. */
  function AnalyzeSentiments(recs: seq<Record>, order: seq<Issue>): (a: Analysis)
    requires forall k: Issue :: k in order
    ensures |recs| == 0 ==> a == Analysis([], [], [])
    ensures |recs| > 0 ==> a == Analysis(IssueInsights(recs, order), Cloud(recs, true), Cloud(recs, false))
  {
    if |recs| == 0 then Analysis([], [], [])
    else Analysis(IssueInsights(recs, order), Cloud(recs, true), Cloud(recs, false))
  }

  /** Without records there is nothing to count either, so the guard only short-cuts. */
  lemma EmptyGuardAgrees(order: seq<Issue>)
    requires forall k: Issue :: k in order
    ensures IssueInsights([], order) == [] && Cloud([], true) == [] && Cloud([], false) == []
  {
  }
}

=== FILE: selenium.dfy ===
/** The browser-based cafe collector: the date shown under a search result ("3분 전",
    "2일 전", "2025.07.16.", "07/16"), the user id read from a cafe link, and the rule
    that keeps a result and builds its record. The browser itself is not modelled: a
    search result is given as the texts the browser would read. */
module CafeSelenium {
  import opened Wrappers
  import Text
  import Dates
  import opened Patterns
  import TitleDates
  import CafeLinks
  import Cafe

  // ---------------------------------------------------------------------------
  // Dates shown in search results
  // ---------------------------------------------------------------------------

  /** `(\d+)일 전`. */
  function DaysAgoPattern(): CafeLinks.NumberPattern {
    WordNoGroups("일 전");
    CafeLinks.NumberAfter("", Word("일 전"))
  }

  /** A pattern with exactly two digit groups: month and day. */
  type MonthDayPattern = p: Pattern | CaptureClasses(p) == [Digit, Digit]
    witness [Num(1, 2), Lit("/"), Num(1, 2)]

  /** `(\d{1,2})/(\d{1,2})`. */
  function SlashPattern(): MonthDayPattern {
    [Num(1, 2), Lit("/"), Num(1, 2)]
  }

  /** Minutes or hours ago: posted today. */
  predicate SameDay(text: string) {
    Text.In("분 전", text) || Text.In("시간 전", text)
  }

  /** The three numbers of a `YYYY.M.D` match, read as year, month and day. */
  function DotFields(m: Match): Dates.Date
    requires GroupsFit(TitleDates.SeparatedPattern(4, '.'), m.groups)
  {
    var gs := m.groups;
    assert AllIn(gs[0], Digit) && AllIn(gs[1], Digit) && AllIn(gs[2], Digit);
    Dates.Date(Text.DigitsValue(gs[0]), Text.DigitsValue(gs[1]), Text.DigitsValue(gs[2]))
  }

  /** The two numbers of an `M/D` match, read as month and day of `year`. */
  function SlashFields(m: Match, year: int): Dates.Date
    requires GroupsFit(SlashPattern(), m.groups)
  {
    var gs := m.groups;
    assert AllIn(gs[0], Digit) && AllIn(gs[1], Digit);
    Dates.Date(year, Text.DigitsValue(gs[0]), Text.DigitsValue(gs[1]))
  }

  /** `date(int(y), int(m), int(d))` for the first `YYYY.M.D` in the text: a date exactly
      when there is a match and its numbers form a real date. */
  function DotDate(text: string): (r: Option<Dates.Date>)
    ensures r.Some? ==> Dates.Valid(r.value) && r.value.year <= 9999
    ensures Search(TitleDates.SeparatedPattern(4, '.'), text).None? ==> r.None?
    ensures Search(TitleDates.SeparatedPattern(4, '.'), text).Some? ==>
      var m := Search(TitleDates.SeparatedPattern(4, '.'), text).value;
      (r.Some? <==> Dates.Valid(DotFields(m))) && (r.Some? ==> r.value == DotFields(m))
  {
    var p := TitleDates.SeparatedPattern(4, '.');
    match Search(p, text)
    case None => None
    case Some(m) =>
      var gs := m.groups;
      assert AllIn(gs[0], Digit) && AllIn(gs[1], Digit) && AllIn(gs[2], Digit);
      Dates.MakeDate(Text.DigitsValue(gs[0]), Text.DigitsValue(gs[1]), Text.DigitsValue(gs[2]))
  }

  /** `date(year, int(m), int(d))` for the first `M/D` in the text: a date exactly when
      there is a match and its numbers form a real day of `year`. */
  function SlashDate(text: string, year: int): (r: Option<Dates.Date>)
    ensures r.Some? ==> Dates.Valid(r.value) && r.value.year == year
    ensures Search(SlashPattern(), text).None? ==> r.None?
    ensures Search(SlashPattern(), text).Some? ==>
      var m := Search(SlashPattern(), text).value;
      (r.Some? <==> Dates.Valid(SlashFields(m, year))) && (r.Some? ==> r.value == SlashFields(m, year))
  {
    match Search(SlashPattern(), text)
    case None => None
    case Some(m) =>
      var gs := m.groups;
      assert AllIn(gs[0], Digit) && AllIn(gs[1], Digit);
      Dates.MakeDate(year, Text.DigitsValue(gs[0]), Text.DigitsValue(gs[1]))
  }

  /** The shapes search results show: "2025.07.16." is that day, and "07/16" is the 16th
      of July of the given year. */
  lemma ShownDates()
    ensures DotDate("2025.07.16.") == Some(Dates.Date(2025, 7, 16))
    ensures SlashDate("07/16", 2025) == Some(Dates.Date(2025, 7, 16))
  {
    DotExample();
    SlashExample();
  }

  lemma DotExample()
    ensures DotDate("2025.07.16.") == Some(Dates.Date(2025, 7, 16))
  {
    DotMatch();
    DotNumbers();
    var m := Match(0, 10, ["2025", "07", "16"]);
    assert DotFields(m) == Dates.Date(2025, 7, 16);
  }

  lemma DotNumbers()
    ensures Text.DigitsValue("2025") == 2025
    ensures Text.DigitsValue("07") == 7 && Text.DigitsValue("16") == 16
  {
    assert "2025"[..3] == "202" && "202"[..2] == "20" && "20"[..1] == "2";
    assert "07"[..1] == "0" && "16"[..1] == "1";
  }

  /** The whole `YYYY.M.D` match in "2025.07.16.", assembled from its tail. */
  lemma DotMatch()
    ensures Search(TitleDates.SeparatedPattern(4, '.'), "2025.07.16.") == Some(Match(0, 10, ["2025", "07", "16"]))
  {
    var s := "2025.07.16.";
    var p := TitleDates.SeparatedPattern(4, '.');
    assert p == [Run(Digit, 4, Upto(4), true), Lit(".")] + p[2..];
    DotTail();
    assert ClassRun(s, 4, Digit) == 0 && ClassRun(s, 0, Digit) == 4;
    assert MatchAt(p[1..], s, 4) == Some(Hit(10, ["07", "16"])) by {
      assert p[1..][1..] == p[2..];
    }
    assert TryRun(p, s, 0, 4) == Some(Hit(10, ["2025", "07", "16"])) by {
      assert s[0..4] == "2025";
      assert [s[0..4]] + ["07", "16"] == ["2025", "07", "16"];
    }
    assert MatchAt(p, s, 0) == Some(Hit(10, ["2025", "07", "16"]));
  }

  /** `(\d{1,2})\.(\d{1,2})` matched from position 5 of "2025.07.16.". */
  lemma DotTail()
    ensures MatchAt(TitleDates.SeparatedPattern(4, '.')[2..], "2025.07.16.", 5) == Some(Hit(10, ["07", "16"]))
  {
    var s := "2025.07.16.";
    var run := Run(Digit, 1, Upto(2), true);
    var q := TitleDates.SeparatedPattern(4, '.')[2..];
    assert q == [run, Lit("."), run];
    assert q[2..] == [run] && q[2..][1..] == [];
    assert ClassRun(s, 10, Digit) == 0 && ClassRun(s, 8, Digit) == 2;
    assert MatchAt(q[2..][1..], s, 10) == Some(Hit(10, []));
    assert TryRun(q[2..], s, 8, 2) == Some(Hit(10, ["16"])) by {
      assert s[8..10] == "16";
      assert [s[8..10]] + [] == ["16"];
    }
    assert MatchAt(q[1..], s, 7) == Some(Hit(10, ["16"])) by {
      assert q[1..][1..] == q[2..];
    }
    assert ClassRun(s, 7, Digit) == 0 && ClassRun(s, 5, Digit) == 2;
    assert TryRun(q, s, 5, 2) == Some(Hit(10, ["07", "16"])) by {
      assert s[5..7] == "07";
      assert [s[5..7]] + ["16"] == ["07", "16"];
    }
  }

  lemma SlashExample()
    ensures SlashDate("07/16", 2025) == Some(Dates.Date(2025, 7, 16))
  {
    var s := "07/16";
    var p := SlashPattern();
    assert ClassRun(s, 5, Digit) == 0;
    assert ClassRun(s, 3, Digit) == 2;
    var q := p[2..];
    assert q == [Num(1, 2)] && q[1..] == [] && q[0] == Run(Digit, 1, Upto(2), true);
    assert MatchAt(q[1..], s, 5) == Some(Hit(5, []));
    assert TryRun(q, s, 3, 2) == Some(Hit(5, ["16"])) by {
      assert s[3..5] == "16";
      assert [s[3..5]] + [] == ["16"];
    }
    assert MatchAt(q, s, 3) == Some(Hit(5, ["16"]));
    assert MatchAt(p[1..], s, 2) == Some(Hit(5, ["16"])) by {
      assert p[1..][1..] == p[2..];
    }
    assert ClassRun(s, 2, Digit) == 0;
    assert ClassRun(s, 0, Digit) == 2;
    assert TryRun(p, s, 0, 2) == Some(Hit(5, ["07", "16"])) by {
      assert s[0..2] == "07";
      assert p[0] == Run(Digit, 1, Upto(2), true);
      assert [s[0..2]] + ["16"] == ["07", "16"];
    }
    assert MatchAt(p, s, 0) == Some(Hit(5, ["07", "16"]));
    assert Search(p, s) == Some(Match(0, 5, ["07", "16"]));
    assert Text.DigitsValue("07") == 7 by { assert "07"[..1] == "0"; }
    assert Text.DigitsValue("16") == 16 by { assert "16"[..1] == "1"; }
  }

  /** `parse_naver_date`; `None` for unrecognised text and for every exception (no match
      for "일 전", an impossible date, a date off the calendar). The markers are checked in
      a fixed order and the first one present decides, even when its parse fails. */
  function ParseNaverDate(text: string, today: Dates.Date): (r: Option<Dates.Date>)
    requires Dates.Valid(today)
    ensures r.Some? ==> Dates.Valid(r.value)
    ensures SameDay(text) ==> r == Some(today)
    ensures !SameDay(text) && Text.In("일 전", text) ==>
      (r.Some? <==> CafeLinks.SearchNumber(DaysAgoPattern(), text).Some? &&
                    Dates.Ordinal(today) - CafeLinks.SearchNumber(DaysAgoPattern(), text).value >= 1) &&
      (r.Some? ==> Dates.Ordinal(r.value) == Dates.Ordinal(today) - CafeLinks.SearchNumber(DaysAgoPattern(), text).value &&
                   CafeLinks.NumberFound(DaysAgoPattern(), text, Dates.Ordinal(today) - Dates.Ordinal(r.value)))
    ensures !SameDay(text) && !Text.In("일 전", text) && '.' in text ==> r == DotDate(text)
    ensures !SameDay(text) && !Text.In("일 전", text) && '.' !in text && '/' in text ==> r == SlashDate(text, today.year)
    ensures !SameDay(text) && !Text.In("일 전", text) && '.' !in text && '/' !in text ==> r.None?
  {
    if SameDay(text) then Some(today)
    else if Text.In("일 전", text) then
      match CafeLinks.SearchNumber(DaysAgoPattern(), text)
      case None => None
      case Some(n) =>
        Dates.OrdinalBounds(today);
        Dates.AddDays(today, -(n as int))
    else if '.' in text then DotDate(text)
    else if '/' in text then SlashDate(text, today.year)
    else None
  }

  /** A relative date is never after today. */
  lemma RelativeNotFuture(text: string, today: Dates.Date)
    requires Dates.Valid(today) && (SameDay(text) || Text.In("일 전", text))
    requires ParseNaverDate(text, today).Some?
    ensures Dates.AtMost(ParseNaverDate(text, today).value, today)
  {
    Dates.OrdinalOrder(ParseNaverDate(text, today).value, today);
  }

  // ---------------------------------------------------------------------------
  // User id and the kept record
  // ---------------------------------------------------------------------------

  /** `extract_user_id_from_cafe_link`. */
  function UserIdFromLink(link: string): (u: string)
    ensures !Text.In("cafe.naver.com", link) ==> u == "Unknown"
    ensures u == "Unknown" || exists g :: CafeLinks.SegmentFound(CafeLinks.CafeRoot(), link, g) && '/' !in g && u == "카페_" + g
    ensures u != "Unknown" <==> Text.In("cafe.naver.com", link) && Search(CafeLinks.CafeRoot(), link).Some?
  {
    if Text.In("cafe.naver.com", link) then
      match CafeLinks.SearchSegment(CafeLinks.CafeRoot(), link)
      case Some(g) => assert ("카페_" + g)[0] != "Unknown"[0]; "카페_" + g
      case None => "Unknown"
    else "Unknown"
  }

  /** One search result as the browser reads it. `content` is `None` when the summary
      element is missing. */
  datatype SearchPost = SearchPost(title: string, link: string, cafeName: string, dateText: string, content: Option<string>)

  /** The record text: the title and the summary, or the title twice without a summary. */
  function PostContent(post: SearchPost): string {
    var title := Text.Strip(post.title);
    Text.Strip(title + " " + (match post.content case Some(c) => Text.Strip(c) case None => title))
  }

  /** The keep rule: a parsed date inside the inclusive target range. */
  function Keep(post: SearchPost, start: Dates.Date, end: Dates.Date, today: Dates.Date): (r: Option<Cafe.CafeReview>)
    requires Dates.Valid(today)
    ensures r.Some? <==> ParseNaverDate(Text.Strip(post.dateText), today).Some? &&
                         Dates.InRange(ParseNaverDate(Text.Strip(post.dateText), today).value, start, end)
    ensures r.Some? ==> r.value.rating == Cafe.CafeRating && r.value.serviceId == "ixio" && r.value.link == post.link
    ensures r.Some? ==> r.value.userId == UserIdFromLink(post.link) && r.value.content == PostContent(post)
    ensures r.Some? ==> r.value.createdAt == Dates.IsoDate(ParseNaverDate(Text.Strip(post.dateText), today).value) + "Z"
  {
    match ParseNaverDate(Text.Strip(post.dateText), today)
    case None => None
    case Some(d) =>
      if Dates.InRange(d, start, end) then
        Some(Cafe.CafeReview(UserIdFromLink(post.link), Cafe.CafeSource, "ixio", "cafe_" + Text.Strip(post.cafeName),
                             Cafe.CafeRating, PostContent(post), Cafe.ZuluStamp(d), post.link, Cafe.CafeSource))
      else None
  }
}

=== FILE: seqs.dfy ===
/** Python list slicing and chunking over `seq`. */
module Seqs {
  import Arith
  import opened Wrappers

  function Min(a: int, b: int): int {
    if a <= b then a else b
  }

  function Max(a: int, b: int): int {
    if a >= b then a else b
  }

  /** `list[:n]` for a possibly non-positive `n`. */
  function Take<T>(xs: seq<T>, n: int): (r: seq<T>)
    ensures |r| == if n <= 0 then 0 else Min(n, |xs|)
    ensures r == xs[..|r|]
  {
    if n <= 0 then [] else if n <= |xs| then xs[..n] else xs
  }

  /** The concatenation of a list of lists, in order. */
  function Flatten<T>(xss: seq<seq<T>>): seq<T> {
    if |xss| == 0 then [] else xss[0] + Flatten(xss[1..])
  }

  /** An element of the concatenation comes from one of the lists, and every element of
      every list is in it. */
  lemma {:induction false} FlattenMember<T>(xss: seq<seq<T>>, x: T)
    ensures x in Flatten(xss) <==> exists i :: 0 <= i < |xss| && x in xss[i]
  {
    if |xss| > 0 {
      FlattenMember(xss[1..], x);
      assert forall i :: 1 <= i < |xss| ==> xss[1..][i - 1] == xss[i];
    }
  }

  /** `xs` without repeats, each element where it first occurs. */
  function Dedup<T(==,!new)>(xs: seq<T>): (r: seq<T>)
    ensures forall x :: x in r <==> x in xs
    ensures forall i, j :: 0 <= i < j < |r| ==> r[i] != r[j]
  {
    if |xs| == 0 then []
    else
      var init := xs[..|xs| - 1];
      var d := Dedup(init);
      assert forall x :: x in xs <==> x in init || x == xs[|xs| - 1] by {
        assert xs == init + [xs[|xs| - 1]];
      }
      if xs[|xs| - 1] in d then d else d + [xs[|xs| - 1]]
  }

  /** `[x for x in xs if keep(x)]`: the elements that pass, in order. */
  function Filter<T(!new)>(keep: T -> bool, xs: seq<T>): (r: seq<T>)
    ensures |r| <= |xs|
    ensures forall x :: x in r <==> x in xs && keep(x)
  {
    if |xs| == 0 then []
    else
      var init := xs[..|xs| - 1];
      assert xs == init + [xs[|xs| - 1]];
      Filter(keep, init) + (if keep(xs[|xs| - 1]) then [xs[|xs| - 1]] else [])
  }

  /** An element put at the end is kept, after the others, exactly when it passes. */
  lemma FilterSnoc<T(!new)>(keep: T -> bool, xs: seq<T>, x: T)
    ensures Filter(keep, xs + [x]) == Filter(keep, xs) + (if keep(x) then [x] else [])
  {
    assert (xs + [x])[..|xs|] == xs;
  }

  /** Filtering keeps input order: what passes of a longer list follows what passes of
      its prefix. */
  lemma {:induction false} FilterConcat<T(!new)>(keep: T -> bool, a: seq<T>, b: seq<T>)
    ensures Filter(keep, a + b) == Filter(keep, a) + Filter(keep, b)
  {
    if |b| > 0 {
      var init, last := b[..|b| - 1], b[|b| - 1];
      FilterConcat(keep, a, init);
      assert b == init + [last];
      assert a + b == (a + init) + [last];
      FilterSnoc(keep, init, last);
      FilterSnoc(keep, a + init, last);
    } else {
      assert a + b == a;
    }
  }

  /** An element put in front is kept, before the others, exactly when it passes. */
  lemma FilterCons<T(!new)>(keep: T -> bool, x: T, xs: seq<T>)
    ensures Filter(keep, [x] + xs) == (if keep(x) then [x] else []) + Filter(keep, xs)
  {
    FilterConcat(keep, [x], xs);
    FilterOne(keep, x);
  }

  /** One element is kept exactly when it passes. */
  lemma FilterOne<T(!new)>(keep: T -> bool, x: T)
    ensures Filter(keep, [x]) == if keep(x) then [x] else []
  {
    assert [x][..0] == [];
  }

  /** `[f(x).value for x in xs if f(x) is not None]`: the values of the elements that
      give one, in order. */
  function FilterMap<T(!new), U(!new)>(f: T -> Option<U>, xs: seq<T>): (r: seq<U>)
    ensures |r| <= |xs|
    ensures forall y {:trigger y in r} :: y in r <==> exists x :: x in xs && f(x) == Some(y)
  {
    if |xs| == 0 then []
    else
      var init, last := xs[..|xs| - 1], xs[|xs| - 1];
      assert forall x :: x in xs <==> x in init || x == last by {
        assert xs == init + [last];
      }
      FilterMap(f, init) + (match f(last) case Some(y) => [y] case None => [])
  }

  /** An element put at the end adds its value, after the others, when it gives one. */
  lemma FilterMapSnoc<T(!new), U(!new)>(f: T -> Option<U>, xs: seq<T>, x: T)
    ensures FilterMap(f, xs + [x]) == FilterMap(f, xs) + (match f(x) case Some(y) => [y] case None => [])
  {
    assert (xs + [x])[..|xs|] == xs;
  }

  /** `FilterMap` keeps input order: the values of a longer list follow those of its
      prefix. */
  lemma {:induction false} FilterMapConcat<T(!new), U(!new)>(f: T -> Option<U>, a: seq<T>, b: seq<T>)
    ensures FilterMap(f, a + b) == FilterMap(f, a) + FilterMap(f, b)
  {
    if |b| > 0 {
      var init, last := b[..|b| - 1], b[|b| - 1];
      FilterMapConcat(f, a, init);
      assert b == init + [last];
      assert a + b == (a + init) + [last];
      FilterMapSnoc(f, init, last);
      FilterMapSnoc(f, a + init, last);
    } else {
      assert a + b == a;
    }
  }

  /** One element gives its value, or nothing. */
  lemma FilterMapOne<T(!new), U(!new)>(f: T -> Option<U>, x: T)
    ensures FilterMap(f, [x]) == match f(x) case Some(y) => [y] case None => []
  {
    assert [x][..0] == [];
  }

  /** Two lists of which one is empty can be swapped in front of a third. */
  lemma SwapAroundEmpty<T>(a: seq<T>, b: seq<T>, c: seq<T>)
    requires a == [] || b == []
    ensures a + (b + c) == b + (a + c)
  {
    if a == [] {
      assert a + (b + c) == b + c;
    } else {
      assert b + (a + c) == a + c;
    }
  }

  /** The lists of at least `n` elements, in order. */
  function AtLeast<T(!new)>(xss: seq<seq<T>>, n: nat): (r: seq<seq<T>>)
    ensures |r| <= |xss|
    ensures forall k :: 0 <= k < |r| ==> |r[k]| >= n
    ensures forall xs :: xs in r <==> xs in xss && |xs| >= n
  {
    if |xss| == 0 then []
    else
      assert forall xs :: xs in xss <==> xs == xss[0] || xs in xss[1..];
      (if |xss[0]| >= n then [xss[0]] else []) + AtLeast(xss[1..], n)
  }

  /** `[xs[i:i+size] for i in range(0, len(xs), size)]`: consecutive slices of `size`
      elements, the last one possibly shorter. */
  function Chunks<T>(xs: seq<T>, size: nat): (r: seq<seq<T>>)
    requires size > 0
    ensures Flatten(r) == xs
    ensures forall k :: 0 <= k < |r| ==> 0 < |r[k]| <= size
    ensures forall k :: 0 <= k < |r| - 1 ==> |r[k]| == size
    decreases |xs|
  {
    if |xs| == 0 then []
    else if |xs| <= size then
      assert Flatten([xs]) == xs + Flatten<T>([]);
      [xs]
    else
      var rest := Chunks(xs[size..], size);
      var r := [xs[..size]] + rest;
      assert r[1..] == rest;
      assert xs[..size] + xs[size..] == xs;
      r
  }

  /** There are `ceil(|xs| / size)` chunks. */
  lemma {:induction false} ChunkCount<T>(xs: seq<T>, size: nat)
    requires size > 0
    ensures |Chunks(xs, size)| == (|xs| + size - 1) / size
    decreases |xs|
  {
    if |xs| == 0 {
      Arith.DivUnique(size - 1, size, 0, size - 1);
    } else if |xs| <= size {
      assert Chunks(xs, size) == [xs];
      Arith.DivUnique(|xs| + size - 1, size, 1, |xs| - 1);
    } else {
      assert Chunks(xs, size) == [xs[..size]] + Chunks(xs[size..], size);
      ChunkCount(xs[size..], size);
      CeilStep(|xs|, size);
    }
  }

  lemma CeilStep(n: int, size: int)
    requires size > 0 && n >= size
    ensures (n + size - 1) / size == (n - 1) / size + 1
  {
    var a := n - 1;
    var q := a / size;
    var r := a % size;
    assert a == size * q + r;
    assert size * (q + 1) == size * q + size;
    Arith.DivUnique(a + size, size, q + 1, r);
  }
}

=== FILE: services.dfy ===
/** The service table: each service's store identifiers and its search keywords. */
module Services {
  import opened Wrappers

  datatype ServiceInfo = ServiceInfo(googlePlayId: string, appleStoreId: string, keywords: seq<string>)

  /** The configured service names. */
  const ServiceNames: seq<string> := ["ixio", "ai-bizcall", "soho-package"]

  /** `get_service_info`: `None` for a name that is not configured. */
  function GetServiceInfo(name: string): (r: Option<ServiceInfo>)
    ensures r.Some? <==> name in ServiceNames
    ensures r.Some? ==> |r.value.keywords| > 0
  {
    if name == "ixio" then
      Some(ServiceInfo("com.lguplus.aicallagent", "6503931858",
        ["익시오", "ixio", "ixi-o", "익시o", "ixi오",
         "LG익시오", "LG 익시오", "U+익시오", "유플러스익시오", "유플러스 익시오",
         "LG U+ 익시오", "LGU+ 익시오",
         "익시오 앱", "익시오 통화", "익시오 AI", "익시오 리뷰", "익시오 사용후기",
         "ixi-O", "IXIO"]))
    else if name == "ai-bizcall" then
      Some(ServiceInfo("com.uplus.ubizai", "6503284354",
        ["ai비즈콜", "에이아이비즈콜", "LG비즈콜", "유플러스비즈콜", "U+비즈콜"]))
    else if name == "soho-package" then
      Some(ServiceInfo("com.lguplus.sohoapp", "1571096278",
        ["우리가게", "LG 우리가게", "U+ 우리가게", "유플러스 우리가게", "LG U+ 우리가게", "우리가게패키지",
         "SOHO우리가게패키지", "유플러스소호패키지"]))
    else None
  }

  /** `get_service_keywords`: the configured keywords, or the name itself. */
  function GetServiceKeywords(name: string): (ks: seq<string>)
    ensures |ks| > 0
    ensures name in ServiceNames ==> ks == GetServiceInfo(name).value.keywords
    ensures name !in ServiceNames ==> ks == [name]
  {
    match GetServiceInfo(name)
    case Some(info) => info.keywords
    case None => [name]
  }

  /** The display names the collectors use are not configured names: looking them up
      finds nothing, and their keyword list is the name alone. */
  lemma DisplayNamesUnknown()
    ensures GetServiceInfo("익시오").None?
    ensures GetServiceKeywords("익시오") == ["익시오"]
  {
  }
}

=== FILE: sums.dfy ===
/** Finite double sums over an index grid, and the exchange of the order of summation. */
module Sums {
  /** `f(i, 0) + ... + f(i, m - 1)`. */
  function Row(f: (int, int) -> nat, i: int, m: nat): nat {
    if m == 0 then 0 else Row(f, i, m - 1) + f(i, m - 1)
  }

  /** `f(0, j) + ... + f(n - 1, j)`. */
  function Col(f: (int, int) -> nat, j: int, n: nat): nat {
    if n == 0 then 0 else Col(f, j, n - 1) + f(n - 1, j)
  }

  /** The sum of `f(i, j)` over `0 <= i < n`, `0 <= j < m`, row by row. */
  function Grid(f: (int, int) -> nat, n: nat, m: nat): nat {
    if n == 0 then 0 else Grid(f, n - 1, m) + Row(f, n - 1, m)
  }

  /** `f` with its arguments exchanged. */
  function Swap(f: (int, int) -> nat): (int, int) -> nat {
    (j, i) => f(i, j)
  }

  /** Entries that are zero from `lo` on add nothing to a row. */
  lemma {:induction false} RowZeroTail(f: (int, int) -> nat, i: int, lo: nat, m: nat)
    requires lo <= m
    requires forall j :: lo <= j < m ==> f(i, j) == 0
    ensures Row(f, i, m) == Row(f, i, lo)
  {
    if m > lo {
      RowZeroTail(f, i, lo, m - 1);
    }
  }

  /** A row whose entries are all zero sums to zero. */
  lemma RowZero(f: (int, int) -> nat, i: int, m: nat)
    requires forall j :: 0 <= j < m ==> f(i, j) == 0
    ensures Row(f, i, m) == 0
  {
    RowZeroTail(f, i, 0, m);
  }

  /** A grid of zeros sums to zero. */
  lemma {:induction false} GridZero(f: (int, int) -> nat, n: nat, m: nat)
    requires forall i, j :: 0 <= i < n && 0 <= j < m ==> f(i, j) == 0
    ensures Grid(f, n, m) == 0
  {
    if n > 0 {
      GridZero(f, n - 1, m);
      RowZero(f, n - 1, m);
    }
  }

  /** Sums of functions that agree on the grid are equal. */
  lemma {:induction false} GridExt(f: (int, int) -> nat, g: (int, int) -> nat, n: nat, m: nat)
    requires forall i, j :: 0 <= i < n && 0 <= j < m ==> f(i, j) == g(i, j)
    ensures Grid(f, n, m) == Grid(g, n, m)
  {
    if n > 0 {
      GridExt(f, g, n - 1, m);
      RowExt(f, g, n - 1, m);
    }
  }

  lemma {:induction false} RowExt(f: (int, int) -> nat, g: (int, int) -> nat, i: int, m: nat)
    requires forall j :: 0 <= j < m ==> f(i, j) == g(i, j)
    ensures Row(f, i, m) == Row(g, i, m)
  {
    if m > 0 {
      RowExt(f, g, i, m - 1);
    }
  }

  /** A row of the swapped function is a column of the original. */
  lemma {:induction false} ColIsSwappedRow(f: (int, int) -> nat, j: int, n: nat)
    ensures Col(f, j, n) == Row(Swap(f), j, n)
  {
    if n > 0 {
      ColIsSwappedRow(f, j, n - 1);
      assert Swap(f)(j, n - 1) == f(n - 1, j);
    }
  }

  /** Splitting off the last column. */
  lemma {:induction false} GridLastCol(f: (int, int) -> nat, n: nat, m: nat)
    requires m > 0
    ensures Grid(f, n, m) == Grid(f, n, m - 1) + Col(f, m - 1, n)
  {
    if n > 0 {
      GridLastCol(f, n - 1, m);
    }
  }

  /** A grid without columns sums to zero. */
  lemma {:induction false} GridNoCols(f: (int, int) -> nat, n: nat)
    ensures Grid(f, n, 0) == 0
  {
    if n > 0 {
      GridNoCols(f, n - 1);
    }
  }

  /** The order of summation does not matter. */
  lemma {:induction false} Exchange(f: (int, int) -> nat, n: nat, m: nat)
    ensures Grid(f, n, m) == Grid(Swap(f), m, n)
  {
    if n == 0 {
      GridNoCols(Swap(f), m);
    } else {
      Exchange(f, n - 1, m);
      GridLastCol(Swap(f), m, n);
      ColIsSwappedRow(Swap(f), n - 1, m);
      RowExt(Swap(Swap(f)), f, n - 1, m);
    }
  }
}

=== FILE: tally.dfy ===
/** Python's `Counter` and `dict` of counts, kept as a list of entries in insertion order,
    and the stable sort by descending count that `sorted(..., reverse=True)` and
    `Counter.most_common(n)` perform on it. */
module Tally {
  import Seqs

  datatype Entry<K> = Entry(key: K, count: nat)

  /** How many times `x` occurs in `xs` (`xs.count(x)`). */
  function Occurrences<K(==)>(xs: seq<K>, x: K): nat {
    if |xs| == 0 then 0 else Occurrences(xs[..|xs| - 1], x) + (if xs[|xs| - 1] == x then 1 else 0)
  }

  lemma {:induction false} OccurrencesAbsent<K>(xs: seq<K>, x: K)
    requires x !in xs
    ensures Occurrences(xs, x) == 0
  {
    if |xs| > 0 {
      OccurrencesAbsent(xs[..|xs| - 1], x);
    }
  }

  /** An element occurs in a list exactly when it is counted there. */
  lemma {:induction false} OccurrencesPresent<K>(xs: seq<K>, x: K)
    ensures x in xs <==> Occurrences(xs, x) > 0
  {
    if |xs| > 0 {
      var init := xs[..|xs| - 1];
      OccurrencesPresent(init, x);
      assert xs == init + [xs[|xs| - 1]];
    }
  }

  /** Counting distributes over concatenation. */
  lemma {:induction false} OccurrencesConcat<K>(a: seq<K>, b: seq<K>, x: K)
    ensures Occurrences(a + b, x) == Occurrences(a, x) + Occurrences(b, x)
  {
    if |b| == 0 {
      assert a + b == a;
    } else {
      assert (a + b)[..|a + b| - 1] == a + b[..|b| - 1];
      OccurrencesConcat(a, b[..|b| - 1], x);
    }
  }

  /** Counting over a list with one element put in front. */
  lemma OccurrencesCons<K>(x: K, xs: seq<K>)
    ensures forall w :: Occurrences([x] + xs, w) == (if x == w then 1 else 0) + Occurrences(xs, w)
  {
    forall w ensures Occurrences([x] + xs, w) == (if x == w then 1 else 0) + Occurrences(xs, w) {
      OccurrencesConcat([x], xs, w);
      assert [x][..0] == [];
    }
  }

  /** Counting over a list with one element put at the end, when `kept`. */
  lemma OccurrencesSnoc<K>(r: seq<K>, x: K, kept: bool, out: seq<K>)
    requires out == r + (if kept then [x] else [])
    ensures forall w {:trigger Occurrences(out, w)} :: Occurrences(out, w) == Occurrences(r, w) + (if kept && x == w then 1 else 0)
  {
    if !kept {
      assert out == r;
    } else {
      assert out[..|out| - 1] == r;
    }
  }

  /** Filtering counts each element that passes as often as the list has it, and the
      others not at all. */
  lemma {:induction false} FilterCount<K(!new)>(keep: K -> bool, xs: seq<K>)
    ensures forall w {:trigger Occurrences(Seqs.Filter(keep, xs), w)} ::
      Occurrences(Seqs.Filter(keep, xs), w) == if keep(w) then Occurrences(xs, w) else 0
  {
    if |xs| > 0 {
      var init, last := xs[..|xs| - 1], xs[|xs| - 1];
      FilterCount(keep, init);
      OccurrencesSnoc(Seqs.Filter(keep, init), last, keep(last), Seqs.Filter(keep, xs));
    }
  }

  /** In a list without repeats an element occurs once or not at all. */
  lemma {:induction false} OccurrencesDistinct<K>(xs: seq<K>, x: K)
    requires forall i, j :: 0 <= i < j < |xs| ==> xs[i] != xs[j]
    ensures Occurrences(xs, x) == if x in xs then 1 else 0
  {
    if |xs| > 0 {
      var init := xs[..|xs| - 1];
      OccurrencesDistinct(init, x);
      assert xs == init + [xs[|xs| - 1]];
      if xs[|xs| - 1] == x {
        forall k | 0 <= k < |init| ensures init[k] != x {
          assert init[k] == xs[k];
        }
      }
    }
  }

  /** A dictionary has each key once. */
  predicate DistinctKeys<K(==)>(es: seq<Entry<K>>) {
    forall i, j :: 0 <= i < j < |es| ==> es[i].key != es[j].key
  }

  function KeySet<K>(es: seq<Entry<K>>): set<K> {
    set i | 0 <= i < |es| :: es[i].key
  }

  /** `d.get(x, 0)`. */
  function Lookup<K(==)>(es: seq<Entry<K>>, x: K): nat {
    if |es| == 0 then 0 else if es[0].key == x then es[0].count else Lookup(es[1..], x)
  }

  lemma {:induction false} LookupAbsent<K>(es: seq<Entry<K>>, x: K)
    requires x !in KeySet(es)
    ensures Lookup(es, x) == 0
  {
    if |es| > 0 {
      assert es[0].key in KeySet(es);
      assert KeySet(es[1..]) <= KeySet(es) by {
        forall y | y in KeySet(es[1..]) ensures y in KeySet(es) {
          var i :| 0 <= i < |es[1..]| && es[1..][i].key == y;
          assert es[i + 1].key == y;
        }
      }
      LookupAbsent(es[1..], x);
    }
  }

  /** Every stored count is at least one: a `Counter` only holds keys it has seen. */
  predicate Positive<K>(es: seq<Entry<K>>) {
    forall i :: 0 <= i < |es| ==> es[i].count >= 1
  }

  lemma KeySetCons<K>(e: Entry<K>, rest: seq<Entry<K>>)
    ensures KeySet([e] + rest) == {e.key} + KeySet(rest)
  {
    var r := [e] + rest;
    forall y | y in KeySet(r) ensures y in {e.key} + KeySet(rest) {
      var i :| 0 <= i < |r| && r[i].key == y;
      if i > 0 { assert rest[i - 1].key == y; }
    }
    forall y | y in KeySet(rest) ensures y in KeySet(r) {
      var i :| 0 <= i < |rest| && rest[i].key == y;
      assert r[i + 1].key == y;
    }
    assert r[0].key == e.key;
  }

  /** `d[x] = d.get(x, 0) + 1`: an existing key keeps its place, a new key goes last. */
  function Bump<K(==)>(es: seq<Entry<K>>, x: K): (r: seq<Entry<K>>)
    ensures |r| == |es| || r == es + [Entry(x, 1)]
  {
    if |es| == 0 then [Entry(x, 1)]
    else if es[0].key == x then [Entry(x, es[0].count + 1)] + es[1..]
    else [es[0]] + Bump(es[1..], x)
  }

  /** Bumping keeps the keys distinct and adds `x` to them. */
  lemma {:induction false} BumpKeys<K>(es: seq<Entry<K>>, x: K)
    requires DistinctKeys(es)
    ensures DistinctKeys(Bump(es, x))
    ensures KeySet(Bump(es, x)) == KeySet(es) + {x}
  {
    var r := Bump(es, x);
    if |es| == 0 {
      assert r[0].key == x;
    } else {
      assert es == [es[0]] + es[1..];
      KeySetCons(es[0], es[1..]);
      HeadKeyFresh(es);
      if es[0].key == x {
        assert r == [r[0]] + es[1..];
        KeySetCons(r[0], es[1..]);
      } else {
        var rest := Bump(es[1..], x);
        DistinctTail(es);
        BumpKeys(es[1..], x);
        assert r == [es[0]] + rest;
        KeySetCons(es[0], rest);
        DistinctCons(es[0], rest);
      }
    }
  }

  /** The tail of a list with distinct keys has distinct keys. */
  lemma DistinctTail<K>(es: seq<Entry<K>>)
    requires DistinctKeys(es) && |es| > 0
    ensures DistinctKeys(es[1..])
  {
    forall i, j | 0 <= i < j < |es| - 1 ensures es[1..][i].key != es[1..][j].key {
      assert es[1..][i] == es[i + 1] && es[1..][j] == es[j + 1];
    }
  }

  /** A key not among distinct keys can go in front of them. */
  lemma DistinctCons<K>(e: Entry<K>, rest: seq<Entry<K>>)
    requires DistinctKeys(rest) && e.key !in KeySet(rest)
    ensures DistinctKeys([e] + rest)
  {
    var r := [e] + rest;
    forall i, j | 0 <= i < j < |r| ensures r[i].key != r[j].key {
      assert r[j] == rest[j - 1];
      if i > 0 { assert r[i] == rest[i - 1]; } else { assert rest[j - 1].key in KeySet(rest); }
    }
  }

  lemma HeadKeyFresh<K>(es: seq<Entry<K>>)
    requires DistinctKeys(es) && |es| > 0
    ensures es[0].key !in KeySet(es[1..])
  {
    forall y | y in KeySet(es[1..]) ensures y != es[0].key {
      var i :| 0 <= i < |es[1..]| && es[1..][i].key == y;
      assert es[1..][i] == es[i + 1];
    }
  }

  /** Bumping adds one to the count of `x` and leaves every other count alone. */
  lemma {:induction false} BumpLookup<K>(es: seq<Entry<K>>, x: K, y: K)
    requires DistinctKeys(es)
    ensures Lookup(Bump(es, x), y) == Lookup(es, y) + (if y == x then 1 else 0)
  {
    if |es| > 0 {
      HeadKeyFresh(es);
      LookupAbsent(es[1..], es[0].key);
      if es[0].key != x {
        BumpLookup(es[1..], x, y);
      }
    }
  }

  lemma {:induction false} BumpPositive<K>(es: seq<Entry<K>>, x: K)
    requires Positive(es)
    ensures Positive(Bump(es, x))
  {
    if |es| > 0 && es[0].key != x {
      BumpPositive(es[1..], x);
    }
  }

  /** `Counter(xs)`, keys in order of first occurrence. */
  function Count<K(==,!new)>(xs: seq<K>): (r: seq<Entry<K>>)
    ensures DistinctKeys(r) && Positive(r)
    ensures KeySet(r) == set x | x in xs
    ensures forall y :: Lookup(r, y) == Occurrences(xs, y)
  {
    if |xs| == 0 then []
    else
      var init := xs[..|xs| - 1];
      assert xs == init + [xs[|xs| - 1]];
      var c := Count(init);
      BumpKeys(c, xs[|xs| - 1]);
      BumpPositive(c, xs[|xs| - 1]);
      forall y ensures Lookup(Bump(c, xs[|xs| - 1]), y) == Occurrences(xs, y) {
        BumpLookup(c, xs[|xs| - 1], y);
      }
      Bump(c, xs[|xs| - 1])
  }

  // ---------------------------------------------------------------------------
  // Stable sort by descending count
  // ---------------------------------------------------------------------------

  predicate Descending<K>(es: seq<Entry<K>>) {
    forall i, j :: 0 <= i < j < |es| ==> es[i].count >= es[j].count
  }

  /** Places `e` before the first entry whose count it reaches, so that among equal
      counts the earlier entry of the input stays first. */
  function Insert<K>(e: Entry<K>, es: seq<Entry<K>>): (r: seq<Entry<K>>)
    ensures multiset(r) == multiset(es) + multiset{e}
    ensures Descending(es) ==> Descending(r)
  {
    if |es| == 0 then [e]
    else if e.count >= es[0].count then
      [e] + es
    else
      var rest := Insert(e, es[1..]);
      var r := [es[0]] + rest;
      assert es == [es[0]] + es[1..];
      assert Descending(es) ==> Descending(r) by {
        if Descending(es) {
          HeadDominates(e, es, rest);
        }
      }
      r
  }

  /** The head of a descending list, at least `e`, stays ahead of any rearrangement of
      its tail and `e`. */
  lemma HeadDominates<K>(e: Entry<K>, es: seq<Entry<K>>, rest: seq<Entry<K>>)
    requires |es| > 0 && e.count < es[0].count && Descending(es)
    requires multiset(rest) == multiset(es[1..]) + multiset{e}
    ensures forall j :: 0 <= j < |rest| ==> es[0].count >= rest[j].count
  {
    forall j | 0 <= j < |rest| ensures es[0].count >= rest[j].count {
      assert rest[j] in multiset(rest);
      assert rest[j] == e || rest[j] in multiset(es[1..]);
      if rest[j] != e {
        var k :| 0 <= k < |es[1..]| && es[1..][k] == rest[j];
        assert es[k + 1] == rest[j];
      }
    }
  }

  /** The test "has count `c`", as a value. */
  function CountIs<K(!new)>(c: nat): (test: Entry<K> -> bool)
    ensures forall e :: test(e) == (e.count == c)
  {
    (e: Entry<K>) => e.count == c
  }

  /** Inserting into a descending list puts `e` ahead of every entry of the same count
      and changes the order of no other entries of that count. */
  lemma {:induction false} InsertStable<K(!new)>(e: Entry<K>, es: seq<Entry<K>>, c: nat)
    requires Descending(es)
    ensures Seqs.Filter(CountIs(c), Insert(e, es)) == (if e.count == c then [e] else []) + Seqs.Filter(CountIs(c), es)
  {
    var keep := CountIs<K>(c);
    var mine := if e.count == c then [e] else [];
    if |es| == 0 {
      Seqs.FilterOne(keep, e);
      assert Insert(e, es) == [e];
      assert Seqs.Filter(keep, es) == [];
      assert Seqs.Filter(keep, Insert(e, es)) == mine + Seqs.Filter(keep, es);
    } else if e.count >= es[0].count {
      Seqs.FilterCons(keep, e, es);
      assert Insert(e, es) == [e] + es;
      assert Seqs.Filter(keep, Insert(e, es)) == mine + Seqs.Filter(keep, es);
    } else {
      var tail := es[1..];
      assert es == [es[0]] + tail;
      assert Descending(tail);
      assert Insert(e, es) == [es[0]] + Insert(e, tail);
      InsertStable(e, tail, c);
      Seqs.FilterCons(keep, es[0], Insert(e, tail));
      Seqs.FilterCons(keep, es[0], tail);
      var front := if keep(es[0]) then [es[0]] else [];
      var rest := Seqs.Filter(keep, tail);
      assert Seqs.Filter(keep, Insert(e, es)) == front + (mine + rest);
      assert Seqs.Filter(keep, es) == front + rest;
      assert front == [] || mine == [];
      Seqs.SwapAroundEmpty(front, mine, rest);
    }
  }

  /** `sorted(es, key=count, reverse=True)`. */
  function SortDesc<K>(es: seq<Entry<K>>): (r: seq<Entry<K>>)
    ensures multiset(r) == multiset(es)
    ensures Descending(r)
  {
    if |es| == 0 then []
    else
      assert es == [es[0]] + es[1..];
      Insert(es[0], SortDesc(es[1..]))
  }

  /** The sort is stable: the entries of any one count keep their input order. */
  lemma {:induction false} SortDescStable<K(!new)>(es: seq<Entry<K>>, c: nat)
    ensures Seqs.Filter(CountIs(c), SortDesc(es)) == Seqs.Filter(CountIs(c), es)
  {
    if |es| > 0 {
      assert es == [es[0]] + es[1..];
      SortDescStable(es[1..], c);
      InsertStable(es[0], SortDesc(es[1..]), c);
      Seqs.FilterCons(CountIs(c), es[0], es[1..]);
    }
  }

  /** The entries of `es` that a top-`n` cut `r` left out. */
  ghost function Dropped<K>(es: seq<Entry<K>>, r: seq<Entry<K>>): multiset<Entry<K>> {
    multiset(es) - multiset(r)
  }

  /** `sorted(es, key=count, reverse=True)[:n]`, which is also `Counter.most_common(n)`. */
  function Top<K>(es: seq<Entry<K>>, n: int): (r: seq<Entry<K>>)
    ensures |r| == if n <= 0 then 0 else Seqs.Min(n, |es|)
    ensures Descending(r)
    ensures r == SortDesc(es)[..|r|]
  {
    Seqs.Take(SortDesc(es), n)
  }

  /** The cut keeps the most frequent entries: it takes entries from the input only, and
      none it leaves out counts more than one it keeps. */
  lemma TopDominates<K(!new)>(es: seq<Entry<K>>, n: int)
    ensures multiset(Top(es, n)) <= multiset(es)
    ensures forall x :: x in Dropped(es, Top(es, n)) ==> forall i :: 0 <= i < |Top(es, n)| ==> x.count <= Top(es, n)[i].count
  {
    var s := SortDesc(es);
    var r := Top(es, n);
    var m := |r|;
    assert r == s[..m];
    PrefixSplit(s, m);
    assert multiset(s) == multiset(es);
    SubtractPart(multiset(r), multiset(s[m..]));
    assert Dropped(es, r) == multiset(s[m..]);
    forall x | x in Dropped(es, r) ensures forall i :: 0 <= i < |r| ==> x.count <= r[i].count {
      TailDominated(s, m, x);
    }
  }

  /** The cut keeps the most frequent entries, stated entry by entry: an entry of the
      input that the cut does not hold counts no more than any entry it holds. */
  lemma TopKeepsBestEntries<K(!new)>(es: seq<Entry<K>>, n: int)
    ensures forall j :: 0 <= j < |es| && es[j] !in Top(es, n) ==>
      forall i :: 0 <= i < |Top(es, n)| ==> es[j].count <= Top(es, n)[i].count
  {
    var r := Top(es, n);
    TopDominates(es, n);
    forall j | 0 <= j < |es| && es[j] !in r ensures forall i :: 0 <= i < |r| ==> es[j].count <= r[i].count {
      assert es[j] in multiset(es);
      assert es[j] !in multiset(r);
      assert es[j] in Dropped(es, r);
    }
  }

  /** Every entry carries the count `table` gives its key. */
  predicate CountsFrom<K(==)>(es: seq<Entry<K>>, table: seq<Entry<K>>) {
    forall i :: 0 <= i < |es| ==> es[i].count == Lookup(table, es[i].key)
  }

  /** When counts come from one table, an entry is determined by its key, so a key occurs
      among the keys as often as its entry among the entries. */
  lemma {:induction false} KeysCount<K>(es: seq<Entry<K>>, table: seq<Entry<K>>, x: K)
    requires CountsFrom(es, table)
    ensures multiset(Keys(es))[x] == multiset(es)[Entry(x, Lookup(table, x))]
  {
    if |es| > 0 {
      var e := Entry(x, Lookup(table, x));
      var tail := es[1..];
      assert CountsFrom(tail, table) by {
        forall i | 0 <= i < |tail| ensures tail[i] == es[i + 1] { }
      }
      KeysCount(tail, table, x);
      assert es == [es[0]] + tail;
      assert Keys(es) == [es[0].key] + Keys(tail);
      assert multiset(es)[e] == multiset([es[0]])[e] + multiset(tail)[e];
      assert multiset(Keys(es))[x] == multiset([es[0].key])[x] + multiset(Keys(tail))[x];
      assert es[0].key == x <==> es[0] == e;
    }
  }

  /** A list is its prefix and its rest, as multisets too. */
  lemma PrefixSplit<K>(s: seq<Entry<K>>, m: nat)
    requires m <= |s|
    ensures multiset(s[..m]) + multiset(s[m..]) == multiset(s)
  {
    assert s == s[..m] + s[m..];
  }

  /** Taking one part away from a sum of two leaves the other. */
  lemma SubtractPart<T>(a: multiset<T>, b: multiset<T>)
    ensures a <= a + b && (a + b) - a == b
  {
    assert forall x :: ((a + b) - a)[x] == b[x];
  }

  /** In a descending list, nothing after position `m` counts more than anything before it. */
  lemma TailDominated<K>(s: seq<Entry<K>>, m: nat, x: Entry<K>)
    requires Descending(s) && m <= |s| && x in multiset(s[m..])
    ensures forall i :: 0 <= i < m ==> x.count <= s[i].count
  {
    var tail := s[m..];
    assert x in tail;
    var j :| 0 <= j < |tail| && tail[j] == x;
    assert s[m + j] == x;
  }

  /** The keys of a list of entries, in order. */
  function Keys<K>(es: seq<Entry<K>>): (ks: seq<K>)
    ensures |ks| == |es|
    ensures forall i :: 0 <= i < |es| ==> ks[i] == es[i].key
  {
    seq(|es|, i requires 0 <= i < |es| => es[i].key)
  }

  // ---------------------------------------------------------------------------
  // Distinct keys survive the sort; `Counter(xs).most_common(n)`
  // ---------------------------------------------------------------------------

  /** With distinct keys, looking up an entry's key gives that entry's count. */
  lemma {:induction false} LookupMember<K>(es: seq<Entry<K>>, i: nat)
    requires DistinctKeys(es) && i < |es|
    ensures Lookup(es, es[i].key) == es[i].count
  {
    if i > 0 {
      assert es[0].key != es[i].key;
      assert es[1..][i - 1] == es[i];
      LookupMember(es[1..], i - 1);
    }
  }

  /** Inserting an entry with a new key keeps the keys distinct and adds that key. */
  lemma {:induction false} InsertKeys<K>(e: Entry<K>, es: seq<Entry<K>>)
    requires DistinctKeys(es) && e.key !in KeySet(es)
    ensures DistinctKeys(Insert(e, es))
    ensures KeySet(Insert(e, es)) == KeySet(es) + {e.key}
  {
    var r := Insert(e, es);
    if |es| == 0 {
      assert r == [e];
      KeySetCons(e, es);
    } else if e.count >= es[0].count {
      KeySetCons(e, es);
      assert forall j :: 0 <= j < |es| ==> es[j].key in KeySet(es);
    } else {
      assert es == [es[0]] + es[1..];
      KeySetCons(es[0], es[1..]);
      HeadKeyFresh(es);
      var rest := Insert(e, es[1..]);
      InsertKeys(e, es[1..]);
      assert r == [es[0]] + rest;
      KeySetCons(es[0], rest);
      assert forall j :: 0 <= j < |rest| ==> rest[j].key in KeySet(rest);
    }
  }

  /** Sorting keeps the keys distinct and the key set unchanged. */
  lemma {:induction false} SortDescKeys<K>(es: seq<Entry<K>>)
    requires DistinctKeys(es)
    ensures DistinctKeys(SortDesc(es))
    ensures KeySet(SortDesc(es)) == KeySet(es)
  {
    if |es| > 0 {
      assert es == [es[0]] + es[1..];
      KeySetCons(es[0], es[1..]);
      HeadKeyFresh(es);
      SortDescKeys(es[1..]);
      InsertKeys(es[0], SortDesc(es[1..]));
    }
  }

  /** `Counter(xs).most_common(n)`: at most `n` distinct elements of `xs`, each with its
      number of occurrences, most frequent first; an element left out occurs no more often
      than any kept one, and when fewer than `n` are kept none is left out. */
  function MostCommon<K(==,!new)>(xs: seq<K>, n: int): (r: seq<Entry<K>>)
    ensures n >= 0 ==> |r| <= n
    ensures DistinctKeys(r) && Positive(r) && Descending(r)
    ensures forall i :: 0 <= i < |r| ==> r[i].key in xs && r[i].count == Occurrences(xs, r[i].key)
    ensures forall x :: x in xs && x !in KeySet(r) ==> forall i :: 0 <= i < |r| ==> Occurrences(xs, x) <= r[i].count
    ensures |r| < n ==> forall x :: x in xs ==> x in KeySet(r)
  {
    var c := Count(xs);
    MostCommonFacts(c, n);
    forall x | x in xs && x !in KeySet(Top(c, n))
      ensures forall i :: 0 <= i < |Top(c, n)| ==> Occurrences(xs, x) <= Top(c, n)[i].count
    {
      assert x in KeySet(c);
      var j :| 0 <= j < |c| && c[j].key == x;
      LookupMember(c, j);
    }
    forall i | 0 <= i < |Top(c, n)|
      ensures Top(c, n)[i].key in xs && Top(c, n)[i].count == Occurrences(xs, Top(c, n)[i].key)
    {
      var j :| 0 <= j < |c| && c[j] == Top(c, n)[i];
      LookupMember(c, j);
      assert c[j].key in KeySet(c);
    }
    Top(c, n)
  }

  /** The cut of a dictionary: its entries come from the dictionary, keep their keys
      distinct, and dominate the entries left out; a short cut is the whole dictionary. */
  lemma MostCommonFacts<K(!new)>(c: seq<Entry<K>>, n: int)
    requires DistinctKeys(c) && Positive(c)
    ensures DistinctKeys(Top(c, n)) && Positive(Top(c, n))
    ensures forall i :: 0 <= i < |Top(c, n)| ==> exists j :: 0 <= j < |c| && c[j] == Top(c, n)[i]
    ensures forall j :: 0 <= j < |c| && c[j].key !in KeySet(Top(c, n)) ==>
      forall i :: 0 <= i < |Top(c, n)| ==> c[j].count <= Top(c, n)[i].count
    ensures |Top(c, n)| < n ==> KeySet(Top(c, n)) == KeySet(c)
  {
    TopFromDict(c, n);
    TopKeepsBest(c, n);
    TopShortIsAll(c, n);
  }

  lemma TopFromDict<K>(c: seq<Entry<K>>, n: int)
    requires DistinctKeys(c) && Positive(c)
    ensures DistinctKeys(Top(c, n)) && Positive(Top(c, n))
    ensures forall i :: 0 <= i < |Top(c, n)| ==> exists j :: 0 <= j < |c| && c[j] == Top(c, n)[i]
  {
    var s := SortDesc(c);
    var r := Top(c, n);
    SortDescKeys(c);
    forall i | 0 <= i < |r| ensures exists j :: 0 <= j < |c| && c[j] == r[i] {
      assert r[i] == s[i];
      assert s[i] in multiset(c);
    }
  }

  lemma TopKeepsBest<K(!new)>(c: seq<Entry<K>>, n: int)
    ensures forall j :: 0 <= j < |c| && c[j].key !in KeySet(Top(c, n)) ==>
      forall i :: 0 <= i < |Top(c, n)| ==> c[j].count <= Top(c, n)[i].count
  {
    var r := Top(c, n);
    TopDominates(c, n);
    forall j | 0 <= j < |c| && c[j].key !in KeySet(r)
      ensures forall i :: 0 <= i < |r| ==> c[j].count <= r[i].count
    {
      assert c[j] in multiset(c);
      assert c[j] !in r by {
        forall i | 0 <= i < |r| ensures r[i] != c[j] {
          assert r[i].key in KeySet(r);
        }
      }
      assert c[j] in Dropped(c, r);
    }
  }

  lemma TopShortIsAll<K>(c: seq<Entry<K>>, n: int)
    requires DistinctKeys(c)
    ensures |Top(c, n)| < n ==> KeySet(Top(c, n)) == KeySet(c)
  {
    var s := SortDesc(c);
    SortDescKeys(c);
    assert |s| == |c| by {
      assert |multiset(s)| == |multiset(c)|;
    }
    if |Top(c, n)| < n {
      assert Top(c, n) == s;
    }
  }
}

=== FILE: text.dfy ===
/** Character classes and Python `str` operations over `seq<char>`.

    Characters are Unicode scalar values, so `|s|` is Python's `len(s)`. Case folding is
    ASCII only (the texts the system handles are Korean, which has no case), and digits
    are the ASCII digits. */
module Text {

  // ---------------------------------------------------------------------------
  // Character classes
  // ---------------------------------------------------------------------------

  predicate IsDigit(c: char) {
    '0' <= c <= '9'
  }

  function DigitValue(c: char): nat
    requires IsDigit(c)
  {
    (c as int) - ('0' as int)
  }

  /** A precomposed Hangul syllable, the class `[가-힣]` (U+AC00 to U+D7A3). */
  predicate IsHangul(c: char) {
    0xAC00 <= c as int <= 0xD7A3
  }

  predicate IsAsciiLetter(c: char) {
    ('a' <= c <= 'z') || ('A' <= c <= 'Z')
  }

  /** Python's whitespace: the characters for which `str.isspace()` holds, which is also
      what `\s` matches in a `str` pattern. */
  predicate IsSpace(c: char) {
    var n := c as int;
    || (0x09 <= n <= 0x0D) || (0x1C <= n <= 0x20)
    || n == 0x85 || n == 0xA0 || n == 0x1680
    || (0x2000 <= n <= 0x200A)
    || n == 0x2028 || n == 0x2029 || n == 0x202F || n == 0x205F || n == 0x3000
  }

  predicate AllHangul(s: string) {
    forall i :: 0 <= i < |s| ==> IsHangul(s[i])
  }

  /** Python's `s.isdigit()` over ASCII digits: non-empty and digits only. */
  predicate IsAllDigits(s: string) {
    |s| > 0 && forall i :: 0 <= i < |s| ==> IsDigit(s[i])
  }

  function LowerChar(c: char): char {
    if 'A' <= c <= 'Z' then (c as int + 32) as char else c
  }

  /** Python's `s.lower()`, restricted to ASCII letters. */
  function Lower(s: string): (r: string)
    ensures |r| == |s|
    ensures forall i :: 0 <= i < |s| ==> r[i] == LowerChar(s[i])
  {
    seq(|s|, i requires 0 <= i < |s| => LowerChar(s[i]))
  }

  // ---------------------------------------------------------------------------
  // Substring search (Python's `sub in s`)
  // ---------------------------------------------------------------------------

  predicate OccursAt(s: string, sub: string, i: nat) {
    i + |sub| <= |s| && s[i..i + |sub|] == sub
  }

  ghost predicate Contains(s: string, sub: string) {
    exists i: nat :: OccursAt(s, sub, i)
  }

  /** Executable form of `Contains`: scans from the left. */
  function ContainsFrom(s: string, sub: string, i: nat): (b: bool)
    requires i <= |s|
    ensures b <==> exists k: nat :: i <= k && OccursAt(s, sub, k)
    decreases |s| - i
  {
    if OccursAt(s, sub, i) then true
    else if i + |sub| >= |s| then
      assert forall k: nat :: i < k ==> !OccursAt(s, sub, k);
      false
    else ContainsFrom(s, sub, i + 1)
  }

  function In(sub: string, s: string): (b: bool)
    ensures b <==> Contains(s, sub)
  {
    ContainsFrom(s, sub, 0)
  }

  /** Python's `any(k in s for k in subs)`. */
  predicate ContainsAny(s: string, subs: seq<string>) {
    exists k :: 0 <= k < |subs| && In(subs[k], s)
  }

  /** Python's `sum(1 for k in subs if k in s)`: how many of the listed strings occur. */
  function CountPresent(subs: seq<string>, s: string): (n: nat)
    ensures n <= |subs|
    ensures n == 0 <==> !ContainsAny(s, subs)
  {
    if |subs| == 0 then 0
    else
      var rest := CountPresent(subs[1..], s);
      assert ContainsAny(s, subs) <==> In(subs[0], s) || ContainsAny(s, subs[1..]) by {
        if ContainsAny(s, subs) {
          var k :| 0 <= k < |subs| && In(subs[k], s);
          if k > 0 { assert subs[1..][k - 1] == subs[k]; }
        }
        if ContainsAny(s, subs[1..]) {
          var k :| 0 <= k < |subs[1..]| && In(subs[1..][k], s);
          assert subs[k + 1] == subs[1..][k];
        }
      }
      (if In(subs[0], s) then 1 else 0) + rest
  }

  lemma ContainsAnyWitness(s: string, subs: seq<string>, k: nat)
    requires k < |subs| && In(subs[k], s)
    ensures ContainsAny(s, subs)
  {
  }

  /** The count depends only on which listed strings occur, not on how often: two texts
      holding the same listed strings get the same count. */
  lemma {:induction false} CountPresentByPresence(subs: seq<string>, a: string, b: string)
    requires forall k :: 0 <= k < |subs| ==> (In(subs[k], a) <==> In(subs[k], b))
    ensures CountPresent(subs, a) == CountPresent(subs, b)
  {
    if |subs| > 0 {
      assert forall k :: 1 <= k < |subs| ==> subs[1..][k - 1] == subs[k];
      CountPresentByPresence(subs[1..], a, b);
    }
  }

  /** Whether any listed string occurs depends only on which of them occur. */
  lemma ContainsAnyByPresence(subs: seq<string>, a: string, b: string)
    requires forall k :: 0 <= k < |subs| ==> (In(subs[k], a) <==> In(subs[k], b))
    ensures ContainsAny(a, subs) <==> ContainsAny(b, subs)
  {
  }

  /** A substring of a part is a substring of anything that contains the part. */
  lemma ContainsInConcat(a: string, b: string, sub: string)
    ensures Contains(a, sub) ==> Contains(a + b, sub)
    ensures Contains(b, sub) ==> Contains(a + b, sub)
  {
    if Contains(a, sub) {
      var i: nat :| OccursAt(a, sub, i);
      assert (a + b)[i..i + |sub|] == a[i..i + |sub|];
      assert OccursAt(a + b, sub, i);
    }
    if Contains(b, sub) {
      var i: nat :| OccursAt(b, sub, i);
      assert (a + b)[|a| + i..|a| + i + |sub|] == b[i..i + |sub|];
      assert OccursAt(a + b, sub, |a| + i);
    }
  }

  // ---------------------------------------------------------------------------
  // Replacement, stripping, splitting, joining
  // ---------------------------------------------------------------------------

  /** Python's `s.replace(pat, rep)`: non-overlapping occurrences, scanned left to right. */
  function Replace(s: string, pat: string, rep: string): (r: string)
    requires |pat| > 0
    ensures !In(pat, s) ==> r == s
    decreases |s|
  {
    if |s| == 0 then []
    else if |pat| <= |s| && s[..|pat|] == pat then
      assert OccursAt(s, pat, 0);
      rep + Replace(s[|pat|..], pat, rep)
    else
      assert !In(pat, s) ==> !In(pat, s[1..]) by {
        if In(pat, s[1..]) {
          var i: nat :| OccursAt(s[1..], pat, i);
          assert s[i + 1..i + 1 + |pat|] == s[1..][i..i + |pat|];
          assert OccursAt(s, pat, i + 1);
        }
      }
      [s[0]] + Replace(s[1..], pat, rep)
  }

  function TrimStart(s: string): (r: string)
    ensures |r| <= |s| && r == s[|s| - |r|..]
    ensures |r| > 0 ==> !IsSpace(r[0])
    ensures forall i :: 0 <= i < |s| - |r| ==> IsSpace(s[i])
  {
    if |s| > 0 && IsSpace(s[0]) then TrimStart(s[1..]) else s
  }

  function TrimEnd(s: string): (r: string)
    ensures |r| <= |s| && r == s[..|r|]
    ensures |r| > 0 ==> !IsSpace(r[|r| - 1])
    ensures forall i :: |r| <= i < |s| ==> IsSpace(s[i])
  {
    if |s| > 0 && IsSpace(s[|s| - 1]) then TrimEnd(s[..|s| - 1]) else s
  }

  /** Python's `s.strip()`: removes leading and trailing whitespace. */
  function Strip(s: string): (r: string)
    ensures |r| > 0 ==> !IsSpace(r[0]) && !IsSpace(r[|r| - 1])
  {
    var t := TrimStart(s);
    var r := TrimEnd(t);
    assert |r| > 0 ==> r[0] == t[0];
    r
  }

  /** What `strip` keeps is the slice of `s` after the leading whitespace. */
  lemma StripSlice(s: string)
    ensures |s| - |TrimStart(s)| + |Strip(s)| <= |s|
    ensures Strip(s) == s[|s| - |TrimStart(s)|..|s| - |TrimStart(s)| + |Strip(s)|]
  {
    var t := TrimStart(s);
    var r := TrimEnd(t);
    assert Strip(s) == r;
    var off := |s| - |t|;
    assert t == s[off..] && r == t[..|r|];
    SliceOfSuffix(s, off, |r|);
  }

  lemma SliceOfSuffix(s: string, off: nat, n: nat)
    requires off + n <= |s|
    ensures s[off..][..n] == s[off..off + n]
  {
  }

  /** Python's `s.split()`: the maximal runs of non-whitespace characters, in order. */
  function SplitWhitespace(s: string): (r: seq<string>)
    ensures forall k :: 0 <= k < |r| ==> IsWord(r[k])
    decreases |s|
  {
    var t := TrimStart(s);
    if |t| == 0 then []
    else
      var n := NonSpaceRun(t, 0);
      var w := t[..n];
      assert IsWord(w);
      [w] + SplitWhitespace(t[n..])
  }

  /** A token of `split()`: non-empty and free of whitespace. */
  predicate IsWord(w: string) {
    |w| > 0 && forall i :: 0 <= i < |w| ==> !IsSpace(w[i])
  }

  /** Length of the run of non-whitespace characters starting at `i`. */
  function NonSpaceRun(s: string, i: nat): (n: nat)
    requires i <= |s|
    ensures i + n <= |s|
    ensures forall k :: i <= k < i + n ==> !IsSpace(s[k])
    ensures i + n < |s| ==> IsSpace(s[i + n])
    decreases |s| - i
  {
    if i < |s| && !IsSpace(s[i]) then 1 + NonSpaceRun(s, i + 1) else 0
  }

  /** Python's `sep.join(parts)`. */
  function Join(sep: string, parts: seq<string>): string {
    if |parts| == 0 then ""
    else if |parts| == 1 then parts[0]
    else parts[0] + sep + Join(sep, parts[1..])
  }

  /** A substring of one part is a substring of the joined text. */
  lemma {:induction false} JoinContains(sep: string, parts: seq<string>, i: nat, sub: string)
    requires i < |parts| && In(sub, parts[i])
    ensures In(sub, Join(sep, parts))
  {
    if |parts| > 1 {
      if i == 0 {
        ContainsInConcat(parts[0], sep + Join(sep, parts[1..]), sub);
        assert parts[0] + sep + Join(sep, parts[1..]) == parts[0] + (sep + Join(sep, parts[1..]));
      } else {
        assert parts[1..][i - 1] == parts[i];
        JoinContains(sep, parts[1..], i - 1, sub);
        ContainsInConcat(parts[0] + sep, Join(sep, parts[1..]), sub);
      }
    }
  }

  /** Python's `s[:n]`. */
  function Prefix(s: string, n: nat): (r: string)
    ensures |r| == if n <= |s| then n else |s|
    ensures r == s[..|r|]
  {
    if n <= |s| then s[..n] else s
  }

  // ---------------------------------------------------------------------------
  // Numbers as text
  // ---------------------------------------------------------------------------

  /** Python's `int(s)` of a run of decimal digits. */
  function DigitsValue(s: string): nat
    requires forall i :: 0 <= i < |s| ==> IsDigit(s[i])
  {
    if |s| == 0 then 0 else 10 * DigitsValue(s[..|s| - 1]) + DigitValue(s[|s| - 1])
  }

  function Pow10(n: nat): (r: nat)
    ensures r >= 1
  {
    if n == 0 then 1 else 10 * Pow10(n - 1)
  }

  /** A run of `k` digits denotes a number below `10^k`. */
  lemma {:induction false} DigitsValueBound(s: string)
    requires forall i :: 0 <= i < |s| ==> IsDigit(s[i])
    ensures DigitsValue(s) < Pow10(|s|)
  {
    if |s| > 0 {
      DigitsValueBound(s[..|s| - 1]);
    }
  }

  function DigitChar(d: nat): (c: char)
    requires d < 10
    ensures IsDigit(c) && DigitValue(c) == d
  {
    ('0' as int + d) as char
  }

  /** `n` written with exactly `w` digits, zero-padded (Python's `'%0*d' % (w, n)` for small `n`). */
  function PadDigits(n: nat, w: nat): (r: string)
    ensures |r| == w
    ensures forall i :: 0 <= i < |r| ==> IsDigit(r[i])
  {
    if w == 0 then [] else PadDigits(n / 10, w - 1) + [DigitChar(n % 10)]
  }

  /** Reading back a zero-padded number gives the number, when it fits. */
  lemma {:induction false} PadDigitsRoundTrip(n: nat, w: nat)
    requires n < Pow10(w)
    ensures DigitsValue(PadDigits(n, w)) == n
  {
    if w > 0 {
      var p := PadDigits(n / 10, w - 1);
      var r := PadDigits(n, w);
      assert r[..|r| - 1] == p;
      assert n / 10 < Pow10(w - 1);
      PadDigitsRoundTrip(n / 10, w - 1);
    }
  }

  /** Python's `str(n)` for a natural number. */
  function NatToString(n: nat): (r: string)
    ensures |r| > 0
    ensures forall i :: 0 <= i < |r| ==> IsDigit(r[i])
  {
    if n < 10 then [DigitChar(n)] else NatToString(n / 10) + [DigitChar(n % 10)]
  }

  /** A number below `10^w` is written with at most `w` digits (and `0` with one). */
  lemma {:induction false} NatToStringWidth(n: nat, w: nat)
    requires w >= 1 && n < Pow10(w)
    ensures |NatToString(n)| <= w
  {
    if n >= 10 {
      assert w >= 2;
      assert n / 10 < Pow10(w - 1);
      NatToStringWidth(n / 10, w - 1);
    }
  }

  lemma {:induction false} NatToStringRoundTrip(n: nat)
    ensures DigitsValue(NatToString(n)) == n
  {
    if n >= 10 {
      var r := NatToString(n);
      assert r[..|r| - 1] == NatToString(n / 10);
      NatToStringRoundTrip(n / 10);
    }
  }

  /** Python's `str(i)` for an integer. */
  function IntToString(i: int): string {
    if i < 0 then "-" + NatToString(-i) else NatToString(i)
  }

  // ---------------------------------------------------------------------------
  // Python's string ordering (code-point lexicographic)
  // ---------------------------------------------------------------------------

  predicate LexLess(a: string, b: string)
    decreases |a|
  {
    if |a| == 0 then |b| > 0
    else if |b| == 0 then false
    else if a[0] != b[0] then a[0] < b[0]
    else LexLess(a[1..], b[1..])
  }

  lemma {:induction false} LexLessIrreflexive(a: string)
    ensures !LexLess(a, a)
  {
    if |a| > 0 {
      LexLessIrreflexive(a[1..]);
    }
  }

  /** Python's `<` on strings is a strict total order: any two different strings compare. */
  lemma {:induction false} LexLessTotal(a: string, b: string)
    requires a != b
    ensures LexLess(a, b) != LexLess(b, a)
  {
    if |a| > 0 && |b| > 0 && a[0] == b[0] {
      assert a == [a[0]] + a[1..] && b == [b[0]] + b[1..];
      LexLessTotal(a[1..], b[1..]);
    }
  }
}

=== FILE: title_dates.dfy ===
/** Reading an explicit year-month-day date out of free text, as the cafe collectors do
    with titles and descriptions: each pattern in turn is searched for, and the first one
    whose match is a real date inside the 2020-2025 window wins. A two-digit year is
    pivoted at 50 (`25` is 2025, `75` is 1975). */
module TitleDates {
  import opened Wrappers
  import Text
  import Dates
  import opened Patterns

  /** A pattern with exactly three digit groups: year, month, day. */
  type DatePattern = p: Pattern | CaptureClasses(p) == [Digit, Digit, Digit]
    witness [Num(1, 1), Num(1, 1), Num(1, 1)]

  /** `(\d{y})<sep1>(\d{1,2})<sep2>(\d{1,2})<tail>`. */
  function Ymd(yearDigits: nat, sep1: Pattern, sep2: Pattern, tail: Pattern): Pattern {
    [Num(yearDigits, yearDigits)] + sep1 + [Num(1, 2)] + sep2 + [Num(1, 2)] + tail
  }

  /** `(\d{4})년\s*(\d{1,2})월\s*(\d{1,2})일` and its two-digit variant. */
  function KoreanDate(yearDigits: nat): Pattern {
    Ymd(yearDigits, [Lit("년"), Blanks], [Lit("월"), Blanks], [Lit("일")])
  }

  function Separated(yearDigits: nat, sep: char): Pattern {
    Ymd(yearDigits, [Lit([sep])], [Lit([sep])], [])
  }

  /** Separators without groups keep the three groups of `Ymd`. */
  lemma YmdGroups(y: nat, sep1: Pattern, sep2: Pattern, tail: Pattern)
    requires CaptureClasses(sep1) == [] && CaptureClasses(sep2) == [] && CaptureClasses(tail) == []
    ensures CaptureClasses(Ymd(y, sep1, sep2, tail)) == [Digit, Digit, Digit]
  {
    var a := [Num(y, y)];
    var b := [Num(1, 2)];
    CaptureClassesConcat(a + sep1 + b + sep2 + b, tail);
    CaptureClassesConcat(a + sep1 + b + sep2, b);
    CaptureClassesConcat(a + sep1 + b, sep2);
    CaptureClassesConcat(a + sep1, b);
    CaptureClassesConcat(a, sep1);
  }

  function KoreanDatePattern(yearDigits: nat): DatePattern {
    NoGroups([Lit("년"), Blanks]);
    NoGroups([Lit("월"), Blanks]);
    YmdGroups(yearDigits, [Lit("년"), Blanks], [Lit("월"), Blanks], [Lit("일")]);
    KoreanDate(yearDigits)
  }

  function SeparatedPattern(yearDigits: nat, sep: char): DatePattern {
    YmdGroups(yearDigits, [Lit([sep])], [Lit([sep])], []);
    Separated(yearDigits, sep)
  }

  /** `(\d{y})[년\-\.](\d{1,2})[월\-\.](\d{1,2})`: any of the separators in either place. */
  function MixedPattern(yearDigits: nat): DatePattern {
    YmdGroups(yearDigits, [Lit("년-.")], [Lit("월-.")], []);
    Ymd(yearDigits, [Lit("년-.")], [Lit("월-.")], [])
  }

  /** Python's two-digit year rule in these collectors: below 100 is pivoted at 50. */
  function PivotYear(y: nat): (r: nat)
    ensures y < 50 ==> r == 2000 + y
    ensures 50 <= y < 100 ==> r == 1900 + y
    ensures y >= 100 ==> r == y
  {
    if y < 100 then (if y < 50 then 2000 + y else 1900 + y) else y
  }

  /** A pivoted year is inside the window exactly when the two digits are 20 to 25. */
  lemma PivotWindow(y: nat)
    requires y < 100
    ensures 2020 <= PivotYear(y) <= 2025 <==> 20 <= y <= 25
  {
  }

  /** The date a match denotes, when it passes the checks of the collectors. */
  function WindowDate(p: DatePattern, m: Match): (r: Option<Dates.Date>)
    requires GroupsFit(p, m.groups)
    ensures r.Some? ==> Dates.Valid(r.value) && 2020 <= r.value.year <= 2025
  {
    assert AllIn(m.groups[0], Digit) && AllIn(m.groups[1], Digit) && AllIn(m.groups[2], Digit);
    var year := PivotYear(Text.DigitsValue(m.groups[0]));
    var month := Text.DigitsValue(m.groups[1]);
    var day := Text.DigitsValue(m.groups[2]);
    if 2020 <= year <= 2025 && 1 <= month <= 12 && 1 <= day <= 31 then Dates.MakeDate(year, month, day)
    else None
  }

  /** What one pattern contributes: its leftmost match, if that is an acceptable date. */
  function PatternDate(p: DatePattern, text: string): (r: Option<Dates.Date>)
    ensures r.Some? ==> Dates.Valid(r.value) && 2020 <= r.value.year <= 2025
  {
    match Search(p, text)
    case None => None
    case Some(m) => WindowDate(p, m)
  }

  /** Pattern `k` is the first one that yields a date, and it yields `d`. */
  predicate FirstAt(ps: seq<DatePattern>, text: string, k: int, d: Dates.Date) {
    0 <= k < |ps| && PatternDate(ps[k], text) == Some(d) &&
    forall j :: 0 <= j < k ==> PatternDate(ps[j], text).None?
  }

  /** Tries the patterns in order and returns the first acceptable date. */
  function FirstDate(ps: seq<DatePattern>, text: string): (r: Option<Dates.Date>)
    ensures r.Some? ==> Dates.Valid(r.value) && 2020 <= r.value.year <= 2025
    ensures r.Some? ==> exists k :: FirstAt(ps, text, k, r.value)
    ensures r.None? <==> forall k :: 0 <= k < |ps| ==> PatternDate(ps[k], text).None?
  {
    if |ps| == 0 then None
    else
      match PatternDate(ps[0], text)
      case Some(d) =>
        assert FirstAt(ps, text, 0, d);
        Some(d)
      case None =>
        var r := FirstDate(ps[1..], text);
        assert forall k :: 1 <= k < |ps| ==> ps[k] == ps[1..][k - 1];
        assert r.Some? ==> exists k :: FirstAt(ps, text, k, r.value) by {
          if r.Some? {
            var k :| FirstAt(ps[1..], text, k, r.value);
            assert FirstAt(ps, text, k + 1, r.value);
          }
        }
        r
  }

  /** With two patterns, the first pattern's date wins and the second is the fallback. */
  lemma FirstOfTwo(ps: seq<DatePattern>, text: string)
    requires |ps| == 2
    ensures FirstDate(ps, text) ==
      if PatternDate(ps[0], text).Some? then PatternDate(ps[0], text) else PatternDate(ps[1], text)
  {
  }
}

=== FILE: words.dfy ===
/** The word scanners the keyword analyses share: `re.findall(r'[가-힣]{lo,hi}', text)`,
    and the pairs of nearby words they count. */
module Words {
  import opened Wrappers
  import Text
  import Seqs

  /** A review as the analyses read it; a missing key reads as the empty string. */
  datatype Review = Review(content: string, sentiment: string)

  /** The contents of the reviews, in order. */
  function Contents(reviews: seq<Review>): (cs: seq<string>)
    ensures |cs| == |reviews|
    ensures forall i :: 0 <= i < |reviews| ==> cs[i] == reviews[i].content
  {
    seq(|reviews|, i requires 0 <= i < |reviews| => reviews[i].content)
  }

  // ---------------------------------------------------------------------------
  // Category rules: the first rule one of whose words occurs decides
  // ---------------------------------------------------------------------------

  datatype Rule = Rule(words: seq<string>, name: string)

  /** Rule `k` is the first whose words occur in `text`. */
  predicate FirstRuleAt(rules: seq<Rule>, text: string, k: int) {
    0 <= k < |rules| && Text.ContainsAny(text, rules[k].words) &&
    forall j :: 0 <= j < k ==> !Text.ContainsAny(text, rules[j].words)
  }

  /** An `if any(...) / elif any(...)` chain: the name of the first rule that applies. */
  function FirstRule(rules: seq<Rule>, text: string): (r: Option<string>)
    ensures r.Some? <==> exists k :: 0 <= k < |rules| && Text.ContainsAny(text, rules[k].words)
    ensures r.Some? ==> exists k :: FirstRuleAt(rules, text, k) && r.value == rules[k].name
  {
    if |rules| == 0 then None
    else if Text.ContainsAny(text, rules[0].words) then
      assert FirstRuleAt(rules, text, 0);
      Some(rules[0].name)
    else
      var rest := FirstRule(rules[1..], text);
      assert forall k :: 1 <= k < |rules| ==> rules[1..][k - 1] == rules[k];
      assert rest.Some? ==> exists k :: FirstRuleAt(rules, text, k) && rest.value == rules[k].name by {
        if rest.Some? {
          var k :| FirstRuleAt(rules[1..], text, k) && rest.value == rules[1..][k].name;
          assert FirstRuleAt(rules, text, k + 1);
        }
      }
      rest
  }

  /** The rule that applies first is the one the chain picks. */
  lemma FirstRulePicks(rules: seq<Rule>, text: string, k: int)
    requires FirstRuleAt(rules, text, k)
    ensures FirstRule(rules, text) == Some(rules[k].name)
  {
    var r := FirstRule(rules, text);
    var j :| FirstRuleAt(rules, text, j) && r.value == rules[j].name;
    assert j == k;
  }

  // ---------------------------------------------------------------------------
  // Hangul runs
  // ---------------------------------------------------------------------------

  /** Length of the run of Hangul syllables starting at `i`. */
  function HangulRun(s: string, i: nat): (n: nat)
    requires i <= |s|
    ensures i + n <= |s|
    ensures forall k :: i <= k < i + n ==> Text.IsHangul(s[k])
    ensures i + n < |s| ==> !Text.IsHangul(s[i + n])
    decreases |s| - i
  {
    if i < |s| && Text.IsHangul(s[i]) then 1 + HangulRun(s, i + 1) else 0
  }

  /** The matches of `[가-힣]{lo,hi}` from position `i` on. A run shorter than `lo` is
      skipped whole; a longer one yields greedy pieces of `hi` syllables, and its
      remainder is a match only when it still has `lo` of them. */
  function RunsFrom(s: string, i: nat, lo: nat, hi: nat): (r: seq<string>)
    requires 1 <= lo <= hi && i <= |s|
    ensures forall k :: 0 <= k < |r| ==> Text.AllHangul(r[k]) && lo <= |r[k]| <= hi
    decreases |s| - i
  {
    if i == |s| then []
    else
      var n := HangulRun(s, i);
      if n == 0 then RunsFrom(s, i + 1, lo, hi)
      else if n < lo then RunsFrom(s, i + n, lo, hi)
      else
        var t := Seqs.Min(n, hi);
        [s[i..i + t]] + RunsFrom(s, i + t, lo, hi)
  }

  /** `re.findall(r'[가-힣]{lo,hi}', s)`. */
  function HangulRuns(s: string, lo: nat, hi: nat): (r: seq<string>)
    requires 1 <= lo <= hi
    ensures forall k :: 0 <= k < |r| ==> Text.AllHangul(r[k]) && lo <= |r[k]| <= hi
  {
    RunsFrom(s, 0, lo, hi)
  }

  /** A text without Hangul has no matches. */
  lemma {:induction false} NoHangulNoRuns(s: string, i: nat, lo: nat, hi: nat)
    requires 1 <= lo <= hi && i <= |s|
    requires forall k :: i <= k < |s| ==> !Text.IsHangul(s[k])
    ensures RunsFrom(s, i, lo, hi) == []
    decreases |s| - i
  {
    if i < |s| {
      NoHangulNoRuns(s, i + 1, lo, hi);
    }
  }

  lemma {:induction false} FullRun(w: string, i: nat)
    requires i <= |w| && Text.AllHangul(w)
    ensures HangulRun(w, i) == |w| - i
    decreases |w| - i
  {
    if i < |w| {
      FullRun(w, i + 1);
    }
  }

  /** A Hangul word whose length is within the bounds is matched whole. */
  lemma WordIsOneRun(w: string, lo: nat, hi: nat)
    requires 1 <= lo <= hi && lo <= |w| <= hi && Text.AllHangul(w)
    ensures HangulRuns(w, lo, hi) == [w]
  {
    FullRun(w, 0);
    assert w[0..|w|] == w;
    NoHangulNoRuns(w, |w|, lo, hi);
  }

  // ---------------------------------------------------------------------------
  // Pairs within a window
  // ---------------------------------------------------------------------------

  /** `tuple(sorted([a, b]))`. */
  function SortedPair(a: string, b: string): (p: (string, string))
    ensures p == (a, b) || p == (b, a)
    ensures a != b ==> Text.LexLess(p.0, p.1)
  {
    if Text.LexLess(a, b) then (a, b)
    else
      assert a != b ==> Text.LexLess(b, a) by {
        if a != b { Text.LexLessTotal(a, b); }
      }
      (b, a)
  }

  /** Positions `i < j` that the co-occurrence loop pairs: at most `window` apart and
      holding different words. */
  predicate InWindow(ws: seq<string>, window: nat, i: int, j: int) {
    0 <= i < j < |ws| && j <= i + window && ws[i] != ws[j]
  }

  /** The pairs the inner loop emits for position `i`, with `j` from `from` on. */
  function RowPairs(ws: seq<string>, window: nat, i: nat, from: nat): (r: seq<(string, string)>)
    requires i < |ws|
    ensures forall p :: p in r <==> exists j :: from <= j && InWindow(ws, window, i, j) && p == SortedPair(ws[i], ws[j])
    decreases |ws| - from
  {
    if from >= Seqs.Min(i + window + 1, |ws|) then
      assert forall j :: from <= j && InWindow(ws, window, i, j) ==> false;
      []
    else
      var rest := RowPairs(ws, window, i, from + 1);
      if from > i && ws[i] != ws[from] then
        assert InWindow(ws, window, i, from);
        [SortedPair(ws[i], ws[from])] + rest
      else
        rest
  }

  /** The pairs both loops emit for positions from `i` on, in loop order. */
  function PairsFrom(ws: seq<string>, window: nat, i: nat): (r: seq<(string, string)>)
    requires i <= |ws|
    ensures forall p :: p in r <==> exists a, b :: i <= a && InWindow(ws, window, a, b) && p == SortedPair(ws[a], ws[b])
    decreases |ws| - i
  {
    if i == |ws| then []
    else
      var row := RowPairs(ws, window, i, i + 1);
      var rest := PairsFrom(ws, window, i + 1);
      assert forall a, b :: i <= a && InWindow(ws, window, a, b) ==> a == i || i + 1 <= a;
      row + rest
  }

  /** Every pair of different words at most `window` positions apart, as sorted pairs. */
  function WindowPairs(ws: seq<string>, window: nat): (r: seq<(string, string)>)
    ensures forall p :: p in r <==> exists a, b :: InWindow(ws, window, a, b) && p == SortedPair(ws[a], ws[b])
    ensures forall k :: 0 <= k < |r| ==> Text.LexLess(r[k].0, r[k].1)
  {
    var r := PairsFrom(ws, window, 0);
    forall k | 0 <= k < |r| ensures Text.LexLess(r[k].0, r[k].1) {
      assert r[k] in r;
      var a, b :| InWindow(ws, window, a, b) && r[k] == SortedPair(ws[a], ws[b]);
    }
    r
  }
}

=== FILE: wrappers.dfy ===
/** Failure-compatible wrappers used throughout the model: a Python value that may be
    `None` becomes an `Option`, and a raised exception that the caller sees becomes a
    `Result` failure. */
module Wrappers {

  datatype Option<+T> = None | Some(value: T) {

    predicate IsFailure() {
      None?
    }

    function PropagateFailure<U>(): Option<U>
      requires None?
    {
      None
    }

    function Extract(): T
      requires Some?
    {
      value
    }

    /** The value, or `default` when there is none (Python's `x or default` for an optional). */
    function GetOr(default: T): T {
      match this
      case Some(v) => v
      case None => default
    }
  }

  datatype Result<+R, +E> = Success(value: R) | Failure(error: E) {

    predicate IsFailure() {
      Failure?
    }

    function PropagateFailure<U>(): Result<U, E>
      requires Failure?
    {
      Failure(this.error)
    }

    function Extract(): R
      requires Success?
    {
      value
    }
  }

  /** Index `k` holds the first value present in `xs`. */
  predicate FirstSomeAt<T>(xs: seq<Option<T>>, k: int) {
    0 <= k < |xs| && xs[k].Some? && forall j :: 0 <= j < k ==> xs[j].None?
  }

  /** The first value present in `xs`: a loop that returns its first hit. */
  function FirstSome<T>(xs: seq<Option<T>>): (r: Option<T>)
    ensures r.Some? ==> exists k :: FirstSomeAt(xs, k) && xs[k] == r
    ensures r.None? <==> forall k :: 0 <= k < |xs| ==> xs[k].None?
  {
    if |xs| == 0 then None
    else if xs[0].Some? then
      assert FirstSomeAt(xs, 0);
      xs[0]
    else
      var r := FirstSome(xs[1..]);
      assert forall k :: 1 <= k < |xs| ==> xs[k] == xs[1..][k - 1];
      assert r.Some? ==> exists k :: FirstSomeAt(xs, k) && xs[k] == r by {
        if r.Some? {
          var k :| FirstSomeAt(xs[1..], k) && xs[1..][k] == r;
          assert FirstSomeAt(xs, k + 1);
        }
      }
      r
  }
}
